=== FILE: README.md ===
# Crystallographic bookkeeping of cctbx, modelled in Dafny

This project models the sequential, statable logic in several parts of the
cctbx crystallographic toolbox. It also proves what that logic promises. Every
number is a Dafny `real`. Some parts of the code are external numerics or
cannot be seen here: Fourier transforms, linear fits, square roots, vector
lengths, the file readers and string-to-number conversion. These enter the
model as function-typed parameters, so every property holds for any
implementation of them. Errors are `Result.Err` values, not preconditions.
That covers raised exceptions, failed `SCITBX_ASSERT`/`CCTBX_ASSERT` checks
and checked reads past the end of an input. The exceptions are the C++
reads through an unchecked `af::ref` or `af::const_ref`, where an index out
of range is undefined behaviour rather than an error. There the model
makes the in-range indices a precondition, and "Left out" names each such
member.

The modules follow the source files:

- `ObservableEvolution`, `SolvingIterator`, `ModificationIterator` and
  `DensityModification` model the charge-flipping structure solution of
  `smtbx/ab_initio/charge_flipping.py`:
  - the phase-transition detector;
  - the solver;
  - the density-modification iterators;
  - the map statistics that drive them.

  The solver's four Python generators become an explicit state machine.
  `Step` resumes the generator that the last yield named.
- `SdfacRefine` and `SdfacBinning` model the error-model refinement of
  `xfel/merging/algorithms/error_model/sdfac_refine.py`:
  - the named parameter view;
  - the two target functionals;
  - the closed-form correlation;
  - the per-reflection statistics;
  - both intensity binnings;
  - the summed weights.
- `RestraintsManager`, `BondRestraints`, `Ramachandran` and
  `GeometricHydrogen` model restraint and constraint bookkeeping from
  `cctbx/geometry_restraints/manager.py`,
  `cctbx/include/cctbx/restraints/bond.h`,
  `mmtbx/geometry_restraints/ramachandran.py` and
  `smtbx/refinement/constraints/geometric_hydrogen.h`.
- `Distl` models the DISTL spot-finder wrapper of
  `spotfinder/core_toolbox/distl.cpp`.
- `TimePixSU` and `JHSim` model the two SMV image formats of
  `dxtbx/format/`.
- Three modules model parse and encode logic:
  - `AfAlgebras` covers the helpers of the array-family header generator
    `cctbx/global/generate_af_algebras.py`;
  - `ReflectionFileReader` covers the format cascade and the command line of
    `iotbx/iotbx/reflection_file_reader.py`;
  - `HendricksonLattman` covers the pickle codec and constructor of
    `cctbx/array_family/boost_python/flex_hendrickson_lattman.cpp`.
- `Common`, `Sorting`, `Text` and `Images` are shared helpers:
  - `Common` holds the option and result types, sums, minima and maxima, and
    3-vectors;
  - `Sorting` holds an insertion sort with its permutation and order-statistic
    facts;
  - `Text` holds the string operations: strip, split, join, replace, case,
    number formatting;
  - `Images` holds the pixel grids and `reshape`.

The code behaves unexpectedly in the places below. Each looks like what its
authors meant, so the model keeps the behaviour as written, and where a lemma
states the consequence it is named:
- `solving_iterator.__iter__` binds the delta-guessing generator once, so
  only that generator ever advances
  (smtbx/ab_initio/charge_flipping.py:279-286, `SolvingIterator.IterAsWritten`).
- `flipping.restart()` runs after every delta-guessing pass, whether the
  delta was accepted or rejected
  (smtbx/ab_initio/charge_flipping.py:291-312,
  `SolvingIterator.GuessingRestartsEveryPass`).
- Delta is not required to be non-negative. It is a value taken from the
  sorted map, and the rescaling keeps only its sign
  (smtbx/ab_initio/charge_flipping.py:293-305).
- The weak-reflection iterator's override is named
  `transfer_phase_from_g_tof_obs`, so `next()` never calls it
  (smtbx/ab_initio/charge_flipping.py:138 and 238,
  `ModificationIterator.WeakReflectionStepsLikeBasic`).
- The trend test checks the two 5-point slopes only when BOTH 5-point
  correlations are below 0.5 (smtbx/ab_initio/charge_flipping.py:393-398).
- The transition test indexes `head[0]` of an empty head when the steepest
  fall is at position 4. The model reports this as an error
  (smtbx/ab_initio/charge_flipping.py:403-411).
- Polishing runs a separate low-density-elimination iterator whose result is
  discarded; the solver yields the unpolished flipping iterator
  (smtbx/ab_initio/charge_flipping.py:343-352).
- A riding (non-terminal) hydrogen constraint never applies its stretching
  shift, because the base class's `do_apply_reparametrization_shifts` is
  empty (smtbx/refinement/constraints/geometric_hydrogen.h:214-226).

## Model

| member | source | states |
|---|---|---|
| ObservableEvolution.New | smtbx/ab_initio/charge_flipping.py:357-362 | a fresh tracker holds no values, no differences and no minimum, and its bookkeeping is consistent |
| ObservableEvolution.Append | smtbx/ab_initio/charge_flipping.py:364-371 | appending keeps the invariant: differences are the successive differences of the values, there are max(n-1, 0) of them, and the minimum index is the first position of the smallest difference |
| ObservableEvolution.FromValues | smtbx/ab_initio/charge_flipping.py:364-371 | feeding any series through `append` yields a consistent tracker holding exactly that series |
| ObservableEvolution.ValidDetermined | smtbx/ab_initio/charge_flipping.py:364-371 | the differences, minimum and minimum index are determined by the values alone |
| ObservableEvolution.HadPhaseTransition | smtbx/ab_initio/charge_flipping.py:373-412 | false when fewer than `tail_len` differences follow the minimum, when the minimum index is below 4, or when the trend test rejects the tail; once all gates pass, a tail of fewer than two values or an empty head is an error, and otherwise the answer is true exactly when the fall significance (head mean, or single head value, against the tail mean over the pooled spread) exceeds 3, with a zero spread an error |
| ObservableEvolution.HeadEmpty | smtbx/ab_initio/charge_flipping.py:403-411 | the head slice is empty exactly when the minimum index is 4 or the tail length is below 2 |
| ObservableEvolution.EvenSeriesNoTransition | smtbx/ab_initio/charge_flipping.py:364-377 | a series with all differences equal has its minimum at index 0 and never reports a transition |
| SolvingIterator.Init | smtbx/ab_initio/charge_flipping.py:276-282 | a new solver has no recorded attempts, has not exhausted its attempts and starts in delta guessing |
| SolvingIterator.RescaleDelta | smtbx/ab_initio/charge_flipping.py:299-309 | delta is accepted exactly when 0.8 <= ratio <= 1 and then unchanged; below 0.8 it becomes 0.9·delta and above 1 it becomes 1.07·delta, so it shrinks or grows in magnitude and never changes sign |
| SolvingIterator.GuessPass | smtbx/ab_initio/charge_flipping.py:295-312 | one guessing pass touches only the iterate and the guesser; it fails exactly when advancing or c_tot/c_flip fails; delta becomes the value `RescaleDelta` gives for the c_tot/c_flip after the sub-iterations, and the pass yields naming the solver exactly when that delta is accepted; a rejected delta yields naming the guesser when yielding during guessing is enabled and is otherwise followed at once by a restart |
| SolvingIterator.ResumeGuessing | smtbx/ab_initio/charge_flipping.py:291-312 | resuming the guesser runs one pass from the iterator `PassStart` names and fails exactly when that start or the pass fails; it never changes attempts or the other generators and never exhausts; a yield names the solver or the guesser |
| SolvingIterator.PassStart | smtbx/ab_initio/charge_flipping.py:291-312 | the first pass starts with delta set to the map's value at the initial flipped fraction (failing when that index is out of range); a pass after a yield starts from a restarted iterator, and a pass after a quiet one from the iterator as the restart left it |
| SolvingIterator.GuessingRestartsEveryPass | smtbx/ab_initio/charge_flipping.py:295-312 | every pass, whether its delta was accepted or not, leaves the next pass to start from the restarted iterator carrying the rescaled delta |
| SolvingIterator.SolveAttemptHead | smtbx/ab_initio/charge_flipping.py:314-341 | a new attempt starts with fresh trackers; the finished state is named exactly when all `max_attempts` are used, and that records the exhaustion |
| SolvingIterator.SolveIterationHead | smtbx/ab_initio/charge_flipping.py:320-339 | while iterations remain it takes one flipping step (failing exactly when the step fails or the yield interval is zero) and yields naming the solver exactly on multiples of the interval; once they are spent it starts the next attempt and names the delta guesser exactly when this was not the last attempt |
| SolvingIterator.SolveIterationBody | smtbx/ab_initio/charge_flipping.py:327-336 | an attempt is recorded only as the current iteration number, only once `n >= tail_len`, and only when yielding to the polisher |
| SolvingIterator.SolveIterationRecords | smtbx/ab_initio/charge_flipping.py:327-336 | both trackers are fed this iteration's R1 factor and c_tot/c_flip, and the attempt is recorded, naming the polisher, exactly when past the tail length their steepest falls are at most 4 apart and both report a phase transition; otherwise the iteration moves on quietly |
| SolvingIterator.Decide | smtbx/ab_initio/charge_flipping.py:328-336 | before the tail length, or with the steepest falls more than 4 apart, the iteration moves on; otherwise both trackers are asked for a transition before their answers are combined, so the step fails exactly when either test raises, and otherwise records the attempt and names the polisher or moves on |
| SolvingIterator.ResumeSolving | smtbx/ab_initio/charge_flipping.py:314-341 | each resumption of the solver keeps the trackers valid, grows the attempt record by at most one entry of at least the tail length, sets `max_attemps_exceeded` exactly when naming the finished state, and is exhausted exactly when resumed after that |
| SolvingIterator.ResumePolishing | smtbx/ab_initio/charge_flipping.py:343-353 | polishing yields the flipping iterator unchanged, naming the finished state, and is exhausted when resumed again |
| SolvingIterator.ResumeFinished | smtbx/ab_initio/charge_flipping.py:288-289 | the finished generator yields the flipping iterator once and is exhausted afterwards |
| SolvingIterator.Resume | smtbx/ab_initio/charge_flipping.py:278-282 | resuming any of the four generators keeps the amplitudes, the configuration and the trackers' validity |
| SolvingIterator.Step | smtbx/ab_initio/charge_flipping.py:284-286 | the intended driver `step(state) -> (snapshot, nextState)`: a yield's label becomes the next state |
| SolvingIterator.IterStepAsWritten | smtbx/ab_initio/charge_flipping.py:284-286 | as written, `__iter__` binds the initial generator once, so every step resumes delta guessing and leaves attempts, the exhaustion flag and the other generators untouched |
| SolvingIterator.IterAsWritten | smtbx/ab_initio/charge_flipping.py:284-286 | any number of steps as written leaves attempts, the exhaustion flag and the solving, polishing and finished generators as they were |
| SolvingIterator.IterAsWrittenNeverSolves | smtbx/ab_initio/charge_flipping.py:284-286 | from a fresh solver, iterating as written never records an attempt, never exhausts and never resumes the solver, polisher or finisher |
| SolvingIterator.PolishingYieldsUnpolished | smtbx/ab_initio/charge_flipping.py:343-353 | the low-density-elimination result is discarded: the polishing step hands back the flipping iterator exactly as it was |
| SolvingIterator.AttemptsExhausted | smtbx/ab_initio/charge_flipping.py:316-341 | once `max_attempts` attempts are used, the next solver step sets `max_attemps_exceeded` and names the finished state |
| SolvingIterator.InitInv | smtbx/ab_initio/charge_flipping.py:276-282 | a fresh solver satisfies the driver invariant |
| SolvingIterator.StepKeepsInv | smtbx/ab_initio/charge_flipping.py:284-353 | every driver step keeps the invariant (valid trackers, at most one recorded transition, each at least the tail length, exhaustion only with no attempt recorded) and only appends to the attempt record |
| SolvingIterator.GuessingKeepsInv | smtbx/ab_initio/charge_flipping.py:291-312 | a guessing step keeps the invariant and the attempt record |
| SolvingIterator.SolvingKeepsInv | smtbx/ab_initio/charge_flipping.py:314-341 | a solving step keeps the invariant and only appends to the attempt record |
| SolvingIterator.SolveStepKeepsInv | smtbx/ab_initio/charge_flipping.py:314-341 | any solver step within the solver's frame keeps the invariant |
| ModificationIterator.Create | smtbx/ab_initio/charge_flipping.py:101-120 | construction succeeds exactly when `f_obs` has data and `f_calc`, `f_000` are both given or both absent; the iterator works on the prepared `f_obs`; absent structure factors are the starter's phases on the prepared amplitudes with F(000) = 0; the map matches the structure factors; the weak-reflection heir holds the prepared reflections reordered by increasing amplitude, the others keep them as prepared; delta is dropped for low-density elimination |
| ModificationIterator.FromPairs | smtbx/ab_initio/charge_flipping.py:230-232 | rebuilding an array from (index, datum) pairs yields a well-formed array whose pairs are exactly those given |
| ModificationIterator.PairsRoundTrip | smtbx/ab_initio/charge_flipping.py:230-232 | splitting an array's pairs again gives the array back, so reordering pairs loses no reflection |
| ModificationIterator.SortByAmplitude | smtbx/ab_initio/charge_flipping.py:230-232 | the result holds the same reflections (as a multiset of pairs) in increasing amplitude order |
| ModificationIterator.RestartFromScratch | smtbx/ab_initio/charge_flipping.py:122-130 | restarting without arguments takes the starter's phases on the observed amplitudes, sets F(000) to 0 and leaves a map matching them, changing nothing else |
| ModificationIterator.RestartForgets | smtbx/ab_initio/charge_flipping.py:122-130 | a fresh start does not depend on the current structure factors, F(000) or map, and keeps G and delta |
| ModificationIterator.Restart | smtbx/ab_initio/charge_flipping.py:122-130 | restart succeeds exactly when `f_calc` and `f_000` are both given or both absent; given ones are stored as they are, absent ones come from the starter with F(000) = 0; the map is recomputed and nothing else changes |
| ModificationIterator.Modify | smtbx/ab_initio/charge_flipping.py:217-263 | flipping succeeds exactly when delta is set and flips at it; low-density elimination uses a fixed `rho_c` as given, and otherwise succeeds exactly when some cell is positive and eliminates at a fifth of the mean positive density |
| ModificationIterator.Scale | smtbx/ab_initio/charge_flipping.py:149-156 | scaling by `fft_scale` keeps each phase and multiplies each modulus |
| ModificationIterator.Next | smtbx/ab_initio/charge_flipping.py:135-141 | a step keeps `f_obs`, the kind and delta; the new `f_calc` has the observed amplitudes with the phases of G; F(000) becomes G(000), the scaled sum of the padded modified map; the map is recomputed; a failing modification fails the step |
| ModificationIterator.WeakReflectionStepsLikeBasic | smtbx/ab_initio/charge_flipping.py:238-243 | because the override is named `transfer_phase_from_g_tof_obs`, the weak-reflection iterator steps exactly like the basic one (with the base method at line 138) |
| ModificationIterator.WeakReflectionTransfer | smtbx/ab_initio/charge_flipping.py:238-243 | the never-called override keeps the indices and shifts the phase of exactly the weak first `cut` reflections, for any fraction, a negative one included |
| ModificationIterator.R1Factor | smtbx/ab_initio/charge_flipping.py:161-162 | R1 is defined exactly after a completed step, from the observed amplitudes and G |
| ModificationIterator.Advance | smtbx/ab_initio/charge_flipping.py:132-141 | any number of steps keeps `f_obs`, the kind and delta, and leaves a map that matches the structure factors |
| DensityModification.PhaseTransferData | smtbx/ab_initio/charge_flipping.py:75 | `phase_transfer` result reads back the given amplitudes as its moduli and the given phases as its phases, position by position |
| DensityModification.PhaseTransferRoundTrip | smtbx/ab_initio/charge_flipping.py:75 | putting an array's own phases back on its own amplitudes gives the array back |
| DensityModification.SortPermutation | smtbx/ab_initio/charge_flipping.py:63-84 | the result is a permutation of the positions that orders the data ascending or descending |
| DensityModification.PermutationInRange | smtbx/ab_initio/charge_flipping.py:63-65 | every entry of a permutation of 0..n-1 is below n, so `select(p)` is defined |
| DensityModification.SelectPermutation | smtbx/ab_initio/charge_flipping.py:64-65 | `select(p)` through a permutation of the positions holds every element exactly as often as the array does |
| DensityModification.WeakCount | smtbx/ab_initio/charge_flipping.py:61-72 | the split that `cut = int(w·n)` makes in `[:cut]` and `[cut:]`, with the share w·n written `Share(w, n)`: at most n; the share rounded down for a share in [0, n]; all n for w ≥ 1; for a negative `int(w·n)` the split counts from the end, so `n + w·n` rounded up; 0 when w·n lies in (−1, 0), where `int` truncates to 0; and 0 for w ≤ −1 |
| DensityModification.ShareIsProduct | smtbx/ab_initio/charge_flipping.py:61 | the share `Share(w, n)` that `WeakCount` splits is the product w·n of the weak fraction and the number of reflections |
| DensityModification.OszlanyiSutoAsWritten | smtbx/ab_initio/charge_flipping.py:55-75 | the transfer as written keeps the reflection indices and the length, for any fraction |
| DensityModification.TransferOrder | smtbx/ab_initio/charge_flipping.py:62-67 | the visiting order is a permutation of the reflections: by increasing amplitude with sorting, the identity without |
| DensityModification.OszlanyiSutoPhaseTransfer | smtbx/ab_initio/charge_flipping.py:55-75 | the intended transfer keeps the length; the first `cut = int(w·n)` reflections in visiting order get the source phase plus δφ and the source modulus, the rest get the source phase and their own amplitude, where `cut` is the Python split of `WeakCount` for any fraction; with sorting every weak reflection is no stronger than any strong one |
| DensityModification.OszlanyiSutoUnsortedAgrees | smtbx/ab_initio/charge_flipping.py:55-75 | without sorting the as-written and intended transfers are identical, for every fraction |
| DensityModification.OszlanyiSutoSortingCounterexample | smtbx/ab_initio/charge_flipping.py:61-75 | with sorting, as written the first reflection receives the phase computed for another reflection |
| DensityModification.SortTwo | smtbx/ab_initio/charge_flipping.py:63 | sorting amplitudes [2, 1] ascending visits position 1 first |
| DensityModification.PythonIndex | smtbx/ab_initio/charge_flipping.py:86 | Python indexing is defined exactly for -n <= k < n, with negative k counting from the end |
| DensityModification.FlippedFractionAsDelta | smtbx/ab_initio/charge_flipping.py:82-86 | the result is the order statistic at `int(fraction·n)` of the unpadded map: a map value with at most that many cells below it and more at or below it; an index out of range is an error |
| DensityModification.SortedAt | smtbx/ab_initio/charge_flipping.py:83-86 | element k of the ascending sort is a value of the map with at most k cells below it and more than k at or below it |
| DensityModification.CFlip | smtbx/ab_initio/charge_flipping.py:89-91 | c_flip, the total magnitude of the unpadded cells below delta, is never negative |
| DensityModification.FlipMassMonotone | smtbx/ab_initio/charge_flipping.py:89-91 | raising delta never lowers c_flip |
| DensityModification.CFlipMonotone | smtbx/ab_initio/charge_flipping.py:89-91 | c_flip is nondecreasing in delta |
| DensityModification.FlipMassExtremes | smtbx/ab_initio/charge_flipping.py:89-91 | with delta above every cell c_flip is the map's total magnitude; with delta at or below every cell it is zero |
| DensityModification.CTotOverCFlip | smtbx/ab_initio/charge_flipping.py:94-96 | the ratio is defined exactly when delta is set and c_flip is nonzero, and then times c_flip gives c_tot over the padded map (with its use at lines 164-165) |
| DensityModification.Positives | smtbx/ab_initio/charge_flipping.py:259-263 | `rho.select(rho > 0)` holds only positive map values, every positive cell, and each positive value exactly as often as the map |
| DensityModification.PositivesAppend | smtbx/ab_initio/charge_flipping.py:259-263 | the selection keeps the map's order: selecting from two pieces and joining equals selecting from the joined map |
| DensityModification.SumPositive | smtbx/ab_initio/charge_flipping.py:259-263 | a non-empty sum of positive values is positive |
| DensityModification.SumAtMost | smtbx/ab_initio/charge_flipping.py:259-263 | a sum of values each at most a bound is at most count times the bound |
| DensityModification.SuggestedRhoC | smtbx/ab_initio/charge_flipping.py:259-263 | rho_c is defined exactly when some cell is positive; it is then a fifth of the mean of the positive cells, positive, and at most a fifth of any upper bound of the map |
| DensityModification.MeanBelowBounds | smtbx/ab_initio/charge_flipping.py:259-263 | the mean of a non-empty selection of the map lies below every upper bound of the map |
| SdfacRefine.Param | xfel/merging/algorithms/error_model/sdfac_refine.py:11-18 | SDFAC, SDB and SDADD read components 0, 1, 2, the SQ names their squares, and any other name is an AttributeError |
| SdfacRefine.SquaredNamesReadSquares | xfel/merging/algorithms/error_model/sdfac_refine.py:11-18 | each SQ name is readable exactly when its base name is, and reads the square of it |
| SdfacRefine.SumSquaresNonNegative | xfel/merging/algorithms/error_model/sdfac_refine.py:118-126 | a sum of squares is never negative |
| SdfacRefine.Masked | xfel/merging/algorithms/error_model/sdfac_refine.py:75 | a boolean selection is no longer than the data and every element it keeps sits at a flagged position |
| SdfacRefine.MaskedAppend | xfel/merging/algorithms/error_model/sdfac_refine.py:75 | selecting from joined arrays with joined masks is the selection from the first followed by the selection from the second, so the kept elements stay in order |
| SdfacRefine.MaskedEverything | xfel/merging/algorithms/error_model/sdfac_refine.py:75 | an all-true selection keeps the whole array |
| SdfacRefine.MaskedNothing | xfel/merging/algorithms/error_model/sdfac_refine.py:75-77 | an all-false selection selects nothing |
| SdfacRefine.Functional | xfel/merging/algorithms/error_model/sdfac_refine.py:73-81 | the Evans functional over the bins is defined exactly when every bin selection has the deviations' size |
| SdfacRefine.FunctionalNonNegative | xfel/merging/algorithms/error_model/sdfac_refine.py:73-81 | with non-negative square roots, the functional, a sum of `sqrt(n)·(1-rms)²` terms, is never negative |
| SdfacRefine.EmptyBinAddsNothing | xfel/merging/algorithms/error_model/sdfac_refine.py:77 | an empty bin is skipped and leaves the functional unchanged |
| SdfacRefine.Target | xfel/merging/algorithms/error_model/sdfac_refine.py:60-85 | any negative SDFAC, SDB or SDADD gives the penalty 1e6; otherwise the functional of the deviations with those parameters applied; an empty vector raises |
| SdfacRefine.TargetNonNegative | xfel/merging/algorithms/error_model/sdfac_refine.py:60-85 | the target is never negative |
| SdfacRefine.WithIsigi | xfel/merging/algorithms/error_model/sdfac_refine.py:361 | assigning the `isigi` column changes only that column |
| SdfacRefine.IsigiRoundTrip | xfel/merging/algorithms/error_model/sdfac_refine.py:357-361 | the `isigi` column read back after assigning it is the assigned column, and assigning a table its own column changes nothing |
| SdfacRefine.TableTarget | xfel/merging/algorithms/error_model/sdfac_refine.py:348-375 | the reflection-table target leaves `isigi` as it was on entry and keeps the table's length; a negative parameter gives the penalty and leaves the table untouched |
| SdfacRefine.TableTargetAgrees | xfel/merging/algorithms/error_model/sdfac_refine.py:60-85 | the two targets compute the same functional when the correction keeps the table's length (with the reflection-table target at lines 348-375) |
| SdfacRefine.TableTargetRestoresTable | xfel/merging/algorithms/error_model/sdfac_refine.py:357-361 | when the correction only touches `isigi`, the table comes back exactly as it was |
| SdfacRefine.DeviationsExpand | xfel/merging/algorithms/error_model/sdfac_refine.py:127-128 | the squared distances from x expand to s2 - 2·x·s1 + n·x² |
| SdfacRefine.DeviationsNonNegative | xfel/merging/algorithms/error_model/sdfac_refine.py:127-128 | squared distances sum to a non-negative value |
| SdfacRefine.DeviationsOfEqual | xfel/merging/algorithms/error_model/sdfac_refine.py:127-128 | values all equal to x have zero squared distance from it |
| SdfacRefine.DeviationsPositive | xfel/merging/algorithms/error_model/sdfac_refine.py:127-128 | one value away from x makes the squared distances positive |
| SdfacRefine.SpreadLast | xfel/merging/algorithms/error_model/sdfac_refine.py:127-128 | appending a value raises `N·Σx² − (Σx)²` by the squared distances of the earlier values from it |
| SdfacRefine.SpreadNonNegative | xfel/merging/algorithms/error_model/sdfac_refine.py:127-128 | the slope denominator `N·Σx² − (Σx)²` is never negative |
| SdfacRefine.SpreadOfConstant | xfel/merging/algorithms/error_model/sdfac_refine.py:127-128 | constant (or empty) data give a zero slope denominator |
| SdfacRefine.SpreadPositive | xfel/merging/algorithms/error_model/sdfac_refine.py:127-128 | two different values give a positive slope denominator |
| SdfacRefine.SpreadZeroIffConstant | xfel/merging/algorithms/error_model/sdfac_refine.py:127-134 | the slope denominator is zero exactly on constant data, so the ZeroDivisionError fallback fires exactly then |
| SdfacRefine.AccumulateSums | xfel/merging/algorithms/error_model/sdfac_refine.py:118-126 | the one-pass loop over the paired data ends with the count, Σx, Σy, Σx², Σy² and Σxy of the whole data |
| SdfacRefine.OverallCorrelation | xfel/merging/algorithms/error_model/sdfac_refine.py:98-134 | lengths must agree; constant or empty x gives (0, 0, 0) |
| SdfacRefine.FitOfLine | xfel/merging/algorithms/error_model/sdfac_refine.py:127-128 | sums of points on y = s·x + o give back slope s and offset o when the denominator is not zero |
| SdfacRefine.LinearSums | xfel/merging/algorithms/error_model/sdfac_refine.py:118-126 | for exact linear data Σy = s·Σx + o·N |
| SdfacRefine.LinearProducts | xfel/merging/algorithms/error_model/sdfac_refine.py:118-126 | for exact linear data Σxy = s·Σx² + o·Σx |
| SdfacRefine.LinearDataRecovered | xfel/merging/algorithms/error_model/sdfac_refine.py:98-134 | exact linear data with non-constant x give back the line's slope and offset |
| SdfacRefine.ConstantResponseFit | xfel/merging/algorithms/error_model/sdfac_refine.py:127-134 | a constant response c against varying x fits slope 0 and offset c, and the zero correlation denominator leaves the correlation 0 after slope and offset were set |
| SdfacRefine.FlatResponseHasNoCorrelation | xfel/merging/algorithms/error_model/sdfac_refine.py:129-134 | a zero spread of the responses leaves the correlation at 0 |
| SdfacBinning.PerIndexAppend | xfel/merging/algorithms/error_model/sdfac_refine.py:325-328 | per-index accumulation over two concatenated tables is the sum of the two |
| SdfacBinning.PerIndexAbsent | xfel/merging/algorithms/error_model/sdfac_refine.py:325-328 | an index no row belongs to accumulates nothing |
| SdfacBinning.CountNonNegative | xfel/merging/algorithms/error_model/sdfac_refine.py:325-328 | observation counts are never negative |
| SdfacBinning.CountOfOwnIndex | xfel/merging/algorithms/error_model/sdfac_refine.py:330-336 | every row's own index has at least one observation, so `assert n_refl[hkl_id] > 0` holds |
| SdfacBinning.SumOfSingleObservation | xfel/merging/algorithms/error_model/sdfac_refine.py:325-334 | an index observed once sums to that observation's intensity |
| SdfacBinning.OnlyRowsCount | xfel/merging/algorithms/error_model/sdfac_refine.py:325-328 | an index with no observations has a zero intensity sum |
| SdfacBinning.SetupIsigiStats | xfel/merging/algorithms/error_model/sdfac_refine.py:315-343 | fails exactly on a `miller_id` outside the miller set; otherwise each row gets its index's count n, a mean with mean·n = Σ of the index's intensities, nn = (n−1)/n, and the leave-one-out mean (Σ − own)/(n−1), or 0 when n = 1 |
| SdfacBinning.LeaveOneOut | xfel/merging/algorithms/error_model/sdfac_refine.py:330-343 | the mean of all observations is the leave-one-out mean of the others plus this one's share; a single observation is its own mean with nn = 0 |
| SdfacBinning.BinsFromKept | xfel/merging/algorithms/error_model/sdfac_refine.py:241-245 | the returned bins are non-empty, in increasing order, each selected by its rule and reporting its midpoint (with the reflection-table binning at lines 426-435) |
| SdfacBinning.BinsFromComplete | xfel/merging/algorithms/error_model/sdfac_refine.py:243 | no non-empty candidate bin is dropped (with the reflection-table variant at line 432) |
| SdfacBinning.BinnedIntensities | xfel/merging/algorithms/error_model/sdfac_refine.py:421-435 | equal-width binning from the minimum fails exactly on no values or no bins; otherwise the result holds exactly the non-empty bins in order, with their midpoints |
| SdfacBinning.LastEdgeBelow | xfel/merging/algorithms/error_model/sdfac_refine.py:426-431 | finds the last bin whose lower edge is at or below a value |
| SdfacBinning.HalfOpenUnique | xfel/merging/algorithms/error_model/sdfac_refine.py:428-431 | half-open bins never overlap |
| SdfacBinning.StrictUnique | xfel/merging/algorithms/error_model/sdfac_refine.py:242 | strict bins never overlap |
| SdfacBinning.EdgeInNoStrictBin | xfel/merging/algorithms/error_model/sdfac_refine.py:242 | a value exactly on a bin edge is in no strict bin |
| SdfacBinning.StepNonNegative | xfel/merging/algorithms/error_model/sdfac_refine.py:231 | the bin width (max − min)/n_bins is never negative (with the reflection-table variant at line 425) |
| SdfacBinning.HalfOpenExactlyOne | xfel/merging/algorithms/error_model/sdfac_refine.py:421-435 | reflection-table binning puts every observation in exactly one returned bin |
| SdfacBinning.StrictKeptBins | xfel/merging/algorithms/error_model/sdfac_refine.py:241-245 | strict bins never share an observation and leave out observations on an edge |
| SdfacBinning.StrictAtMostOne | xfel/merging/algorithms/error_model/sdfac_refine.py:225-251 | dictionary binning puts an observation in at most one bin, and in none when its mean is on an edge |
| SdfacBinning.StrictSkipsMinimum | xfel/merging/algorithms/error_model/sdfac_refine.py:240-242 | the observation with the smallest mean is in no dictionary bin |
| SdfacBinning.TableOf | xfel/merging/algorithms/error_model/sdfac_refine.py:386-400 | every row of the table built from a dictionary carries an index of the miller set |
| SdfacBinning.TableOfPerIndex | xfel/merging/algorithms/error_model/sdfac_refine.py:386-400 | per-index sums over the built table read exactly that index's dictionary list |
| SdfacBinning.GroupMeans | xfel/merging/algorithms/error_model/sdfac_refine.py:225-233 | fails exactly on an empty observation list (`flex.mean` raises); otherwise one mean per observation, and the per-observation and per-index means hold the same values |
| SdfacBinning.GroupMeansAreMeans | xfel/merging/algorithms/error_model/sdfac_refine.py:225-233 | `only_means` holds, for each index present in the dictionary and in miller-set order, the `flex.mean` of its intensities, and `all_mean_Is` holds for each observation the mean of its own index |
| SdfacBinning.PresentIds | xfel/merging/algorithms/error_model/sdfac_refine.py:227-229 | the indices the loop does not skip: exactly the miller-set positions present in the dictionary, in increasing order |
| SdfacBinning.MeansShareExtremes | xfel/merging/algorithms/error_model/sdfac_refine.py:234-238 | per-observation and per-index means have the same minimum and maximum |
| SdfacBinning.DictBinnedIntensities | xfel/merging/algorithms/error_model/sdfac_refine.py:225-251 | a successful dictionary binning had a positive bin count and at least one observation, and returns bins with distinct increasing numbers below `n_bins`, each with one flag per observation and at least one flag set |
| SdfacBinning.DictBinsFail | xfel/merging/algorithms/error_model/sdfac_refine.py:225-238 | dictionary binning fails exactly on an empty observation list, an empty dictionary or zero bins |
| SdfacBinning.DictBinsAreStrict | xfel/merging/algorithms/error_model/sdfac_refine.py:225-251 | dictionary binning is strict binning of the per-observation means, whose minimum equals that of the per-index means |
| SdfacBinning.TableBinnedIntensities | xfel/merging/algorithms/error_model/sdfac_refine.py:402-435 | fails exactly on a bad `miller_id`, an empty table or zero bins; otherwise every observation lies in exactly one returned bin and every bin is non-empty |
| SdfacBinning.WeightOfObservation | xfel/merging/algorithms/error_model/sdfac_refine.py:484-488 | an observation's 1/variance is positive and its I/variance is its intensity times it |
| SdfacBinning.SummedWeights | xfel/merging/algorithms/error_model/sdfac_refine.py:478-488 | fails exactly on a row with an index outside the arrays or a zero division; otherwise each index gets the sum of 1/variance and of I/variance over its rows |
| SdfacBinning.SummedWeightPositive | xfel/merging/algorithms/error_model/sdfac_refine.py:478-488 | an index observed at least once has a positive summed weight |
| SdfacBinning.WeightsNonNegative | xfel/merging/algorithms/error_model/sdfac_refine.py:478-488 | summed weights are never negative |
| SdfacBinning.EqualIntensitiesMerge | xfel/merging/algorithms/error_model/sdfac_refine.py:478-488 | when all observations of an index have intensity c, summed_wt_I = c·summed_weight, so the merged intensity is c |
| SdfacBinning.PerIndexScaled | xfel/merging/algorithms/error_model/sdfac_refine.py:478-488 | scaling every term of an index by c scales its sum by c |
| SdfacBinning.DictSummedWeights | xfel/merging/algorithms/error_model/sdfac_refine.py:277-292 | the dictionary accumulation fills one entry per miller-set index |
| SdfacBinning.GroupWeightsAgree | xfel/merging/algorithms/error_model/sdfac_refine.py:286-292 | one index's inner loop fails exactly on an unweighable observation and otherwise gives that index's two sums |
| SdfacBinning.DictWeightsMatchTable | xfel/merging/algorithms/error_model/sdfac_refine.py:277-292 | the dictionary and reflection-table accumulations fail on the same inputs and otherwise fill the same arrays (with the reflection-table accumulation at lines 478-488) |
| SdfacBinning.BadRowsOfTable | xfel/merging/algorithms/error_model/sdfac_refine.py:386-400 | a row of the built table is bad exactly when its observation cannot be weighted |
| SdfacBinning.BadRowOfAppend | xfel/merging/algorithms/error_model/sdfac_refine.py:386-400 | appending rows of a new index adds exactly their own bad rows |
| SdfacBinning.BadRowsOfGroup | xfel/merging/algorithms/error_model/sdfac_refine.py:386-400 | one index's rows are bad exactly when one of its observations cannot be weighted |
| RestraintsManager.NewManager | cctbx/geometry_restraints/manager.py:33-41 | construction succeeds exactly when a site-symmetry table comes with crystal symmetry and fixes the sizes of the bond table, the first shell table (of which there is one) and the nonbonded types; the tables are kept as given |
| RestraintsManager.EdgesFrom | cctbx/geometry_restraints/manager.py:57-61 | fails exactly when some pair violates `i < j` or has no bond parameters; otherwise keeps exactly the pairs with slack at most the threshold |
| RestraintsManager.SimpleEdgeList | cctbx/geometry_restraints/manager.py:52-61 | needs the bond table and the shell tables; the result is exactly the pairs of shell table 0 with slack at most the threshold, each with `i < j` |
| RestraintsManager.HeavySites | cctbx/geometry_restraints/manager.py:68-70 | exactly the site lists of the proxies whose weight exceeds the limit |
| RestraintsManager.RigidClusters | cctbx/geometry_restraints/manager.py:63-75 | fails exactly when there are dihedrals and sigma is not positive; otherwise the clusters are exactly the dihedrals with weight above 1/σ² and every planarity proxy |
| RestraintsManager.TardyTreeInputs | cctbx/geometry_restraints/manager.py:77-90 | exactly one of `sites` and `sites_cart` must be given, and the tree is built from the simple edge list and the rigid clusters |
| RestraintsManager.NewIncludingIsolatedSites | cctbx/geometry_restraints/manager.py:163-224 | growing succeeds only when the assertions hold (non-negative count, an addition of that length for exactly the arrays present), and then every array is `n` longer with its old entries in front, every shell table is `n` larger with the same pairs, and the proxies are unchanged |
| RestraintsManager.IsolatedSitesGrow | cctbx/geometry_restraints/manager.py:163-224 | growing a consistent manager succeeds exactly when the count is non-negative and an addition of that length is given for exactly the arrays present; each array is then `n` longer with its old entries in front, shell tables grow by `n`, and the proxies are unchanged |
| RestraintsManager.TrueIndices | cctbx/geometry_restraints/manager.py:229 | `iselection()` lists exactly the positions of the true flags, increasing |
| RestraintsManager.NSeq | cctbx/geometry_restraints/manager.py:263-268 | `n_seq` is defined exactly when all recorded sizes agree; no sizes raises "Cannot determine n_seq." |
| RestraintsManager.SelectAt | cctbx/geometry_restraints/manager.py:234-262 | selection by indices succeeds exactly when every index is in range, and takes those elements |
| RestraintsManager.Select | cctbx/geometry_restraints/manager.py:225-300 | needs exactly one of selection and iselection; a boolean selection is turned into its true positions; each present model-index, conformer-index and nonbonded-type array comes back as exactly its elements at those positions and an index past the end of any of them fails; `n_seq` is computed exactly when there are proxies and then equals every recorded size; disagreeing sizes with proxies present fail |
| RestraintsManager.SelectionOfMatchingSize | cctbx/geometry_restraints/manager.py:225-268 | a boolean selection whose length matches every array gives that length as `n_seq` |
| RestraintsManager.PairWeight | cctbx/geometry_restraints/manager.py:580-584 | a shared weight is used as given; a per-type weight exists exactly when both sites' type indices and their types are in range, and is the mean of the two types' weights |
| RestraintsManager.PairWeightSymmetric | cctbx/geometry_restraints/manager.py:580-584 | a pair's weight is the same with its sites swapped and lies between the two types' weights |
| RestraintsManager.HarmonicRestraints | cctbx/geometry_restraints/manager.py:573-589 | succeeds exactly when shell table 0 exists, its size equals the variable count and every pair can be weighted; the residual is Σ w·(x_i−x_j)² over its pairs; the gradient at each site is the sum over the pairs of +2wΔ where the site is the pair's first and −2wΔ where it is the second, and the gradients sum to zero |
| RestraintsManager.ZeroSum | cctbx/geometry_restraints/manager.py:577 | the initial gradient array sums to zero |
| RestraintsManager.ResidualNonNegative | cctbx/geometry_restraints/manager.py:585-587 | with non-negative weights the harmonic residual is non-negative |
| BondRestraints.AsBondProxy | cctbx/include/cctbx/restraints/bond.h:45-52 | the plain proxy keeps `i_seq`, `j_seq`, `distance_ideal` and `weight` |
| BondRestraints.BondFromProxy | cctbx/include/cctbx/restraints/bond.h:79-91 | building a bond from a proxy succeeds exactly when both indices are sites; it takes those sites, the ideal distance and weight, and delta = ideal − model distance (with the proxy overloads at lines 160-166) |
| BondRestraints.NewBond | cctbx/include/cctbx/restraints/bond.h:66-76 | a bond built from two sites keeps the sites, ideal distance and weight; its model distance is the length of site0 − site1 and delta is the ideal minus the model distance, so delta is zero exactly when the sites lie at the ideal distance |
| BondRestraints.Gradient0 | cctbx/include/cctbx/restraints/bond.h:112-116 | the gradient on the first site is along site0 − site1, scaled so that distance_model × gradient = −2 w delta (site0 − site1), the derivative of w delta² for delta = ideal − length; it vanishes for zero delta, zero weight or coincident sites |
| BondRestraints.Residual | cctbx/include/cctbx/restraints/bond.h:108-109 | the residual w·delta² is non-negative for a non-negative weight and zero when delta is zero |
| BondRestraints.Gradients | cctbx/include/cctbx/restraints/bond.h:118-125 | the second gradient is minus the first, which is `gradient_0` |
| BondRestraints.VecSumUpdate | cctbx/include/cctbx/restraints/bond.h:129-136 | adding v at one position adds v to the array's total |
| BondRestraints.AddGradients | cctbx/include/cctbx/restraints/bond.h:127-136 | adds g0 at `i_seqs[0]` and −g0 at `i_seqs[1]`, leaves every other entry alone and keeps the total gradient |
| BondRestraints.ProcessPlain | cctbx/include/cctbx/restraints/bond.h:186-191 | a plain proxy is always appended to `proxies`, the call answers false and `n_total` grows by one |
| BondRestraints.ProcessSym | cctbx/include/cctbx/restraints/bond.h:193-204 | the call answers true exactly for a non-direct pair, which is appended to `sym_proxies`; a direct pair is converted and appended to `proxies` only when `j_sym == 0` or `i_seq < j_seq`; `n_total` grows by at most one |
| BondRestraints.ProcessAllRoutes | cctbx/include/cctbx/restraints/bond.h:193-210 | processing a list keeps both lists' old entries, adds exactly the non-direct pairs to `sym_proxies` and the kept direct ones to `proxies`, so `n_total` grows by at most the list's length |
| BondRestraints.SymResidualSum | cctbx/include/cctbx/restraints/bond.h:282-299 | the sum counts each residual in full when `j_sym == 0` and half otherwise; an empty gradient array is untouched; otherwise each site ends with its entry plus, over the proxies in order, the rotated `i_seq` gradient where it is `i_seq` and minus the rotated `j_seq` gradient where it is `j_seq` of a pair with `j_sym == 0`, so sites no proxy touches keep their gradient |
| BondRestraints.SymResidualBounds | cctbx/include/cctbx/restraints/bond.h:291-293 | with non-negative residuals the symmetry sum lies between half the plain sum and the plain sum |
| BondRestraints.SymResidualIdentity | cctbx/include/cctbx/restraints/bond.h:291-293 | without symmetry copies the sum is the plain sum of residuals |
| BondRestraints.BondSets | cctbx/include/cctbx/restraints/bond.h:321-337 | fails exactly when a proxy names a site `>= n_sites`; otherwise there are `n_sites` sets and b is in set a exactly when some proxy bonds a and b in either order |
| BondRestraints.BondedExtend | cctbx/include/cctbx/restraints/bond.h:330-335 | the pairs bonded by a longer proxy list are those of the shorter one plus the last proxy's pair |
| BondRestraints.BondSetsSymmetric | cctbx/include/cctbx/restraints/bond.h:321-337 | the neighbour sets are symmetric: b is in s[a] exactly when a is in s[b] |
| Ramachandran.NeedFiltering | mmtbx/geometry_restraints/ramachandran.py:109-110 | filtering is needed exactly when outliers or allowed residues are not both restrained |
| Ramachandran.RouteTable | mmtbx/geometry_restraints/ramachandran.py:175-189 | Emsley takes every proxy under its own potential; Oldfield without filtering takes every proxy; with filtering Oldfield takes favored ones and the allowed or outlier ones whose flag is set; a proxy is dropped exactly when Oldfield filters it out and Emsley is not asked to take it |
| Ramachandran.NothingDroppedWithoutFiltering | mmtbx/geometry_restraints/ramachandran.py:175-189 | with compatible parameters nothing is dropped unless Oldfield filters and Emsley is not asked to take over (with the parameter check at lines 88-91) |
| Ramachandran.AppendProxy | mmtbx/geometry_restraints/ramachandran.py:196-199 | a proxy is appended only when no proxy on its sites is present; afterwards it is present and the list stays duplicate-free (with the duplicate test at lines 71-75) |
| Ramachandran.NoSameSites | mmtbx/geometry_restraints/ramachandran.py:196-199 | a list built this way never holds two proxies on the same sites |
| Ramachandran.ExtractFromSound | mmtbx/geometry_restraints/ramachandran.py:150-189 | extraction keeps both lists duplicate-free, only appends, adds at most one proxy per residue triplet, and leaves every routed proxy present in its list |
| Ramachandran.PresentInExtension | mmtbx/geometry_restraints/ramachandran.py:196-199 | a proxy present in a list stays present in any extension of it |
| Ramachandran.ExtractFromOrigins | mmtbx/geometry_restraints/ramachandran.py:150-189 | each proxy the triplet loop leaves in a list was there already or belongs to a triplet whose route names that list |
| Ramachandran.ExtractProxies | mmtbx/geometry_restraints/ramachandran.py:142-195 | fails exactly when the atom selection is empty (`flex.max` raises before anything is dropped); otherwise previous proxies are dropped; both new lists are duplicate-free and hold at most one proxy per triplet; every routed proxy is present in its list, and every proxy in a list is the proxy of a triplet routed to that list, so a dropped triplet contributes to neither |
| Ramachandran.NProxies | mmtbx/geometry_restraints/ramachandran.py:272-283 | the proxy count is zero exactly when each list is missing or empty |
| Ramachandran.NewManagerAsWritten | mmtbx/geometry_restraints/ramachandran.py:78-129 | construction without `initialize` succeeds exactly when some atom has a non-zero `i_seq`, the parameters are compatible with the Emsley potential, and under the Oldfield potential Oldfield tables are given and the Oldfield proxies are not `None` (the targets are computed in any case, lines 126-128); as written the Oldfield proxies are taken from the pair and the Emsley proxies stay empty |
| Ramachandran.NewManager | mmtbx/geometry_restraints/ramachandran.py:78-129 | the corrected constructor: same success condition, including the Oldfield targets; the pair's members become the Oldfield and Emsley proxies, the tables pair becomes the two tables |
| Ramachandran.DefaultNeedsOldfieldTables | mmtbx/geometry_restraints/ramachandran.py:126-128 | under the default Oldfield potential, building a manager without `initialize` and without tables fails, in either version of the constructor |
| Ramachandran.ProxySelectAsWritten | mmtbx/geometry_restraints/ramachandran.py:131-140 | as written, `proxy_select` succeeds exactly when the constructor's checks pass and, under the Oldfield potential, the manager holds Oldfield tables and a non-empty Oldfield list (an empty one is passed on as `None`); it keeps the parameters, the selected Oldfield proxies (None for an empty list) and both tables, but comes back with an empty Emsley list |
| Ramachandran.ProxySelect | mmtbx/geometry_restraints/ramachandran.py:131-140 | corrected, `proxy_select` succeeds under the same condition as written and keeps the parameters, both tables and each list's selected proxies, None for an empty list |
| Ramachandran.ProxySelectDropsEmsley | mmtbx/geometry_restraints/ramachandran.py:99-140 | as written, selecting all sites of a manager with Emsley proxies loses every one of them |
| Ramachandran.ProxySelectDropsEmsleyExample | mmtbx/geometry_restraints/ramachandran.py:99-140 | a concrete manager with one Emsley proxy has none after `proxy_select` |
| Ramachandran.ProxySelectKeeps | mmtbx/geometry_restraints/ramachandran.py:131-140 | corrected, `proxy_select` keeps each potential's selected proxies (none for an empty list), both tables and the parameters |
| Ramachandran.LabelsOf | mmtbx/geometry_restraints/ramachandran.py:309-314 | a proxy's five labels exist exactly when its five sites have labels |
| Ramachandran.Entries | mmtbx/geometry_restraints/ramachandran.py:305-315 | one entry per proxy, carrying its residual and the labels of its five sites |
| Ramachandran.Arrange | mmtbx/geometry_restraints/ramachandran.py:316-317 | in residual mode the entries are a permutation sorted by decreasing residual; otherwise they are unchanged |
| Ramachandran.DefaultLabels | mmtbx/geometry_restraints/ramachandran.py:302-303 | without labels, site k is labelled `str(k)` |
| Ramachandran.SortedForShow | mmtbx/geometry_restraints/ramachandran.py:285-318 | needs `by_value` in {residual, delta} and labels matching the site count; nothing is shown exactly when there are no proxies; each non-empty list is shown as a permutation of its entries, one per proxy with its labels and residual, sorted by decreasing residual in residual mode and in proxy order otherwise |
| Ramachandran.LoadTable | mmtbx/geometry_restraints/ramachandran.py:354-374 | raises when `scale_allowed <= 0`; succeeds exactly when also every line has odd phi and psi; the values in file order |
| Ramachandran.Distinct | mmtbx/geometry_restraints/ramachandran.py:417-418 | `set(list(phi))`: the same values, each once |
| Ramachandran.Needed | mmtbx/geometry_restraints/ramachandran.py:421-422 | the step-subsampled grid values are values of the data, all of them for step 1 |
| Ramachandran.Filter | mmtbx/geometry_restraints/ramachandran.py:425-428 | exactly the triplets that pass the test |
| Ramachandran.SelectGood | mmtbx/geometry_restraints/ramachandran.py:413-429 | a zero step raises; otherwise exactly the triplets with `val > plot_cutoff` whose phi and psi are among the subsampled sorted values |
| Ramachandran.SelectGoodStepOne | mmtbx/geometry_restraints/ramachandran.py:413-429 | with step 1 exactly the triplets above the cutoff survive |
| GeometricHydrogen.NewRiding | smtbx/refinement/constraints/geometric_hydrogen.h:48-58 | a new constraint starts switched on with the given pivot, hydrogens and bond length, and has active reparametrisations exactly when it stretches (with the reparametrisation test at line 187) |
| GeometricHydrogen.NewTerminal | smtbx/refinement/constraints/geometric_hydrogen.h:287-299 | the azimuth given in degrees reads back unchanged through `azimuth()`; the constraint starts on and has active reparametrisations exactly when it rotates or stretches (with the azimuth accessor at line 308 and the test at lines 384-386) |
| GeometricHydrogen.StaysOnExactly | smtbx/refinement/constraints/geometric_hydrogen.h:91-100 | visiting the hydrogens leaves the constraint on exactly when no hydrogen is listed twice and every one of them refined its site on entry |
| GeometricHydrogen.RecordedElsewhere | smtbx/refinement/constraints/geometric_hydrogen.h:91-99 | scatterers that are not among the hydrogens keep their entry, or their absence, in `already_constrained` |
| GeometricHydrogen.RecordedUnrefined | smtbx/refinement/constraints/geometric_hydrogen.h:93-96 | every hydrogen whose site was not refined on entry ends up in `already_constrained` with its flags as they were on entry |
| GeometricHydrogen.VisitHydrogens | smtbx/refinement/constraints/geometric_hydrogen.h:91-99 | the loop clears the site-gradient flag of every hydrogen, records the unrefined ones and switches off, with the same outcome as the order-by-order definition |
| GeometricHydrogen.InitialiseInContext | smtbx/refinement/constraints/geometric_hydrogen.h:91-100 | afterwards no hydrogen refines its site and all other flags are unchanged; the constraint stays on iff it was on, has no repeated hydrogen and every hydrogen refined its site; the record equals the visit-by-visit definition: a hydrogen unrefined on entry is recorded with its entry flags, a refined one is recorded (with its site flag cleared) exactly when it is listed twice and otherwise keeps its old entry or absence, and scatterers that are not hydrogens keep theirs |
| GeometricHydrogen.RecordedRefined | smtbx/refinement/constraints/geometric_hydrogen.h:91-99 | a hydrogen that refined its site on entry is in the record exactly when it was there before or is listed twice; listed twice, it is recorded with the flag the first visit cleared, otherwise its old entry stays |
| GeometricHydrogen.Ride | smtbx/refinement/constraints/geometric_hydrogen.h:140-152 | a switched-off constraint changes nothing. Otherwise it fails iff some hydrogen does not refine its site. On success the result is the in-place fold `AddSites`: each hydrogen's three site gradients are added onto the pivot's in turn, each addition reading the array as the previous ones left it, so the aliasing of a hydrogen whose entries overlap the pivot's is kept. Every entry off the pivot is unchanged, and when no hydrogen's entries overlap the pivot's (`ApartFromPivot`), each pivot gradient gains the sum of the hydrogens' matching gradients |
| GeometricHydrogen.RideAll | smtbx/refinement/constraints/geometric_hydrogen.h:143-151 | the riding loop fails exactly when some hydrogen does not refine its site, and otherwise computes the fold `AddSites` |
| GeometricHydrogen.AddSitesPrefix | smtbx/refinement/constraints/geometric_hydrogen.h:143-151 | the fold over any prefix of the hydrogens leaves every entry off the pivot unchanged, and, when no hydrogen overlaps the pivot, adds the prefix's gradient sums onto the pivot's |
| GeometricHydrogen.HasActiveReparametrizations | smtbx/refinement/constraints/geometric_hydrogen.h:384-386 | a riding constraint is reparametrised exactly when it stretches; a terminal one when it stretches or rotates (with the riding test at line 187) |
| GeometricHydrogen.PushReparametrizationGradients | smtbx/refinement/constraints/geometric_hydrogen.h:396-402 | the earlier gradients are kept as a prefix; one entry is appended for stretching and one for rotation, only when the constraint is on; the stretching entry comes first and `begin` points at it (with the riding version at lines 155-157 and 168-178) |
| GeometricHydrogen.ApplyShiftsAsWritten | smtbx/refinement/constraints/geometric_hydrogen.h:405-421 | a switched-off or riding constraint is unchanged; a rotating terminal one adds its shift, read after the stretching one, to `phi` as if it were in radians (with the riding base at lines 213-214 and 224-226) |
| GeometricHydrogen.RotationShiftInRadians | smtbx/refinement/constraints/geometric_hydrogen.h:401-414 | as written, a rotation shift of one degree moves `azimuth()` by 180/pi degrees and not by one (with the azimuth accessor at line 308) |
| GeometricHydrogen.ApplyShifts | smtbx/refinement/constraints/geometric_hydrogen.h:405-421 | the corrected shift: `azimuth()` moves by exactly the rotation shift in degrees, the bond length of a stretching terminal constraint by its own shift, and nothing else moves: pivot, hydrogens and switches are unchanged, the bond length of a group that is not stretching and the azimuth of a group that is not rotating stay as they were, and a terminal group keeps its pivot neighbour (with the riding base at lines 213-214) |
| GeometricHydrogen.LayoutAgrees | smtbx/refinement/constraints/geometric_hydrogen.h:396-420 | the gradient layout and the shift layout agree: fed back its own gradients, the bond length receives the stretching derivative and the azimuth the rotation derivative (with the riding layout at lines 168-178) |
| GeometricHydrogen.SetAzimuth | smtbx/refinement/constraints/geometric_hydrogen.h:308-309 | `azimuth()` after `set_azimuth(x)` returns x; nothing else changes |
| GeometricHydrogen.Azimuth | smtbx/refinement/constraints/geometric_hydrogen.h:308 | a terminal constraint's azimuth in degrees times pi is its angle phi times 180 |
| GeometricHydrogen.SetAzimuthOfAzimuth | smtbx/refinement/constraints/geometric_hydrogen.h:308-309 | setting the azimuth to the value read back leaves the constraint unchanged |
| GeometricHydrogen.PlacementAzimuths | smtbx/refinement/constraints/geometric_hydrogen.h:346-360 | placement succeeds exactly for 1, 2 or 3 hydrogens, the k-th at `phi + k*2pi/3` |
| Distl.TokensSound | spotfinder/core_toolbox/distl.cpp:264-268 | splitting the option string on spaces yields non-empty tokens without spaces that together spell the string with its spaces removed |
| Distl.SetResolutionOuter | spotfinder/core_toolbox/distl.cpp:300-306 | the outer resolution is accepted exactly when it is positive, and then only that setting changes |
| Distl.Apply | spotfinder/core_toolbox/distl.cpp:269-295 | one flag and its value token set exactly the setting the flag names, through `atoi` for integer flags and `atof` otherwise; only `-ro` with a non-positive value fails |
| Distl.ParseTokens | spotfinder/core_toolbox/distl.cpp:267-296 | the option loop never touches the overload-reporting switch |
| Distl.UnknownTokensIgnored | spotfinder/core_toolbox/distl.cpp:267-296 | tokens that are not flags leave the settings unchanged |
| Distl.ParseTokensAppend | spotfinder/core_toolbox/distl.cpp:267-296 | options are read left to right: a fully read prefix hands its settings to the rest |
| Distl.TrailingFlagFails | spotfinder/core_toolbox/distl.cpp:267-296 | a flag in last position has no value token and is an error (the source reads past the end) |
| Distl.SingleOption | spotfinder/core_toolbox/distl.cpp:269-292 | one flag other than `-ro` followed by its value sets that setting to the converted value and nothing else |
| Distl.NewDistl | spotfinder/core_toolbox/distl.cpp:237-263 | requesting overload reports switches them on; otherwise the finder's own choice stands |
| Distl.DefaultsWithoutFlags | spotfinder/core_toolbox/distl.cpp:259-262 | without flags the result has `spotbasesize` 10 and every `bgupperint` 1.5, and the finder's other settings |
| Distl.SetTiling | spotfinder/core_toolbox/distl.cpp:331-351 | each Pilatus name selects its own tiling exactly, any name starting with "Eiger" the Eiger tiling, and every other name the standard one |
| Distl.SetExplicitTiling | spotfinder/core_toolbox/distl.cpp:353-357 | the explicit tiling keeps the given tiles and margin |
| Distl.KeptLarge | spotfinder/core_toolbox/distl.cpp:419-421 | every kept spot has an area strictly above the base size |
| Distl.KeptInOrder | spotfinder/core_toolbox/distl.cpp:408-422 | the kept spots appear in the finder's order |
| Distl.KeptCounts | spotfinder/core_toolbox/distl.cpp:408-422 | a spot is kept as often as it occurs among the finder's spots if its area is above the base size, and never otherwise |
| Distl.FinishAnalysis | spotfinder/core_toolbox/distl.cpp:402-432 | the spots kept are exactly the large ones, with their multiplicities and in order, and the ice rings are copied unchanged |
| Distl.EncodeSpot | spotfinder/core_toolbox/distl.cpp:11-22 | the stream the constructor reads holds the peak, the body length and then each body pixel's two coordinates, `3 + 2·n` integers in all |
| Distl.DecodeSpot | spotfinder/core_toolbox/distl.cpp:11-22 | reading a spot succeeds exactly when the stream holds the three header integers, the announced body length is not negative (`reserve` throws on one) and the stream holds the two coordinates of every body pixel it announces; the spot then has the header's peak, that many body pixels, no maxima and no cached axes |
| Distl.DecodeEncodedSpot | spotfinder/core_toolbox/distl.cpp:11-22 | reading a spot from the integer stream it was written to gives back its peak and body pixels, with no maxima and no cached axes, whatever follows |
| Distl.ComputeAxes | spotfinder/core_toolbox/distl.cpp:28-83 | fewer than two body pixels give the unit axes; otherwise the axes are reported larger first, and the zero-by-zero division for a spot whose pixels all sit on their mean is an error |
| Distl.FirstMax | spotfinder/core_toolbox/distl.cpp:52-72 | the position chosen holds the largest value and is its first occurrence |
| Distl.GetAxes | spotfinder/core_toolbox/distl.cpp:85-99 | cached axes are served unchanged; otherwise they are computed, ordered and cached in the spot (with the cache test at lines 25-27) |
| Distl.GetAxesTwice | spotfinder/core_toolbox/distl.cpp:85-99 | a second lookup returns the same axes and leaves the spot as the first left it (with the cache test at line 27) |
| Distl.SetState | spotfinder/core_toolbox/distl.cpp:101-105 | the new peak is stored, the maxima count is reset and the next lookup recomputes the axes from the body pixels |
| Distl.SpreadBounds | spotfinder/core_toolbox/distl.cpp:141-157 | the spread of the projections bounds the difference of any two of them and is attained by one pair |
| Distl.Extremes | spotfinder/core_toolbox/distl.cpp:140-155 | the running minimum and maximum, started at plus and minus infinity, end as the smallest and largest projection |
| Distl.RadialAndAzimuthalSize | spotfinder/core_toolbox/distl.cpp:113-158 | an empty spot or one centred on the beam has no extent; otherwise the extents are the spreads of the body pixels along the radial direction and its quarter turn counter-clockwise, never negative, and zero for a single pixel |
| Distl.ModData | spotfinder/core_toolbox/distl.cpp:377-399 | the image keeps its dimensions, and a cell changes exactly when its intensity is below 1.5 and its value lies strictly between the under- and overload values (and is not already 10), and then becomes 10 |
| Distl.ModDataIdempotent | spotfinder/core_toolbox/distl.cpp:384-397 | applying the modification twice gives the same image as applying it once |
| TimePixSU.AllPresent | dxtbx/format/FormatSMVTimePix_SU.py:33-37 | true exactly when every wanted item is a header key |
| TimePixSU.Understand | dxtbx/format/FormatSMVTimePix_SU.py:20-37 | a header is recognised exactly when its upper-cased beamline is TIMEPIX_SU and all twelve wanted items are present |
| TimePixSU.Understand512 | dxtbx/format/FormatSMVTimePix_SU.py:116-128 | recognised exactly for a pixel size of 0.055 and both sizes "512"; a missing item the test reaches or a pixel size that is not a number raises |
| TimePixSU.Understand516 | dxtbx/format/FormatSMVTimePix_SU.py:309-318 | recognised exactly for both sizes "516"; raises exactly when an item it reaches is missing |
| TimePixSU.VariantsExclusive | dxtbx/format/FormatSMVTimePix_SU.py:116-128 | no header is claimed by both variants, and after the base class accepts a header only an unreadable pixel size makes a variant raise (with the other variant's test at lines 20-37 and 309-318) |
| TimePixSU.PxToMmScales | dxtbx/format/FormatSMVTimePix_SU.py:159-191 | the beam-centre conversion is linear in the pixel size |
| TimePixSU.PxToMmMonotone | dxtbx/format/FormatSMVTimePix_SU.py:159-191 | a larger pixel coordinate never maps to a smaller distance, for chips of at least two pixels |
| TimePixSU.PxToMmNonNegative | dxtbx/format/FormatSMVTimePix_SU.py:159-191 | a pixel coordinate at or past the edge converts to a non-negative distance, for a non-negative pixel size and chips of at least two pixels |
| TimePixSU.PxToMmBreakpoints | dxtbx/format/FormatSMVTimePix_SU.py:159-191 | across the two chips the conversion counts three pixel widths for each outer pixel and one for each inner pixel |
| TimePixSU.PxToMmContinuous | dxtbx/format/FormatSMVTimePix_SU.py:159-191 | at every breakpoint the next segment starts where the previous one ended |
| TimePixSU.PanelSize | dxtbx/format/FormatSMVTimePix_SU.py:139 | `int(e/2)` is half the image size, rounded down, for a non-negative size |
| TimePixSU.PanelSizeMmShort | dxtbx/format/FormatSMVTimePix_SU.py:142-144 | the chip width as written is three pixel widths short of the conversion across a whole chip: 14.135 mm against 14.3 mm for 55 micron pixels and 256-pixel chips |
| TimePixSU.PanelSizeMmAsWritten | dxtbx/format/FormatSMVTimePix_SU.py:142-144 | the chip width as written, plus three pixel widths, is `px_to_mm` across one whole chip |
| TimePixSU.PanelSizeMm | dxtbx/format/FormatSMVTimePix_SU.py:142-143 | the corrected chip width equals the conversion across one whole chip |
| TimePixSU.ImageSizeMmAgrees | dxtbx/format/FormatSMVTimePix_SU.py:144-191 | twice the corrected chip width is the conversion across both chips |
| TimePixSU.DetectorOrigin | dxtbx/format/FormatSMVTimePix_SU.py:197-201 | moving from the origin by the beam centre along fast and slow lands on the beam, at `(0, 0, -distance)` (with the beam centre at lines 150-151) |
| TimePixSU.LayoutConsistent | dxtbx/format/FormatSMVTimePix_SU.py:217-233 | the four chips lie inside the 512x512 image without overlapping, and for 55 micron pixels each chip's mm position is the conversion of its first pixel |
| TimePixSU.PanelNamesDistinct | dxtbx/format/FormatSMVTimePix_SU.py:249-250 | panels with different indices get different names |
| TimePixSU.AddPanels | dxtbx/format/FormatSMVTimePix_SU.py:239-268 | one panel per chip, named `Panel<i>`, offset at and sized by its chip's rectangle, placed at its mm position, and recorded under its name and under no other |
| TimePixSU.Slice | dxtbx/format/FormatSMVTimePix_SU.py:300 | the block holds exactly the pixels of the rectangle, shifted to start at zero |
| TimePixSU.SplitRawData | dxtbx/format/FormatSMVTimePix_SU.py:292-302 | the 512x512 image is cut into four blocks, each the size of its panel and holding that panel's pixels |
| TimePixSU.Detector516 | dxtbx/format/FormatSMVTimePix_SU.py:338-370 | the single panel has the header's size and pixel size, the fixed trusted range, thickness and material, and a beam centre that converts back to the header's pixels |
| JHSim.Understand | dxtbx/format/FormatSMVJHSim.py:28-39 | a header is recognised exactly when its beamline is present and is "fake" |
| JHSim.Pedestal | dxtbx/format/FormatSMVJHSim.py:154-158 | the pedestal is 1 without `ADC_OFFSET`, its value when that is a number, and an error otherwise (with the header parsing at lines 81-85) |
| JHSim.CentresAgree | dxtbx/format/FormatSMVJHSim.py:89-95 | the four beam-centre conventions agree: the cctbx centre is the ADXV x and the MOSFLM slow coordinate each moved by one pixel, the XDS centre is the same point in pixels, and the ADXV centre is recovered from the cctbx one |
| JHSim.MakeDetector | dxtbx/format/FormatSMVJHSim.py:70-106 | the detector exists exactly for a non-zero pixel size; it is a pixel-array sensor exactly for 0.172 mm pixels; its trusted range spans 65534 counts and ends at 65535 less the pedestal; its beam centre is the cctbx one |
| JHSim.RawData | dxtbx/format/FormatSMVJHSim.py:174-183 | the image comes back as `ny` rows of `nx` pixels each |
| JHSim.RawDataRestores | dxtbx/format/FormatSMVJHSim.py:174-183 | the pixels, read row by row, plus the truncated pedestal are the counts in the file, and there are as many of them |
| AfAlgebras.FormatList | cctbx/global/generate_af_algebras.py:63-67 | an empty list fails at `list[-1]`; otherwise the text starts with the first line behind the indentation |
| AfAlgebras.FormatListLines | cctbx/global/generate_af_algebras.py:63-67 | the formatted list splits at its newlines into exactly the indented input lines, with no trailing newline |
| AfAlgebras.OpeningBreak | cctbx/global/generate_af_algebras.py:50-51 | the first line breaks after the first `<`, and a declaration without one raises |
| AfAlgebras.CommaBreak | cctbx/global/generate_af_algebras.py:52-55 | a later line breaks at a comma, and a declaration without one raises |
| AfAlgebras.CommaBreakAtSecond | cctbx/global/generate_af_algebras.py:53-55 | a later line keeps at most one comma inside, and none only when no comma follows the break |
| AfAlgebras.HeaderPieces | cctbx/global/generate_af_algebras.py:49-60 | the loop yields at least one line; every line but the last ends with the break character; the lines together hold the declaration's text up to white space; a declaration that fits stays one line |
| AfAlgebras.IndentHeaderShaped | cctbx/global/generate_af_algebras.py:56-60 | every output line starts with the indentation, later lines with two more spaces |
| AfAlgebras.FormatHeaderLines | cctbx/global/generate_af_algebras.py:43-61 | a stripped declaration that fits is one indented line; a broken one has the indentation and break characters in place |
| AfAlgebras.FormatHeader | cctbx/global/generate_af_algebras.py:43-61 | fails exactly when the line breaking fails, and leaves a declaration that fits on one line |
| AfAlgebras.FormatHeaderKeepsText | cctbx/global/generate_af_algebras.py:43-61 | with white-space indentation, breaking a header adds or removes only white space: no character of the declaration is lost, duplicated or reordered |
| AfAlgebras.TemplateArgs | cctbx/global/generate_af_algebras.py:69-75 | always the element type first; `tiny` and `small` add the size `N`, `ref` and `versa` the accessor type, any other array type nothing |
| AfAlgebras.NumberedTemplateArgs | cctbx/global/generate_af_algebras.py:77-92 | one group per operand, or the plain arguments for one operand; each group has the plain arguments' kinds; element types are shared or numbered 1..n; `tiny` shares its size; every other parameter is numbered |
| AfAlgebras.NumberedElementTypesDistinct | cctbx/global/generate_af_algebras.py:82-85 | with separate element types no two operands share an element type name |
| AfAlgebras.TemplateHeaderArgs | cctbx/global/generate_af_algebras.py:94-99 | the header lists every parameter of every group, each once, ordered by where it first appears in the groups read one after another |
| AfAlgebras.DedupIntoOrder | cctbx/global/generate_af_algebras.py:95-98 | the loop appends the parameters in the order of their first occurrence in what it has seen |
| AfAlgebras.FirstPosSkipSeen | cctbx/global/generate_af_algebras.py:98 | skipping a parameter already in the result moves every later first occurrence down one place and keeps the order |
| AfAlgebras.DedupIntoDistinct | cctbx/global/generate_af_algebras.py:94-99 | on parameters with no repeats the dedup loop keeps them all, in order |
| AfAlgebras.DedupIdempotent | cctbx/global/generate_af_algebras.py:94-99 | deduplicating twice gives the same list as deduplicating once |
| AfAlgebras.TinyBinaryHeader | cctbx/global/generate_af_algebras.py:77-99 | a binary `tiny` operation on two element types declares `ElementType1`, `N`, `ElementType2`: the shared size appears once |
| AfAlgebras.DeriveReturnArrayTypeSimple | cctbx/global/generate_af_algebras.py:131-133 | a type that is not `small` is returned unchanged, and a `small` one stays `small` |
| AfAlgebras.DeriveSmallTakesMinSize | cctbx/global/generate_af_algebras.py:131-133 | `small<E, N1>` becomes `small<E, (N1<N2?N1:N2)>`: the size is the smaller of the two operand sizes and the element type is kept |
| AfAlgebras.DeriveWithoutN1 | cctbx/global/generate_af_algebras.py:131-133 | a type that does not mention `N1` is returned unchanged |
| AfAlgebras.WrapElementType | cctbx/global/generate_af_algebras.py:135-139 | the template id never ends in `>>`, starts with the array name and `<`, ends with `>`, differs from the plain form only when that ends in `>>`, and then only by a space |
| AfAlgebras.SizedOperand | cctbx/global/generate_af_algebras.py:212-225 | the operand named is 1 or 2, and 1 exactly when the first flag is odd |
| AfAlgebras.ResultConstructorArgs | cctbx/global/generate_af_algebras.py:210-216 | empty exactly for `tiny`; for `versa` exactly `(<arg>.accessor(), reserve_flag())` and for every other type exactly `(<arg>.size(), reserve_flag())`, where `<arg>` is `a` in the unary case and otherwise `a1` when the first flag is odd and `a2` when it is even |
| AfAlgebras.FlagLetter | cctbx/global/generate_af_algebras.py:236 | indexing `"sa"` succeeds exactly for -2..1, giving `a` for odd and `s` for even flags |
| AfAlgebras.BinaryOperatorAlgoParams | cctbx/global/generate_af_algebras.py:218-237 | succeeds exactly for indexable flags; the size check appears exactly for two non-`tiny` arrays; `tiny` loops to `N` with no constructor arguments and no back door; others loop to the sized operand's size; an operand gets `.begin()` exactly when its flag is set |
| AfAlgebras.TypeFlagsCodeRoundTrip | cctbx/global/generate_af_algebras.py:236 | for array/scalar flags the code is `a_a`, `a_s` or `s_a` as the shape is, and decodes back to the flags |
| AfAlgebras.SizedFromAnArray | cctbx/global/generate_af_algebras.py:224-232 | for each shape with an array operand, the loop count and the result's size come from an operand that is an array |
| ReflectionFileReader.TypeNamesDistinct | iotbx/iotbx/reflection_file_reader.py:23-64 | the six readers report six different file-type names |
| ReflectionFileReader.MillerArraysIn | iotbx/iotbx/reflection_file_reader.py:51-55 | the arrays kept from an iterable are its Miller array items, each as often as it occurs there, never more than it holds |
| ReflectionFileReader.MillerArraysInAppend | iotbx/iotbx/reflection_file_reader.py:51-55 | filtering joined lists is filtering each in turn, so the kept arrays are in the order of the items |
| ReflectionFileReader.PickleContentAsWritten | iotbx/iotbx/reflection_file_reader.py:44-64 | as written, an unpickled object that cannot be iterated is kept as the file content, and `None` is never accepted |
| ReflectionFileReader.ScalarPickleAccepted | iotbx/iotbx/reflection_file_reader.py:52-79 | as written, a pickled integer makes the file a Miller array file whose arrays are that integer |
| ReflectionFileReader.PickleArrays | iotbx/iotbx/reflection_file_reader.py:44-64 | the corrected pickle branch: accepted exactly when the object is a Miller array or holds at least one, and the content is then exactly those arrays |
| ReflectionFileReader.PickleContentAgrees | iotbx/iotbx/reflection_file_reader.py:47-64 | as written and corrected accept the same objects that can be iterated, and then hold the same arrays |
| ReflectionFileReader.Open | iotbx/iotbx/reflection_file_reader.py:16-64 | an unreadable file raises, and so does a file on which the MTZ, CNS or Scalepack reader, tried before any reader accepted it, raises an exception other than the one type each catches; otherwise the file is unrecognised exactly when no reader accepts it, and otherwise has the type of the first reader, in order, that accepts it; a pickle holds the arrays of the corrected pickle branch, so an unpickled object without Miller arrays, such as a scalar the source keeps as the file content, is unrecognised here |
| ReflectionFileReader.InfoPrefix | iotbx/iotbx/reflection_file_reader.py:80-82 | the label prefix is the file name and a colon, less a leading `./` or `.\` |
| ReflectionFileReader.InfoPrefixIgnoresCurrentDirectory | iotbx/iotbx/reflection_file_reader.py:80-82 | naming a file relative to the current directory does not change its arrays' labels |
| ReflectionFileReader.AsMillerArrays | iotbx/iotbx/reflection_file_reader.py:75-86 | an unrecognised file gives no arrays, a pickle its own arrays, and any other format its reader's arrays under the symmetry and label prefix |
| ReflectionFileReader.Classify | iotbx/iotbx/reflection_file_reader.py:103-123 | an argument starting with `--` that names no option raises "Unknown option"; a non-option is added to the files; `--force_symmetry` sets the flag; `--pickle=` sets the pickle name to the text after its first `=`; `--unit_cell=`, `--space_group=` and `--extract_symmetry=` replace the symmetry parts they set and keep the others |
| ReflectionFileReader.ParseArgs | iotbx/iotbx/reflection_file_reader.py:98-124 | the loop fails exactly when some argument is an unknown option, with the message naming the first; otherwise the files are the non-options in order, the flag is set exactly when `--force_symmetry` was given, and the pickle name, the unit cell and the space group are those set by the last argument that sets each (`--extract_symmetry=` setting both symmetry parts), or absent when none does |
| ReflectionFileReader.SetByLastSnoc | iotbx/iotbx/reflection_file_reader.py:102-121 | one more argument keeps the setting of the last argument that sets it, or replaces it when it sets it itself |
| ReflectionFileReader.PickleFileName | iotbx/iotbx/reflection_file_reader.py:144-145 | the name ends with `.pickle` in any case, and gains it exactly when it did not |
| ReflectionFileReader.PickleFileNameIdempotent | iotbx/iotbx/reflection_file_reader.py:144-145 | naming the pickle twice is naming it once |
| ReflectionFileReader.PickledOf | iotbx/iotbx/reflection_file_reader.py:142-143 | exactly one array is pickled on its own, any other number as the list |
| ReflectionFileReader.CollectArrays | iotbx/iotbx/reflection_file_reader.py:125-139 | reading the files fails exactly when one of them cannot be read or makes a reader raise an exception the constructor does not catch |
| ReflectionFileReader.CollectArraysAppend | iotbx/iotbx/reflection_file_reader.py:125-139 | reading two file lists one after the other fails exactly when either fails and otherwise gives the first list's arrays followed by the second's |
| ReflectionFileReader.CollectArraysSingle | iotbx/iotbx/reflection_file_reader.py:125-139 | reading one file fails exactly when it is unreadable or a reader raises on it uncaught, and otherwise gives the arrays `as_miller_arrays` returns for it, so with the append lemma the run's arrays are the files' arrays concatenated in order |
| ReflectionFileReader.Run | iotbx/iotbx/reflection_file_reader.py:97-147 | a bad option fails the run; otherwise the run fails exactly when reading the named files fails, and its arrays are the arrays read from them; a pickle is written exactly when a pickle name was given, under that name with `.pickle` appended unless present, holding the single array on its own when there is one and the list otherwise |
| HendricksonLattman.ToStringEncodesComponents | cctbx/array_family/boost_python/flex_hendrickson_lattman.cpp:10-15 | writing one element appends the encodings of its four components in order |
| HendricksonLattman.ToString | cctbx/array_family/boost_python/flex_hendrickson_lattman.cpp:10-15 | writing one element keeps the text written so far and appends the encodings of components a, b, c and d |
| HendricksonLattman.FromString | cctbx/array_family/boost_python/flex_hendrickson_lattman.cpp:17-32 | reading one element starts where the previous ended, never passes the end of the buffer, and takes A from the first double read |
| HendricksonLattman.DecodeEncoded | cctbx/array_family/boost_python/flex_hendrickson_lattman.cpp:24-31 | with an element codec that reads back what it writes, reading doubles where their encodings were written returns them and stops right after the last |
| HendricksonLattman.FromStringToString | cctbx/array_family/boost_python/flex_hendrickson_lattman.cpp:10-32 | an element written anywhere in a buffer reads back unchanged, and reading stops exactly where writing stopped |
| HendricksonLattman.FromPhaseIntegrals | cctbx/array_family/boost_python/flex_hendrickson_lattman.cpp:42-59 | fails exactly when the two arrays differ in length; otherwise gives one coefficient set per reflection from its own flag and integral and the shared cap |

## Left out

- Numerics outside the model: Fourier transforms, structure-factor computation, the charge-flipping and low-density kernels, `randomize_phases` and the R1 factor. These are function parameters of the charge-flipping modules.
- Charge flipping also calls `search_origin` (translation and peak search), the linear regressions and correlations of the transition test, and square roots. These are function parameters too.
- The simplex minimiser of the error model, `apply_sd_error_params`, `compute_normalized_deviations` and normal quantiles are outside the model. The functional takes the normalised deviations as a parameter.
- Geometry and trigonometry are left out:
  - the hydrogens' local Cartesian frame, their sine/cosine placement and the orthogonalisation of gradients;
  - DISTL's `isIsolated`;
  - the bond's `distance_model`, a square root of a length, which enters as a value.
- Crystal-symmetry plumbing of the restraints manager (`pair_proxies`, `update_plain_pair_sym_table`, `energies_sites`, `reduce_for_tardy`, the non-crystallographic bonds and angles) is left out. It depends on asu mappings and pair tables that are not part of this model.
- The pair tables themselves are reduced to their size and the pairs they enumerate.
- Symmetry operators are opaque identifiers. The asu-mapping predicates of `bond.h` (`is_direct_interaction`, `map_moved_site_to_asu`) are parameters.
- Residue triplets and the Ramachandran evaluation are inputs to the Ramachandran model.
- The C++ `proxy_select` of a proxy array and the restraint potentials are parameters.
- Table-file loading is also outside the model. Only its `scale_allowed` guard is modelled.
- Printing, logging and plotting are left out: `show_interactions`, the bodies of `show_sorted`, the driver's prints and matplotlib. Their sorting and label checks are modelled.
- Reading SMV headers and raw bytes is left out. So are the byte-order choice and `read_uint16`. Headers arrive as string maps and pixels as integer sequences.
- `float()`, `int()`, `atoi` and `atof` are left out; they are parameters.
- The `strptime` date scan and epoch of `_scan`, the goniometer axes and the beam models of both SMV formats are left out. They are constants or calls into dxtbx factories and state nothing to prove.
- Distl.ComputeAxes: when every body pixel sits on the mean, the source divides zero by zero and yields NaN. The model reports an error there instead of a number.
- BondRestraints.Residual: states non-negativity for a non-negative weight and zero for a zero delta, but not strict positivity otherwise.
- BondRestraints.Gradients: requires a non-zero model distance, where the source's division would give an infinity.
- BondRestraints.AddGradients: requires a non-zero model distance, for the same reason.
- BondRestraints.SymResidualSum: the in-range indices of the gradient array are a precondition, since `af::ref` does not check them.
- HendricksonLattman.FromString: its own contract names only the first coefficient and the bounds of `end`. The full four-value read-back is `HendricksonLattman.FromStringToString`.
- Left out of the array-family generator:
  - the file writing of `one_type` and `run`;
  - the emitted C++ template bodies;
  - `get_template_parameter_args`, `get_template_header`, `get_template_parameters` and `get_template_header_and_parameters`, which are joins of already modelled lists;
  - `special_decl_params` and `operator_decl_params`, which are large string templates;
  - `write_copyright`.
- Left out of the reflection-file reader:
  - the five external format readers, modelled by which of them accepts a file;
  - the unpickler;
  - the parsing of `--unit_cell`, `--space_group` and `--extract_symmetry`, which keep the symmetry they produce;
  - `usage()`.
- Left out of the Hendrickson–Lattman flex array:
  - the pickle buffer size constant;
  - `__add__` and `__iadd__`, which are generic flex arithmetic;
  - the coefficient formula of the `hendrickson_lattman` constructor, which is a parameter.
- The test scripts and the Boost.Python registration files test or bind code that is not part of this model, so they are left out:
  - `iotbx/ccp4_map/tst.py`;
  - `cctbx/development/tst_cns_epsilon.py`;
  - `libtbx/tst_object_oriented_patterns.py`;
  - `mmtbx/scaling/tst_plan_sad_experiment.py`;
  - `scitbx/math/boost_python/math_ext.cpp`.
- The preparation of `f_obs` (`eliminate_sys_absent`, `expand_to_p1`, `as_non_anomalous_array`, `merge_equivalents`, `discard_sigmas`), the crystal gridding and the value of `fft_scale` are left out. Preparation is one function parameter; the model states what the iterator does with its result.
- RestraintsManager.Select: the selection of the site-symmetry table, the bond-parameter table and the shell tables is not modelled. These are symmetry-aware table operations outside this model; the model states the selection of the per-site arrays and computes `n_seq` from the proxies, but not the proxy tables' own `proxy_select`.
- GeometricHydrogen.InitialiseInContext: requires every hydrogen index to lie within the flags. `constraint_flags` is an unchecked `af::ref` (smtbx/refinement/constraints/geometric_hydrogen.h:92).
- GeometricHydrogen.Ride: requires the pivot and hydrogen indices to lie within the scatterers and the parameter map, and their site positions within the gradients. The C++ reads all of these unchecked (smtbx/refinement/constraints/geometric_hydrogen.h:143-150).
- GeometricHydrogen.ApplyShiftsAsWritten: requires `begin + ParameterCount(c) <= |shifts|`. The shifts are an unchecked `af::const_ref` (smtbx/refinement/constraints/geometric_hydrogen.h:405-420).
- GeometricHydrogen.ApplyShifts: the same precondition on the shifts, for the same reason.
- Ramachandran.NewManager: the `initialize` path of the constructor is not part of this model. It loads the tables from files, and then extracts proxies, which `Ramachandran.ExtractProxies` models. The model also assumes that the `phi_psi_targets` extension rejects `None` for the Oldfield proxy array, as Boost.Python argument conversion does.
- TimePixSU.PxToMm carries no contract of its own. Its properties are stated by the lemmas `PxToMmScales`, `PxToMmMonotone`, `PxToMmBreakpoints`, `PxToMmContinuous` and `PxToMmNonNegative`.
- No property claims bit-identical floating-point results. Every statement holds over the reals.

## Findings

| source | as written | input that shows it | evidently intended | confidence | as-written member | corrected member |
|---|---|---|---|---|---|---|
| smtbx/ab_initio/charge_flipping.py:62-75 | with `need_sorting`, the phases and weak moduli follow the sorted order, but the strong moduli come from the unsorted `self.data()[cut:]` and the indices from the unsorted `self`; the sorted `target` is never used | reflections (0,0,1) of amplitude 2 and (0,0,2) of amplitude 1, source phases 0 and 1, no weak part: (0,0,1) receives phase 1, computed for (0,0,2) | use the sorted `target` for the strong moduli and the indices, so each reflection keeps its own phase | medium, not executed | DensityModification.OszlanyiSutoAsWritten, DensityModification.OszlanyiSutoSortingCounterexample | DensityModification.OszlanyiSutoPhaseTransfer |
| mmtbx/geometry_restraints/ramachandran.py:99 | `self._oldfield_proxies, self._emsley_tables = proxies` stores the Emsley proxies as the Emsley tables and leaves the Emsley proxy list empty | a manager with one Emsley proxy: `proxy_select` of all its sites has no Emsley proxy | `self._oldfield_proxies, self._emsley_proxies = proxies` | high, not executed | Ramachandran.NewManagerAsWritten, Ramachandran.ProxySelectDropsEmsleyExample | Ramachandran.NewManager, Ramachandran.ProxySelectKeeps |
| smtbx/refinement/constraints/geometric_hydrogen.h:401-414 | the azimuth gradient is reported per degree, but the azimuth shift is added to `phi`, held in radians, without conversion | a rotating, non-stretching terminal constraint with shift 1: `azimuth()` moves by 180/pi, about 57.3 degrees | convert the shift with `pi/180` before adding it to `phi` | medium, not executed | GeometricHydrogen.ApplyShiftsAsWritten, GeometricHydrogen.RotationShiftInRadians | GeometricHydrogen.ApplyShifts |
| dxtbx/format/FormatSMVTimePix_SU.py:142-144 | `panel_size_mm = 3s + (P-2)s` counts one of a chip's two triple-width edge pixels | s = 0.055, P = 256: 14.135 mm, while `px_to_mm` across the chip gives 14.3 mm | `3s + (P-2)s + 3s`, the width `px_to_mm` gives (the values are not used later in `_detector`) | low, not executed | TimePixSU.PanelSizeMmAsWritten, TimePixSU.PanelSizeMmShort | TimePixSU.PanelSizeMm |
| iotbx/iotbx/reflection_file_reader.py:52-64 | an unpickled object that cannot be iterated makes the loop raise, the bare `except` skips the emptiness test, and the object stays as the content, so the file is typed "cctbx.miller.array" | a pickle holding the integer 7: accepted, and `as_miller_arrays` returns 7 | reject objects that hold no Miller array, leaving the file type `None` | medium, not executed | ReflectionFileReader.PickleContentAsWritten, ReflectionFileReader.ScalarPickleAccepted | ReflectionFileReader.PickleArrays |

=== FILE: af_algebras.dfy ===
/** The string helpers of the array-family algebra generator: line
    formatting of generated C++ headers, template parameter lists for the
    `tiny`, `small`, `ref` and `versa` array types, and the per-operator
    parameters of the element-wise binary algorithms. */
module AfAlgebras {
  import opened Common
  import opened Text

  // ---------------------------------------------------------------------
  // format_list

  /** Each line of `lines` behind `indent`. */
  function Indented(indent: string, lines: seq<string>): (r: seq<string>)
    ensures |r| == |lines|
    ensures forall k :: 0 <= k < |r| ==> r[k] == indent + lines[k]
  {
    seq(|lines|, k requires 0 <= k < |lines| => indent + lines[k])
  }

  /** The text the accumulating loop builds: every line but the last
      followed by a newline. */
  function ListBody(indent: string, lines: seq<string>): string
    requires |lines| > 0
  {
    if |lines| == 1 then indent + lines[0]
    else indent + lines[0] + "\n" + ListBody(indent, lines[1..])
  }

  /** `format_list(indent, list)`; an empty list fails at `list[-1]`. */
  function FormatList(indent: string, lines: seq<string>): (r: Result<string>)
    ensures r.Ok? <==> |lines| > 0
    ensures r.Ok? ==> StartsWith(r.value, indent + lines[0])
  {
    if |lines| == 0 then Err("IndexError: list index out of range")
    else Ok(ListBody(indent, lines))
  }

  lemma {:induction false} ListBodyJoins(indent: string, lines: seq<string>)
    requires |lines| > 0
    ensures ListBody(indent, lines) == JoinWith(Indented(indent, lines), "\n")
  {
    if |lines| > 1 {
      ListBodyJoins(indent, lines[1..]);
      assert Indented(indent, lines)[1..] == Indented(indent, lines[1..]);
    }
  }

  /** The formatted list splits at its newlines into exactly the indented
      input lines: there is no trailing newline and nothing else is added. */
  lemma FormatListLines(indent: string, lines: seq<string>)
    requires |lines| > 0
    requires '\n' !in indent
    requires forall k :: 0 <= k < |lines| ==> '\n' !in lines[k]
    ensures Split(FormatList(indent, lines).value, '\n') == Indented(indent, lines)
  {
    ListBodyJoins(indent, lines);
    SplitJoin(Indented(indent, lines), '\n');
  }

  // ---------------------------------------------------------------------
  // format_header

  const MaxLineLength := 79

  /** Where `format_header` breaks its first line: after the first `<`.
      Without one, `str.index` raises. */
  function OpeningBreak(rest: string): (r: Result<nat>)
    ensures r.Err? <==> '<' !in rest
    ensures r.Ok? ==> r.value < |rest| && rest[r.value] == '<' && '<' !in rest[..r.value]
  {
    match IndexOf(rest, '<')
    case None => Err("ValueError: substring not found")
    case Some(i) => Ok(i)
  }

  /** Where `format_header` breaks a later line: after the second comma,
      or after the first when there is only one. Without a comma,
      `str.index` raises. */
  function CommaBreak(rest: string): (r: Result<nat>)
    ensures r.Err? <==> ',' !in rest
    ensures r.Ok? ==> r.value < |rest| && rest[r.value] == ','
  {
    match IndexOf(rest, ',')
    case None => Err("ValueError: substring not found")
    case Some(i) =>
      match IndexOf(rest[i + 1..], ',')
      case None => Ok(i)
      case Some(j) => Ok(i + j + 1)
  }

  /** The comma break keeps at most one comma inside the line, and keeps
      none only when no comma follows. */
  lemma CommaBreakAtSecond(rest: string)
    requires CommaBreak(rest).Ok?
    ensures var b := CommaBreak(rest).value;
      (forall p, q :: 0 <= p < q < b && rest[p] == ',' ==> rest[q] != ',')
      && ((forall p :: 0 <= p < b ==> rest[p] != ',') ==> ',' !in rest[b + 1..])
  {
    var i := IndexOf(rest, ',').value;
    forall k | 0 <= k < i
      ensures rest[k] != ','
    {
      assert rest[k] == rest[..i][k];
    }
    match IndexOf(rest[i + 1..], ',')
    case None =>
    case Some(j) =>
      forall k | i < k < i + j + 1
        ensures rest[k] != ','
      {
        assert rest[k] == rest[i + 1..][..j][k - i - 1];
      }
  }

  /** The rest of the header after a break, stripped as the next line
      starts. */
  function StripRest(s: string): (r: string)
    ensures |r| <= |s|
  {
    Strip(s)
  }

  /** The break on a line with extra indentation `lei`. */
  function LineBreak(rest: string, lei: nat): (r: Result<nat>)
    ensures r.Ok? ==> r.value < |rest|
    ensures r.Ok? ==> rest[r.value] == if lei == 0 then '<' else ','
  {
    if lei == 0 then OpeningBreak(rest) else CommaBreak(rest)
  }

  /** Every piece but the last ends in the character the break was made
      after: `first` for the first piece, a comma for the others. */
  predicate BrokenAfter(pieces: seq<string>, first: char) {
    forall k :: 0 <= k < |pieces| - 1 ==>
      |pieces[k]| > 0 && pieces[k][|pieces[k]| - 1] == if k == 0 then first else ','
  }

  lemma BrokenAfterCons(piece: string, tail: seq<string>, first: char)
    requires |piece| > 0 && piece[|piece| - 1] == first
    requires BrokenAfter(tail, ',')
    ensures BrokenAfter([piece] + tail, first)
  {
    var r := [piece] + tail;
    forall k | 1 <= k < |r| - 1
      ensures |r[k]| > 0 && r[k][|r[k]| - 1] == ','
    {
      assert r[k] == tail[k - 1];
    }
  }

  /** The text of each output line of `format_header` without its
      indentation. `lei` is the length of the extra indentation, zero only
      on the first line. */
  function HeaderPieces(rest: string, lei: nat, maxLen: int): (r: Result<seq<string>>)
    ensures r.Ok? ==> |r.value| > 0
    ensures r.Ok? ==> BrokenAfter(r.value, if lei == 0 then '<' else ',')
    ensures r.Ok? ==> NoSpace(JoinWith(r.value, "")) == NoSpace(rest)
    ensures lei + |rest| <= maxLen ==> r == Ok([rest])
    decreases |rest|
  {
    if lei + |rest| <= maxLen then Ok([rest])
    else
      match LineBreak(rest, lei)
      case Err(e) => Err(e)
      case Ok(i) =>
        match HeaderPieces(StripRest(rest[i + 1..]), 2, maxLen)
        case Err(e) => Err(e)
        case Ok(tail) =>
          PiecesCons(rest, i, tail);
          Ok([rest[..i + 1]] + tail)
  }

  /** One broken-off piece in front of the pieces of the stripped rest. */
  lemma PiecesCons(rest: string, i: nat, tail: seq<string>)
    requires i < |rest| && |tail| > 0 && BrokenAfter(tail, ',')
    requires NoSpace(JoinWith(tail, "")) == NoSpace(StripRest(rest[i + 1..]))
    ensures BrokenAfter([rest[..i + 1]] + tail, rest[i])
    ensures NoSpace(JoinWith([rest[..i + 1]] + tail, "")) == NoSpace(rest)
  {
    var piece := rest[..i + 1];
    assert BrokenAfter([piece] + tail, rest[i]) by {
      assert piece[|piece| - 1] == rest[i];
      BrokenAfterCons(piece, tail, rest[i]);
    }
    assert NoSpace(JoinWith([piece] + tail, "")) == NoSpace(rest) by {
      NoSpaceStrip(rest[i + 1..]);
      PieceThenRest(rest, piece, tail, i);
    }
  }

  /** The first piece behind `indent`, every later one behind `indent`
      and two more spaces. */
  function IndentHeader(indent: string, pieces: seq<string>): (r: seq<string>)
    ensures |r| == |pieces|
  {
    seq(|pieces|, k requires 0 <= k < |pieces| =>
      if k == 0 then indent + pieces[k] else indent + "  " + pieces[k])
  }

  /** The shape of an indented header: indentation at the front, the
      break character at the end of every line but the last. */
  predicate HeaderShaped(lines: seq<string>, indent: string) {
    && |lines| > 0
    && StartsWith(lines[0], indent)
    && (forall k :: 1 <= k < |lines| ==> StartsWith(lines[k], indent + "  "))
    && (|lines| > 1 ==> EndsWith(lines[0], "<"))
    && (forall k :: 1 <= k < |lines| - 1 ==> EndsWith(lines[k], ","))
  }

  lemma IndentHeaderShaped(indent: string, pieces: seq<string>)
    requires |pieces| > 0 && BrokenAfter(pieces, '<')
    ensures HeaderShaped(IndentHeader(indent, pieces), indent)
  {
    var lines := IndentHeader(indent, pieces);
    assert lines[0][..|indent|] == indent;
    forall k | 1 <= k < |lines|
      ensures StartsWith(lines[k], indent + "  ")
    {
      assert lines[k] == (indent + "  ") + pieces[k];
      assert lines[k][..|indent + "  "|] == indent + "  ";
    }
    if |lines| > 1 {
      assert lines[0][|lines[0]| - 1..] == [pieces[0][|pieces[0]| - 1]];
    }
    forall k | 1 <= k < |lines| - 1
      ensures EndsWith(lines[k], ",")
    {
      assert lines[k][|lines[k]| - 1..] == [pieces[k][|pieces[k]| - 1]];
    }
  }

  /** `format_header(indent, str, max_line_length)`, line by line. */
  function FormatHeaderLines(indent: string, s: string, maxLineLength: int): (r: Result<seq<string>>)
    ensures |indent| + |Strip(s)| <= maxLineLength ==> r == Ok([indent + Strip(s)])
    ensures r.Ok? ==> HeaderShaped(r.value, indent)
  {
    match HeaderPieces(Strip(s), 0, maxLineLength - |indent|)
    case Err(e) => Err(e)
    case Ok(pieces) =>
      IndentHeaderShaped(indent, pieces);
      assert |pieces| == 1 ==> IndentHeader(indent, pieces) == [indent + pieces[0]];
      Ok(IndentHeader(indent, pieces))
  }

  function FormatHeader(indent: string, s: string, maxLineLength: int): (r: Result<string>)
    ensures r.Ok? <==> FormatHeaderLines(indent, s, maxLineLength).Ok?
    ensures |indent| + |Strip(s)| <= maxLineLength ==> r == Ok(indent + Strip(s))
  {
    var lines :- FormatHeaderLines(indent, s, maxLineLength);
    Ok(JoinWith(lines, "\n"))
  }

  lemma PieceThenRest(rest: string, piece: string, tail: seq<string>, i: nat)
    requires i < |rest| && piece == rest[..i + 1] && |tail| > 0
    requires NoSpace(JoinWith(tail, "")) == NoSpace(rest[i + 1..])
    ensures NoSpace(JoinWith([piece] + tail, "")) == NoSpace(rest)
  {
    assert ([piece] + tail)[1..] == tail;
    assert JoinWith([piece] + tail, "") == piece + JoinWith(tail, "") by {
      assert piece + "" == piece;
    }
    NoSpaceAppend(piece, JoinWith(tail, ""));
    assert rest == piece + rest[i + 1..];
    NoSpaceAppend(piece, rest[i + 1..]);
  }

  /** Joining decorated parts loses nothing but white space, when each
      decoration and the separator are white space. */
  lemma {:induction false} JoinKeepsText(decorated: seq<string>, parts: seq<string>, sep: string)
    requires |decorated| == |parts|
    requires NoSpace(sep) == ""
    requires forall k :: 0 <= k < |parts| ==> NoSpace(decorated[k]) == NoSpace(parts[k])
    ensures NoSpace(JoinWith(decorated, sep)) == NoSpace(JoinWith(parts, ""))
  {
    if |parts| > 1 {
      JoinKeepsText(decorated[1..], parts[1..], sep);
      NoSpaceAppend(decorated[0] + sep, JoinWith(decorated[1..], sep));
      NoSpaceAppend(decorated[0], sep);
      NoSpaceAppend(parts[0] + "", JoinWith(parts[1..], ""));
      assert parts[0] + "" == parts[0];
    }
  }

  /** Breaking a header into lines only adds or removes white space, when
      the indentation is white space: no character of the declaration is
      lost, duplicated or reordered. */
  lemma FormatHeaderKeepsText(indent: string, s: string, maxLineLength: int)
    requires NoSpace(indent) == ""
    requires FormatHeader(indent, s, maxLineLength).Ok?
    ensures NoSpace(FormatHeader(indent, s, maxLineLength).value) == NoSpace(s)
  {
    var pieces := HeaderPieces(Strip(s), 0, maxLineLength - |indent|).value;
    var lines := IndentHeader(indent, pieces);
    assert FormatHeaderLines(indent, s, maxLineLength).value == lines;
    forall k | 0 <= k < |pieces|
      ensures NoSpace(lines[k]) == NoSpace(pieces[k])
    {
      if k == 0 {
        NoSpaceAppend(indent, pieces[k]);
      } else {
        assert lines[k] == (indent + "  ") + pieces[k];
        NoSpaceAppend(indent + "  ", pieces[k]);
        NoSpaceAppend(indent, "  ");
      }
    }
    JoinKeepsText(lines, pieces, "\n");
    NoSpaceStrip(s);
  }

  // ---------------------------------------------------------------------
  // Template arguments

  /** One template parameter: its kind (`typename`, `std::size_t`) and
      its name. */
  datatype Param = Param(kind: string, name: string)

  const ElementTypeParam := Param("typename", "ElementType")
  const SizeParam := Param("std::size_t", "N")
  const AccessorParam := Param("typename", "AccessorType")

  /** `get_template_args(array_type_name)`. */
  function TemplateArgs(arrayType: string): (r: seq<Param>)
    ensures 1 <= |r| <= 2 && r[0] == ElementTypeParam
    ensures |r| == 2 <==> arrayType in ["tiny", "small", "ref", "versa"]
    ensures arrayType in ["tiny", "small"] ==> r[1] == SizeParam
    ensures arrayType in ["ref", "versa"] ==> r[1] == AccessorParam
  {
    if arrayType == "tiny" || arrayType == "small" then [ElementTypeParam, SizeParam]
    else if arrayType == "ref" || arrayType == "versa" then [ElementTypeParam, AccessorParam]
    else [ElementTypeParam]
  }

  function Numbered(p: Param, i: nat): Param {
    Param(p.kind, p.name + NatToString(i))
  }

  /** The `i`-th group of `get_numbered_template_args`: the element type
      numbered unless it is shared, the size of a `tiny` shared, every
      other parameter numbered. */
  function NumberedGroup(arrayType: string, i: nat, equalElementType: bool): (g: seq<Param>)
    ensures |g| == |TemplateArgs(arrayType)|
    ensures forall j :: 0 <= j < |g| ==> g[j].kind == TemplateArgs(arrayType)[j].kind
    ensures g[0] == if equalElementType then ElementTypeParam else Param("typename", "ElementType" + NatToString(i))
    ensures arrayType == "tiny" ==> g[1] == SizeParam
    ensures arrayType != "tiny" ==>
      forall j :: 1 <= j < |g| ==> g[j].name == TemplateArgs(arrayType)[j].name + NatToString(i)
  {
    var single := TemplateArgs(arrayType);
    var first := if equalElementType then single[0] else Numbered(single[0], i);
    if |single| == 1 then [first]
    else [first, if arrayType == "tiny" then single[1] else Numbered(single[1], i)]
  }

  /** `get_numbered_template_args(array_type_name, n_params, equal_element_type)`:
      one group per operand, numbered from 1 unless there is only one. */
  function NumberedTemplateArgs(arrayType: string, nParams: int, equalElementType: bool): (r: seq<seq<Param>>)
    ensures |r| == if nParams == 1 then 1 else if nParams < 0 then 0 else nParams
    ensures nParams == 1 ==> r == [TemplateArgs(arrayType)]
    ensures forall k :: 0 <= k < |r| ==>
      |r[k]| == |TemplateArgs(arrayType)|
      && (forall j :: 0 <= j < |r[k]| ==> r[k][j].kind == TemplateArgs(arrayType)[j].kind)
    ensures arrayType == "tiny" ==> forall k :: 0 <= k < |r| ==> |r[k]| == 2 && r[k][1] == SizeParam
    ensures equalElementType ==> forall k :: 0 <= k < |r| ==> |r[k]| > 0 && r[k][0] == ElementTypeParam
    ensures nParams != 1 && !equalElementType ==>
      forall k :: 0 <= k < |r| ==> |r[k]| > 0 && r[k][0].name == "ElementType" + NatToString(k + 1)
    ensures nParams != 1 && arrayType != "tiny" ==>
      forall k, j :: 0 <= k < |r| && 1 <= j < |r[k]| && j < |TemplateArgs(arrayType)| ==>
        r[k][j].name == TemplateArgs(arrayType)[j].name + NatToString(k + 1)
  {
    if nParams == 1 then [TemplateArgs(arrayType)]
    else
      var n := if nParams < 0 then 0 else nParams;
      var r := seq(n, k requires 0 <= k < n => NumberedGroup(arrayType, k + 1, equalElementType));
      assert forall k :: 0 <= k < n ==> r[k] == NumberedGroup(arrayType, k + 1, equalElementType);
      r
  }

  lemma NumberSuffixInjective(base: string, i: nat, j: nat)
    requires base + NatToString(i) == base + NatToString(j)
    ensures i == j
  {
    assert (base + NatToString(i))[|base|..] == NatToString(i);
    assert (base + NatToString(j))[|base|..] == NatToString(j);
    NatToStringRoundTrip(i);
    NatToStringRoundTrip(j);
  }

  /** With separate element types, no two groups share an element type
      name, so each operand of the generated function has its own type. */
  lemma NumberedElementTypesDistinct(arrayType: string, nParams: int, k: nat, l: nat)
    requires nParams != 1
    requires k < l < |NumberedTemplateArgs(arrayType, nParams, false)|
    ensures NumberedTemplateArgs(arrayType, nParams, false)[k][0]
         != NumberedTemplateArgs(arrayType, nParams, false)[l][0]
  {
    var r := NumberedTemplateArgs(arrayType, nParams, false);
    if r[k][0] == r[l][0] {
      NumberSuffixInjective("ElementType", k + 1, l + 1);
    }
  }

  // ---------------------------------------------------------------------
  // get_template_header_args

  predicate Distinct(s: seq<Param>) {
    forall i, j :: 0 <= i < j < |s| ==> s[i] != s[j]
  }

  function Flatten(groups: seq<seq<Param>>): (r: seq<Param>)
    ensures forall x :: x in r <==> exists k :: 0 <= k < |groups| && x in groups[k]
  {
    if |groups| == 0 then []
    else
      var rest := Flatten(groups[1..]);
      assert forall x :: (exists k :: 1 <= k < |groups| && x in groups[k]) ==> x in rest by {
        forall x, k | 1 <= k < |groups| && x in groups[k] ensures x in rest {
          assert groups[1..][k - 1] == groups[k];
        }
      }
      groups[0] + rest
  }

  /** The loop of `get_template_header_args`: `acc` grows by every item of
      `xs` not already in it, in order. */
  function DedupInto(acc: seq<Param>, xs: seq<Param>): (r: seq<Param>)
    ensures |acc| <= |r| && r[..|acc|] == acc
    ensures forall x :: x in r <==> x in acc || x in xs
    ensures Distinct(acc) ==> Distinct(r)
    decreases |xs|
  {
    if |xs| == 0 then acc
    else if xs[0] in acc then DedupInto(acc, xs[1..])
    else
      var r := DedupInto(acc + [xs[0]], xs[1..]);
      assert (acc + [xs[0]])[..|acc|] == acc;
      assert r[..|acc|] == r[..|acc| + 1][..|acc|];
      r
  }

  /** The position of the first occurrence of `x` in `xs`. */
  function FirstPos(xs: seq<Param>, x: Param): (r: nat)
    requires x in xs
    ensures r < |xs| && xs[r] == x && x !in xs[..r]
  {
    if xs[0] == x then 0
    else
      var k := FirstPos(xs[1..], x);
      assert xs[..k + 1] == [xs[0]] + xs[1..][..k];
      k + 1
  }

  /** The first occurrence is the only position before which `x` is absent. */
  lemma FirstPosUnique(xs: seq<Param>, x: Param, k: nat)
    requires k < |xs| && xs[k] == x && x !in xs[..k]
    ensures FirstPos(xs, x) == k
  {
    var p := FirstPos(xs, x);
    forall i | 0 <= i < k ensures xs[i] != x {
      assert xs[..k][i] == xs[i];
    }
    forall i | 0 <= i < p ensures xs[i] != x {
      assert xs[..p][i] == xs[i];
    }
  }

  /** `r` lists its items in the order in which they first occur in `xs`. */
  predicate InFirstOccurrenceOrder(r: seq<Param>, xs: seq<Param>) {
    forall i, j :: 0 <= i < j < |r| ==>
      r[i] in xs && r[j] in xs && FirstPos(xs, r[i]) < FirstPos(xs, r[j])
  }

  /** Dropping an item already in `acc` from the head of `xs` shifts every
      first occurrence past `acc` down by one and leaves the others. */
  lemma FirstPosSkipSeen(acc: seq<Param>, xs: seq<Param>, y: Param)
    requires |xs| > 0 && xs[0] in acc && y in acc + xs[1..]
    ensures y in acc + xs
    ensures var q := FirstPos(acc + xs[1..], y);
      FirstPos(acc + xs, y) == if q < |acc| then q else q + 1
  {
    var q := FirstPos(acc + xs[1..], y);
    if q < |acc| {
      assert (acc + xs)[..q] == acc[..q] == (acc + xs[1..])[..q];
      FirstPosUnique(acc + xs, y, q);
    } else {
      var t := xs[1..][..q - |acc|];
      assert (acc + xs[1..])[..q] == acc + t;
      assert (acc + xs)[..q + 1] == acc + [xs[0]] + t;
      assert y !in acc;
      FirstPosUnique(acc + xs, y, q + 1);
    }
  }

  /** The loop appends items in the order of their first occurrence. */
  lemma {:induction false} DedupIntoOrder(acc: seq<Param>, xs: seq<Param>)
    requires Distinct(acc)
    ensures InFirstOccurrenceOrder(DedupInto(acc, xs), acc + xs)
    decreases |xs|
  {
    var r := DedupInto(acc, xs);
    if |xs| == 0 {
      assert acc + xs == acc;
      forall i | 0 <= i < |acc| ensures FirstPos(acc, acc[i]) == i {
        FirstPosUnique(acc, acc[i], i);
      }
    } else if xs[0] in acc {
      DedupIntoOrder(acc, xs[1..]);
      forall i, j | 0 <= i < j < |r|
        ensures r[i] in acc + xs && r[j] in acc + xs
          && FirstPos(acc + xs, r[i]) < FirstPos(acc + xs, r[j])
      {
        FirstPosSkipSeen(acc, xs, r[i]);
        FirstPosSkipSeen(acc, xs, r[j]);
      }
    } else {
      assert acc + [xs[0]] + xs[1..] == acc + xs;
      DedupIntoOrder(acc + [xs[0]], xs[1..]);
    }
  }

  /** `get_template_header_args(numbered_template_args)`: every parameter
      of every group, each once, in order of first appearance. */
  function TemplateHeaderArgs(groups: seq<seq<Param>>): (r: seq<Param>)
    ensures Distinct(r)
    ensures forall p :: p in r <==> exists k :: 0 <= k < |groups| && p in groups[k]
    ensures InFirstOccurrenceOrder(r, Flatten(groups))
  {
    var flat := Flatten(groups);
    DedupIntoOrder([], flat);
    assert [] + flat == flat;
    DedupInto([], flat)
  }

  /** The dedup keeps the order: on input that already has no repeats it
      changes nothing. */
  lemma {:induction false} DedupIntoDistinct(acc: seq<Param>, xs: seq<Param>)
    requires Distinct(acc + xs)
    ensures DedupInto(acc, xs) == acc + xs
    decreases |xs|
  {
    if |xs| > 0 {
      assert (acc + xs)[|acc|] == xs[0];
      forall i | 0 <= i < |acc|
        ensures acc[i] != xs[0]
      {
        assert (acc + xs)[i] == acc[i];
      }
      assert acc + [xs[0]] + xs[1..] == acc + xs;
      DedupIntoDistinct(acc + [xs[0]], xs[1..]);
    }
  }

  /** An item already collected adds nothing at the end. */
  lemma DedupIntoRepeat(acc: seq<Param>, x: Param)
    requires x in acc
    ensures DedupInto(acc, [x]) == acc
  {
    assert [x][1..] == [];
  }

  lemma DedupIntoAppend(acc: seq<Param>, xs: seq<Param>, x: Param)
    ensures DedupInto(acc, xs + [x]) == DedupInto(DedupInto(acc, xs), [x])
    decreases |xs|
  {
    if |xs| > 0 {
      assert (xs + [x])[1..] == xs[1..] + [x];
      if xs[0] in acc {
        DedupIntoAppend(acc, xs[1..], x);
      } else {
        DedupIntoAppend(acc + [xs[0]], xs[1..], x);
      }
    } else {
      assert xs + [x] == [x];
    }
  }

  /** Deduplicating twice is deduplicating once. */
  lemma DedupIdempotent(xs: seq<Param>)
    ensures DedupInto([], DedupInto([], xs)) == DedupInto([], xs)
  {
    var once := DedupInto([], xs);
    assert [] + once == once;
    DedupIntoDistinct([], once);
  }

  /** A binary `tiny` operation on two element types: the size parameter
      is shared, so the header lists it once. */
  lemma TinyBinaryHeader()
    ensures TemplateHeaderArgs(NumberedTemplateArgs("tiny", 2, false))
         == [Param("typename", "ElementType1"), SizeParam, Param("typename", "ElementType2")]
  {
    var distinct := [Param("typename", "ElementType1"), SizeParam, Param("typename", "ElementType2")];
    TinyBinaryFlat();
    TinyBinaryDistinct();
    assert [] + distinct == distinct;
    DedupIntoDistinct([], distinct);
    DedupIntoAppend([], distinct, SizeParam);
    DedupIntoRepeat(distinct, SizeParam);
  }

  /** The groups of a binary `tiny` operation, one after the other. */
  lemma TinyBinaryFlat()
    ensures Flatten(NumberedTemplateArgs("tiny", 2, false))
         == [Param("typename", "ElementType1"), SizeParam, Param("typename", "ElementType2")] + [SizeParam]
  {
    var e1, e2 := Param("typename", "ElementType1"), Param("typename", "ElementType2");
    var g := NumberedTemplateArgs("tiny", 2, false);
    assert NatToString(1) == "1" && NatToString(2) == "2";
    assert "ElementType" + "1" == "ElementType1" && "ElementType" + "2" == "ElementType2";
    assert g[0] == [e1, SizeParam] && g[1] == [e2, SizeParam];
    assert g[1..][1..] == [];
  }

  lemma TinyBinaryDistinct()
    ensures Distinct([Param("typename", "ElementType1"), SizeParam, Param("typename", "ElementType2")])
  {
    assert "ElementType1"[11] != "ElementType2"[11];
    assert "typename" != SizeParam.kind by {
      assert "typename"[0] != SizeParam.kind[0];
    }
  }

  // ---------------------------------------------------------------------
  // Return and argument array types

  /** `derive_return_array_type_simple(param)`: for a `small` array the
      size `N1` becomes the smaller of the two operand sizes. */
  function DeriveReturnArrayTypeSimple(param: string): (r: string)
    ensures !StartsWith(param, "small") ==> r == param
    ensures StartsWith(param, "small") ==> StartsWith(r, "small")
  {
    if !StartsWith(param, "small") then param
    else
      var r := Replace(param, "N1", "(N1<N2?N1:N2)");
      assert param == "small" + param[5..];
      ReplaceKeepsPrefix("small", param[5..], "N1", "(N1<N2?N1:N2)");
      assert (r)[..5] == "small";
      r
  }

  /** On a `small<E, N1>` type the size `N1` is replaced by the smaller of
      the two operand sizes, and the element type is kept. */
  lemma DeriveSmallTakesMinSize(e: string)
    requires 'N' !in e
    ensures DeriveReturnArrayTypeSimple("small<" + e + ", N1>") == "small<" + e + ", (N1<N2?N1:N2)>"
  {
    var p := "small<" + e + ", ";
    assert "small<" + e + ", N1>" == p + "N1>";
    forall i | 0 <= i < |p| ensures p[i] != 'N' {
      if 6 <= i < 6 + |e| {
        assert p[i] == e[i - 6];
      }
    }
    ReplaceKeepsPrefix(p, "N1>", "N1", "(N1<N2?N1:N2)");
    assert "N1>"[..2] == "N1" && "N1>"[2..] == ">";
    assert p + "(N1<N2?N1:N2)>" == "small<" + e + ", (N1<N2?N1:N2)>";
  }

  /** A `small` type that does not mention `N1` keeps its form. */
  lemma DeriveWithoutN1(param: string)
    requires forall i :: !OccursAt(param, "N1", i)
    ensures DeriveReturnArrayTypeSimple(param) == param
  {
    if StartsWith(param, "small") {
      ReplaceAbsent(param, "N1", "(N1<N2?N1:N2)");
    }
  }

  /** The template id before the `>>` fix: `array<element, addl...>`. */
  function PlainWrap(arrayType: string, elementType: string, addl: seq<string>): string {
    arrayType + "<" + JoinWith([elementType] + addl, ", ") + ">"
  }

  /** `wrap_element_type`: a closing `>>` (a C++98 lexing hazard) gets a
      space between the brackets. */
  function WrapElementType(arrayType: string, elementType: string, addl: seq<string>): (r: string)
    ensures !EndsWith(r, ">>")
    ensures StartsWith(r, arrayType + "<") && EndsWith(r, ">")
    ensures !EndsWith(PlainWrap(arrayType, elementType, addl), ">>") ==>
      r == PlainWrap(arrayType, elementType, addl)
    ensures NoSpace(r) == NoSpace(PlainWrap(arrayType, elementType, addl))
  {
    var head := arrayType + "<" + JoinWith([elementType] + addl, ", ");
    var plain := head + ">";
    assert plain == PlainWrap(arrayType, elementType, addl);
    assert plain[..|arrayType + "<"|] == arrayType + "<";
    if EndsWith(plain, ">>") then
      var r := plain[..|plain| - 1] + " >";
      assert plain[..|plain| - 1] == head;
      assert r[..|arrayType + "<"|] == arrayType + "<";
      assert r[|r| - 2..] == " >";
      NoSpaceAppend(head, " >");
      NoSpaceAppend(head, ">");
      NoSpaceAppend(" ", ">");
      r
    else plain
  }

  // ---------------------------------------------------------------------
  // Binary algorithm parameters

  /** The operand, 1 or 2, whose size a binary operation uses: the first
      when its flag is set, else the second. */
  function SizedOperand(flag0: int): (r: nat)
    ensures r == 1 || r == 2
    ensures r == 1 <==> flag0 % 2 == 1
  {
    (flag0 + 1) % 2 + 1
  }

  function OperandName(k: nat): string {
    "a" + NatToString(k)
  }

  /** `get_result_constructor_args(array_type_name, type_flags)`; `None`
      for the unary case, which names its single operand `a`. */
  function ResultConstructorArgs(arrayType: string, typeFlags: Option<(int, int)>): (r: string)
    ensures r == "" <==> arrayType == "tiny"
    ensures var name := if typeFlags.None? then "a" else if typeFlags.value.0 % 2 == 1 then "a1" else "a2";
      && (arrayType == "versa" ==> r == "(" + name + ".accessor(), reserve_flag())")
      && (arrayType != "tiny" && arrayType != "versa" ==> r == "(" + name + ".size(), reserve_flag())")
    ensures arrayType != "tiny" ==> StartsWith(r, "(" + (
      if typeFlags.None? then "a" else OperandName(SizedOperand(typeFlags.value.0))) + ".")
  {
    var name := if typeFlags.None? then "a" else OperandName(SizedOperand(typeFlags.value.0));
    if arrayType == "tiny" then ""
    else if arrayType == "versa" then
      var r := "(" + name + ".accessor(), reserve_flag())";
      assert r[..|"(" + name + "."|] == "(" + name + ".";
      r
    else
      var r := "(" + name + ".size(), reserve_flag())";
      assert r[..|"(" + name + "."|] == "(" + name + ".";
      r
  }

  /** `"sa"[flag]` with Python's negative indices; out of range raises. */
  function FlagLetter(flag: int): (r: Result<char>)
    ensures r.Ok? <==> -2 <= flag < 2
    ensures r.Ok? ==> (r.value == 'a' <==> flag % 2 == 1) && (r.value == 's' <==> flag % 2 == 0)
  {
    if 0 <= flag < 2 then Ok("sa"[flag])
    else if -2 <= flag < 0 then Ok("sa"[flag + 2])
    else Err("IndexError: string index out of range")
  }

  /** The parameters `binary_operator_algo_params` fills in. */
  datatype AlgoParams = AlgoParams(
    loopN: string,
    sizeAssert: string,
    resultConstructorArgs: string,
    setSizeBackDoor: string,
    begin: seq<string>,
    typeFlagsCode: string)

  const SizeAssert := "if (a1.size() != a2.size()) throw_range_error();\n    "

  /** `binary_operator_algo_params(array_type_name, type_flags)`. A flag
      set means that operand is an array, clear means a scalar. */
  function BinaryOperatorAlgoParams(arrayType: string, flag0: int, flag1: int): (r: Result<AlgoParams>)
    ensures r.Ok? <==> -2 <= flag0 < 2 && -2 <= flag1 < 2
    ensures r.Ok? ==> (r.value.sizeAssert != "" <==> arrayType != "tiny" && flag0 == 1 && flag1 == 1)
    ensures r.Ok? ==> (r.value.resultConstructorArgs == "" <==> arrayType == "tiny")
    ensures r.Ok? && arrayType == "tiny" ==> r.value.loopN == "N" && r.value.setSizeBackDoor == ""
    ensures r.Ok? && arrayType != "tiny" ==>
      var name := OperandName(SizedOperand(flag0));
      r.value.loopN == name + ".size()"
      && StartsWith(r.value.resultConstructorArgs, "(" + name + ".")
    ensures r.Ok? ==>
      |r.value.begin| == 2
      && (r.value.begin[0] == ".begin()" <==> flag0 != 0) && (r.value.begin[0] == "" <==> flag0 == 0)
      && (r.value.begin[1] == ".begin()" <==> flag1 != 0) && (r.value.begin[1] == "" <==> flag1 == 0)
    ensures r.Ok? ==> |r.value.typeFlagsCode| == 3 && r.value.typeFlagsCode[1] == '_'
  {
    var tiny := arrayType == "tiny";
    var loopN := if tiny then "N" else OperandName(SizedOperand(flag0)) + ".size()";
    var sizeAssert := if !tiny && flag0 == 1 && flag1 == 1 then SizeAssert else "";
    var ctorArgs := if tiny then "" else ResultConstructorArgs(arrayType, Some((flag0, flag1)));
    var backDoor := if tiny then "" else "result.set_size_back_door(" + loopN + ");\n    ";
    var begin := [if flag0 != 0 then ".begin()" else "", if flag1 != 0 then ".begin()" else ""];
    var c0 :- FlagLetter(flag0);
    var c1 :- FlagLetter(flag1);
    Ok(AlgoParams(loopN, sizeAssert, ctorArgs, backDoor, begin, [c0, '_', c1]))
  }

  /** Reading the flags back from `type_flags_code`. */
  function DecodeTypeFlags(code: string): (int, int)
    requires |code| == 3
  {
    (if code[0] == 'a' then 1 else 0, if code[2] == 'a' then 1 else 0)
  }

  /** For array/scalar flags the code names the flags exactly: `a_a`,
      `a_s` and `s_a` for the three operator shapes, and it decodes back. */
  lemma TypeFlagsCodeRoundTrip(arrayType: string, flag0: int, flag1: int)
    requires flag0 in {0, 1} && flag1 in {0, 1}
    ensures BinaryOperatorAlgoParams(arrayType, flag0, flag1).Ok?
    ensures DecodeTypeFlags(BinaryOperatorAlgoParams(arrayType, flag0, flag1).value.typeFlagsCode) == (flag0, flag1)
    ensures (flag0, flag1) == (1, 1) ==> BinaryOperatorAlgoParams(arrayType, flag0, flag1).value.typeFlagsCode == "a_a"
    ensures (flag0, flag1) == (1, 0) ==> BinaryOperatorAlgoParams(arrayType, flag0, flag1).value.typeFlagsCode == "a_s"
    ensures (flag0, flag1) == (0, 1) ==> BinaryOperatorAlgoParams(arrayType, flag0, flag1).value.typeFlagsCode == "s_a"
  {
  }

  /** For every operator shape with at least one array operand, the loop
      count and the result's size come from an operand that is an array. */
  lemma SizedFromAnArray(arrayType: string, flag0: int, flag1: int)
    requires (flag0, flag1) in {(1, 1), (1, 0), (0, 1)}
    requires arrayType != "tiny"
    ensures BinaryOperatorAlgoParams(arrayType, flag0, flag1).Ok?
    ensures var k := SizedOperand(flag0);
      (if k == 1 then flag0 else flag1) == 1
      && BinaryOperatorAlgoParams(arrayType, flag0, flag1).value.loopN == OperandName(k) + ".size()"
  {
  }
}

=== FILE: bond_restraints.dfy ===
/** Bond restraints of cctbx/include/cctbx/restraints/bond.h: the proxies,
    the residual w * delta^2 and its opposite gradients, the routing of
    symmetry proxies by `bond_sorted_proxies::process`, the residual sum
    over symmetry proxies, and the symmetric neighbour sets `bond_sets`.

    The vector length (a square root) and the asu mappings
    (`is_direct_interaction`, `map_moved_site_to_asu`, `r_inv_cart`) are
    not part of this model: they enter as function parameters. */
module BondRestraints {
  import opened Common

  /** A restraint between sites `i` and `j` of the asymmetric unit. */
  datatype BondProxy = BondProxy(i: nat, j: nat, distanceIdeal: real, weight: real)

  /** A pair from the asu mappings: site `jSeq` under symmetry operation
      `jSym` (0 is the identity). */
  datatype AsuPair = AsuPair(iSeq: nat, jSeq: nat, jSym: nat)

  datatype BondSymProxy = BondSymProxy(pair: AsuPair, distanceIdeal: real, weight: real)

  /** `bond_sym_proxy::as_bond_proxy`: forgets the symmetry operation. */
  function AsBondProxy(p: BondSymProxy): (r: BondProxy)
    ensures r.i == p.pair.iSeq && r.j == p.pair.jSeq
    ensures r.distanceIdeal == p.distanceIdeal && r.weight == p.weight
  {
    BondProxy(p.pair.iSeq, p.pair.jSeq, p.distanceIdeal, p.weight)
  }

  // ---------------------------------------------------------------------
  // The restraint

  /** A bond restraint; `distanceModel` is the length of site0 - site1. */
  datatype Bond = Bond(site0: Vec3, site1: Vec3, distanceIdeal: real, weight: real,
                       distanceModel: real, delta: real)

  /** The constructor from two sites; `length` is the vector norm. */
  function NewBond(site0: Vec3, site1: Vec3, distanceIdeal: real, weight: real,
                   length: Vec3 -> real): (r: Bond)
    ensures r.site0 == site0 && r.site1 == site1
    ensures r.distanceIdeal == distanceIdeal && r.weight == weight
    ensures r.distanceModel == length(Sub(site0, site1))
    ensures r.distanceModel + r.delta == distanceIdeal
    ensures r.delta == 0.0 <==> length(Sub(site0, site1)) == distanceIdeal
  {
    var d := length(Sub(site0, site1));
    Bond(site0, site1, distanceIdeal, weight, d, distanceIdeal - d)
  }

  /** The constructor from a proxy: both indices must be sites. */
  function BondFromProxy(sitesCart: seq<Vec3>, p: BondProxy, length: Vec3 -> real): (r: Result<Bond>)
    ensures r.Ok? <==> p.i < |sitesCart| && p.j < |sitesCart|
    ensures r.Ok? ==>
      (r.value.site0 == sitesCart[p.i] && r.value.site1 == sitesCart[p.j]
       && r.value.distanceIdeal == p.distanceIdeal && r.value.weight == p.weight
       && r.value.delta == p.distanceIdeal - r.value.distanceModel)
  {
    if p.i >= |sitesCart| || p.j >= |sitesCart| then Err("i_seq < sites_cart.size()")
    else Ok(NewBond(sitesCart[p.i], sitesCart[p.j], p.distanceIdeal, p.weight, length))
  }

  /** `residual()`: weight * delta^2, never negative for a non-negative
      weight and zero where the model distance is the ideal one. */
  function Residual(b: Bond): (r: real)
    ensures b.weight >= 0.0 ==> r >= 0.0
    ensures b.delta == 0.0 ==> r == 0.0
  {
    b.weight * (b.delta * b.delta)
  }

  /** `gradient_0()`: -2 w delta / d * (site0 - site1).  A zero model
      distance gives IEEE infinities in the source and is excluded. */
  function Gradient0(b: Bond): (r: Vec3)
    requires b.distanceModel != 0.0
    ensures Scale(b.distanceModel, r) == Scale(-2.0 * b.weight * b.delta, Sub(b.site0, b.site1))
    ensures b.delta == 0.0 || b.weight == 0.0 || b.site0 == b.site1 ==> r == Zero
  {
    Scale(-b.weight * 2.0 * b.delta / b.distanceModel, Sub(b.site0, b.site1))
  }

  /** `gradients()`: the gradients on the two sites. */
  function Gradients(b: Bond): (r: (Vec3, Vec3))
    requires b.distanceModel != 0.0
    ensures Add(r.0, r.1) == Zero
    ensures r.0 == Gradient0(b)
  {
    var g := Gradient0(b);
    (g, Neg(g))
  }

  /** Componentwise sum of a gradient array. */
  function VecSum(s: seq<Vec3>): Vec3
    decreases |s|
  {
    if |s| == 0 then Zero else Add(VecSum(s[..|s| - 1]), s[|s| - 1])
  }

  lemma {:induction false} VecSumUpdate(s: seq<Vec3>, i: nat, v: Vec3)
    requires i < |s|
    ensures VecSum(s[i := Add(s[i], v)]) == Add(VecSum(s), v)
    decreases |s|
  {
    var t := s[i := Add(s[i], v)];
    if i == |s| - 1 {
      assert t[..|t| - 1] == s[..|s| - 1];
    } else {
      assert t[..|t| - 1] == s[..|s| - 1][i := Add(s[i], v)];
      VecSumUpdate(s[..|s| - 1], i, v);
    }
  }

  /** `add_gradients(gradient_array, i_seqs)`: g0 at i, -g0 at j; the
      total gradient is unchanged and nothing else moves. */
  function AddGradients(b: Bond, gradients: seq<Vec3>, i: nat, j: nat): (r: seq<Vec3>)
    requires b.distanceModel != 0.0
    requires i < |gradients| && j < |gradients|
    ensures |r| == |gradients|
    ensures VecSum(r) == VecSum(gradients)
    ensures forall k :: 0 <= k < |r| && k != i && k != j ==> r[k] == gradients[k]
    ensures i != j ==> r[i] == Add(gradients[i], Gradient0(b)) && r[j] == Add(gradients[j], Neg(Gradient0(b)))
  {
    var g := Gradient0(b);
    var first := gradients[i := Add(gradients[i], g)];
    VecSumUpdate(gradients, i, g);
    VecSumUpdate(first, j, Neg(g));
    first[j := Add(first[j], Neg(g))]
  }

  // ---------------------------------------------------------------------
  // `bond_sorted_proxies`

  datatype SortedProxies = SortedProxies(proxies: seq<BondProxy>, symProxies: seq<BondSymProxy>)

  function NTotal(s: SortedProxies): nat {
    |s.proxies| + |s.symProxies|
  }

  /** `process(bond_proxy)`: always a plain proxy, never a symmetry one. */
  function ProcessPlain(s: SortedProxies, p: BondProxy): (r: (SortedProxies, bool))
    ensures r.0.proxies == s.proxies + [p] && r.0.symProxies == s.symProxies
    ensures !r.1
    ensures NTotal(r.0) == NTotal(s) + 1
  {
    (SortedProxies(s.proxies + [p], s.symProxies), false)
  }

  /** A direct interaction is kept once, from the end with the identity
      operation or the smaller index. */
  predicate KeepsDirect(pair: AsuPair) {
    pair.jSym == 0 || pair.iSeq < pair.jSeq
  }

  /** `process(bond_sym_proxy)`: a direct pair becomes a plain proxy (if
      kept); any other pair is stored as a symmetry proxy and the call
      answers true. */
  function ProcessSym(s: SortedProxies, p: BondSymProxy, isDirect: AsuPair -> bool): (r: (SortedProxies, bool))
    ensures r.1 <==> !isDirect(p.pair)
    ensures r.1 ==> r.0 == SortedProxies(s.proxies, s.symProxies + [p])
    ensures !r.1 && KeepsDirect(p.pair) ==> r.0 == SortedProxies(s.proxies + [AsBondProxy(p)], s.symProxies)
    ensures !r.1 && !KeepsDirect(p.pair) ==> r.0 == s
    ensures NTotal(s) <= NTotal(r.0) <= NTotal(s) + 1
  {
    if isDirect(p.pair) then
      if KeepsDirect(p.pair) then (SortedProxies(s.proxies + [AsBondProxy(p)], s.symProxies), false)
      else (s, false)
    else (SortedProxies(s.proxies, s.symProxies + [p]), true)
  }

  /** Processing a list of symmetry proxies one after the other. */
  function ProcessAll(s: SortedProxies, ps: seq<BondSymProxy>, isDirect: AsuPair -> bool): SortedProxies
    decreases |ps|
  {
    if |ps| == 0 then s else ProcessAll(ProcessSym(s, ps[0], isDirect).0, ps[1..], isDirect)
  }

  /** How many of `ps` end up as symmetry proxies, and how many as plain. */
  function CountSym(ps: seq<BondSymProxy>, isDirect: AsuPair -> bool): nat
    decreases |ps|
  {
    if |ps| == 0 then 0 else (if isDirect(ps[0].pair) then 0 else 1) + CountSym(ps[1..], isDirect)
  }

  function CountKept(ps: seq<BondSymProxy>, isDirect: AsuPair -> bool): nat
    decreases |ps|
  {
    if |ps| == 0 then 0
    else (if isDirect(ps[0].pair) && KeepsDirect(ps[0].pair) then 1 else 0) + CountKept(ps[1..], isDirect)
  }

  /** After processing `ps`, the symmetry list has grown by exactly the
      non-direct pairs and the plain list by exactly the kept direct pairs,
      both keeping what was there; so `n_total` grows by at most |ps|. */
  lemma {:induction false} ProcessAllRoutes(s: SortedProxies, ps: seq<BondSymProxy>, isDirect: AsuPair -> bool)
    ensures var r := ProcessAll(s, ps, isDirect);
      |r.symProxies| == |s.symProxies| + CountSym(ps, isDirect)
      && |r.proxies| == |s.proxies| + CountKept(ps, isDirect)
      && r.symProxies[..|s.symProxies|] == s.symProxies
      && r.proxies[..|s.proxies|] == s.proxies
      && NTotal(s) <= NTotal(r) <= NTotal(s) + |ps|
    ensures forall k :: 0 <= k < |ps| && !isDirect(ps[k].pair) ==> ps[k] in ProcessAll(s, ps, isDirect).symProxies
    decreases |ps|
  {
    if |ps| > 0 {
      var s1 := ProcessSym(s, ps[0], isDirect).0;
      ProcessAllRoutes(s1, ps[1..], isDirect);
      var r := ProcessAll(s1, ps[1..], isDirect);
      assert r.symProxies[..|s.symProxies|] == r.symProxies[..|s1.symProxies|][..|s.symProxies|];
      assert r.proxies[..|s.proxies|] == r.proxies[..|s1.proxies|][..|s.proxies|];
      forall k | 0 <= k < |ps| && !isDirect(ps[k].pair)
        ensures ps[k] in r.symProxies
      {
        if k == 0 {
          assert s1.symProxies[|s.symProxies|] == ps[0];
          assert r.symProxies[..|s1.symProxies|][|s.symProxies|] == ps[0];
        } else {
          assert ps[1..][k - 1] == ps[k];
        }
      }
    }
  }

  // ---------------------------------------------------------------------
  // Residual sum over symmetry proxies

  /** The weight of a symmetry proxy in the sum: a pair that crosses to a
      symmetry copy is seen from both ends and counts half. */
  function SymFactor(p: BondSymProxy): real {
    if p.pair.jSym == 0 then 1.0 else 0.5
  }

  function Halved(p: BondSymProxy, residual: real): real {
    if p.pair.jSym == 0 then residual else residual * 0.5
  }

  /** Reference: the sum, from the front, of each proxy's residual counted
      half when `j_sym != 0`. */
  function SymResidualTotal(ps: seq<BondSymProxy>, residualOf: BondSymProxy -> real): real
    decreases |ps|
  {
    if |ps| == 0 then 0.0
    else SymResidualTotal(ps[..|ps| - 1], residualOf) + Halved(ps[|ps| - 1], residualOf(ps[|ps| - 1]))
  }

  /** Every proxy touches only sites of the gradient array. */
  predicate InSites(ps: seq<BondSymProxy>, n: nat) {
    forall k :: 0 <= k < |ps| ==> ps[k].pair.iSeq < n && ps[k].pair.jSeq < n
  }

  /** Site `k` is touched by a proxy: as `i_seq`, or as `j_seq` of a pair
      with the identity operation. */
  predicate Touched(ps: seq<BondSymProxy>, k: nat) {
    exists l :: 0 <= l < |ps| && (ps[l].pair.iSeq == k || (ps[l].pair.jSym == 0 && ps[l].pair.jSeq == k))
  }

  /** What proxy `p` adds to site `k`: its `i_seq` gradient where `k` is
      `i_seq`, and minus its `j_seq` gradient where `k` is `j_seq` of a pair
      with the identity operation. */
  function SymShare(p: BondSymProxy, gradI: BondSymProxy -> Vec3, gradJ: BondSymProxy -> Vec3, k: nat): Vec3 {
    var own := p.pair.iSeq == k;
    var other := p.pair.jSym == 0 && p.pair.jSeq == k;
    if own && other then Add(gradI(p), Neg(gradJ(p)))
    else if own then gradI(p)
    else if other then Neg(gradJ(p))
    else Zero
  }

  /** Reference: everything the proxies add to site `k`, in order. */
  function SymGradientAt(ps: seq<BondSymProxy>, gradI: BondSymProxy -> Vec3, gradJ: BondSymProxy -> Vec3, k: nat): Vec3
    decreases |ps|
  {
    if |ps| == 0 then Zero
    else Add(SymGradientAt(ps[..|ps| - 1], gradI, gradJ, k), SymShare(ps[|ps| - 1], gradI, gradJ, k))
  }

  /** One proxy's two increments of a non-empty gradient array. */
  function AddSymGradients(g: seq<Vec3>, p: BondSymProxy, gradI: BondSymProxy -> Vec3, gradJ: BondSymProxy -> Vec3): (r: seq<Vec3>)
    requires p.pair.iSeq < |g| && p.pair.jSeq < |g|
    ensures |r| == |g|
    ensures forall k :: 0 <= k < |g| ==> r[k] == Add(g[k], SymShare(p, gradI, gradJ, k))
    ensures forall k :: 0 <= k < |g| && k != p.pair.iSeq && !(p.pair.jSym == 0 && k == p.pair.jSeq) ==> r[k] == g[k]
  {
    var first := g[p.pair.iSeq := Add(g[p.pair.iSeq], gradI(p))];
    if p.pair.jSym == 0 then first[p.pair.jSeq := Add(first[p.pair.jSeq], Neg(gradJ(p)))] else first
  }

  /** One more proxy adds its share to the accumulated gradients. */
  lemma SymGradientStep(ps: seq<BondSymProxy>, n: nat, gradients: seq<Vec3>, g: seq<Vec3>, g': seq<Vec3>,
                        gradI: BondSymProxy -> Vec3, gradJ: BondSymProxy -> Vec3)
    requires n < |ps| && |g| == |gradients| == |g'|
    requires forall k :: 0 <= k < |g| ==> g[k] == Add(gradients[k], SymGradientAt(ps[..n], gradI, gradJ, k))
    requires forall k :: 0 <= k < |g| ==> g'[k] == Add(g[k], SymShare(ps[n], gradI, gradJ, k))
    ensures forall k :: 0 <= k < |g| ==> g'[k] == Add(gradients[k], SymGradientAt(ps[..n + 1], gradI, gradJ, k))
  {
    var prefix := ps[..n + 1];
    assert prefix[..n] == ps[..n] && prefix[n] == ps[n];
    forall k | 0 <= k < |g|
      ensures g'[k] == Add(gradients[k], SymGradientAt(prefix, gradI, gradJ, k))
    {
      var before := SymGradientAt(ps[..n], gradI, gradJ, k);
      var share := SymShare(ps[n], gradI, gradJ, k);
      assert SymGradientAt(prefix, gradI, gradJ, k) == Add(before, share);
      AddAssociative(gradients[k], before, share);
    }
  }

  /** The gradients after proxy `n`, given those after the proxies before it. */
  function NextSymGradients(ps: seq<BondSymProxy>, n: nat, gradients: seq<Vec3>, g: seq<Vec3>,
                            gradI: BondSymProxy -> Vec3, gradJ: BondSymProxy -> Vec3): (g': seq<Vec3>)
    requires n < |ps| && |g| == |gradients| && ps[n].pair.iSeq < |g| && ps[n].pair.jSeq < |g|
    requires forall k :: 0 <= k < |g| ==> g[k] == Add(gradients[k], SymGradientAt(ps[..n], gradI, gradJ, k))
    ensures |g'| == |g|
    ensures forall k :: 0 <= k < |g| ==> g'[k] == Add(gradients[k], SymGradientAt(ps[..n + 1], gradI, gradJ, k))
  {
    var g' := AddSymGradients(g, ps[n], gradI, gradJ);
    SymGradientStep(ps, n, gradients, g, g', gradI, gradJ);
    g'
  }

  lemma AddAssociative(a: Vec3, b: Vec3, c: Vec3)
    ensures Add(Add(a, b), c) == Add(a, Add(b, c))
  {
  }

  /** The proxies add nothing to a site none of them touches. */
  lemma {:induction false} UntouchedGetsNothing(ps: seq<BondSymProxy>, gradI: BondSymProxy -> Vec3, gradJ: BondSymProxy -> Vec3, k: nat)
    requires !Touched(ps, k)
    ensures SymGradientAt(ps, gradI, gradJ, k) == Zero
    decreases |ps|
  {
    if |ps| > 0 {
      var init := ps[..|ps| - 1];
      assert !Touched(init, k) by {
        forall l | 0 <= l < |init|
          ensures !(init[l].pair.iSeq == k || (init[l].pair.jSym == 0 && init[l].pair.jSeq == k))
        {
          assert init[l] == ps[l];
        }
      }
      UntouchedGetsNothing(init, gradI, gradJ, k);
      var last := ps[|ps| - 1];
      assert !(last.pair.iSeq == k || (last.pair.jSym == 0 && last.pair.jSeq == k));
    }
  }

  /** `bond_residual_sum` over symmetry proxies.  `residualOf` and the two
      rotated gradients stand for the bond built through the asu mappings;
      an empty gradient array is left alone. */
  method SymResidualSum(ps: seq<BondSymProxy>, residualOf: BondSymProxy -> real,
                        gradI: BondSymProxy -> Vec3, gradJ: BondSymProxy -> Vec3,
                        gradients: seq<Vec3>) returns (result: real, g: seq<Vec3>)
    requires |gradients| == 0 || InSites(ps, |gradients|)
    ensures result == SymResidualTotal(ps, residualOf)
    ensures |g| == |gradients|
    ensures |gradients| == 0 ==> g == gradients
    ensures forall k :: 0 <= k < |g| && !Touched(ps, k) ==> g[k] == gradients[k]
    ensures |gradients| != 0 ==> forall k :: 0 <= k < |g| ==> g[k] == Add(gradients[k], SymGradientAt(ps, gradI, gradJ, k))
  {
    result := 0.0;
    g := gradients;
    var n := 0;
    while n < |ps|
      invariant 0 <= n <= |ps|
      invariant result == SymResidualTotal(ps[..n], residualOf)
      invariant |g| == |gradients|
      invariant |gradients| != 0 ==> GradientsSoFar(ps[..n], gradients, g, gradI, gradJ)
    {
      var p := ps[n];
      assert ps[..n + 1][..n] == ps[..n];
      result := result + Halved(p, residualOf(p));
      if |g| != 0 {
        g := NextSymGradients(ps, n, gradients, g, gradI, gradJ);
      }
      n := n + 1;
    }
    assert ps[..n] == ps;
    assert |gradients| != 0 ==> GradientsSoFar(ps, gradients, g, gradI, gradJ);
    UntouchedKept(ps, gradients, g, gradI, gradJ);
  }

  /** `g` is `gradients` plus everything the proxies `ps` add to each site. */
  predicate GradientsSoFar(ps: seq<BondSymProxy>, gradients: seq<Vec3>, g: seq<Vec3>,
                           gradI: BondSymProxy -> Vec3, gradJ: BondSymProxy -> Vec3)
    requires |g| == |gradients|
  {
    forall k :: 0 <= k < |g| ==> g[k] == Add(gradients[k], SymGradientAt(ps, gradI, gradJ, k))
  }

  /** Sites no proxy touches keep their gradients. */
  lemma UntouchedKept(ps: seq<BondSymProxy>, gradients: seq<Vec3>, g: seq<Vec3>,
                      gradI: BondSymProxy -> Vec3, gradJ: BondSymProxy -> Vec3)
    requires |g| == |gradients|
    requires |gradients| != 0 ==> forall k :: 0 <= k < |g| ==> g[k] == Add(gradients[k], SymGradientAt(ps, gradI, gradJ, k))
    ensures forall k :: 0 <= k < |g| && !Touched(ps, k) ==> g[k] == gradients[k]
  {
    forall k | 0 <= k < |g| && !Touched(ps, k)
      ensures g[k] == gradients[k]
    {
      UntouchedGetsNothing(ps, gradI, gradJ, k);
    }
  }

  /** With non-negative residuals the symmetry sum lies between half the
      plain sum and the plain sum. */
  lemma {:induction false} SymResidualBounds(ps: seq<BondSymProxy>, residualOf: BondSymProxy -> real)
    requires forall k :: 0 <= k < |ps| ==> residualOf(ps[k]) >= 0.0
    ensures var plain := Sum(seq(|ps|, k requires 0 <= k < |ps| => residualOf(ps[k])));
      plain * 0.5 <= SymResidualTotal(ps, residualOf) <= plain
    decreases |ps|
  {
    if |ps| > 0 {
      var init := ps[..|ps| - 1];
      SymResidualBounds(init, residualOf);
      var all := seq(|ps|, k requires 0 <= k < |ps| => residualOf(ps[k]));
      assert all[..|ps| - 1] == seq(|init|, k requires 0 <= k < |init| => residualOf(init[k]));
    }
  }

  /** Without symmetry copies the sum is the plain sum of residuals. */
  lemma {:induction false} SymResidualIdentity(ps: seq<BondSymProxy>, residualOf: BondSymProxy -> real)
    requires forall k :: 0 <= k < |ps| ==> ps[k].pair.jSym == 0
    ensures SymResidualTotal(ps, residualOf) == Sum(seq(|ps|, k requires 0 <= k < |ps| => residualOf(ps[k])))
    decreases |ps|
  {
    if |ps| > 0 {
      var init := ps[..|ps| - 1];
      SymResidualIdentity(init, residualOf);
      var all := seq(|ps|, k requires 0 <= k < |ps| => residualOf(ps[k]));
      assert all[..|ps| - 1] == seq(|init|, k requires 0 <= k < |init| => residualOf(init[k]));
    }
  }

  // ---------------------------------------------------------------------
  // `bond_sets`

  /** Sites `a` and `b` are bonded by some proxy of `ps`, in either order. */
  predicate Bonded(ps: seq<BondProxy>, a: nat, b: nat) {
    exists k :: 0 <= k < |ps| && ((ps[k].i == a && ps[k].j == b) || (ps[k].i == b && ps[k].j == a))
  }

  /** `bond_sets`: for every site the set of sites bonded to it. */
  function BondSets(nSites: nat, ps: seq<BondProxy>): (r: Result<seq<set<nat>>>)
    ensures r.Err? <==> exists k :: 0 <= k < |ps| && (ps[k].i >= nSites || ps[k].j >= nSites)
    ensures r.Ok? ==> |r.value| == nSites
    ensures r.Ok? ==> forall a, b :: 0 <= a < nSites && 0 <= b < nSites ==> (b in r.value[a] <==> Bonded(ps, a, b))
    decreases |ps|
  {
    if |ps| == 0 then Ok(seq(nSites, _ => {}))
    else
      var p := ps[|ps| - 1];
      var init := ps[..|ps| - 1];
      var rest := BondSets(nSites, init);
      assert forall k :: 0 <= k < |ps| - 1 ==> init[k] == ps[k];
      if rest.Err? then Err(rest.message)
      else if p.i >= nSites || p.j >= nSites then Err("i_seqs < n_sites")
      else
        var s := rest.value;
        var s1 := s[p.i := s[p.i] + {p.j}];
        var s2 := s1[p.j := s1[p.j] + {p.i}];
        BondedExtend(ps);
        Ok(s2)
  }

  lemma BondedExtend(ps: seq<BondProxy>)
    requires |ps| > 0
    ensures forall a, b :: Bonded(ps, a, b) <==>
      Bonded(ps[..|ps| - 1], a, b)
      || (ps[|ps| - 1].i == a && ps[|ps| - 1].j == b) || (ps[|ps| - 1].i == b && ps[|ps| - 1].j == a)
  {
    var init := ps[..|ps| - 1];
    forall a, b | Bonded(init, a, b)
      ensures Bonded(ps, a, b)
    {
      var k :| 0 <= k < |init| && ((init[k].i == a && init[k].j == b) || (init[k].i == b && init[k].j == a));
      assert ps[k] == init[k];
    }
    forall a, b | Bonded(ps, a, b) && !(ps[|ps| - 1].i == a && ps[|ps| - 1].j == b) && !(ps[|ps| - 1].i == b && ps[|ps| - 1].j == a)
      ensures Bonded(init, a, b)
    {
      var k :| 0 <= k < |ps| && ((ps[k].i == a && ps[k].j == b) || (ps[k].i == b && ps[k].j == a));
      assert k < |ps| - 1;
      assert init[k] == ps[k];
    }
  }

  /** The neighbour sets are symmetric: b is a neighbour of a exactly when
      a is a neighbour of b. */
  lemma BondSetsSymmetric(nSites: nat, ps: seq<BondProxy>)
    requires BondSets(nSites, ps).Ok?
    ensures forall a, b :: 0 <= a < nSites && 0 <= b < nSites ==>
      (b in BondSets(nSites, ps).value[a] <==> a in BondSets(nSites, ps).value[b])
  {
    var s := BondSets(nSites, ps).value;
    forall a, b | 0 <= a < nSites && 0 <= b < nSites
      ensures b in s[a] <==> a in s[b]
    {
      assert Bonded(ps, a, b) <==> Bonded(ps, b, a);
    }
  }
}

=== FILE: common.dfy ===
/** Shared vocabulary of the model: optional values, results that carry the
    message of the exception the source would raise, and the few real-number
    helpers (sums, absolute value, Python's `int()` truncation) that several
    components need. */
module Common {

  /** A value that may be absent; stands for Python's `None`. */
  datatype Option<+T> = None | Some(value: T)

  /** The outcome of an operation that the source may abort with an
      exception or a failed assertion; `message` names what was raised. */
  datatype Result<+T> = Ok(value: T) | Err(message: string) {
    predicate IsFailure() {
      Err?
    }

    function PropagateFailure<U>(): Result<U>
      requires Err?
    {
      Err(message)
    }

    function Extract(): T
      requires Ok?
    {
      value
    }
  }

  /** Sum of a sequence of reals, accumulated from the front as `flex.sum`
      and Python's `sum` do. */
  function Sum(s: seq<real>): real
    decreases |s|
  {
    if |s| == 0 then 0.0 else Sum(s[..|s| - 1]) + s[|s| - 1]
  }

  lemma {:induction false} SumAppend(a: seq<real>, b: seq<real>)
    ensures Sum(a + b) == Sum(a) + Sum(b)
    decreases |b|
  {
    if |b| == 0 {
      assert a + b == a;
    } else {
      assert (a + b)[..|a + b| - 1] == a + b[..|b| - 1];
      SumAppend(a, b[..|b| - 1]);
    }
  }

  /** Adding `x` to one element adds `x` to the sum. */
  lemma {:induction false} SumUpdate(s: seq<real>, i: nat, x: real)
    requires i < |s|
    ensures Sum(s[i := s[i] + x]) == Sum(s) + x
    decreases |s|
  {
    var t := s[i := s[i] + x];
    if i == |s| - 1 {
      assert t[..|t| - 1] == s[..|s| - 1];
    } else {
      assert t[..|t| - 1] == s[..|s| - 1][i := s[i] + x];
      SumUpdate(s[..|s| - 1], i, x);
    }
  }

  /** Arithmetic mean, as `flex.mean`; the source raises on an empty array. */
  function Mean(s: seq<real>): real
    requires |s| > 0
  {
    Sum(s) / (|s| as real)
  }

  lemma {:induction false} SumNonNegative(s: seq<real>)
    requires forall i :: 0 <= i < |s| ==> s[i] >= 0.0
    ensures Sum(s) >= 0.0
    decreases |s|
  {
    if |s| > 0 {
      SumNonNegative(s[..|s| - 1]);
    }
  }

  function Abs(x: real): (r: real)
    ensures r >= 0.0
    ensures r == x || r == -x
  {
    if x < 0.0 then -x else x
  }

  /** Python's `int()` applied to a float: truncation toward zero. */
  function Trunc(x: real): (r: int)
    ensures x >= 0.0 ==> r as real <= x < r as real + 1.0
    ensures x < 0.0 ==> r as real - 1.0 < x <= r as real
  {
    if x >= 0.0 then x.Floor else -((-x).Floor)
  }
  /** A Cartesian vector, as `scitbx::vec3<double>` or `matrix.col`. */
  datatype Vec3 = Vec3(x: real, y: real, z: real)

  function Add(a: Vec3, b: Vec3): Vec3 {
    Vec3(a.x + b.x, a.y + b.y, a.z + b.z)
  }

  function Sub(a: Vec3, b: Vec3): Vec3 {
    Vec3(a.x - b.x, a.y - b.y, a.z - b.z)
  }

  function Neg(a: Vec3): Vec3 {
    Vec3(-a.x, -a.y, -a.z)
  }

  function Scale(c: real, a: Vec3): Vec3 {
    Vec3(c * a.x, c * a.y, c * a.z)
  }

  const Zero := Vec3(0.0, 0.0, 0.0)

  /** The smallest element, as `flex.min` and Python's `min` return it. */
  function MinOf(s: seq<real>): (r: real)
    requires |s| > 0
    ensures r in s
    ensures forall i :: 0 <= i < |s| ==> r <= s[i]
    decreases |s|
  {
    if |s| == 1 then s[0]
    else
      var m := MinOf(s[..|s| - 1]);
      assert forall i :: 0 <= i < |s| - 1 ==> s[..|s| - 1][i] == s[i];
      if s[|s| - 1] < m then s[|s| - 1] else m
  }

  /** The largest element, as `flex.max` and Python's `max` return it. */
  function MaxOf(s: seq<real>): (r: real)
    requires |s| > 0
    ensures r in s
    ensures forall i :: 0 <= i < |s| ==> s[i] <= r
    decreases |s|
  {
    if |s| == 1 then s[0]
    else
      var m := MaxOf(s[..|s| - 1]);
      assert forall i :: 0 <= i < |s| - 1 ==> s[..|s| - 1][i] == s[i];
      if s[|s| - 1] > m then s[|s| - 1] else m
  }

  /** Two sequences holding the same values have the same minimum. */
  lemma MinOfSameValues(a: seq<real>, b: seq<real>)
    requires |a| > 0 && |b| > 0
    requires forall x :: x in a ==> x in b
    requires forall x :: x in b ==> x in a
    ensures MinOf(a) == MinOf(b)
  {
    var ma, mb := MinOf(a), MinOf(b);
    var i :| 0 <= i < |b| && b[i] == ma;
    var j :| 0 <= j < |a| && a[j] == mb;
  }

  /** Two sequences holding the same values have the same maximum. */
  lemma MaxOfSameValues(a: seq<real>, b: seq<real>)
    requires |a| > 0 && |b| > 0
    requires forall x :: x in a ==> x in b
    requires forall x :: x in b ==> x in a
    ensures MaxOf(a) == MaxOf(b)
  {
    var ma, mb := MaxOf(a), MaxOf(b);
    var i :| 0 <= i < |b| && b[i] == ma;
    var j :| 0 <= j < |a| && a[j] == mb;
  }
}

=== FILE: density_modification.dfy ===
/** The density-modification half of smtbx/ab_initio/charge_flipping.py:
    the Oszlanyi-Suto phase transfer on Miller arrays, the statistics of an
    electron-density map that drive the solver (flipped-fraction threshold,
    c_flip, c_tot, the low-density threshold), and the iterator that
    alternates map modification with structure-factor computation.

    Fourier transforms, the charge-flipping and low-density kernels, random
    phase generation and the R1 factor are computed outside this model and
    are supplied as the functions of a `Numerics` value.  Structure factors
    are held in polar form; a phase is kept as the number the computation
    produced, without reduction to (-pi, pi]. */
module DensityModification {
  import opened Common
  import opened Sorting

  datatype Hkl = Hkl(h: int, k: int, l: int)

  /** A structure factor: `flex.abs` gives `modulus`, `flex.arg` gives `phase`. */
  datatype Complex = Polar(modulus: real, phase: real)

  /** A Miller array: reflection indices with one datum each. */
  datatype MillerArray<T> = MillerArray(indices: seq<Hkl>, data: seq<T>) {
    predicate Valid() {
      |indices| == |data|
    }
  }

  /** `phase_transfer`: amplitudes from one array, phases from another, index
      by index. */
  function PhaseTransferData(moduli: seq<real>, phases: seq<real>): (r: seq<Complex>)
    requires |moduli| == |phases|
    ensures Moduli(r) == moduli && Phases(r) == phases
  {
    seq(|moduli|, i requires 0 <= i < |moduli| => Polar(moduli[i], phases[i]))
  }

  function Moduli(s: seq<Complex>): (r: seq<real>)
    ensures |r| == |s| && forall i :: 0 <= i < |s| ==> r[i] == s[i].modulus
  {
    seq(|s|, i requires 0 <= i < |s| => s[i].modulus)
  }

  function Phases(s: seq<Complex>): (r: seq<real>)
    ensures |r| == |s| && forall i :: 0 <= i < |s| ==> r[i] == s[i].phase
  {
    seq(|s|, i requires 0 <= i < |s| => s[i].phase)
  }

  /** Transferring an array's own phases onto its own amplitudes gives the
      array back. */
  lemma PhaseTransferRoundTrip(s: seq<Complex>)
    ensures PhaseTransferData(Moduli(s), Phases(s)) == s
  {
  }

  /** The positions 0..n-1, in order. */
  function Range(n: nat): (r: seq<nat>)
    ensures |r| == n && forall i :: 0 <= i < n ==> r[i] == i
  {
    seq(n, i requires 0 <= i < n => i)
  }

  /** `p` lists each of the positions 0..n-1 exactly once. */
  predicate IsPermutation(p: seq<nat>, n: nat) {
    multiset(p) == multiset(Range(n))
  }

  lemma PermutationInRange(p: seq<nat>, n: nat, i: nat)
    requires IsPermutation(p, n) && i < |p|
    ensures p[i] < n
  {
    assert p[i] in multiset(p);
    assert p[i] in multiset(Range(n));
  }

  /** `sort_permutation(by_value="data", reverse=...)`: the positions of
      `d` ordered by their data, ascending or descending. */
  function SortPermutation(d: seq<real>, descending: bool): (p: seq<nat>)
    ensures |p| == |d| && IsPermutation(p, |d|)
    ensures forall i :: 0 <= i < |p| ==> p[i] < |d|
    ensures forall i, j :: 0 <= i < j < |p| ==>
              if descending then d[p[j]] <= d[p[i]] else d[p[i]] <= d[p[j]]
  {
    var key := (k: nat) => if k < |d| then (if descending then -d[k] else d[k]) else 0.0;
    var p := SortBy<nat>(Range(|d|), key);
    forall i | 0 <= i < |p|
      ensures p[i] < |d|
    {
      PermutationInRange(p, |d|, i);
    }
    assert forall i, j :: 0 <= i < j < |p| ==> key(p[i]) <= key(p[j]);
    p
  }

  function Select<T>(s: seq<T>, p: seq<nat>): (r: seq<T>)
    requires forall i :: 0 <= i < |p| ==> p[i] < |s|
    ensures |r| == |p| && forall i :: 0 <= i < |p| ==> r[i] == s[p[i]]
  {
    seq(|p|, i requires 0 <= i < |p| => s[p[i]])
  }

  /** Selecting through a permutation rearranges the elements: the result
      holds each element of `s` exactly as often as `s` does. */
  lemma SelectPermutation<T>(s: seq<T>, p: seq<nat>)
    requires IsPermutation(p, |s|) && forall i :: 0 <= i < |p| ==> p[i] < |s|
    ensures multiset(Select(s, p)) == multiset(s)
  {
    SelectSameIndices(s, p, Range(|s|));
    assert Select(s, Range(|s|)) == s;
  }

  /** Index lists holding the same positions select the same elements. */
  lemma {:induction false} SelectSameIndices<T>(s: seq<T>, p: seq<nat>, q: seq<nat>)
    requires multiset(p) == multiset(q)
    requires forall i :: 0 <= i < |p| ==> p[i] < |s|
    requires forall i :: 0 <= i < |q| ==> q[i] < |s|
    ensures multiset(Select(s, p)) == multiset(Select(s, q))
    decreases |p|
  {
    if |p| > 0 {
      assert p[0] in multiset(q);
      var j :| 0 <= j < |q| && q[j] == p[0];
      var q' := Without(q, j, |s|);
      var p' := Without(p, 0, |s|);
      assert p' == p[1..];
      MultisetsCancel(multiset(p[1..]), multiset(q'), p[0]);
      SelectSameIndices(s, p[1..], q');
      SelectRemoveAt(s, q, j);
      SelectRemoveAt(s, p, 0);
    }
  }

  /** The index list `q` without position `j`. */
  function Without(q: seq<nat>, j: nat, n: nat): (r: seq<nat>)
    requires j < |q| && forall i :: 0 <= i < |q| ==> q[i] < n
    ensures r == q[..j] + q[j + 1..]
    ensures multiset(q) == multiset(r) + multiset{q[j]}
    ensures forall i :: 0 <= i < |r| ==> r[i] < n
  {
    assert q == q[..j] + [q[j]] + q[j + 1..];
    q[..j] + q[j + 1..]
  }

  /** Taking position `j` out of an index list takes `s[q[j]]` out of the
      selection. */
  lemma SelectRemoveAt<T>(s: seq<T>, q: seq<nat>, j: nat)
    requires j < |q| && forall i :: 0 <= i < |q| ==> q[i] < |s|
    ensures multiset(Select(s, q)) == multiset(Select(s, Without(q, j, |s|))) + multiset{s[q[j]]}
  {
    var a, b := q[..j], q[j + 1..];
    assert q == a + [q[j]] + b;
    assert Without(q, j, |s|) == a + b;
    SelectAppend(s, a, b);
    SelectAppend(s, a + [q[j]], b);
    SelectAppend(s, a, [q[j]]);
    var sa, sb := Select(s, a), Select(s, b);
    assert Select(s, [q[j]]) == [s[q[j]]];
    assert Select(s, q) == sa + [s[q[j]]] + sb;
    assert Select(s, Without(q, j, |s|)) == sa + sb;
    assert multiset(sa + [s[q[j]]] + sb) == multiset(sa + sb) + multiset{s[q[j]]};
  }

  lemma SelectAppend<T>(s: seq<T>, a: seq<nat>, b: seq<nat>)
    requires forall i :: 0 <= i < |a| ==> a[i] < |s|
    requires forall i :: 0 <= i < |b| ==> b[i] < |s|
    ensures Select(s, a + b) == Select(s, a) + Select(s, b)
  {
  }

  lemma MultisetsCancel<T>(x: multiset<T>, y: multiset<T>, v: T)
    requires x + multiset{v} == y + multiset{v}
    ensures x == y
  {
    forall z
      ensures x[z] == y[z]
    {
      assert (x + multiset{v})[z] == (y + multiset{v})[z];
    }
  }

  /** Python's `s[:n]` and `s[n:]` for a non-negative `n`. */
  function TakeUpTo<T>(s: seq<T>, n: nat): seq<T> {
    if n <= |s| then s[..n] else s
  }

  function DropUpTo<T>(s: seq<T>, n: nat): seq<T> {
    if n <= |s| then s[n..] else []
  }

  /** Where Python's `s[:k]` and `s[k:]` split a sequence of length `n`:
      a negative `k` counts from the end, and the split is clamped to the
      sequence. */
  function SliceBound(n: nat, k: int): (r: nat)
    ensures r <= n
    ensures 0 <= k ==> r == if k <= n then k else n
    ensures k < 0 ==> r == if -k <= n then n + k else 0
  {
    if 0 <= k then (if k <= n then k else n)
    else if -k <= n then n + k else 0
  }

  /** The share `fraction * n` of `n` reflections, written as a sum of `n`
      terms so that the facts about the split stay linear;
      `ShareIsProduct` proves it is the product. */
  function Share(fraction: real, n: nat): real
    decreases n
  {
    if n == 0 then 0.0 else Share(fraction, n - 1) + fraction
  }

  lemma {:induction false} ShareIsProduct(fraction: real, n: nat)
    ensures Share(fraction, n) == fraction * n as real
    decreases n
  {
    if n > 0 {
      ShareIsProduct(fraction, n - 1);
      assert fraction * n as real == fraction * (n - 1) as real + fraction;
    }
  }

  /** A fraction of at least 1 has a share of at least `n`. */
  lemma {:induction false} ShareAtLeast(fraction: real, n: nat)
    requires fraction >= 1.0
    ensures Share(fraction, n) >= n as real
    decreases n
  {
    if n > 0 {
      ShareAtLeast(fraction, n - 1);
    }
  }

  /** A fraction of at most -1 has a share of at most `-n`. */
  lemma {:induction false} ShareAtMost(fraction: real, n: nat)
    requires fraction <= -1.0
    ensures Share(fraction, n) <= -(n as real)
    decreases n
  {
    if n > 0 {
      ShareAtMost(fraction, n - 1);
    }
  }

  /** The number of weak reflections: the split that
      `cut = int(weak_reflection_fraction * source.size())` makes in
      `[:cut]` and `[cut:]` of arrays of `n` reflections, with the share
      `Share(fraction, n)` = `fraction * n`.  A fraction in [0, 1] takes
      that share of them, rounded down; a fraction above 1 takes them all;
      a negative fraction leaves off its share, truncated toward zero, from
      the end instead. */
  function WeakCount(fraction: real, n: nat): (r: nat)
    ensures r <= n
    ensures 0.0 <= Share(fraction, n) <= n as real ==> r as real <= Share(fraction, n) < r as real + 1.0
    ensures -(n as real) <= Share(fraction, n) <= -1.0 ==>
      n as real + Share(fraction, n) <= r as real < n as real + Share(fraction, n) + 1.0
    ensures -1.0 < Share(fraction, n) < 0.0 ==> r == 0
    ensures fraction >= 1.0 ==> r == n
    ensures fraction <= -1.0 ==> r == 0
  {
    WeakCountSplit(fraction, n);
    SliceBound(n, Trunc(Share(fraction, n)))
  }

  /** The facts of `WeakCount` about the split of the truncated share. */
  lemma WeakCountSplit(fraction: real, n: nat)
    ensures var x := Share(fraction, n);
      var r := SliceBound(n, Trunc(x));
      && (0.0 <= x <= n as real ==> r as real <= x < r as real + 1.0)
      && (-(n as real) <= x <= -1.0 ==> n as real + x <= r as real < n as real + x + 1.0)
      && (-1.0 < x < 0.0 ==> r == 0)
      && (fraction >= 1.0 ==> r == n)
      && (fraction <= -1.0 ==> r == 0)
  {
    var x := Share(fraction, n);
    var k := Trunc(x);
    if fraction >= 1.0 {
      ShareAtLeast(fraction, n);
    } else if fraction <= -1.0 {
      ShareAtMost(fraction, n);
      assert (k as real) < -(n as real) + 1.0;
      assert k <= -(n as int);
    } else if x <= -(n as real) {
      assert (k as real) < -(n as real) + 1.0;
      assert k <= -(n as int);
    } else if x <= -1.0 {
      assert -(n as int) < k < 0;
      assert SliceBound(n, k) == n + k;
    } else if x < 0.0 {
      assert k == 0;
    }
  }

  /** `oszlanyi_suto_phase_transfer` as written.  With sorting requested
      the weak part and the phases follow the sort of the amplitudes
      (`sort_permutation(by_value="data", reverse=True)`, increasing
      amplitudes), while the strong amplitudes and the reflection indices
      are taken from the unsorted array. */
  function OszlanyiSutoAsWritten(self: MillerArray<real>, source: seq<Complex>, deltaVarphi: real,
                                 fraction: real, needSorting: bool): (r: MillerArray<Complex>)
    requires self.Valid() && |source| == |self.data|
    ensures r.Valid() && r.indices == self.indices
  {
    var cut := WeakCount(fraction, |source|);
    var src := if needSorting then Select(source, SortPermutation(self.data, false)) else source;
    var phases := Phases(src);
    var weakPhases := seq(|TakeUpTo(phases, cut)|, i requires 0 <= i < |TakeUpTo(phases, cut)| =>
                          TakeUpTo(phases, cut)[i] + deltaVarphi);
    var allPhases := weakPhases + DropUpTo(phases, cut);
    var moduli := TakeUpTo(Moduli(src), cut) + DropUpTo(self.data, cut);
    MillerArray(self.indices, PhaseTransferData(moduli, allPhases))
  }

  /** The order in which the transfer visits the reflections: by
      increasing amplitude when sorting is requested, as given otherwise. */
  function TransferOrder(amplitudes: seq<real>, needSorting: bool): (p: seq<nat>)
    ensures |p| == |amplitudes| && IsPermutation(p, |amplitudes|)
    ensures forall i :: 0 <= i < |p| ==> p[i] < |amplitudes|
  {
    if needSorting then SortPermutation(amplitudes, false) else Range(|amplitudes|)
  }

  /** The Oszlanyi-Suto transfer with the evident intent: reflections are
      ordered by INCREASING amplitude when sorting is requested, the weakest
      `cut` of them take the source's modulus and a phase shifted by
      `deltaVarphi`, the others keep their own amplitude and take the source
      phase, and each output reflection carries its own index. */
  function OszlanyiSutoPhaseTransfer(self: MillerArray<real>, source: seq<Complex>, deltaVarphi: real,
                                     fraction: real, needSorting: bool): (r: MillerArray<Complex>)
    requires self.Valid() && |source| == |self.data|
    ensures r.Valid() && |r.data| == |self.data|
    ensures var p := TransferOrder(self.data, needSorting);
            forall i :: 0 <= i < |r.data| ==> TransferredFrom(r, i, self, source, p[i], deltaVarphi, fraction)
    ensures var p := TransferOrder(self.data, needSorting);
            needSorting ==>
              forall i, j :: 0 <= i < WeakCount(fraction, |source|) <= j < |r.data| ==> self.data[p[i]] <= self.data[p[j]]
  {
    var n := |self.data|;
    var cut := WeakCount(fraction, n);
    var p := TransferOrder(self.data, needSorting);
    var data := seq(n, i requires 0 <= i < n =>
                  if i < cut then Polar(source[p[i]].modulus, source[p[i]].phase + deltaVarphi)
                  else Polar(self.data[p[i]], source[p[i]].phase));
    MillerArray(Select(self.indices, p), data)
  }

  /** Output position `i` is input reflection `k`: same index, source phase
      (shifted for weak ones), source modulus for weak ones and own amplitude
      for strong ones. */
  predicate TransferredFrom(r: MillerArray<Complex>, i: nat, self: MillerArray<real>, source: seq<Complex>,
                            k: nat, deltaVarphi: real, fraction: real)
    requires self.Valid() && |source| == |self.data|
  {
    i < |r.data| && i < |r.indices| && k < |self.data|
    && r.indices[i] == self.indices[k]
    && var cut := WeakCount(fraction, |source|);
       if i < cut then r.data[i] == Polar(source[k].modulus, source[k].phase + deltaVarphi)
       else r.data[i] == Polar(self.data[k], source[k].phase)
  }

  /** Without sorting (the way the weak-reflection iterator calls it) the
      as-written transfer and the intended one agree. */
  lemma OszlanyiSutoUnsortedAgrees(self: MillerArray<real>, source: seq<Complex>, deltaVarphi: real, fraction: real)
    requires self.Valid() && |source| == |self.data|
    ensures OszlanyiSutoAsWritten(self, source, deltaVarphi, fraction, false)
            == OszlanyiSutoPhaseTransfer(self, source, deltaVarphi, fraction, false)
  {
    var a := OszlanyiSutoAsWritten(self, source, deltaVarphi, fraction, false);
    var b := OszlanyiSutoPhaseTransfer(self, source, deltaVarphi, fraction, false);
    var n := |self.data|;
    var cut := WeakCount(fraction, n);
    assert Select(self.indices, Range(n)) == self.indices;
    assert |a.data| == |b.data|;
    forall i | 0 <= i < n
      ensures a.data[i] == b.data[i]
    {
      if i < cut {
        assert TakeUpTo(Phases(source), cut)[i] == source[i].phase;
        assert TakeUpTo(Moduli(source), cut)[i] == source[i].modulus;
      } else {
        assert DropUpTo(Phases(source), cut)[i - cut] == source[i].phase;
        assert DropUpTo(self.data, cut)[i - cut] == self.data[i];
      }
    }
  }

  /** Two reflections, (0,0,1) of amplitude 2 and (0,0,2) of amplitude 1,
      with sorting requested and no weak part: as written, (0,0,1) receives
      the phase computed for (0,0,2), while the intended transfer keeps each
      reflection with its own phase. */
  lemma OszlanyiSutoSortingCounterexample()
    ensures var self := MillerArray([Hkl(0, 0, 1), Hkl(0, 0, 2)], [2.0, 1.0]);
            var source := [Polar(2.0, 0.0), Polar(1.0, 1.0)];
            var r := OszlanyiSutoAsWritten(self, source, 0.5, 0.0, true);
            var fixed := OszlanyiSutoPhaseTransfer(self, source, 0.5, 0.0, true);
            r.indices[0] == Hkl(0, 0, 1) && r.data[0].phase == 1.0
            && fixed.indices[0] == Hkl(0, 0, 2) && fixed.data[0].phase == 1.0
            && fixed.indices[1] == Hkl(0, 0, 1) && fixed.data[1].phase == 0.0
  {
    SortTwo();
    AsWrittenSwapsPhases();
    IntendedKeepsPhases();
  }

  lemma AsWrittenSwapsPhases()
    requires SortPermutation([2.0, 1.0], false) == [1, 0]
    ensures var r := OszlanyiSutoAsWritten(MillerArray([Hkl(0, 0, 1), Hkl(0, 0, 2)], [2.0, 1.0]),
                                           [Polar(2.0, 0.0), Polar(1.0, 1.0)], 0.5, 0.0, true);
            r.indices[0] == Hkl(0, 0, 1) && r.data[0].phase == 1.0
  {
    var source := [Polar(2.0, 0.0), Polar(1.0, 1.0)];
    assert Select(source, [1, 0]) == [Polar(1.0, 1.0), Polar(2.0, 0.0)];
  }

  lemma IntendedKeepsPhases()
    requires SortPermutation([2.0, 1.0], false) == [1, 0]
    ensures var fixed := OszlanyiSutoPhaseTransfer(MillerArray([Hkl(0, 0, 1), Hkl(0, 0, 2)], [2.0, 1.0]),
                                                   [Polar(2.0, 0.0), Polar(1.0, 1.0)], 0.5, 0.0, true);
            fixed.indices[0] == Hkl(0, 0, 2) && fixed.data[0].phase == 1.0
            && fixed.indices[1] == Hkl(0, 0, 1) && fixed.data[1].phase == 0.0
  {
    var self := MillerArray([Hkl(0, 0, 1), Hkl(0, 0, 2)], [2.0, 1.0]);
    var source := [Polar(2.0, 0.0), Polar(1.0, 1.0)];
    var fixed := OszlanyiSutoPhaseTransfer(self, source, 0.5, 0.0, true);
    assert TransferOrder(self.data, true) == [1, 0];
    assert TransferredFrom(fixed, 0, self, source, 1, 0.5, 0.0);
    assert TransferredFrom(fixed, 1, self, source, 0, 0.5, 0.0);
  }

  /** Sorting the amplitudes [2, 1] into increasing order puts position 1
      first. */
  lemma SortTwo()
    ensures SortPermutation([2.0, 1.0], false) == [1, 0]
  {
    var p := SortPermutation([2.0, 1.0], false);
    PermutationOfTwo(p);
    assert [2.0, 1.0][p[0]] <= [2.0, 1.0][p[1]];
  }

  /** The two orders of two positions. */
  lemma PermutationOfTwo(p: seq<nat>)
    requires IsPermutation(p, 2)
    ensures p == [0, 1] || p == [1, 0]
  {
    assert Range(2) == [0, 1];
    assert |p| == |multiset(p)| == 2;
    PermutationInRange(p, 2, 0);
    PermutationInRange(p, 2, 1);
    assert p == [p[0], p[1]];
    assert multiset(p)[p[0]] == multiset([0, 1])[p[0]] == 1;
  }

  // ---------------------------------------------------------------------
  // Electron-density map statistics

  /** A real-space map: the unpadded grid cells and the padding that the
      padded `real_map()` also holds. */
  datatype RealMap = RealMap(cells: seq<real>, padding: seq<real>)

  function Padded(m: RealMap): seq<real> {
    m.cells + m.padding
  }

  /** Python's indexing of a sequence of length `n` by `k`: negative
      indices count from the end; `None` where Python raises `IndexError`. */
  function PythonIndex(n: nat, k: int): (r: Option<nat>)
    ensures r.Some? <==> -(n as int) <= k < n
    ensures r.Some? ==> r.value < n && (r.value == k || r.value == n + k)
  {
    if 0 <= k < n then Some(k) else if -(n as int) <= k < 0 then Some(n + k) else None
  }

  /** `flipped_fraction_as_delta`: the value at position
      `int(fraction * n)` of the sorted unpadded map, so a value with at most
      that many cells below it and more at or below it. */
  function FlippedFractionAsDelta(m: RealMap, fraction: real): (r: Result<real>)
    ensures var j := PythonIndex(|m.cells|, Trunc(fraction * |m.cells| as real));
            match j
            case None => r.Err?
            case Some(k) => r.Ok? && r.value in m.cells
                            && CountLess(m.cells, r.value) <= k < CountAtMost(m.cells, r.value)
  {
    match PythonIndex(|m.cells|, Trunc(fraction * |m.cells| as real))
    case None => Err("index out of range")
    case Some(k) => Ok(SortedAt(m.cells, k))
  }

  /** Element `k` of the ascending sort: the `k`-th order statistic. */
  function SortedAt(s: seq<real>, k: nat): (v: real)
    requires k < |s|
    ensures v in s && CountLess(s, v) <= k < CountAtMost(s, v)
  {
    OrderStatistic(s, k);
    SortReals(s)[k]
  }

  /** `c_flip(delta)`: total magnitude of the unpadded cells below `delta`. */
  function CFlip(m: RealMap, delta: real): (r: real)
    ensures r >= 0.0
  {
    FlipMass(m.cells, delta)
  }

  function FlipMass(s: seq<real>, delta: real): (r: real)
    ensures r >= 0.0
  {
    if |s| == 0 then 0.0
    else FlipMass(s[..|s| - 1], delta) + (if s[|s| - 1] < delta then Abs(s[|s| - 1]) else 0.0)
  }

  /** Raising the threshold can only add cells to the flipped set. */
  lemma {:induction false} FlipMassMonotone(s: seq<real>, d1: real, d2: real)
    requires d1 <= d2
    ensures FlipMass(s, d1) <= FlipMass(s, d2)
  {
    if |s| > 0 {
      FlipMassMonotone(s[..|s| - 1], d1, d2);
    }
  }

  lemma CFlipMonotone(m: RealMap, d1: real, d2: real)
    requires d1 <= d2
    ensures CFlip(m, d1) <= CFlip(m, d2)
  {
    FlipMassMonotone(m.cells, d1, d2);
  }

  /** With a threshold above every cell, c_flip is the map's total
      magnitude; with one at or below every cell, it is zero. */
  lemma {:induction false} FlipMassExtremes(s: seq<real>, delta: real)
    ensures (forall i :: 0 <= i < |s| ==> s[i] < delta) ==> FlipMass(s, delta) == Sum(AbsAll(s))
    ensures (forall i :: 0 <= i < |s| ==> delta <= s[i]) ==> FlipMass(s, delta) == 0.0
  {
    if |s| > 0 {
      FlipMassExtremes(s[..|s| - 1], delta);
      assert AbsAll(s)[..|s| - 1] == AbsAll(s[..|s| - 1]);
    }
  }

  function AbsAll(s: seq<real>): (r: seq<real>)
    ensures |r| == |s| && forall i :: 0 <= i < |s| ==> r[i] == Abs(s[i])
  {
    seq(|s|, i requires 0 <= i < |s| => Abs(s[i]))
  }

  /** `c_tot`: the sum over the PADDED map. */
  function CTot(m: RealMap): real {
    Sum(Padded(m))
  }

  /** `c_tot_over_c_flip`; the source raises on a missing threshold and on
      a zero denominator. */
  function CTotOverCFlip(m: RealMap, delta: Option<real>): (r: Result<real>)
    ensures r.Ok? <==> delta.Some? && CFlip(m, delta.value) != 0.0
    ensures r.Ok? ==> r.value * CFlip(m, delta.value) == CTot(m)
  {
    match delta
    case None => Err("'<' not supported between a map and None")
    case Some(d) =>
      var cf := CFlip(m, d);
      if cf == 0.0 then Err("float division by zero") else Ok(CTot(m) / cf)
  }

  /** `rho.select(rho > 0)`: the positive cells, each as often as in the
      map, in the map's order (see `PositivesAppend`). */
  function Positives(s: seq<real>): (r: seq<real>)
    ensures |r| <= |s|
    ensures forall i :: 0 <= i < |r| ==> r[i] > 0.0 && r[i] in s
    ensures forall i :: 0 <= i < |s| && s[i] > 0.0 ==> s[i] in r
    ensures forall x :: multiset(r)[x] == if x > 0.0 then multiset(s)[x] else 0
  {
    if |s| == 0 then []
    else
      var rest := Positives(s[..|s| - 1]);
      assert forall i :: 0 <= i < |s| - 1 ==> s[i] == s[..|s| - 1][i];
      assert s == s[..|s| - 1] + [s[|s| - 1]];
      if s[|s| - 1] > 0.0 then rest + [s[|s| - 1]] else rest
  }

  /** The selection keeps the order of the map: selecting from two pieces
      and joining equals selecting from the joined map. */
  lemma {:induction false} PositivesAppend(a: seq<real>, b: seq<real>)
    ensures Positives(a + b) == Positives(a) + Positives(b)
    decreases |b|
  {
    if |b| > 0 {
      var b' := b[..|b| - 1];
      assert (a + b)[..|a + b| - 1] == a + b';
      PositivesAppend(a, b');
    } else {
      assert a + b == a;
    }
  }

  lemma PositivesSingle(x: real)
    ensures Positives([x]) == if x > 0.0 then [x] else []
  {
    assert [x][..0] == [];
  }

  lemma {:induction false} SumPositive(s: seq<real>)
    requires |s| > 0 && forall i :: 0 <= i < |s| ==> s[i] > 0.0
    ensures Sum(s) > 0.0
  {
    if |s| > 1 {
      SumPositive(s[..|s| - 1]);
    }
  }

  lemma {:induction false} SumAtMost(s: seq<real>, bound: real)
    requires forall i :: 0 <= i < |s| ==> s[i] <= bound
    ensures Sum(s) <= |s| as real * bound
  {
    if |s| > 0 {
      SumAtMost(s[..|s| - 1], bound);
    }
  }

  /** The low-density threshold rho_c suggested by Shiono and Woolfson: a
      fifth of the mean of the positive cells; `flex.mean` raises when there
      is none. */
  function SuggestedRhoC(m: RealMap): (r: Result<real>)
    ensures r.Ok? <==> exists i :: 0 <= i < |m.cells| && m.cells[i] > 0.0
    ensures r.Ok? <==> |Positives(m.cells)| > 0
    ensures r.Ok? ==> r.value == 0.2 * Mean(Positives(m.cells))
    ensures r.Ok? ==> r.value > 0.0
    ensures r.Ok? ==> forall v :: UpperBound(m.cells, v) ==> r.value <= 0.2 * v
  {
    var pos := Positives(m.cells);
    if |pos| == 0 then Err("mean of an empty array")
    else
      SumPositive(pos);
      var mean := Sum(pos) / (|pos| as real);
      assert mean > 0.0 by {
        PositiveQuotient(Sum(pos), |pos| as real);
      }
      assert pos[0] in m.cells;
      MeanBelowBounds(m.cells, pos);
      Ok(0.2 * mean)
  }

  lemma PositiveQuotient(a: real, b: real)
    requires a > 0.0 && b > 0.0
    ensures a / b > 0.0
  {
  }

  lemma QuotientAtMost(a: real, b: real, v: real)
    requires b > 0.0 && a <= b * v
    ensures a / b <= v
  {
  }

  predicate UpperBound(s: seq<real>, v: real) {
    forall i :: 0 <= i < |s| ==> s[i] <= v
  }

  lemma MeanBelowBounds(s: seq<real>, pos: seq<real>)
    requires |pos| > 0 && forall i :: 0 <= i < |pos| ==> pos[i] in s
    ensures forall v :: UpperBound(s, v) ==> Sum(pos) / (|pos| as real) <= v
  {
    forall v | UpperBound(s, v)
      ensures Sum(pos) / (|pos| as real) <= v
    {
      assert forall i :: 0 <= i < |pos| ==> pos[i] <= v;
      SumAtMost(pos, v);
      QuotientAtMost(Sum(pos), |pos| as real, v);
    }
  }
}

=== FILE: distl.dfy ===
/** The DISTL spot-finder wrapper of spotfinder/core_toolbox/distl.cpp: the
    option string read by the `w_Distl` constructor, the tiling chosen by
    detector vendor, the spot filter of `finish_analysis`, a spot's cached
    principal axes, its radial and azimuthal extent, `mod_data`, and the
    integer encoding read by the (unused) `spot` constructor.

    `atoi`/`atof`, the square root and the vector length are parameters;
    the DISTL image analysis itself (`Distl::diffimage`) is not part of this
    model. */
module Distl {
  import opened Common
  import Text
  import opened Images

  // ---------------------------------------------------------------------
  // Tokens: `boost::char_separator<char>(" ")`

  /** The tokens of `s` read from `cur` on: runs of non-space characters. */
  function TokensFrom(s: string, cur: string): seq<string>
    decreases |s|
  {
    if |s| == 0 then (if cur == [] then [] else [cur])
    else if s[0] == ' ' then (if cur == [] then [] else [cur]) + TokensFrom(s[1..], [])
    else TokensFrom(s[1..], cur + [s[0]])
  }

  /** Splits on single spaces and drops empty tokens. */
  function Tokens(s: string): seq<string> {
    TokensFrom(s, [])
  }

  function Concat(ts: seq<string>): string {
    if |ts| == 0 then [] else ts[0] + Concat(ts[1..])
  }

  function WithoutSpaces(s: string): string {
    if |s| == 0 then [] else (if s[0] == ' ' then [] else [s[0]]) + WithoutSpaces(s[1..])
  }

  predicate WellFormedTokens(ts: seq<string>) {
    forall i :: 0 <= i < |ts| ==> |ts[i]| > 0 && ' ' !in ts[i]
  }

  lemma {:induction false} TokensFromSound(s: string, cur: string)
    requires ' ' !in cur
    ensures Concat(TokensFrom(s, cur)) == cur + WithoutSpaces(s)
    ensures WellFormedTokens(TokensFrom(s, cur))
    decreases |s|
  {
    if |s| == 0 {
      if cur != [] {
        assert Concat([cur]) == cur + Concat([]);
      }
    } else if s[0] == ' ' {
      TokensFromSound(s[1..], []);
      var rest := TokensFrom(s[1..], []);
      if cur != [] {
        assert ([cur] + rest)[0] == cur && ([cur] + rest)[1..] == rest;
      } else {
        assert [] + rest == rest;
      }
    } else {
      TokensFromSound(s[1..], cur + [s[0]]);
      assert cur + [s[0]] + WithoutSpaces(s[1..]) == cur + WithoutSpaces(s);
    }
  }

  /** The tokens are non-empty, hold no space, and together spell the
      option string with its spaces removed. */
  lemma TokensSound(s: string)
    ensures Concat(Tokens(s)) == WithoutSpaces(s)
    ensures WellFormedTokens(Tokens(s))
  {
    TokensFromSound(s, []);
  }

  // ---------------------------------------------------------------------
  // Finder settings and the option string

  /** One value per background-scanning cycle. */
  datatype Cycles<T> = Cycles(first: T, second: T, third: T) {
    function At(i: nat): T
      requires i < 3
    {
      if i == 0 then first else if i == 1 then second else third
    }

    function With(i: nat, v: T): (r: Cycles<T>)
      requires i < 3
      ensures r.At(i) == v
      ensures forall j :: 0 <= j < 3 && j != i ==> r.At(j) == At(j)
    {
      if i == 0 then this.(first := v) else if i == 1 then this.(second := v) else this.(third := v)
    }
  }

  /** The parameters of the DISTL finder that the option string can set. */
  datatype Settings = Settings(
    spotAreaLowCut: int,
    spotBaseSize: int,
    spotAreaMaxFactor: real,
    spotPeakIntMaxFactor: real,
    iceRingStrengthPercentile: real,
    diffLowerInt: real,
    scanBoxSize: Cycles<int>,
    bgUpperInt: Cycles<real>,
    resolutionOuter: real,
    reportOverloads: bool)

  /** The recognised flags: `-s2 -s3 -s7 -s8 -i3 -d1 -bx0..2 -bg0..2 -ro`. */
  datatype Flag = S2 | S3 | S7 | S8 | I3 | D1 | Bx(cycle: nat) | Bg(cycle: nat) | Ro

  predicate ValidFlag(f: Flag) {
    (f.Bx? ==> f.cycle < 3) && (f.Bg? ==> f.cycle < 3)
  }

  function FlagOf(t: string): (r: Option<Flag>)
    ensures r.Some? ==> ValidFlag(r.value)
  {
    if t == "-s2" then Some(S2)
    else if t == "-s3" then Some(S3)
    else if t == "-s7" then Some(S7)
    else if t == "-s8" then Some(S8)
    else if t == "-i3" then Some(I3)
    else if t == "-d1" then Some(D1)
    else if t == "-bx0" then Some(Bx(0))
    else if t == "-bx1" then Some(Bx(1))
    else if t == "-bx2" then Some(Bx(2))
    else if t == "-bg0" then Some(Bg(0))
    else if t == "-bg1" then Some(Bg(1))
    else if t == "-bg2" then Some(Bg(2))
    else if t == "-ro" then Some(Ro)
    else None
  }

  /** Integer-valued flags are read with `atoi`, the others with `atof`. */
  predicate IntegerFlag(f: Flag) {
    f.S2? || f.S3? || f.Bx?
  }

  datatype Value = IntValue(i: int) | RealValue(x: real)

  function Converted(f: Flag, token: string, atoi: string -> int, atof: string -> real): Value {
    if IntegerFlag(f) then IntValue(atoi(token)) else RealValue(atof(token))
  }

  /** The setting a flag addresses. */
  function Read(s: Settings, f: Flag): Value
    requires ValidFlag(f)
  {
    match f
    case S2 => IntValue(s.spotAreaLowCut)
    case S3 => IntValue(s.spotBaseSize)
    case S7 => RealValue(s.spotAreaMaxFactor)
    case S8 => RealValue(s.spotPeakIntMaxFactor)
    case I3 => RealValue(s.iceRingStrengthPercentile)
    case D1 => RealValue(s.diffLowerInt)
    case Bx(i) => IntValue(s.scanBoxSize.At(i))
    case Bg(i) => RealValue(s.bgUpperInt.At(i))
    case Ro => RealValue(s.resolutionOuter)
  }

  /** The settings with the one a flag addresses blanked out, so that two
      settings agree everywhere else iff their blanks are equal. */
  function Blank(s: Settings, f: Flag): Settings
    requires ValidFlag(f)
  {
    match f
    case S2 => s.(spotAreaLowCut := 0)
    case S3 => s.(spotBaseSize := 0)
    case S7 => s.(spotAreaMaxFactor := 0.0)
    case S8 => s.(spotPeakIntMaxFactor := 0.0)
    case I3 => s.(iceRingStrengthPercentile := 0.0)
    case D1 => s.(diffLowerInt := 0.0)
    case Bx(i) => s.(scanBoxSize := s.scanBoxSize.With(i, 0))
    case Bg(i) => s.(bgUpperInt := s.bgUpperInt.With(i, 0.0))
    case Ro => s.(resolutionOuter := 0.0)
  }

  /** `set_resolution_outer`: only a positive resolution is accepted. */
  function SetResolutionOuter(s: Settings, newValue: real): (r: Result<Settings>)
    ensures r.Ok? <==> newValue > 0.0
    ensures r.Ok? ==> Read(r.value, Ro) == RealValue(newValue) && Blank(r.value, Ro) == Blank(s, Ro)
  {
    if newValue > 0.0 then Ok(s.(resolutionOuter := newValue))
    else Err("SCITBX_ASSERT(newvalue>0.0) failure")
  }

  /** One flag with its value token applied to the settings. */
  function Apply(s: Settings, f: Flag, token: string, atoi: string -> int, atof: string -> real): (r: Result<Settings>)
    requires ValidFlag(f)
    ensures r.Err? <==> f.Ro? && atof(token) <= 0.0
    ensures r.Ok? ==> Read(r.value, f) == Converted(f, token, atoi, atof)
    ensures r.Ok? ==> Blank(r.value, f) == Blank(s, f)
  {
    match f
    case S2 => Ok(s.(spotAreaLowCut := atoi(token)))
    case S3 => Ok(s.(spotBaseSize := atoi(token)))
    case S7 => Ok(s.(spotAreaMaxFactor := atof(token)))
    case S8 => Ok(s.(spotPeakIntMaxFactor := atof(token)))
    case I3 => Ok(s.(iceRingStrengthPercentile := atof(token)))
    case D1 => Ok(s.(diffLowerInt := atof(token)))
    case Bx(i) =>
      var b := s.scanBoxSize.With(i, atoi(token));
      assert b.With(i, 0) == s.scanBoxSize.With(i, 0);
      Ok(s.(scanBoxSize := b))
    case Bg(i) =>
      var b := s.bgUpperInt.With(i, atof(token));
      assert b.With(i, 0.0) == s.bgUpperInt.With(i, 0.0);
      Ok(s.(bgUpperInt := b))
    case Ro => SetResolutionOuter(s, atof(token))
  }

  /** The constructor's token loop: a recognised flag consumes the next
      token as its value (so a value is never read as a flag); any other
      token is skipped.  A flag in last position would read past the end. */
  function ParseTokens(ts: seq<string>, s: Settings, atoi: string -> int, atof: string -> real): (r: Result<Settings>)
    ensures r.Ok? ==> r.value.reportOverloads == s.reportOverloads
    decreases |ts|
  {
    if |ts| == 0 then Ok(s)
    else match FlagOf(ts[0])
      case None => ParseTokens(ts[1..], s, atoi, atof)
      case Some(f) =>
        if |ts| < 2 then Err("option " + ts[0] + " has no value")
        else
          var next :- Apply(s, f, ts[1], atoi, atof);
          ParseTokens(ts[2..], next, atoi, atof)
  }

  /** Tokens without a recognised flag leave the settings as they are. */
  lemma {:induction false} UnknownTokensIgnored(ts: seq<string>, s: Settings, atoi: string -> int, atof: string -> real)
    requires forall i :: 0 <= i < |ts| ==> FlagOf(ts[i]).None?
    ensures ParseTokens(ts, s, atoi, atof) == Ok(s)
    decreases |ts|
  {
    if |ts| > 0 {
      UnknownTokensIgnored(ts[1..], s, atoi, atof);
    }
  }

  /** Options are read left to right: once a prefix has been read in full,
      the rest continues from the settings it produced. */
  lemma {:induction false} ParseTokensAppend(a: seq<string>, b: seq<string>, s: Settings, atoi: string -> int, atof: string -> real)
    requires ParseTokens(a, s, atoi, atof).Ok?
    ensures ParseTokens(a + b, s, atoi, atof) == ParseTokens(b, ParseTokens(a, s, atoi, atof).value, atoi, atof)
    decreases |a|
  {
    if |a| > 0 {
      match FlagOf(a[0])
      case None =>
        assert (a + b)[1..] == a[1..] + b;
        ParseTokensAppend(a[1..], b, s, atoi, atof);
      case Some(f) =>
        assert (a + b)[2..] == a[2..] + b;
        var next := Apply(s, f, a[1], atoi, atof).value;
        ParseTokensAppend(a[2..], b, next, atoi, atof);
    } else {
      assert a + b == b;
    }
  }

  /** A flag after a complete option list has no value and is an error. */
  lemma TrailingFlagFails(a: seq<string>, flag: string, s: Settings, atoi: string -> int, atof: string -> real)
    requires ParseTokens(a, s, atoi, atof).Ok? && FlagOf(flag).Some?
    ensures ParseTokens(a + [flag], s, atoi, atof).Err?
  {
    ParseTokensAppend(a, [flag], s, atoi, atof);
  }

  /** A single flag with its value sets that setting and nothing else. */
  lemma SingleOption(flag: string, token: string, s: Settings, atoi: string -> int, atof: string -> real)
    requires FlagOf(flag).Some? && !FlagOf(flag).value.Ro?
    ensures var f := FlagOf(flag).value;
      var r := ParseTokens([flag, token], s, atoi, atof);
      r.Ok? && Read(r.value, f) == Converted(f, token, atoi, atof) && Blank(r.value, f) == Blank(s, f)
  {
    var f := FlagOf(flag).value;
    assert [flag, token][2..] == [];
  }

  /** The `w_Distl` constructor: LABELIT's defaults (`spotbasesize` 10, all
      three `bgupperint` 1.5) over the finder's own, overloads reported on
      request, then the option string. */
  function NewDistl(options: string, reportOverloads: bool, finder: Settings,
                    atoi: string -> int, atof: string -> real): (r: Result<Settings>)
    ensures reportOverloads && r.Ok? ==> r.value.reportOverloads
    ensures !reportOverloads && r.Ok? ==> r.value.reportOverloads == finder.reportOverloads
  {
    var defaults := finder.(spotBaseSize := 10, bgUpperInt := Cycles(1.5, 1.5, 1.5),
                            reportOverloads := reportOverloads || finder.reportOverloads);
    ParseTokens(Tokens(options), defaults, atoi, atof)
  }

  /** With no recognised flag the defaults stand. */
  lemma DefaultsWithoutFlags(options: string, reportOverloads: bool, finder: Settings,
                             atoi: string -> int, atof: string -> real)
    requires forall i :: 0 <= i < |Tokens(options)| ==> FlagOf(Tokens(options)[i]).None?
    ensures var r := NewDistl(options, reportOverloads, finder, atoi, atof);
      r.Ok? && r.value.spotBaseSize == 10 && r.value.bgUpperInt == Cycles(1.5, 1.5, 1.5)
      && r.value.spotAreaLowCut == finder.spotAreaLowCut && r.value.resolutionOuter == finder.resolutionOuter
  {
    var defaults := finder.(spotBaseSize := 10, bgUpperInt := Cycles(1.5, 1.5, 1.5),
                            reportOverloads := reportOverloads || finder.reportOverloads);
    UnknownTokensIgnored(Tokens(options), defaults, atoi, atof);
  }

  // ---------------------------------------------------------------------
  // Tiling

  datatype Tiling = Pilatus6M | Pilatus2M | Pilatus300K | Eiger | Standard | Explicit(tiles: seq<int>, margin: int)

  /** `set_tiling(vendortype)`: the three Pilatus names exactly, any name
      starting with "Eiger", everything else the standard scan boxes. */
  function SetTiling(vendorType: string): (r: Tiling)
    ensures r == Pilatus6M <==> vendorType == "Pilatus-6M"
    ensures r == Pilatus2M <==> vendorType == "Pilatus-2M"
    ensures r == Pilatus300K <==> vendorType == "Pilatus-300K"
    ensures r == Eiger <==> Text.StartsWith(vendorType, "Eiger")
    ensures r == Standard <==>
      vendorType !in {"Pilatus-6M", "Pilatus-2M", "Pilatus-300K"} && !Text.StartsWith(vendorType, "Eiger")
    ensures !r.Explicit?
  {
    assert forall name :: name in {"Pilatus-6M", "Pilatus-2M", "Pilatus-300K"} ==>
      name[0] != "Eiger"[0] && !Text.StartsWith(name, "Eiger");
    if vendorType == "Pilatus-6M" then Pilatus6M
    else if vendorType == "Pilatus-2M" then Pilatus2M
    else if vendorType == "Pilatus-300K" then Pilatus300K
    else if |vendorType| >= 5 && vendorType[..5] == "Eiger" then Eiger
    else Standard
  }

  /** `set_tiling(explicit_tiling, peripheral_margin)`. */
  function SetExplicitTiling(tiles: seq<int>, margin: int): (r: Tiling)
    ensures r.Explicit? && r.tiles == tiles && r.margin == margin
  {
    Explicit(tiles, margin)
  }

  // ---------------------------------------------------------------------
  // `finish_analysis`

  /** The spots kept: those whose area exceeds the base size, in order. */
  function Kept<S>(spots: seq<S>, area: S -> int, spotBaseSize: int): seq<S>
    decreases |spots|
  {
    if |spots| == 0 then []
    else
      var rest := Kept(spots[..|spots| - 1], area, spotBaseSize);
      if area(spots[|spots| - 1]) > spotBaseSize then rest + [spots[|spots| - 1]] else rest
  }

  /** `a` is `b` with some elements left out, order kept. */
  predicate IsSubsequence<S(==)>(a: seq<S>, b: seq<S>)
    decreases |b|
  {
    if |a| == 0 then true
    else if |b| == 0 then false
    else if a[|a| - 1] == b[|b| - 1] then IsSubsequence(a[..|a| - 1], b[..|b| - 1])
    else IsSubsequence(a, b[..|b| - 1])
  }

  lemma {:induction false} KeptLarge<S>(spots: seq<S>, area: S -> int, spotBaseSize: int)
    ensures forall i :: 0 <= i < |Kept(spots, area, spotBaseSize)| ==> area(Kept(spots, area, spotBaseSize)[i]) > spotBaseSize
    decreases |spots|
  {
    if |spots| > 0 {
      KeptLarge(spots[..|spots| - 1], area, spotBaseSize);
    }
  }

  lemma {:induction false} KeptInOrder<S>(spots: seq<S>, area: S -> int, spotBaseSize: int)
    ensures IsSubsequence(Kept(spots, area, spotBaseSize), spots)
    decreases |spots|
  {
    if |spots| > 0 {
      var init := spots[..|spots| - 1];
      var x := spots[|spots| - 1];
      var rest := Kept(init, area, spotBaseSize);
      KeptInOrder(init, area, spotBaseSize);
      if area(x) > spotBaseSize {
        assert (rest + [x])[..|rest|] == rest;
      } else if |rest| > 0 {
        KeptLarge(init, area, spotBaseSize);
        assert area(rest[|rest| - 1]) > spotBaseSize;
      }
    }
  }

  lemma {:induction false} KeptCounts<S>(spots: seq<S>, area: S -> int, spotBaseSize: int)
    ensures forall x :: (multiset(Kept(spots, area, spotBaseSize))[x] ==
      (if area(x) > spotBaseSize then multiset(spots)[x] else 0))
    decreases |spots|
  {
    if |spots| > 0 {
      var init := spots[..|spots| - 1];
      assert spots == init + [spots[|spots| - 1]];
      KeptCounts(init, area, spotBaseSize);
    }
  }

  datatype Analysis<S, R> = Analysis(spots: seq<S>, iceRings: seq<R>)

  /** `finish_analysis`: copies the finder's spots whose area is strictly
      above `spotbasesize` (the source keeps the strict comparison on
      purpose, to leave earlier results unchanged) and every ice ring. */
  method FinishAnalysis<S(==), R>(spots: seq<S>, iceRings: seq<R>, area: S -> int, spotBaseSize: int)
    returns (r: Analysis<S, R>)
    ensures forall i :: 0 <= i < |r.spots| ==> area(r.spots[i]) > spotBaseSize
    ensures forall x :: multiset(r.spots)[x] == (if area(x) > spotBaseSize then multiset(spots)[x] else 0)
    ensures IsSubsequence(r.spots, spots)
    ensures r.iceRings == iceRings
  {
    var kept: seq<S> := [];
    var i := 0;
    while i < |spots|
      invariant 0 <= i <= |spots|
      invariant kept == Kept(spots[..i], area, spotBaseSize)
    {
      assert spots[..i + 1][..i] == spots[..i];
      if area(spots[i]) > spotBaseSize {
        kept := kept + [spots[i]];
      }
      i := i + 1;
    }
    assert spots[..i] == spots;
    KeptLarge(spots, area, spotBaseSize);
    KeptCounts(spots, area, spotBaseSize);
    KeptInOrder(spots, area, spotBaseSize);
    var rings: seq<R> := [];
    var j := 0;
    while j < |iceRings|
      invariant 0 <= j <= |iceRings|
      invariant rings == iceRings[..j]
    {
      rings := rings + [iceRings[j]];
      j := j + 1;
    }
    r := Analysis(kept, rings);
  }

  // ---------------------------------------------------------------------
  // Spots: encoding, principal axes, radial and azimuthal extent

  datatype Point = Point(x: int, y: int)

  datatype Axes = Axes(major: real, minor: real)

  /** A spot with its cached axes (`p_gotaxes` with `p_majoraxis`,
      `p_minoraxis`). */
  datatype Spot = Spot(peak: Point, bodyPixels: seq<Point>, nMaxima: int, cachedAxes: Option<Axes>)

  function EncodePoints(ps: seq<Point>): (r: seq<int>)
    ensures |r| == 2 * |ps|
    ensures forall k :: 0 <= k < |ps| ==> r[2 * k] == ps[k].x && r[2 * k + 1] == ps[k].y
  {
    if |ps| == 0 then [] else [ps[0].x, ps[0].y] + EncodePoints(ps[1..])
  }

  /** The integer stream the `spot(intptr)` constructor reads: the peak,
      the number of body pixels, then each body pixel's coordinates. */
  function EncodeSpot(peak: Point, body: seq<Point>): (r: seq<int>)
    ensures |r| == 3 + 2 * |body|
    ensures r[0] == peak.x && r[1] == peak.y && r[2] == |body|
    ensures forall k :: 0 <= k < |body| ==> r[3 + 2 * k] == body[k].x && r[4 + 2 * k] == body[k].y
  {
    [peak.x, peak.y, |body|] + EncodePoints(body)
  }

  function DecodePoints(ints: seq<int>, n: int): (r: Result<seq<Point>>)
    ensures r.Ok? ==> |r.value| == (if n > 0 then n else 0)
    ensures r.Ok? <==> n <= 0 || 2 * n <= |ints|
    decreases if n > 0 then n else 0
  {
    if n <= 0 then Ok([])
    else if |ints| < 2 then Err("spot stream ends inside a body pixel")
    else
      var rest :- DecodePoints(ints[2..], n - 1);
      Ok([Point(ints[0], ints[1])] + rest)
  }

  /** The `spot(intptr)` constructor; reading past the stream is an error
      (the source reads whatever memory follows).  A negative body length
      becomes a huge `size_t` in `bodypixels.reserve`, which throws
      `std::length_error`. */
  function DecodeSpot(ints: seq<int>): (r: Result<Spot>)
    ensures r.Ok? ==> |ints| >= 3 && r.value.peak == Point(ints[0], ints[1])
    ensures r.Ok? ==> r.value.nMaxima == 0 && r.value.cachedAxes.None?
    ensures r.Ok? <==> |ints| >= 3 && 0 <= ints[2] && 2 * ints[2] <= |ints| - 3
    ensures r.Ok? ==> |r.value.bodyPixels| == ints[2]
  {
    if |ints| < 3 then Err("spot stream shorter than its header")
    else if ints[2] < 0 then Err("vector::reserve")
    else
      var body :- DecodePoints(ints[3..], ints[2]);
      Ok(Spot(Point(ints[0], ints[1]), body, 0, None))
  }

  lemma {:induction false} DecodeEncodedPoints(ps: seq<Point>, rest: seq<int>)
    ensures DecodePoints(EncodePoints(ps) + rest, |ps|) == Ok(ps)
    decreases |ps|
  {
    if |ps| > 0 {
      var e := EncodePoints(ps) + rest;
      assert e[2..] == EncodePoints(ps[1..]) + rest;
      DecodeEncodedPoints(ps[1..], rest);
      assert [ps[0]] + ps[1..] == ps;
    }
  }

  /** Decoding an encoded spot gives back its peak and body pixels, whatever
      follows in the stream. */
  lemma DecodeEncodedSpot(peak: Point, body: seq<Point>, rest: seq<int>)
    ensures DecodeSpot(EncodeSpot(peak, body) + rest) == Ok(Spot(peak, body, 0, None))
  {
    var e := EncodeSpot(peak, body) + rest;
    assert e[3..] == EncodePoints(body) + rest;
    DecodeEncodedPoints(body, rest);
  }

  function SumX(ps: seq<Point>): int {
    if |ps| == 0 then 0 else SumX(ps[..|ps| - 1]) + ps[|ps| - 1].x
  }

  function SumY(ps: seq<Point>): int {
    if |ps| == 0 then 0 else SumY(ps[..|ps| - 1]) + ps[|ps| - 1].y
  }

  function SquaredDistance(p: Point, cx: real, cy: real): real {
    (p.x as real - cx) * (p.x as real - cx) + (p.y as real - cy) * (p.y as real - cy)
  }

  function CrossMagnitude(p: Point, cx: real, cy: real, dx: real, dy: real): real {
    Abs(dx * (p.y as real - cy) - (p.x as real - cx) * dy)
  }

  /** The first position of the largest element, as `std::max_element`. */
  function FirstMax(s: seq<real>): (r: nat)
    requires |s| > 0
    ensures r < |s| && s[r] == MaxOf(s)
    ensures forall i :: 0 <= i < r ==> s[i] < s[r]
    decreases |s|
  {
    if |s| == 1 then 0
    else
      var k := FirstMax(s[..|s| - 1]);
      assert forall i :: 0 <= i < |s| - 1 ==> s[..|s| - 1][i] == s[i];
      if s[|s| - 1] > s[k] then |s| - 1 else k
  }

  /** `p_getaxes`' computation: twice the largest distance from the mean
      pixel, and four times the largest cross product with that direction
      over the major axis, larger one first.  Fewer than two body pixels give
      a unit circle.  When every body pixel sits on the mean the source
      divides zero by zero; the model reports that case. */
  function ComputeAxes(body: seq<Point>, sqrt: real -> real): (r: Result<Axes>)
    ensures |body| < 2 ==> r == Ok(Axes(1.0, 1.0))
    ensures r.Ok? ==> r.value.major >= r.value.minor
    ensures r.Err? ==> |body| >= 2
  {
    if |body| < 2 then Ok(Axes(1.0, 1.0))
    else
      var n := |body| as real;
      var cx := SumX(body) as real / n;
      var cy := SumY(body) as real / n;
      var distances := seq(|body|, i requires 0 <= i < |body| => SquaredDistance(body[i], cx, cy));
      var pos := FirstMax(distances);
      var major := 2.0 * sqrt(distances[pos]);
      var dx := body[pos].x as real - cx;
      var dy := body[pos].y as real - cy;
      var crosses := seq(|body|, i requires 0 <= i < |body| => CrossMagnitude(body[i], cx, cy, dx, dy));
      if major == 0.0 then Err("spot axes: every body pixel sits on the mean")
      else
        var minor := 4.0 * MaxOf(crosses) / major;
        if major >= minor then Ok(Axes(major, minor)) else Ok(Axes(minor, major))
  }

  datatype AxesLookup = AxesLookup(spot: Spot, axes: Axes)

  /** `p_getaxes` followed by `get_majoraxis`/`get_minoraxis`: the axes are
      computed once and then served from the cache, whatever happens to the
      body pixels, until `setstate`. */
  function GetAxes(s: Spot, sqrt: real -> real): (r: Result<AxesLookup>)
    ensures s.cachedAxes.Some? ==> r == Ok(AxesLookup(s, s.cachedAxes.value))
    ensures s.cachedAxes.None? ==> (r.Ok? <==> ComputeAxes(s.bodyPixels, sqrt).Ok?)
    ensures r.Ok? ==> r.value.spot == s.(cachedAxes := Some(r.value.axes))
    ensures r.Ok? && s.cachedAxes.None? ==> r.value.axes.major >= r.value.axes.minor
  {
    match s.cachedAxes
    case Some(a) => Ok(AxesLookup(s, a))
    case None =>
      var a :- ComputeAxes(s.bodyPixels, sqrt);
      Ok(AxesLookup(s.(cachedAxes := Some(a)), a))
  }

  /** A second lookup returns the same axes and leaves the spot alone. */
  lemma GetAxesTwice(s: Spot, sqrt: real -> real, later: real -> real)
    requires GetAxes(s, sqrt).Ok?
    ensures var first := GetAxes(s, sqrt).value;
      GetAxes(first.spot, later) == Ok(first)
  {
  }

  /** `setstate`: a new peak, no maxima counted, the axes cache dropped. */
  function SetState(s: Spot, peak: Point): (r: Spot)
    ensures r.peak == peak && r.nMaxima == 0 && r.bodyPixels == s.bodyPixels
    ensures forall sqrt: real -> real :: (GetAxes(r, sqrt) ==
      match ComputeAxes(s.bodyPixels, sqrt)
      case Ok(a) => Ok(AxesLookup(r.(cachedAxes := Some(a)), a))
      case Err(m) => Err(m))
  {
    s.(nMaxima := 0, cachedAxes := None, peak := peak)
  }

  /** The projection of a body pixel, taken from the spot centre, on a
      direction. */
  function Projection(p: Point, cx: real, cy: real, ux: real, uy: real): real {
    (p.x as real - cx) * ux + (p.y as real - cy) * uy
  }

  function Projections(body: seq<Point>, cx: real, cy: real, ux: real, uy: real): (r: seq<real>)
    ensures |r| == |body|
  {
    seq(|body|, i requires 0 <= i < |body| => Projection(body[i], cx, cy, ux, uy))
  }

  /** The spread of a non-empty list: largest minus smallest. */
  function Spread(s: seq<real>): (r: real)
    requires |s| > 0
    ensures r >= 0.0
  {
    MaxOf(s) - MinOf(s)
  }

  /** The spread bounds the difference of any two elements, and is one of
      those differences. */
  lemma SpreadBounds(s: seq<real>)
    requires |s| > 0
    ensures forall i, j :: 0 <= i < |s| && 0 <= j < |s| ==> s[i] - s[j] <= Spread(s)
    ensures exists i, j :: 0 <= i < |s| && 0 <= j < |s| && s[i] - s[j] == Spread(s)
  {
    var i :| 0 <= i < |s| && s[i] == MaxOf(s);
    var j :| 0 <= j < |s| && s[j] == MinOf(s);
    assert s[i] - s[j] == Spread(s);
  }

  /** The extent of the body pixels along a direction. */
  function ExtentAlong(body: seq<Point>, cx: real, cy: real, ux: real, uy: real): (r: real)
    requires |body| > 0
    ensures r >= 0.0
    ensures |body| == 1 ==> r == 0.0
  {
    Spread(Projections(body, cx, cy, ux, uy))
  }

  datatype Extent = Extent(radial: real, azimuthal: real)

  /** The running maximum and minimum, started at minus and plus infinity
      (`None`), of the projections on one direction. */
  method Extremes(ps: seq<real>) returns (lo: real, hi: real)
    requires |ps| > 0
    ensures lo == MinOf(ps) && hi == MaxOf(ps)
  {
    var mx: Option<real> := None;
    var mn: Option<real> := None;
    var k := 0;
    while k < |ps|
      invariant 0 <= k <= |ps|
      invariant k == 0 <==> mx.None?
      invariant k == 0 <==> mn.None?
      invariant k > 0 ==> mx == Some(MaxOf(ps[..k])) && mn == Some(MinOf(ps[..k]))
    {
      assert ps[..k + 1][..k] == ps[..k];
      if mx.None? || ps[k] > mx.value {
        mx := Some(ps[k]);
      }
      if mn.None? || ps[k] < mn.value {
        mn := Some(ps[k]);
      }
      k := k + 1;
    }
    assert ps[..k] == ps;
    lo, hi := mn.value, mx.value;
  }

  /** The unit vector from the beam centre to the spot centre, given the
      length `h > 0` of their difference. */
  function Radial(centerX: real, centerY: real, beamCenterX: real, beamCenterY: real, h: real): (real, real)
    requires h > 0.0
  {
    ((centerX - beamCenterX) / h, (centerY - beamCenterY) / h)
  }

  /** `get_radial_and_azimuthal_size`: the extent of the body pixels along
      the unit direction from the beam centre to the spot centre and along
      that direction turned a quarter turn counter-clockwise.  An empty
      spot, or one centred on the beam, has no extent.  The spot centre
      (`model_center`) and the vector length are parameters. */
  method RadialAndAzimuthalSize(body: seq<Point>, centerX: real, centerY: real,
                                beamCenterX: real, beamCenterY: real, length: (real, real) -> real)
    returns (r: Extent)
    ensures |body| == 0 || length(centerX - beamCenterX, centerY - beamCenterY) <= 0.0 ==> r == Extent(0.0, 0.0)
    ensures r.radial >= 0.0 && r.azimuthal >= 0.0
    ensures |body| > 0 && length(centerX - beamCenterX, centerY - beamCenterY) > 0.0 ==>
      var u := Radial(centerX, centerY, beamCenterX, beamCenterY, length(centerX - beamCenterX, centerY - beamCenterY));
      r.radial == ExtentAlong(body, centerX, centerY, u.0, u.1)
      && r.azimuthal == ExtentAlong(body, centerX, centerY, -u.1, u.0)
    ensures |body| == 1 ==> r == Extent(0.0, 0.0)
  {
    if |body| == 0 {
      return Extent(0.0, 0.0);
    }
    var h := length(centerX - beamCenterX, centerY - beamCenterY);
    if h <= 0.0 {
      return Extent(0.0, 0.0);
    }
    var u := Radial(centerX, centerY, beamCenterX, beamCenterY, h);
    var rMin, rMax := Extremes(Projections(body, centerX, centerY, u.0, u.1));
    var aMin, aMax := Extremes(Projections(body, centerX, centerY, -u.1, u.0));
    r := Extent(rMax - rMin, aMax - aMin);
  }

  // ---------------------------------------------------------------------
  // `mod_data`

  /** The cells `mod_data` overwrites: low DISTL intensity and a pixel value
      strictly between the under- and overload values. */
  predicate Flattened(value: int, intensity: real, underload: real, overload: real) {
    intensity < 1.5 && underload < value as real < overload
  }

  /** `mod_data`: the image with every flattened cell set to 10. */
  function ModData(values: seq<seq<int>>, intensity: seq<seq<real>>, nx: nat, ny: nat,
                   underload: real, overload: real): (r: seq<seq<int>>)
    requires Grid(values, nx, ny) && Grid(intensity, nx, ny)
    ensures Grid(r, nx, ny)
    ensures forall x, y :: 0 <= x < nx && 0 <= y < ny ==>
      (r[x][y] != values[x][y] <==> Flattened(values[x][y], intensity[x][y], underload, overload) && values[x][y] != 10)
    ensures forall x, y :: 0 <= x < nx && 0 <= y < ny && r[x][y] != values[x][y] ==> r[x][y] == 10
  {
    seq(nx, x requires 0 <= x < nx =>
      seq(ny, y requires 0 <= y < ny =>
        if Flattened(values[x][y], intensity[x][y], underload, overload) then 10 else values[x][y]))
  }

  /** Modifying a modified image changes nothing more. */
  lemma ModDataIdempotent(values: seq<seq<int>>, intensity: seq<seq<real>>, nx: nat, ny: nat,
                          underload: real, overload: real)
    requires Grid(values, nx, ny) && Grid(intensity, nx, ny)
    ensures var once := ModData(values, intensity, nx, ny, underload, overload);
      ModData(once, intensity, nx, ny, underload, overload) == once
  {
    var once := ModData(values, intensity, nx, ny, underload, overload);
    var twice := ModData(once, intensity, nx, ny, underload, overload);
    forall x | 0 <= x < nx
      ensures twice[x] == once[x]
    {
      forall y | 0 <= y < ny
        ensures twice[x][y] == once[x][y]
      {
        if once[x][y] != values[x][y] {
          assert once[x][y] == 10;
        }
      }
    }
  }
}

=== FILE: geometric_hydrogen.dfy ===
/** Geometrically constrained hydrogens of
    smtbx/refinement/constraints/geometric_hydrogen.h: switching the
    constraint on in context, riding of the hydrogens' site gradients on the
    pivot, the layout of the reparametrisation gradients and shifts
    (bond stretching, then azimuthal rotation), and the azimuth in degrees.

    The local Cartesian frame, the trigonometry of the placement and the
    unit-cell (de)orthogonalisation are not part of this model; the
    reparametrisation derivatives they produce enter as values. */
module GeometricHydrogen {
  import opened Common

  /** `scitbx::constants::pi` as a double. */
  const Pi: real := 3.141592653589793

  /** The scatterer flags: the `grad_site` bit and all others together. */
  datatype ScattererFlags = ScattererFlags(gradSite: bool, otherBits: nat)

  /** The plain riding constraint, or `terminal_X_Hn` with its pivot
      neighbour, rotation switch and azimuth `phi` in radians. */
  datatype Kind = Riding | Terminal(pivotNeighbour: nat, rotating: bool, phi: real)

  datatype Constraint = Constraint(
    on: bool,
    pivot: nat,
    hydrogens: seq<nat>,
    stretching: bool,
    bondLength: real,
    kind: Kind)

  /** The base constructor: a constraint starts switched on. */
  function NewRiding(pivot: nat, hydrogens: seq<nat>, bondLength: real, stretching: bool): (r: Constraint)
    ensures r.on && r.kind.Riding? && !HasActiveReparametrizations(r) == !stretching
    ensures r.pivot == pivot && r.hydrogens == hydrogens && r.bondLength == bondLength
  {
    Constraint(true, pivot, hydrogens, stretching, bondLength, Riding)
  }

  /** `terminal_X_Hn`'s constructor takes the azimuth in degrees. */
  function NewTerminal(pivot: nat, pivotNeighbour: nat, hydrogens: seq<nat>, azimuthDegrees: real,
                       bondLength: real, rotating: bool, stretching: bool): (r: Constraint)
    ensures r.on && r.kind.Terminal? && Azimuth(r) == azimuthDegrees
    ensures HasActiveReparametrizations(r) <==> rotating || stretching
    ensures r.pivot == pivot && r.hydrogens == hydrogens && r.bondLength == bondLength
      && r.kind.pivotNeighbour == pivotNeighbour
  {
    Constraint(true, pivot, hydrogens, stretching, bondLength,
               Terminal(pivotNeighbour, rotating, azimuthDegrees * Pi / 180.0))
  }

  predicate NoDuplicates(s: seq<nat>) {
    forall a, b :: 0 <= a < b < |s| ==> s[a] != s[b]
  }

  lemma NoDuplicatesSnoc(s: seq<nat>, x: nat)
    ensures NoDuplicates(s + [x]) <==> NoDuplicates(s) && x !in s
  {
    var t := s + [x];
    if x in s {
      var a :| 0 <= a < |s| && s[a] == x;
      assert t[a] == t[|s|];
    } else if NoDuplicates(t) {
      forall a, b | 0 <= a < b < |s| ensures s[a] != s[b] {
        assert t[a] == s[a] && t[b] == s[b];
      }
    }
  }

  // ---------------------------------------------------------------------
  // `initialise_in_context`

  /** The flags once the site gradients of `hs` are cleared. */
  function Cleared(flags: seq<ScattererFlags>, hs: seq<nat>): (r: seq<ScattererFlags>)
    ensures |r| == |flags|
  {
    seq(|flags|, k requires 0 <= k < |flags| => if k in hs then flags[k].(gradSite := false) else flags[k])
  }

  predicate InFlags(flags: seq<ScattererFlags>, hs: seq<nat>) {
    forall i :: 0 <= i < |hs| ==> hs[i] < |flags|
  }

  /** Whether the constraint survives visiting `hs` in order: each visited
      flag, as the earlier visits left it, must still refine the site. */
  ghost function StaysOn(flags: seq<ScattererFlags>, hs: seq<nat>): bool
    requires InFlags(flags, hs)
    decreases |hs|
  {
    if |hs| == 0 then true
    else
      var p := hs[..|hs| - 1];
      StaysOn(flags, p) && Cleared(flags, p)[hs[|hs| - 1]].gradSite
  }

  /** The `already_constrained` record after visiting `hs` in order. */
  ghost function Recorded(already: map<nat, ScattererFlags>, flags: seq<ScattererFlags>, hs: seq<nat>): map<nat, ScattererFlags>
    requires InFlags(flags, hs)
    decreases |hs|
  {
    if |hs| == 0 then already
    else
      var p := hs[..|hs| - 1];
      var h := hs[|hs| - 1];
      var f := Cleared(flags, p)[h];
      if !f.gradSite then Recorded(already, flags, p)[h := f] else Recorded(already, flags, p)
  }

  lemma ClearedSnoc(flags: seq<ScattererFlags>, p: seq<nat>, h: nat)
    requires h < |flags|
    ensures Cleared(flags, p + [h]) == Cleared(flags, p)[h := Cleared(flags, p)[h].(gradSite := false)]
  {
  }

  /** The constraint stays on exactly when no hydrogen is listed twice and
      every one of them refined its site. */
  lemma {:induction false} StaysOnExactly(flags: seq<ScattererFlags>, hs: seq<nat>)
    requires InFlags(flags, hs)
    ensures StaysOn(flags, hs) <==> NoDuplicates(hs) && forall i :: 0 <= i < |hs| ==> flags[hs[i]].gradSite
    decreases |hs|
  {
    if |hs| > 0 {
      var p := hs[..|hs| - 1];
      var h := hs[|hs| - 1];
      assert hs == p + [h];
      StaysOnExactly(flags, p);
      NoDuplicatesSnoc(p, h);
      assert (forall i :: 0 <= i < |hs| ==> flags[hs[i]].gradSite)
        <==> (forall i :: 0 <= i < |p| ==> flags[p[i]].gradSite) && flags[h].gradSite;
    }
  }

  /** Sites never visited keep their record. */
  lemma {:induction false} RecordedElsewhere(already: map<nat, ScattererFlags>, flags: seq<ScattererFlags>, hs: seq<nat>, k: nat)
    requires InFlags(flags, hs) && k !in hs
    ensures k in Recorded(already, flags, hs) <==> k in already
    ensures k in already ==> Recorded(already, flags, hs)[k] == already[k]
    decreases |hs|
  {
    if |hs| > 0 {
      var p := hs[..|hs| - 1];
      assert hs == p + [hs[|hs| - 1]];
      RecordedElsewhere(already, flags, p, k);
    }
  }

  /** Every visited site that was already not refined is recorded with
      its flags as they were on entry. */
  lemma {:induction false} RecordedUnrefined(already: map<nat, ScattererFlags>, flags: seq<ScattererFlags>, hs: seq<nat>, i: nat)
    requires InFlags(flags, hs) && i < |hs| && !flags[hs[i]].gradSite
    ensures hs[i] in Recorded(already, flags, hs) && Recorded(already, flags, hs)[hs[i]] == flags[hs[i]]
    decreases |hs|
  {
    var p := hs[..|hs| - 1];
    var h := hs[|hs| - 1];
    if hs[i] == h {
      assert Cleared(flags, p)[h] == flags[h];
    } else {
      RecordedUnrefined(already, flags, p, i);
    }
  }

  /** `h` is listed at two positions of `hs`. */
  predicate Repeated(hs: seq<nat>, h: nat) {
    exists a, b :: 0 <= a < b < |hs| && hs[a] == h && hs[b] == h
  }

  /** A hydrogen whose site was refined on entry is recorded only when it
      is listed twice: its second visit finds the flag the first cleared,
      and records that. */
  lemma {:induction false} RecordedRefined(already: map<nat, ScattererFlags>, flags: seq<ScattererFlags>, hs: seq<nat>, h: nat)
    requires InFlags(flags, hs) && h < |flags| && flags[h].gradSite
    ensures h in Recorded(already, flags, hs) <==> h in already || Repeated(hs, h)
    ensures Repeated(hs, h) ==> Recorded(already, flags, hs)[h] == flags[h].(gradSite := false)
    ensures !Repeated(hs, h) && h in already ==> Recorded(already, flags, hs)[h] == already[h]
    decreases |hs|
  {
    if |hs| > 0 {
      var p := hs[..|hs| - 1];
      var x := hs[|hs| - 1];
      assert hs == p + [x];
      RepeatedSnoc(p, x, h);
      RecordedRefined(already, flags, p, h);
      if x == h && h !in p {
        RecordedElsewhere(already, flags, p, h);
      }
    }
  }

  /** A listing is repeated after one more entry exactly when it was
      already, or the new entry is listed before. */
  lemma RepeatedSnoc(p: seq<nat>, x: nat, h: nat)
    ensures Repeated(p + [x], h) <==> Repeated(p, h) || (x == h && h in p)
  {
    var hs := p + [x];
    if Repeated(hs, h) {
      var a, b :| 0 <= a < b < |hs| && hs[a] == h && hs[b] == h;
      if b < |p| {
        assert p[a] == h && p[b] == h;
      } else {
        assert p[a] == h;
      }
    }
    if Repeated(p, h) {
      var a, b :| 0 <= a < b < |p| && p[a] == h && p[b] == h;
      assert hs[a] == h && hs[b] == h;
    }
    if x == h && h in p {
      var a :| 0 <= a < |p| && p[a] == h;
      assert hs[a] == h && hs[|p|] == h;
    }
  }

  /** The loop of `initialise_in_context`, visiting the hydrogens in order. */
  method VisitHydrogens(flags: seq<ScattererFlags>, already: map<nat, ScattererFlags>, hs: seq<nat>, on0: bool)
    returns (fs: seq<ScattererFlags>, ac: map<nat, ScattererFlags>, on: bool)
    requires InFlags(flags, hs)
    ensures fs == Cleared(flags, hs)
    ensures ac == Recorded(already, flags, hs)
    ensures on == (on0 && StaysOn(flags, hs))
  {
    on := on0;
    fs := flags;
    ac := already;
    var i := 0;
    assert hs[..0] == [];
    assert Cleared(flags, []) == flags;
    while i < |hs|
      invariant 0 <= i <= |hs|
      invariant InFlags(flags, hs[..i]) && Visited(flags, already, hs[..i], on0, fs, ac, on)
    {
      var h := hs[i];
      var f := fs[h];
      VisitStep(flags, already, hs, i, on0, fs, ac, on);
      if !f.gradSite {
        ac := ac[h := f];
        on := false;
      }
      fs := fs[h := f.(gradSite := false)];
      i := i + 1;
    }
    assert hs[..i] == hs;
  }

  /** The flags, record and on-switch after visiting `hs` in order. */
  ghost predicate Visited(flags: seq<ScattererFlags>, already: map<nat, ScattererFlags>, hs: seq<nat>, on0: bool,
                          fs: seq<ScattererFlags>, ac: map<nat, ScattererFlags>, on: bool)
    requires InFlags(flags, hs)
  {
    fs == Cleared(flags, hs) && ac == Recorded(already, flags, hs) && on == (on0 && StaysOn(flags, hs))
  }

  /** Visiting one more hydrogen clears its flag, records it when its site
      was not refined, and keeps the constraint on only when it was. */
  lemma VisitStep(flags: seq<ScattererFlags>, already: map<nat, ScattererFlags>, hs: seq<nat>, i: nat, on0: bool,
                  fs: seq<ScattererFlags>, ac: map<nat, ScattererFlags>, on: bool)
    requires InFlags(flags, hs) && i < |hs| && InFlags(flags, hs[..i])
    requires Visited(flags, already, hs[..i], on0, fs, ac, on)
    ensures InFlags(flags, hs[..i + 1]) && hs[i] < |fs|
    ensures var h := hs[i];
            var f := fs[h];
            Visited(flags, already, hs[..i + 1], on0, fs[h := f.(gradSite := false)],
                    if !f.gradSite then ac[h := f] else ac, on && f.gradSite)
  {
    assert hs[..i + 1] == hs[..i] + [hs[i]];
    assert hs[..i + 1][..i] == hs[..i];
    ClearedSnoc(flags, hs[..i], hs[i]);
  }

  datatype Initialised = Initialised(
    constraint: Constraint,
    flags: seq<ScattererFlags>,
    alreadyConstrained: map<nat, ScattererFlags>)

  /** Takes the site gradient of every hydrogen away from the refinement.
      A hydrogen whose site was already not refined is recorded and switches
      the constraint off; so does a hydrogen listed twice, whose flag the
      first visit has cleared. */
  method InitialiseInContext(c: Constraint, flags: seq<ScattererFlags>, already: map<nat, ScattererFlags>)
    returns (r: Initialised)
    requires forall i :: 0 <= i < |c.hydrogens| ==> c.hydrogens[i] < |flags|
    ensures r.constraint == c.(on := r.constraint.on)
    ensures r.constraint.on <==>
      c.on && NoDuplicates(c.hydrogens) && forall i :: 0 <= i < |c.hydrogens| ==> flags[c.hydrogens[i]].gradSite
    ensures |r.flags| == |flags|
    ensures forall i :: 0 <= i < |c.hydrogens| ==>
      r.flags[c.hydrogens[i]] == flags[c.hydrogens[i]].(gradSite := false)
    ensures forall k :: 0 <= k < |flags| && k !in c.hydrogens ==> r.flags[k] == flags[k]
    ensures forall i :: 0 <= i < |c.hydrogens| && !flags[c.hydrogens[i]].gradSite ==>
      c.hydrogens[i] in r.alreadyConstrained && r.alreadyConstrained[c.hydrogens[i]] == flags[c.hydrogens[i]]
    ensures forall k :: k !in c.hydrogens ==>
      (k in r.alreadyConstrained <==> k in already)
      && (k in already ==> r.alreadyConstrained[k] == already[k])
    ensures forall i :: 0 <= i < |c.hydrogens| && flags[c.hydrogens[i]].gradSite ==>
      var h := c.hydrogens[i];
      (h in r.alreadyConstrained <==> h in already || Repeated(c.hydrogens, h))
      && (Repeated(c.hydrogens, h) ==> r.alreadyConstrained[h] == flags[h].(gradSite := false))
      && (!Repeated(c.hydrogens, h) && h in already ==> r.alreadyConstrained[h] == already[h])
    ensures r.alreadyConstrained == Recorded(already, flags, c.hydrogens)
  {
    var hs := c.hydrogens;
    var fs, ac, on := VisitHydrogens(flags, already, hs, c.on);
    StaysOnExactly(flags, hs);
    forall k | k !in hs
      ensures (k in ac <==> k in already) && (k in already ==> ac[k] == already[k])
    {
      RecordedElsewhere(already, flags, hs, k);
    }
    forall i | 0 <= i < |hs| && !flags[hs[i]].gradSite
      ensures hs[i] in ac && ac[hs[i]] == flags[hs[i]]
    {
      RecordedUnrefined(already, flags, hs, i);
    }
    forall i | 0 <= i < |hs| && flags[hs[i]].gradSite
      ensures (hs[i] in ac <==> hs[i] in already || Repeated(hs, hs[i]))
        && (Repeated(hs, hs[i]) ==> ac[hs[i]] == flags[hs[i]].(gradSite := false))
        && (!Repeated(hs, hs[i]) && hs[i] in already ==> ac[hs[i]] == already[hs[i]])
    {
      RecordedRefined(already, flags, hs, hs[i]);
    }
    r := Initialised(c.(on := on), fs, ac);
  }

  // ---------------------------------------------------------------------
  // Riding (`compute_gradients`, first part)

  /** The hydrogens' site gradients summed, component `j`, over `sites`. */
  function HydrogenSum(g: seq<real>, sites: seq<nat>, j: nat): real
    requires j < 3
    requires forall i :: 0 <= i < |sites| ==> sites[i] + 3 <= |g|
    decreases |sites|
  {
    if |sites| == 0 then 0.0
    else HydrogenSum(g, sites[..|sites| - 1], j) + g[sites[|sites| - 1] + j]
  }

  /** No hydrogen's three site entries overlap the pivot's. */
  predicate ApartFromPivot(pivotSite: nat, sites: seq<nat>) {
    forall i :: 0 <= i < |sites| ==> sites[i] + 3 <= pivotSite || pivotSite + 3 <= sites[i]
  }

  /** One hydrogen's three site gradients added onto the pivot's. */
  function AddSite(g: seq<real>, p: nat, s: nat): (r: seq<real>)
    requires p + 3 <= |g| && s + 3 <= |g|
    ensures |r| == |g|
    ensures forall k :: 0 <= k < |g| && !(p <= k < p + 3) ==> r[k] == g[k]
    ensures s + 3 <= p || p + 3 <= s ==>
      r[p] == g[p] + g[s] && r[p + 1] == g[p + 1] + g[s + 1] && r[p + 2] == g[p + 2] + g[s + 2]
  {
    var g1 := g[p := g[p] + g[s]];
    var g2 := g1[p + 1 := g1[p + 1] + g1[s + 1]];
    g2[p + 2 := g2[p + 2] + g2[s + 2]]
  }

  /** The gradient positions of the hydrogens' sites. */
  function HydrogenSites(c: Constraint, siteIndex: seq<nat>): (sites: seq<nat>)
    requires forall i :: 0 <= i < |c.hydrogens| ==> c.hydrogens[i] < |siteIndex|
    ensures |sites| == |c.hydrogens|
    ensures forall i :: 0 <= i < |sites| ==> sites[i] == siteIndex[c.hydrogens[i]]
  {
    seq(|c.hydrogens|, i requires 0 <= i < |c.hydrogens| => siteIndex[c.hydrogens[i]])
  }

  /** The riding loop as a fold: each hydrogen's three site gradients
      added onto the pivot's in turn, each addition reading the array as
      the previous ones left it. */
  function AddSites(g: seq<real>, p: nat, sites: seq<nat>): (r: seq<real>)
    requires p + 3 <= |g| && forall i :: 0 <= i < |sites| ==> sites[i] + 3 <= |g|
    ensures |r| == |g|
    decreases |sites|
  {
    if |sites| == 0 then g
    else AddSite(AddSites(g, p, sites[..|sites| - 1]), p, sites[|sites| - 1])
  }

  /** One more hydrogen extends the fold by one addition. */
  lemma AddSitesStep(g: seq<real>, p: nat, sites: seq<nat>, i: nat)
    requires p + 3 <= |g| && forall l :: 0 <= l < |sites| ==> sites[l] + 3 <= |g|
    requires i < |sites|
    ensures AddSites(g, p, sites[..i + 1]) == AddSite(AddSites(g, p, sites[..i]), p, sites[i])
  {
    assert sites[..i + 1][..i] == sites[..i];
  }

  /** Entries outside the pivot's three are as they were. */
  predicate OffPivotKept(g: seq<real>, gradients: seq<real>, p: nat) {
    |g| == |gradients| && forall k :: 0 <= k < |g| && !(p <= k < p + 3) ==> g[k] == gradients[k]
  }

  /** Each of the pivot's three entries has gained the hydrogens' matching
      gradients. */
  predicate PivotGained(g: seq<real>, gradients: seq<real>, p: nat, sites: seq<nat>)
    requires |g| == |gradients| && p + 3 <= |g|
    requires forall l :: 0 <= l < |sites| ==> sites[l] + 3 <= |gradients|
  {
    forall j :: 0 <= j < 3 ==> g[p + j] == gradients[p + j] + HydrogenSum(gradients, sites, j)
  }

  lemma RideStep(g: seq<real>, gradients: seq<real>, p: nat, sites: seq<nat>, i: nat)
    requires |g| == |gradients| && p + 3 <= |g| && i < |sites|
    requires forall l :: 0 <= l < |sites| ==> sites[l] + 3 <= |gradients|
    requires OffPivotKept(g, gradients, p)
    requires ApartFromPivot(p, sites) ==> PivotGained(g, gradients, p, sites[..i])
    ensures OffPivotKept(AddSite(g, p, sites[i]), gradients, p)
    ensures ApartFromPivot(p, sites) ==> PivotGained(AddSite(g, p, sites[i]), gradients, p, sites[..i + 1])
  {
    var s := sites[i];
    assert sites[..i + 1][..i] == sites[..i];
    if ApartFromPivot(p, sites) {
      assert s + 3 <= p || p + 3 <= s;
      assert g[s] == gradients[s] && g[s + 1] == gradients[s + 1] && g[s + 2] == gradients[s + 2];
      assert HydrogenSum(gradients, sites[..i + 1], 0) == HydrogenSum(gradients, sites[..i], 0) + gradients[s];
      assert HydrogenSum(gradients, sites[..i + 1], 1) == HydrogenSum(gradients, sites[..i], 1) + gradients[s + 1];
      assert HydrogenSum(gradients, sites[..i + 1], 2) == HydrogenSum(gradients, sites[..i], 2) + gradients[s + 2];
    }
  }

  /** The fold over the first `i` hydrogens leaves every entry off the
      pivot as it was and, when no hydrogen overlaps the pivot, adds their
      gradients onto the pivot's. */
  lemma {:induction false} AddSitesPrefix(gradients: seq<real>, p: nat, sites: seq<nat>, i: nat)
    requires p + 3 <= |gradients| && i <= |sites|
    requires forall l :: 0 <= l < |sites| ==> sites[l] + 3 <= |gradients|
    ensures OffPivotKept(AddSites(gradients, p, sites[..i]), gradients, p)
    ensures ApartFromPivot(p, sites) ==> PivotGained(AddSites(gradients, p, sites[..i]), gradients, p, sites[..i])
  {
    if i == 0 {
      assert sites[..0] == [];
    } else {
      AddSitesPrefix(gradients, p, sites, i - 1);
      RideStep(AddSites(gradients, p, sites[..i - 1]), gradients, p, sites, i - 1);
      AddSitesStep(gradients, p, sites, i - 1);
    }
  }

  /** Adds each hydrogen's three site gradients onto the pivot's.  A
      hydrogen whose scatterer does not refine its site fails the
      assertion.  A switched-off constraint changes nothing. */
  method Ride(c: Constraint, scattererGradSite: seq<bool>, siteIndex: seq<nat>, gradients: seq<real>)
    returns (r: Result<seq<real>>)
    requires c.pivot < |siteIndex| && siteIndex[c.pivot] + 3 <= |gradients|
    requires forall i :: 0 <= i < |c.hydrogens| ==>
      c.hydrogens[i] < |scattererGradSite| && c.hydrogens[i] < |siteIndex|
      && siteIndex[c.hydrogens[i]] + 3 <= |gradients|
    ensures !c.on ==> r == Ok(gradients)
    ensures c.on ==> (r.Ok? <==> forall i :: 0 <= i < |c.hydrogens| ==> scattererGradSite[c.hydrogens[i]])
    ensures r.Ok? ==> |r.value| == |gradients|
    ensures r.Ok? ==> forall k :: 0 <= k < |gradients| && !(siteIndex[c.pivot] <= k < siteIndex[c.pivot] + 3) ==>
      r.value[k] == gradients[k]
    ensures r.Ok? && c.on ==>
      var p := siteIndex[c.pivot];
      var sites := HydrogenSites(c, siteIndex);
      ApartFromPivot(p, sites) ==>
        forall j :: 0 <= j < 3 ==> r.value[p + j] == gradients[p + j] + HydrogenSum(gradients, sites, j)
    ensures r.Ok? && c.on ==>
      r.value == AddSites(gradients, siteIndex[c.pivot], HydrogenSites(c, siteIndex))
  {
    if !c.on {
      return Ok(gradients);
    }
    var p := siteIndex[c.pivot];
    var sites := HydrogenSites(c, siteIndex);
    r := RideAll(c.hydrogens, scattererGradSite, p, sites, gradients);
    if r.Ok? {
      assert sites[..|sites|] == sites;
      AddSitesPrefix(gradients, p, sites, |sites|);
    }
  }

  /** The riding loop: fails at the first hydrogen that does not refine
      its site, and otherwise computes the fold. */
  method RideAll(hs: seq<nat>, scattererGradSite: seq<bool>, p: nat, sites: seq<nat>, gradients: seq<real>)
    returns (r: Result<seq<real>>)
    requires |sites| == |hs| && p + 3 <= |gradients|
    requires forall i :: 0 <= i < |hs| ==> hs[i] < |scattererGradSite| && sites[i] + 3 <= |gradients|
    ensures r.Ok? <==> forall i :: 0 <= i < |hs| ==> scattererGradSite[hs[i]]
    ensures r.Ok? ==> r.value == AddSites(gradients, p, sites)
  {
    var g := gradients;
    var i := 0;
    while i < |hs|
      invariant 0 <= i <= |hs|
      invariant forall l :: 0 <= l < i ==> scattererGradSite[hs[l]]
      invariant g == AddSites(gradients, p, sites[..i])
    {
      if !scattererGradSite[hs[i]] {
        return Err("grad_site of a riding hydrogen");
      }
      AddSitesStep(gradients, p, sites, i);
      g := AddSite(g, p, sites[i]);
      i := i + 1;
    }
    assert sites[..i] == sites;
    return Ok(g);
  }

  // ---------------------------------------------------------------------
  // Reparametrisations

  predicate Rotating(c: Constraint) {
    c.kind.Terminal? && c.kind.rotating
  }

  /** `has_active_reparametrizations`: stretching for the base class,
      stretching or rotating for `terminal_X_Hn`. */
  function HasActiveReparametrizations(c: Constraint): (r: bool)
    ensures c.kind.Riding? ==> (r <==> c.stretching)
    ensures c.kind.Terminal? ==> (r <==> c.stretching || c.kind.rotating)
  {
    c.stretching || Rotating(c)
  }

  datatype Reparametrized = Reparametrized(begin: nat, gradients: seq<real>)

  /** The reparametrisation gradients pushed by `compute_gradients`: the
      derivative along the bond length when stretching, then the derivative
      along the azimuth, converted to degrees, when rotating.  `begin`
      records where they start. */
  function PushReparametrizationGradients(c: Constraint, existing: seq<real>,
                                          dFOverDl: real, dFOverDphi: real): (r: Reparametrized)
    ensures |existing| <= |r.gradients| && r.gradients[..|existing|] == existing
    ensures c.on && HasActiveReparametrizations(c) ==> r.begin == |existing|
    ensures |r.gradients| == |existing|
      + (if c.on && c.stretching then 1 else 0) + (if c.on && Rotating(c) then 1 else 0)
    ensures c.on && c.stretching ==> r.gradients[|existing|] == dFOverDl
  {
    if !c.on || !HasActiveReparametrizations(c) then Reparametrized(0, existing)
    else
      var withStretch := if c.stretching then existing + [dFOverDl] else existing;
      var withRotation := if Rotating(c) then withStretch + [dFOverDphi * (Pi / 180.0)] else withStretch;
      assert withRotation[..|existing|] == existing;
      Reparametrized(|existing|, withRotation)
  }

  /** The number of reparametrisation parameters this constraint owns. */
  function ParameterCount(c: Constraint): nat {
    (if c.stretching then 1 else 0) + (if Rotating(c) then 1 else 0)
  }

  /** `do_apply_reparametrization_shifts` as written.  Only
      `terminal_X_Hn` overrides the base class's empty version, so any other
      constraint keeps its bond length even when stretching.  The rotation
      shift is read after the stretching one and added to `phi` as it
      stands, i.e. as if it were in radians. */
  function ApplyShiftsAsWritten(c: Constraint, begin: nat, shifts: seq<real>): (r: Constraint)
    requires begin + ParameterCount(c) <= |shifts|
    ensures !c.on || c.kind.Riding? ==> r == c
    ensures c.on && Rotating(c) ==> r.kind.Terminal? && r.kind.phi == c.kind.phi + shifts[if c.stretching then begin + 1 else begin]
  {
    if !c.on || c.kind.Riding? then c
    else
      var rotated :=
        if Rotating(c) then
          var i := if c.stretching then begin + 1 else begin;
          c.(kind := c.kind.(phi := c.kind.phi + shifts[i]))
        else c;
      if c.stretching then rotated.(bondLength := rotated.bondLength + shifts[begin]) else rotated
  }

  /** The shifts applied as intended: the rotation shift is in degrees, the
      unit its gradient was reported in, and is converted before it is added
      to `phi`. */
  function ApplyShifts(c: Constraint, begin: nat, shifts: seq<real>): (r: Constraint)
    requires begin + ParameterCount(c) <= |shifts|
    ensures !c.on || c.kind.Riding? ==> r == c
    ensures c.on && Rotating(c) ==>
      Azimuth(r) == Azimuth(c) + shifts[if c.stretching then begin + 1 else begin]
    ensures c.on && c.kind.Terminal? && c.stretching ==> r.bondLength == c.bondLength + shifts[begin]
    ensures r.on == c.on && r.pivot == c.pivot && r.hydrogens == c.hydrogens && r.stretching == c.stretching
    ensures !(c.on && c.kind.Terminal? && c.stretching) ==> r.bondLength == c.bondLength
    ensures !(c.on && Rotating(c)) ==> r.kind == c.kind
    ensures r.kind.Terminal? == c.kind.Terminal?
            && (c.kind.Terminal? ==> r.kind.pivotNeighbour == c.kind.pivotNeighbour && r.kind.rotating == c.kind.rotating)
  {
    if !c.on || c.kind.Riding? then c
    else
      var rotated :=
        if Rotating(c) then
          var i := if c.stretching then begin + 1 else begin;
          c.(kind := c.kind.(phi := c.kind.phi + shifts[i] * (Pi / 180.0)))
        else c;
      if c.stretching then rotated.(bondLength := rotated.bondLength + shifts[begin]) else rotated
  }

  /** Layout agreement: fed back its own gradients as shifts, each
      parameter receives the entry pushed for it — the bond length the
      stretching derivative, the azimuth the rotation derivative. */
  lemma LayoutAgrees(c: Constraint, existing: seq<real>, dFOverDl: real, dFOverDphi: real)
    requires c.on
    ensures var p := PushReparametrizationGradients(c, existing, dFOverDl, dFOverDphi);
      p.begin + ParameterCount(c) <= |p.gradients|
      && (c.kind.Terminal? && c.stretching ==> ApplyShifts(c, p.begin, p.gradients).bondLength == c.bondLength + dFOverDl)
      && (Rotating(c) ==> Azimuth(ApplyShifts(c, p.begin, p.gradients)) == Azimuth(c) + dFOverDphi * (Pi / 180.0))
  {
    var p := PushReparametrizationGradients(c, existing, dFOverDl, dFOverDphi);
    if HasActiveReparametrizations(c) {
      if Rotating(c) {
        var i := if c.stretching then p.begin + 1 else p.begin;
        assert p.gradients[i] == dFOverDphi * (Pi / 180.0);
      }
    }
  }

  // ---------------------------------------------------------------------
  // Azimuth in degrees

  /** `azimuth()`: `phi` in degrees (zero for a constraint without one). */
  function Azimuth(c: Constraint): (r: real)
    ensures c.kind.Terminal? ==> r * Pi == c.kind.phi * 180.0
    ensures !c.kind.Terminal? ==> r == 0.0
  {
    if c.kind.Terminal? then c.kind.phi * 180.0 / Pi else 0.0
  }

  /** `set_azimuth`: stores the angle in radians. */
  function SetAzimuth(c: Constraint, degrees: real): (r: Constraint)
    requires c.kind.Terminal?
    ensures Azimuth(r) == degrees
    ensures r == c.(kind := r.kind) && r.kind.Terminal? && r.kind.pivotNeighbour == c.kind.pivotNeighbour
      && r.kind.rotating == c.kind.rotating
  {
    c.(kind := c.kind.(phi := degrees * Pi / 180.0))
  }

  /** Storing the azimuth read back leaves the constraint as it was. */
  lemma SetAzimuthOfAzimuth(c: Constraint)
    requires c.kind.Terminal?
    ensures SetAzimuth(c, Azimuth(c)) == c
  {
    assert Azimuth(c) * Pi / 180.0 == c.kind.phi;
  }

  /** As written, a one-degree rotation shift moves the azimuth by one
      radian, about 57.3 degrees. */
  lemma RotationShiftInRadians(c: Constraint)
    requires c.on && c.kind.Terminal? && c.kind.rotating && !c.stretching
    ensures Azimuth(ApplyShiftsAsWritten(c, 0, [1.0])) == Azimuth(c) + 180.0 / Pi
    ensures Azimuth(ApplyShiftsAsWritten(c, 0, [1.0])) != Azimuth(c) + 1.0
  {
    var r := ApplyShiftsAsWritten(c, 0, [1.0]);
    assert r.kind.phi == c.kind.phi + 1.0;
    calc {
      Azimuth(r);
      (c.kind.phi + 1.0) * 180.0 / Pi;
      c.kind.phi * 180.0 / Pi + 180.0 / Pi;
    }
  }

  // ---------------------------------------------------------------------
  // Placement

  /** The azimuths at which `place_constrained_scatterers` puts the
      hydrogens: phi, phi + 2pi/3, phi + 4pi/3 for as many hydrogens as
      there are; any count other than 1, 2 or 3 throws. */
  function PlacementAzimuths(c: Constraint): (r: Result<seq<real>>)
    requires c.kind.Terminal?
    ensures r.Ok? <==> 1 <= |c.hydrogens| <= 3
    ensures r.Ok? ==> |r.value| == |c.hydrogens|
    ensures r.Ok? ==> forall k :: 0 <= k < |r.value| ==> r.value[k] == c.kind.phi + (k as real) * 2.0 * Pi / 3.0
  {
    var phi := c.kind.phi;
    var all := [phi, phi + 2.0 * Pi / 3.0, phi + 4.0 * Pi / 3.0];
    if 1 <= |c.hydrogens| <= 3 then Ok(all[..|c.hydrogens|])
    else Err("smtbx: number of geometric hydrogens must be 1,2 or 3")
  }
}

=== FILE: hendrickson_lattman.dfy ===
/** The flex array of Hendrickson–Lattman coefficients: the pickle codec
    of one element, four doubles written and read back through the
    element codec of `double`, and the constructor from centric flags and
    phase integrals. The codec of a single double and the coefficient
    formula live elsewhere and enter as function parameters. */
module HendricksonLattman {
  import opened Common

  /** The four coefficients A, B, C, D. */
  datatype Coefficients = Coefficients(a: real, b: real, c: real, d: real) {
    /** `value[i]`. */
    function At(i: nat): real
      requires i < 4
    {
      if i == 0 then a else if i == 1 then b else if i == 2 then c else d
    }
  }

  function FromComponents(xs: seq<real>): (r: Coefficients)
    requires |xs| == 4
    ensures forall i :: 0 <= i < 4 ==> r.At(i) == xs[i]
  {
    Coefficients(xs[0], xs[1], xs[2], xs[3])
  }

  function Components(v: Coefficients): (r: seq<real>)
    ensures |r| == 4 && forall i :: 0 <= i < 4 ==> r[i] == v.At(i)
  {
    [v.a, v.b, v.c, v.d]
  }

  /** The text the element codec writes for a double. */
  type Encoder = real -> seq<char>

  /** The element codec's reader: the value at the start of the text and
      the number of characters it consumed. */
  type Decoder = seq<char> -> (real, nat)

  /** The reader never moves past the end of its input. */
  ghost predicate StaysInside(dec: Decoder) {
    forall s :: dec(s).1 <= |s|
  }

  /** The element codec reads back what it wrote, whatever follows it. */
  ghost predicate RoundTrips(enc: Encoder, dec: Decoder) {
    forall x, rest {:trigger dec(enc(x) + rest)} :: dec(enc(x) + rest) == (x, |enc(x)|)
  }

  lemma ReadsBack(enc: Encoder, dec: Decoder, x: real, rest: seq<char>)
    requires RoundTrips(enc, dec)
    ensures dec(enc(x) + rest).0 == x && dec(enc(x) + rest).1 == |enc(x)|
  {
    assert dec(enc(x) + rest) == (x, |enc(x)|);
  }

  /** Writing several doubles one after the other. */
  function EncodeAll(xs: seq<real>, enc: Encoder): seq<char> {
    if |xs| == 0 then [] else enc(xs[0]) + EncodeAll(xs[1..], enc)
  }

  /** `to_string(start, value)`: the text written after `written`, components
      0, 1, 2, 3 in that order. */
  function ToString(written: seq<char>, v: Coefficients, enc: Encoder): (r: seq<char>)
    ensures |written| <= |r| && r[..|written|] == written
    ensures r[|written|..] == enc(v.a) + enc(v.b) + enc(v.c) + enc(v.d)
  {
    var r := written + enc(v.a) + enc(v.b) + enc(v.c) + enc(v.d);
    assert r == written + (enc(v.a) + enc(v.b) + enc(v.c) + enc(v.d));
    r
  }

  lemma ToStringEncodesComponents(written: seq<char>, v: Coefficients, enc: Encoder)
    ensures ToString(written, v, enc) == written + EncodeAll(Components(v), enc)
  {
    var xs := Components(v);
    assert xs[1..][1..][1..][1..] == [];
    assert EncodeAll(xs[1..][1..][1..], enc) == enc(v.d);
    assert EncodeAll(xs[1..][1..], enc) == enc(v.c) + enc(v.d);
    assert EncodeAll(xs[1..], enc) == enc(v.b) + (enc(v.c) + enc(v.d));
    assert EncodeAll(xs, enc) == enc(v.a) + (enc(v.b) + (enc(v.c) + enc(v.d)));
  }

  /** Reading `count` doubles from position `pos`, each starting where the
      previous one ended. */
  function DecodeFrom(buf: seq<char>, pos: nat, count: nat, dec: Decoder): (r: (seq<real>, nat))
    requires pos <= |buf|
    requires StaysInside(dec)
    ensures |r.0| == count
    ensures pos <= r.1 <= |buf|
    ensures count > 0 ==> r.0[0] == dec(buf[pos..]).0
    decreases count
  {
    if count == 0 then ([], pos)
    else
      var (x, used) := dec(buf[pos..]);
      var (rest, end) := DecodeFrom(buf, pos + used, count - 1, dec);
      ([x] + rest, end)
  }

  /** `from_string<hendrickson_lattman<> >(start)`: four doubles read in
      turn; `end` points past the fourth. */
  function FromString(buf: seq<char>, start: nat, dec: Decoder): (r: (Coefficients, nat))
    requires start <= |buf|
    requires StaysInside(dec)
    ensures start <= r.1 <= |buf|
    ensures r.0.a == dec(buf[start..]).0
  {
    var (xs, end) := DecodeFrom(buf, start, 4, dec);
    (FromComponents(xs), end)
  }

  /** One double read, then the rest from where it ended. */
  lemma DecodeCons(buf: seq<char>, pos: nat, count: nat, dec: Decoder, x: real, used: nat, xs: seq<real>, end: nat)
    requires pos <= |buf| && count > 0 && StaysInside(dec)
    requires dec(buf[pos..]) == (x, used)
    requires DecodeFrom(buf, pos + used, count - 1, dec) == (xs, end)
    ensures DecodeFrom(buf, pos, count, dec) == ([x] + xs, end)
  {
  }

  /** Reading `|xs|` doubles where their encodings were written returns
      them, and stops right after the last one. */
  lemma {:induction false} DecodeEncoded(xs: seq<real>, buf: seq<char>, pos: nat, enc: Encoder, dec: Decoder)
    requires StaysInside(dec) && RoundTrips(enc, dec)
    requires pos + |EncodeAll(xs, enc)| <= |buf|
    requires buf[pos..pos + |EncodeAll(xs, enc)|] == EncodeAll(xs, enc)
    ensures DecodeFrom(buf, pos, |xs|, dec) == (xs, pos + |EncodeAll(xs, enc)|)
    decreases |xs|
  {
    if |xs| > 0 {
      EncodedParts(xs, buf, pos, enc);
      DecodeEncoded(xs[1..], buf, pos + |enc(xs[0])|, enc, dec);
      DecodeEncodedStep(xs, buf, pos, enc, dec);
    }
  }

  /** The first double reads back, and the others as the hypothesis says. */
  lemma DecodeEncodedStep(xs: seq<real>, buf: seq<char>, pos: nat, enc: Encoder, dec: Decoder)
    requires StaysInside(dec) && RoundTrips(enc, dec) && |xs| > 0
    requires pos + |EncodeAll(xs, enc)| <= |buf|
    requires buf[pos..] == enc(xs[0]) + buf[pos + |enc(xs[0])|..]
    requires |EncodeAll(xs, enc)| == |enc(xs[0])| + |EncodeAll(xs[1..], enc)|
    requires DecodeFrom(buf, pos + |enc(xs[0])|, |xs| - 1, dec)
          == (xs[1..], pos + |enc(xs[0])| + |EncodeAll(xs[1..], enc)|)
    ensures DecodeFrom(buf, pos, |xs|, dec) == (xs, pos + |EncodeAll(xs, enc)|)
  {
    var mid := pos + |enc(xs[0])|;
    ReadsBack(enc, dec, xs[0], buf[mid..]);
    DecodeCons(buf, pos, |xs|, dec, xs[0], |enc(xs[0])|, xs[1..], mid + |EncodeAll(xs[1..], enc)|);
    assert [xs[0]] + xs[1..] == xs;
  }

  /** Where the encodings of several doubles were written, the first one's
      text starts the buffer and the others' follow it. */
  lemma EncodedParts(xs: seq<real>, buf: seq<char>, pos: nat, enc: Encoder)
    requires |xs| > 0
    requires pos + |EncodeAll(xs, enc)| <= |buf|
    requires buf[pos..pos + |EncodeAll(xs, enc)|] == EncodeAll(xs, enc)
    ensures var mid := pos + |enc(xs[0])|;
      buf[pos..] == enc(xs[0]) + buf[mid..]
      && mid + |EncodeAll(xs[1..], enc)| <= |buf|
      && buf[mid..mid + |EncodeAll(xs[1..], enc)|] == EncodeAll(xs[1..], enc)
      && |EncodeAll(xs, enc)| == |enc(xs[0])| + |EncodeAll(xs[1..], enc)|
  {
    assert EncodeAll(xs, enc) == enc(xs[0]) + EncodeAll(xs[1..], enc);
    SplitAt(buf, pos, enc(xs[0]), EncodeAll(xs[1..], enc));
  }

  /** Text `a + b` written at `pos`: `a` starts the rest of the buffer and
      `b` follows it. */
  lemma SplitAt(buf: seq<char>, pos: nat, a: seq<char>, b: seq<char>)
    requires pos + |a| + |b| <= |buf| && buf[pos..pos + |a| + |b|] == a + b
    ensures buf[pos..] == a + buf[pos + |a|..]
    ensures buf[pos + |a|..pos + |a| + |b|] == b
  {
    var mid := pos + |a|;
    assert buf[pos..mid] == (a + b)[..|a|] == a;
    assert buf[mid..mid + |b|] == (a + b)[|a|..] == b;
    assert buf[pos..] == buf[pos..mid] + buf[mid..];
  }

  /** Given an element codec that reads back what it writes, a coefficient
      set written anywhere in a buffer reads back unchanged, and reading
      stops exactly where the writing stopped. */
  lemma FromStringToString(pre: seq<char>, v: Coefficients, post: seq<char>, enc: Encoder, dec: Decoder)
    requires StaysInside(dec) && RoundTrips(enc, dec)
    ensures var written := ToString(pre, v, enc);
      FromString(written + post, |pre|, dec) == (v, |written|)
  {
    ToStringEncodesComponents(pre, v, enc);
    var buf := ToString(pre, v, enc) + post;
    var body := EncodeAll(Components(v), enc);
    assert buf[|pre|..|pre| + |body|] == body;
    DecodeEncoded(Components(v), buf, |pre|, enc, dec);
  }

  datatype Complex = Complex(re: real, im: real)

  /** The `hendrickson_lattman(centric_flag, phase_integral,
      max_figure_of_merit)` constructor, outside the model. */
  type Conversion = (bool, Complex, real) -> Coefficients

  /** `from_phase_integrals(centric_flags, phase_integrals,
      max_figure_of_merit)`: one coefficient set per reflection, each from
      its own flag and integral and the shared figure-of-merit cap. */
  method FromPhaseIntegrals(centricFlags: seq<bool>, phaseIntegrals: seq<Complex>, maxFigureOfMerit: real, make: Conversion)
    returns (r: Result<seq<Coefficients>>)
    ensures r.Ok? <==> |phaseIntegrals| == |centricFlags|
    ensures r.Ok? ==> |r.value| == |centricFlags|
    ensures r.Ok? ==> forall i :: 0 <= i < |centricFlags| ==>
      r.value[i] == make(centricFlags[i], phaseIntegrals[i], maxFigureOfMerit)
  {
    if |phaseIntegrals| != |centricFlags| {
      return Err("CCTBX_ASSERT(phase_integrals.size() == centric_flags.size()) failure");
    }
    var result: seq<Coefficients> := [];
    var i := 0;
    while i < |centricFlags|
      invariant 0 <= i <= |centricFlags|
      invariant |result| == i
      invariant forall k :: 0 <= k < i ==> result[k] == make(centricFlags[k], phaseIntegrals[k], maxFigureOfMerit)
    {
      result := result + [make(centricFlags[i], phaseIntegrals[i], maxFigureOfMerit)];
      i := i + 1;
    }
    return Ok(result);
  }
}

=== FILE: images.dfy ===
/** Two-dimensional pixel arrays: a grid as rows of equal length, and the
    row-major `reshape` of a flat pixel array as `flex.grid` performs it. */
module Images {

  /** `g` has `rows` rows of `cols` elements each. */
  predicate Grid<T>(g: seq<seq<T>>, rows: nat, cols: nat) {
    |g| == rows && forall i :: 0 <= i < rows ==> |g[i]| == cols
  }

  /** `flat.reshape(flex.grid(ny, nx))`: `ny` rows of `nx` pixels. */
  function Reshape(flat: seq<int>, nx: nat, ny: nat): (r: seq<seq<int>>)
    requires |flat| == nx * ny
    ensures Grid(r, ny, nx)
    decreases ny
  {
    if ny == 0 then []
    else
      assert |flat| == nx + nx * (ny - 1);
      [flat[..nx]] + Reshape(flat[nx..], nx, ny - 1)
  }

  function Flatten(rows: seq<seq<int>>): seq<int> {
    if |rows| == 0 then [] else rows[0] + Flatten(rows[1..])
  }

  /** Reshaping keeps the pixels in reading order. */
  lemma {:induction false} ReshapeKeepsPixels(flat: seq<int>, nx: nat, ny: nat)
    requires |flat| == nx * ny
    ensures Flatten(Reshape(flat, nx, ny)) == flat
    decreases ny
  {
    if ny > 0 {
      assert |flat| == nx + nx * (ny - 1);
      ReshapeKeepsPixels(flat[nx..], nx, ny - 1);
      assert flat[..nx] + flat[nx..] == flat;
    }
  }
}

=== FILE: jhsim.dfy ===
/** The SMV format class for images from the JHSim simulators
    (dxtbx/format/FormatSMVJHSim.py): recognition by the fake beamline, the
    ADC pedestal, the beam-centre conventions and sensor guess of the
    detector model, and the pedestal-subtracted raw data.

    Header reading, byte-order handling and float parsing are not part of
    this model; parsed header values arrive as numbers and `toFloat` stands
    for Python's `float()`. */
module JHSim {
  import opened Common
  import opened Images

  type Header = map<string, string>

  /** `understand`: `header.get('BEAMLINE') == 'fake'`. */
  function Understand(h: Header): (r: bool)
    ensures r <==> "BEAMLINE" in h && h["BEAMLINE"] == "fake"
    ensures "BEAMLINE" !in h ==> !r
  {
    if "BEAMLINE" in h then h["BEAMLINE"] == "fake" else false
  }

  /** The ADC pedestal: `ADC_OFFSET` when present, otherwise 1; a value
      that is not a number raises `ValueError`. */
  function Pedestal(h: Header, toFloat: string -> Option<real>): (r: Result<real>)
    ensures "ADC_OFFSET" !in h ==> r == Ok(1.0)
    ensures "ADC_OFFSET" in h ==> (r.Ok? <==> toFloat(h["ADC_OFFSET"]).Some?)
    ensures "ADC_OFFSET" in h && r.Ok? ==> r.value == toFloat(h["ADC_OFFSET"]).value
  {
    if "ADC_OFFSET" !in h then Ok(1.0)
    else match toFloat(h["ADC_OFFSET"])
      case None => Err("ValueError: ADC_OFFSET")
      case Some(v) => Ok(v)
  }

  /** The beam centre in the four conventions `_detector` derives from the
      header's ADXV centre (mm from the top-left corner). */
  datatype BeamCentres = BeamCentres(adxv: (real, real), mosflm: (real, real), xds: (real, real), cctbx: (real, real))

  function Centres(beamX: real, beamY: real, pixelSize: real, size2: real): BeamCentres
    requires pixelSize != 0.0
  {
    var heightMm := pixelSize * size2;
    BeamCentres((beamX, beamY), (heightMm - beamY, beamX),
                (beamX / pixelSize, (heightMm - beamY) / pixelSize),
                (beamX + pixelSize, heightMm - beamY + pixelSize))
  }

  /** The conventions agree: the cctbx centre is the ADXV x and the MOSFLM
      slow coordinate each moved by one pixel, the XDS centre is the same
      in pixels, and the ADXV centre is recovered from the cctbx one. */
  lemma CentresAgree(beamX: real, beamY: real, pixelSize: real, size2: real)
    requires pixelSize != 0.0
    ensures var c := Centres(beamX, beamY, pixelSize, size2);
      c.cctbx == (c.adxv.0 + pixelSize, c.mosflm.0 + pixelSize)
      && c.xds.0 * pixelSize == c.adxv.0 && c.xds.1 * pixelSize == c.mosflm.0
      && (c.cctbx.0 - pixelSize, pixelSize * size2 - (c.cctbx.1 - pixelSize)) == c.adxv
  {
    var c := Centres(beamX, beamY, pixelSize, size2);
    DivideBack(beamX, pixelSize);
    DivideBack(pixelSize * size2 - beamY, pixelSize);
  }

  lemma DivideBack(x: real, d: real)
    requires d != 0.0
    ensures (x / d) * d == x
  {
  }

  datatype Sensor = SensorPad | Ccd

  datatype Detector = Detector(
    sensor: Sensor,
    distance: real,
    beamCentre: (real, real),
    pixelSize: (real, real),
    imageSize: (real, real),
    trustedRange: (real, real))

  /** `_detector`: a single panel with the cctbx beam centre, a Pilatus
      sensor for 0.172 mm pixels and a CCD otherwise, and a trusted range
      shifted down by the pedestal.  A zero pixel size divides by zero in
      the XDS centre. */
  function MakeDetector(distance: real, beamX: real, beamY: real, pixelSize: real,
                        size1: real, size2: real, pedestal: real): (r: Result<Detector>)
    ensures r.Ok? <==> pixelSize != 0.0
    ensures r.Ok? ==> (r.value.sensor == SensorPad <==> pixelSize == 0.172)
    ensures r.Ok? ==> r.value.trustedRange.1 + pedestal == 65535.0
    ensures r.Ok? ==> r.value.trustedRange.1 - r.value.trustedRange.0 == 65534.0
    ensures r.Ok? ==> r.value.beamCentre == (beamX + pixelSize, pixelSize * size2 - beamY + pixelSize)
    ensures r.Ok? ==> r.value.imageSize == (size1, size2) && r.value.pixelSize == (pixelSize, pixelSize)
  {
    if pixelSize == 0.0 then Err("ZeroDivisionError: pixel_size")
    else
      var overload := 65535.0 - pedestal;
      var underload := 1.0 - pedestal;
      var c := Centres(beamX, beamY, pixelSize, size2);
      var sensor := if pixelSize == 0.172 then SensorPad else Ccd;
      Ok(Detector(sensor, distance, c.cctbx, (pixelSize, pixelSize), (size1, size2), (underload, overload)))
  }

  /** `get_raw_data`: every pixel less `int(pedestal)`, reshaped to `ny`
      rows of `nx` pixels. */
  function RawData(flat: seq<int>, nx: nat, ny: nat, pedestal: real): (r: seq<seq<int>>)
    requires |flat| == nx * ny
    ensures Grid(r, ny, nx)
  {
    var shifted := seq(|flat|, k requires 0 <= k < |flat| => flat[k] - Trunc(pedestal));
    Reshape(shifted, nx, ny)
  }

  /** Adding the truncated pedestal back to the rows, read in order, gives
      the counts stored in the file. */
  lemma RawDataRestores(flat: seq<int>, nx: nat, ny: nat, pedestal: real)
    requires |flat| == nx * ny
    ensures var pixels := Flatten(RawData(flat, nx, ny, pedestal));
      |pixels| == |flat| && forall k :: 0 <= k < |flat| ==> pixels[k] + Trunc(pedestal) == flat[k]
  {
    var shifted := seq(|flat|, k requires 0 <= k < |flat| => flat[k] - Trunc(pedestal));
    ReshapeKeepsPixels(shifted, nx, ny);
  }
}

=== FILE: modification_iterator.dfy ===
/** The density-modification iterators of
    smtbx/ab_initio/charge_flipping.py: `density_modification_iterator` and
    its heirs `basic_iterator` (charge flipping), the weak-reflection
    variant and `low_density_elimination_iterator`.  One call of `Next`
    modifies the map, computes structure factors from it, transfers their
    phases onto the observed amplitudes and recomputes the map. */
module ModificationIterator {
  import opened Common
  import opened DensityModification
  import opened Sorting

  /** A Miller array whose indices and data line up. */
  type ValidArray = a: MillerArray<real> | a.Valid() witness MillerArray([], [])

  /** The numerical kernels the iterators call, all outside this model. */
  datatype Numerics = Numerics(
    prepare: MillerArray<real> -> ValidArray,     // eliminate_sys_absent, expand_to_p1, as_non_anomalous_array,
                                                  // merge_equivalents, discard_sigmas
    synthesis: (seq<Complex>, real) -> RealMap,   // volume-scaled fft_map of f_calc and f_000
    analysis: RealMap -> seq<Complex>,            // structure_factors_from_map at the f_obs indices
    flip: (RealMap, real) -> RealMap,             // flip_charges_in_place
    eliminate: (RealMap, real) -> RealMap,        // low_density_elimination_in_place_tanaka_et_al_2001
    randomPhases: seq<real> -> seq<Complex>,      // the starter, randomize_phases
    r1: (seq<real>, seq<Complex>) -> real,        // r1_factor of f_obs against g
    fftScale: real)                               // unit-cell volume over grid points

  /** Where the low-density threshold comes from: the suggested one, or a
      fixed number (the solver's polishing passes the current delta). */
  datatype RhoCSource = SuggestedThreshold | FixedThreshold(value: real)

  datatype Kind =
    | Basic
    | WeakReflection(deltaVarphi: real, weakFraction: real)
    | LowDensity(rhoC: RhoCSource)

  datatype Iterate = Iterate(
    kind: Kind,
    fObs: MillerArray<real>,
    fCalc: seq<Complex>,
    f000: real,
    rho: RealMap,
    delta: Option<real>,
    g: Option<seq<Complex>>,
    g000: real)

  /** The map is the synthesis of the current structure factors. */
  predicate MapMatches(it: Iterate, num: Numerics) {
    it.rho == num.synthesis(it.fCalc, it.f000)
  }

  /** The constructor: `f_obs` must carry data, and `f_calc` and `f_000`
      are given together or not at all.  The iterator works on the prepared
      `f_obs` (systematic absences removed, expanded to P1, merged, without
      sigmas), from which the starter also draws its phases; the
      weak-reflection heir then orders it by increasing amplitude. */
  function Create(kind: Kind, fObs: Option<MillerArray<real>>, fCalc: Option<seq<Complex>>, f000: Option<real>,
                  delta: Option<real>, num: Numerics): (r: Result<Iterate>)
    ensures r.Ok? <==> fObs.Some? && (fCalc.None? <==> f000.None?)
    ensures r.Ok? ==> MapMatches(r.value, num) && r.value.kind == kind && r.value.g.None?
    ensures r.Ok? && fCalc.Some? ==> r.value.fCalc == fCalc.value && r.value.f000 == f000.value
    ensures r.Ok? && fCalc.None? ==> r.value.fCalc == num.randomPhases(num.prepare(fObs.value).data) && r.value.f000 == 0.0
    ensures r.Ok? ==> r.value.fObs.Valid() && multiset(Pairs(r.value.fObs)) == multiset(Pairs(num.prepare(fObs.value)))
    ensures r.Ok? && kind.WeakReflection? ==>
              forall i, j :: 0 <= i < j < |r.value.fObs.data| ==> r.value.fObs.data[i] <= r.value.fObs.data[j]
    ensures r.Ok? && !kind.WeakReflection? ==> r.value.fObs == num.prepare(fObs.value)
    ensures r.Ok? ==> r.value.delta == (if kind.LowDensity? then None else delta)
  {
    if fObs.None? then Err("assert f_obs.data() is not None")
    else
      var prepared := num.prepare(fObs.value);
      var blank := Iterate(kind, prepared, [], 0.0, RealMap([], []), if kind.LowDensity? then None else delta, None, 0.0);
      var it :- Restart(blank, fCalc, f000, num);
      if kind.WeakReflection? then Ok(it.(fObs := SortByAmplitude(it.fObs)))
      else Ok(it)
  }

  /** The reflections of a Miller array as (index, datum) pairs. */
  function Pairs(a: MillerArray<real>): (r: seq<(Hkl, real)>)
    requires a.Valid()
    ensures |r| == |a.data| && forall i :: 0 <= i < |r| ==> r[i] == (a.indices[i], a.data[i])
  {
    seq(|a.data|, i requires 0 <= i < |a.data| => (a.indices[i], a.data[i]))
  }

  function FromPairs(r: seq<(Hkl, real)>): (a: MillerArray<real>)
    ensures a.Valid() && Pairs(a) == r
  {
    MillerArray(seq(|r|, i requires 0 <= i < |r| => r[i].0), seq(|r|, i requires 0 <= i < |r| => r[i].1))
  }

  /** Pairing up a Miller array and splitting the pairs again gives the
      array back. */
  lemma PairsRoundTrip(a: MillerArray<real>)
    requires a.Valid()
    ensures FromPairs(Pairs(a)) == a
  {
    var b := FromPairs(Pairs(a));
    assert b.indices == a.indices;
    assert b.data == a.data;
  }

  /** `sort_permutation(by_value="data", reverse=True)` followed by
      `select`: the same reflections, by increasing amplitude. */
  function SortByAmplitude(a: MillerArray<real>): (r: MillerArray<real>)
    requires a.Valid()
    ensures r.Valid() && multiset(Pairs(r)) == multiset(Pairs(a))
    ensures forall i, j :: 0 <= i < j < |r.data| ==> r.data[i] <= r.data[j]
  {
    var key := (x: (Hkl, real)) => x.1;
    var sorted := SortBy(Pairs(a), key);
    var r := FromPairs(sorted);
    assert forall i :: 0 <= i < |r.data| ==> r.data[i] == key(sorted[i]);
    r
  }

  /** `restart()` without arguments: fresh phases from the starter, F(000)
      zero, and the map recomputed. */
  function RestartFromScratch(it: Iterate, num: Numerics): (r: Iterate)
    ensures MapMatches(r, num)
    ensures r == it.(fCalc := num.randomPhases(it.fObs.data), f000 := 0.0, rho := r.rho)
  {
    var fc := num.randomPhases(it.fObs.data);
    it.(fCalc := fc, f000 := 0.0, rho := num.synthesis(fc, 0.0))
  }

  /** A fresh start forgets the current structure factors, F(000) and map:
      iterates that differ only there restart identically. */
  lemma RestartForgets(it: Iterate, fCalc: seq<Complex>, f000: real, rho: RealMap, num: Numerics)
    ensures RestartFromScratch(it.(fCalc := fCalc, f000 := f000, rho := rho), num) == RestartFromScratch(it, num)
    ensures RestartFromScratch(it, num).g == it.g && RestartFromScratch(it, num).delta == it.delta
  {
  }

  /** `restart`: without a starting point the phases come from the starter
      and F(000) is zero; the map is then recomputed. */
  function Restart(it: Iterate, fCalc: Option<seq<Complex>>, f000: Option<real>, num: Numerics): (r: Result<Iterate>)
    ensures r.Ok? <==> (fCalc.None? <==> f000.None?)
    ensures r.Ok? ==> MapMatches(r.value, num)
    ensures r.Ok? ==> r.value == it.(fCalc := r.value.fCalc, f000 := r.value.f000, rho := r.value.rho)
    ensures r.Ok? && fCalc.Some? ==> r.value.fCalc == fCalc.value && r.value.f000 == f000.value
    ensures r.Ok? && fCalc.None? ==> r.value.fCalc == num.randomPhases(it.fObs.data) && r.value.f000 == 0.0
  {
    if fCalc.None? != f000.None? then Err("assert are_equivalent(f_calc is None, f_000 is None)")
    else if fCalc.None? then Ok(RestartFromScratch(it, num))
    else Ok(it.(fCalc := fCalc.value, f000 := f000.value, rho := num.synthesis(fCalc.value, f000.value)))
  }

  /** The low-density threshold in force. */
  function Threshold(it: Iterate, source: RhoCSource): (r: Result<real>)
    ensures source.FixedThreshold? ==> r == Ok(source.value)
    ensures source.SuggestedThreshold? ==> r == SuggestedRhoC(it.rho)
  {
    match source
    case SuggestedThreshold => SuggestedRhoC(it.rho)
    case FixedThreshold(v) => Ok(v)
  }

  /** `modify_electron_density`: flip charges below delta, or eliminate
      low density below rho_c, by default a fifth of the mean positive
      density of the unpadded map. */
  function Modify(it: Iterate, num: Numerics): (r: Result<RealMap>)
    ensures !it.kind.LowDensity? ==> (r.Ok? <==> it.delta.Some?)
    ensures !it.kind.LowDensity? && r.Ok? ==> r.value == num.flip(it.rho, it.delta.value)
    ensures it.kind.LowDensity? && it.kind.rhoC.FixedThreshold? ==> r == Ok(num.eliminate(it.rho, it.kind.rhoC.value))
    ensures it.kind == LowDensity(SuggestedThreshold) ==>
              (r.Ok? <==> exists i :: 0 <= i < |it.rho.cells| && it.rho.cells[i] > 0.0)
    ensures it.kind == LowDensity(SuggestedThreshold) && r.Ok? ==>
              |Positives(it.rho.cells)| > 0 && r.value == num.eliminate(it.rho, 0.2 * Mean(Positives(it.rho.cells)))
  {
    match it.kind
    case LowDensity(source) =>
      var rhoC :- Threshold(it, source);
      Ok(num.eliminate(it.rho, rhoC))
    case _ =>
      if it.delta.None? then Err("flip_charges_in_place: delta is None")
      else Ok(num.flip(it.rho, it.delta.value))
  }

  /** Multiplying structure factors by the positive `fft_scale`. */
  function Scale(g: seq<Complex>, s: real): (r: seq<Complex>)
    ensures |r| == |g|
    ensures forall i :: 0 <= i < |g| ==> r[i].phase == g[i].phase && r[i].modulus == g[i].modulus * s
  {
    seq(|g|, i requires 0 <= i < |g| => Polar(g[i].modulus * s, g[i].phase))
  }

  /** `next`: modify the map, compute the structure factors G of the
      modified map and G(000) from its padded sum, give the observed
      amplitudes the phases of G, take G(000) as the new F(000) and
      recompute the map.  The weak-reflection heir defines its phase
      transfer under another name (`transfer_phase_from_g_tof_obs`), so it
      transfers phases exactly like the basic iterator. */
  function Next(it: Iterate, num: Numerics): (r: Result<Iterate>)
    requires it.fObs.Valid()
    ensures r.Ok? ==> MapMatches(r.value, num)
    ensures r.Ok? ==> r.value.fObs == it.fObs && r.value.kind == it.kind && r.value.delta == it.delta
    ensures r.Ok? ==> r.value.g.Some? && |r.value.fCalc| == |it.fObs.data| == |r.value.g.value|
    ensures r.Ok? ==> forall i :: 0 <= i < |r.value.fCalc| ==>
              r.value.fCalc[i].modulus == it.fObs.data[i] && r.value.fCalc[i].phase == r.value.g.value[i].phase
    ensures r.Ok? ==> r.value.f000 == r.value.g000
    ensures r.Ok? ==> Modify(it, num).Ok? && r.value.g000 == Sum(Padded(Modify(it, num).value)) * num.fftScale
    ensures Modify(it, num).Err? ==> r.Err?
  {
    var modified :- Modify(it, num);
    var g000 := Sum(Padded(modified)) * num.fftScale;
    var g := Scale(num.analysis(modified), num.fftScale);
    if |g| != |it.fObs.data| then Err("phase_transfer: arrays do not match")
    else
      var fCalc := PhaseTransferData(it.fObs.data, Phases(g));
      assert forall i :: 0 <= i < |fCalc| ==> fCalc[i].modulus == it.fObs.data[i] && fCalc[i].phase == g[i].phase by {
        assert Moduli(fCalc) == it.fObs.data && Phases(fCalc) == Phases(g);
      }
      Ok(it.(fCalc := fCalc, f000 := g000, rho := num.synthesis(fCalc, g000), g := Some(g), g000 := g000))
  }

  /** The weak-reflection iterator steps exactly like a basic one. */
  lemma WeakReflectionStepsLikeBasic(it: Iterate, num: Numerics)
    requires it.fObs.Valid() && it.kind.WeakReflection?
    ensures var a := Next(it, num);
            var b := Next(it.(kind := Basic), num);
            a.Ok? == b.Ok? && (a.Ok? ==> a.value == b.value.(kind := it.kind))
  {
    var basic := it.(kind := Basic);
    assert Modify(it, num) == Modify(basic, num);
    if Modify(it, num).Ok? {
      var modified := Modify(it, num).value;
      var g := Scale(num.analysis(modified), num.fftScale);
      if |g| == |it.fObs.data| {
        assert Next(it, num).value == Next(basic, num).value.(kind := it.kind);
      }
    }
  }

  /** The phase transfer the weak-reflection heir defines but never
      invokes: the Oszlanyi-Suto transfer on its pre-sorted amplitudes. */
  function WeakReflectionTransfer(it: Iterate): (r: MillerArray<Complex>)
    requires it.kind.WeakReflection? && it.fObs.Valid()
    requires it.g.Some? && |it.g.value| == |it.fObs.data|
    ensures r.Valid() && r.indices == it.fObs.indices
    ensures forall i :: 0 <= i < |r.data| ==>
              r.data[i].phase == it.g.value[i].phase + (if i < WeakCount(it.kind.weakFraction, |it.fObs.data|) then it.kind.deltaVarphi else 0.0)
  {
    var r := OszlanyiSutoPhaseTransfer(it.fObs, it.g.value, it.kind.deltaVarphi, it.kind.weakFraction, false);
    assert TransferOrder(it.fObs.data, false) == Range(|it.fObs.data|);
    assert Select(it.fObs.indices, Range(|it.fObs.data|)) == it.fObs.indices;
    r
  }

  /** `r1_factor`: needs the structure factors of a completed step. */
  function R1Factor(it: Iterate, num: Numerics): (r: Result<real>)
    ensures r.Ok? <==> it.g.Some?
    ensures r.Ok? ==> r.value == num.r1(it.fObs.data, it.g.value)
  {
    if it.g.None? then Err("no attribute '_g'") else Ok(num.r1(it.fObs.data, it.g.value))
  }

  /** `k` successive calls of `next`. */
  function Advance(it: Iterate, num: Numerics, k: nat): (r: Result<Iterate>)
    requires it.fObs.Valid()
    ensures r.Ok? ==> r.value.fObs == it.fObs && r.value.kind == it.kind && r.value.delta == it.delta
    ensures r.Ok? && k > 0 ==> MapMatches(r.value, num)
    ensures k == 0 ==> r == Ok(it)
  {
    if k == 0 then Ok(it)
    else
      var prev :- Advance(it, num, k - 1);
      Next(prev, num)
  }
}

=== FILE: observable_evolution.dfy ===
/** The phase-transition detector of the charge-flipping solver
    (`observable_evolution` in smtbx/ab_initio/charge_flipping.py): it
    records a series of values, their successive differences and the first
    position of the steepest fall, and decides from the series' head and
    tail whether the fall was a phase transition.  The linear fits of the
    tail and the square root are computed by code outside this model and are
    passed in as functions. */
module ObservableEvolution {
  import opened Common

  datatype Tracker = Tracker(
    tailLen: nat,
    values: seq<real>,
    differences: seq<real>,
    minDiff: Option<real>,
    minDiffIndex: Option<nat>)

  /** `k` is the first position of the smallest element of `d`. */
  predicate IsFirstMinimum(d: seq<real>, k: nat) {
    k < |d|
    && (forall i :: 0 <= i < |d| ==> d[k] <= d[i])
    && (forall i :: 0 <= i < k ==> d[k] < d[i])
  }

  /** The tracker's bookkeeping agrees with its values: `differences` are
      the successive differences and `minDiffIndex` is the first position of
      the smallest of them (`None` while there is no difference yet). */
  predicate Valid(t: Tracker) {
    |t.differences| == (if |t.values| == 0 then 0 else |t.values| - 1)
    && (forall i :: 0 <= i < |t.differences| ==> t.differences[i] == t.values[i + 1] - t.values[i])
    && (t.minDiffIndex.None? <==> |t.differences| == 0)
    && (t.minDiff.None? <==> |t.differences| == 0)
    && (t.minDiffIndex.Some? ==>
          IsFirstMinimum(t.differences, t.minDiffIndex.value)
          && t.minDiff == Some(t.differences[t.minDiffIndex.value]))
  }

  function New(tailLen: nat): (t: Tracker)
    ensures Valid(t) && t.values == [] && t.tailLen == tailLen
  {
    Tracker(tailLen, [], [], None, None)
  }

  /** `append`: records `x`; from the second value on, records the
      difference to the previous value and moves the minimum only on a
      strictly smaller difference. */
  function Append(t: Tracker, x: real): (r: Tracker)
    requires Valid(t)
    ensures Valid(r)
    ensures r.values == t.values + [x] && r.tailLen == t.tailLen
  {
    var values := t.values + [x];
    if |values| > 1 then
      var diff := values[|values| - 1] - values[|values| - 2];
      var moved := t.minDiff.None? || diff < t.minDiff.value;
      var minDiff := if moved then Some(diff) else t.minDiff;
      var minDiffIndex := if moved then Some(|t.differences|) else t.minDiffIndex;
      Tracker(t.tailLen, values, t.differences + [diff], minDiff, minDiffIndex)
    else
      Tracker(t.tailLen, values, t.differences, t.minDiff, t.minDiffIndex)
  }

  /** A tracker fed the values `xs` one after the other. */
  function FromValues(tailLen: nat, xs: seq<real>): (t: Tracker)
    ensures Valid(t) && t.values == xs && t.tailLen == tailLen
  {
    if |xs| == 0 then New(tailLen) else Append(FromValues(tailLen, xs[..|xs| - 1]), xs[|xs| - 1])
  }

  /** The bookkeeping is a function of the values alone: two valid trackers
      with the same values and tail length are identical. */
  lemma ValidDetermined(a: Tracker, b: Tracker)
    requires Valid(a) && Valid(b)
    requires a.values == b.values && a.tailLen == b.tailLen
    ensures a == b
  {
    assert |a.differences| == |b.differences|;
    forall i | 0 <= i < |a.differences|
      ensures a.differences[i] == b.differences[i]
    {
      assert a.differences[i] == a.values[i + 1] - a.values[i];
      assert b.differences[i] == b.values[i + 1] - b.values[i];
    }
    assert a.differences == b.differences;
    if a.minDiffIndex.Some? {
      var i, j := a.minDiffIndex.value, b.minDiffIndex.value;
      assert a.differences[i] <= a.differences[j] && b.differences[j] <= b.differences[i];
      assert !(i < j) && !(j < i);
    }
  }

  /** What the external regression code reports about the tail: the
      correlation and slope over the whole tail and over its five largest
      (`up`) and five smallest (`down`) values. */
  datatype TailFits = TailFits(
    correlation: real,
    slope: real,
    upCorrelation: real,
    upSlope: real,
    downCorrelation: real,
    downSlope: real)

  const MaxSlope: real := 0.05

  /** The trend test: false when the tail is still drifting.  A strong
      overall correlation requires a small overall slope; otherwise, only
      when both five-point correlations are weak, both five-point slopes
      must be small; in the remaining case the tail passes. */
  predicate TailIsFlat(f: TailFits) {
    if Abs(f.correlation) > 0.5 then Abs(f.slope) <= MaxSlope
    else if Abs(f.downCorrelation) < 0.5 && Abs(f.upCorrelation) < 0.5 then
      Abs(f.downSlope) <= MaxSlope && Abs(f.upSlope) <= MaxSlope
    else true
  }

  function SquaredDeviations(s: seq<real>, m: real): (r: seq<real>)
    ensures |r| == |s|
    ensures forall i :: 0 <= i < |s| ==> r[i] >= 0.0
  {
    seq(|s|, i requires 0 <= i < |s| => Square(s[i] - m))
  }

  function Square(x: real): (y: real)
    ensures y >= 0.0
  {
    if x >= 0.0 then x * x else (-x) * (-x)
  }

  /** Unweighted sample variance, defined from two values on. */
  function SampleVariance(s: seq<real>): (v: real)
    requires |s| > 1
    ensures v >= 0.0
  {
    var d := SquaredDeviations(s, Mean(s));
    SumNonNegative(d);
    Sum(d) / ((|s| - 1) as real)
  }

  /** The values after the steepest fall that the trend test looks at
      (a Python slice, so empty when it starts past the end). */
  function Tail(t: Tracker, mdi: nat): seq<real> {
    if mdi + 4 <= |t.values| then t.values[mdi + 4..] else []
  }

  /** The values before the fall that are compared with the tail. */
  function Head(t: Tracker, mdi: nat): seq<real>
    requires 4 <= mdi && mdi - 4 <= |t.values|
  {
    var before := mdi - 4;
    var start := if before - t.tailLen / 2 > 0 then before - t.tailLen / 2 else 0;
    t.values[start..before]
  }

  /** The tests `had_phase_transition` applies before it measures the fall:
      a tail at least the configured length after the steepest fall, at
      least four values before it, and a tail that no longer drifts. */
  predicate GatesPass(t: Tracker, fits: seq<real> -> TailFits) {
    t.minDiffIndex.Some?
    && |t.differences| - t.minDiffIndex.value >= t.tailLen
    && 4 <= t.minDiffIndex.value
    && TailIsFlat(fits(Tail(t, t.minDiffIndex.value)))
  }

  /** `had_phase_transition`: once the gates pass, a transition exactly
      when the fall from the head's level to the tail's mean exceeds three
      combined standard deviations.  Statistics of fewer than two values and
      divisions by a zero spread, which raise in the source, are errors. */
  function HadPhaseTransition(t: Tracker, fits: seq<real> -> TailFits, sqrt: real -> real): (r: Result<bool>)
    requires Valid(t)
    ensures t.minDiffIndex.None? ==> r.Err?
    ensures t.minDiffIndex.Some? && |t.differences| - t.minDiffIndex.value < t.tailLen ==> r == Ok(false)
    ensures t.minDiffIndex.Some? && t.minDiffIndex.value < 4 ==> r == Ok(false)
    ensures t.minDiffIndex.Some? && 4 <= t.minDiffIndex.value && !TailIsFlat(fits(Tail(t, t.minDiffIndex.value)))
            ==> r == Ok(false)
    ensures r == Ok(true) ==>
              var mdi := t.minDiffIndex.value;
              4 <= mdi && |t.differences| - mdi >= t.tailLen && TailIsFlat(fits(Tail(t, mdi)))
    ensures t.minDiffIndex == Some(4) && |t.differences| - 4 >= t.tailLen ==> r != Ok(true)
    ensures GatesPass(t, fits) ==>
              var mdi := t.minDiffIndex.value;
              var tail, head := Tail(t, mdi), Head(t, mdi);
              (|tail| < 2 || |head| == 0 ==> r.Err?)
              && (|tail| > 1 && |head| > 1 ==>
                    var spread := sqrt(SampleVariance(head) + SampleVariance(tail));
                    (r.Ok? <==> spread != 0.0)
                    && (r.Ok? ==> (r.value <==> Abs(Mean(head) - Mean(tail)) / spread > 3.0)))
              && (|tail| > 1 && |head| == 1 ==>
                    var spread := sqrt(SampleVariance(tail));
                    (r.Ok? <==> spread != 0.0)
                    && (r.Ok? ==> (r.value <==> Abs(head[0] - Mean(tail)) / spread > 3.0)))
  {
    match t.minDiffIndex
    case None => Err("unsupported operand type(s) for -: 'int' and 'NoneType'")
    case Some(mdi) =>
      if |t.differences| - mdi < t.tailLen then Ok(false)
      else if mdi < 4 then Ok(false)
      else
        var tail := Tail(t, mdi);
        if !TailIsFlat(fits(tail)) then Ok(false)
        else if |tail| < 2 then Err("mean_and_variance: too few values in the tail")
        else
          var mT, vT := Mean(tail), SampleVariance(tail);
          var head := Head(t, mdi);
          if |head| > 1 then
            var spread := sqrt(SampleVariance(head) + vT);
            if spread == 0.0 then Err("float division by zero")
            else Ok(Abs(Mean(head) - mT) / spread > 3.0)
          else if |head| == 1 then
            var spread := sqrt(vT);
            if spread == 0.0 then Err("float division by zero")
            else Ok(Abs(head[0] - mT) / spread > 3.0)
          else Err("index out of range")
  }

  /** The head is empty exactly when the steepest fall sits at position 4
      or the tail length is below 2; the source then indexes an empty list. */
  lemma HeadEmpty(t: Tracker, mdi: nat)
    requires 4 <= mdi && mdi - 4 <= |t.values|
    ensures |Head(t, mdi)| == 0 <==> mdi == 4 || t.tailLen < 2
  {
  }

  /** A series without any fall (every difference equal) never reports a
      phase transition: the first minimum is then the first difference. */
  lemma {:induction false} EvenSeriesNoTransition(t: Tracker, fits: seq<real> -> TailFits, sqrt: real -> real)
    requires Valid(t) && |t.differences| > 0
    requires forall i :: 0 <= i < |t.differences| ==> t.differences[i] == t.differences[0]
    ensures HadPhaseTransition(t, fits, sqrt) == Ok(false)
  {
  }
}

=== FILE: ramachandran.dfy ===
/** The bookkeeping of the Ramachandran restraints manager in
    mmtbx/geometry_restraints/ramachandran.py: the parameter checks, the
    choice between the Oldfield and Emsley potentials for each residue, the
    duplicate-free proxy lists, their counts, the sorted listing, the table
    guard of `load_tables`, and the favoured-region filter `select_good`.

    The residue triplets (`generate_protein_threes`), the Ramachandran
    evaluation (`rama_eval`), the C++ `proxy_select` of the proxy arrays and
    the potentials themselves are not part of this model: the triplets and
    their evaluation are inputs, `proxy_select` is a function parameter. */
module Ramachandran {
  import opened Common
  import opened Sorting
  import Text

  datatype Potential = Oldfield | Emsley

  datatype RamaParams = RamaParams(
    potential: Potential,
    restrainOutliers: bool,
    restrainAllowed: bool,
    allowedOutliersWithEmsley: bool,
    scaleAllowed: real,
    plotCutoff: real)

  /** The defaults of `master_phil`. */
  const DefaultParams := RamaParams(Oldfield, true, true, false, 1.0, 0.027)

  /** `ramalyze` verdicts; `Unscored` stands for any other value. */
  datatype Evaluation = Favored | Allowed | Outlier | Unscored

  datatype Destination = ToOldfield | ToEmsley | Dropped

  datatype PhiPsiProxy = PhiPsiProxy(residueName: string, residueType: string, iSeqs: seq<nat>)

  /** The tables slot of a manager.  `Misplaced` holds what the constructor
      stores there when it unpacks a proxies pair (see `NewManager`). */
  datatype TableRef = NoTables | TablesId(id: nat) | Misplaced(proxies: Option<seq<PhiPsiProxy>>)

  datatype RamaManager = RamaManager(
    params: RamaParams,
    atomISeqs: seq<nat>,
    oldfieldProxies: Option<seq<PhiPsiProxy>>,
    emsleyProxies: Option<seq<PhiPsiProxy>>,
    oldfieldTables: TableRef,
    emsleyTables: TableRef)

  // ---------------------------------------------------------------------
  // Parameters

  /** The Emsley potential restrains every residue itself, so it excludes
      switching either kind of residue off or handing them to Emsley. */
  predicate Compatible(p: RamaParams) {
    p.potential == Emsley ==> p.restrainOutliers && p.restrainAllowed && !p.allowedOutliersWithEmsley
  }

  /** Residues must be evaluated unless both outliers and allowed residues
      are restrained. */
  function NeedFiltering(p: RamaParams): (r: bool)
    ensures r <==> !p.restrainOutliers || !p.restrainAllowed
  {
    !(p.restrainOutliers && p.restrainAllowed)
  }

  // ---------------------------------------------------------------------
  // Routing (`extract_proxies`)

  /** Where `extract_proxies` puts the proxy of a residue with verdict `e`. */
  function Route(p: RamaParams, e: Evaluation): Destination {
    if p.potential == Oldfield then
      if NeedFiltering(p) then
        if e == Favored then ToOldfield
        else if e == Allowed && p.restrainAllowed then ToOldfield
        else if e == Outlier && p.restrainOutliers then ToOldfield
        else if p.allowedOutliersWithEmsley then ToEmsley
        else Dropped
      else ToOldfield
    else ToEmsley
  }

  /** The routing table: Emsley takes everything under its own potential;
      Oldfield takes everything it restrains; what it does not restrain goes
      to Emsley when asked, and is dropped otherwise. */
  lemma RouteTable(p: RamaParams, e: Evaluation)
    ensures p.potential == Emsley ==> Route(p, e) == ToEmsley
    ensures p.potential == Oldfield && !NeedFiltering(p) ==> Route(p, e) == ToOldfield
    ensures p.potential == Oldfield ==>
      (Route(p, e) == ToOldfield <==>
        (e == Favored || (e == Allowed && p.restrainAllowed) || (e == Outlier && p.restrainOutliers)
         || !NeedFiltering(p)))
    ensures Route(p, e) == Dropped <==>
      (p.potential == Oldfield && NeedFiltering(p) && !p.allowedOutliersWithEmsley
       && e != Favored && !(e == Allowed && p.restrainAllowed) && !(e == Outlier && p.restrainOutliers))
  {
  }

  /** With compatible parameters nothing is dropped unless the Oldfield
      potential filters and Emsley is not asked to take over. */
  lemma NothingDroppedWithoutFiltering(p: RamaParams, e: Evaluation)
    requires Compatible(p)
    requires !NeedFiltering(p) || p.allowedOutliersWithEmsley
    ensures Route(p, e) != Dropped
  {
  }

  // ---------------------------------------------------------------------
  // Duplicate-free proxy lists (`_append_proxies`)

  /** `proxy_select(n_seq, iselection=p.i_seqs)` finds `q`: every site of
      `q` is one of `p`'s sites. */
  predicate Covers(p: PhiPsiProxy, q: PhiPsiProxy) {
    forall k :: 0 <= k < |q.iSeqs| ==> q.iSeqs[k] in p.iSeqs
  }

  /** `is_proxy_present`. */
  predicate Present(proxies: seq<PhiPsiProxy>, p: PhiPsiProxy) {
    exists k :: 0 <= k < |proxies| && Covers(p, proxies[k])
  }

  /** No proxy of the list is covered by one appended after it. */
  predicate NoneCovered(proxies: seq<PhiPsiProxy>) {
    forall i, j :: 0 <= i < j < |proxies| ==> !Covers(proxies[j], proxies[i])
  }

  function AppendProxy(proxies: seq<PhiPsiProxy>, p: PhiPsiProxy): (r: seq<PhiPsiProxy>)
    ensures Present(proxies, p) ==> r == proxies
    ensures !Present(proxies, p) ==> r == proxies + [p]
    ensures NoneCovered(proxies) ==> NoneCovered(r)
    ensures Present(r, p)
  {
    if Present(proxies, p) then proxies
    else
      var r := proxies + [p];
      assert Covers(p, p);
      assert r[|proxies|] == p;
      r
  }

  /** A duplicate-free list never holds two proxies on the same sites. */
  lemma NoSameSites(proxies: seq<PhiPsiProxy>, i: nat, j: nat)
    requires NoneCovered(proxies)
    requires i < j < |proxies|
    ensures proxies[i].iSeqs != proxies[j].iSeqs
  {
  }

  /** One residue triplet: its proxy (None where `get_phi_psi_atoms` finds
      no atoms) and the verdict of the Ramachandran evaluation. */
  datatype Three = Three(proxy: Option<PhiPsiProxy>, evaluation: Evaluation)

  datatype ProxyLists = ProxyLists(oldfield: seq<PhiPsiProxy>, emsley: seq<PhiPsiProxy>)

  /** The proxy lists built from `threes`, in order, appending to `acc`. */
  function ExtractFrom(p: RamaParams, threes: seq<Three>, acc: ProxyLists): (r: ProxyLists)
    decreases |threes|
  {
    if |threes| == 0 then acc
    else
      var t := threes[0];
      var next :=
        if t.proxy.None? then acc
        else match Route(p, t.evaluation)
          case ToOldfield => ProxyLists(AppendProxy(acc.oldfield, t.proxy.value), acc.emsley)
          case ToEmsley => ProxyLists(acc.oldfield, AppendProxy(acc.emsley, t.proxy.value))
          case Dropped => acc;
      ExtractFrom(p, threes[1..], next)
  }

  /** Extraction keeps both lists duplicate-free, only grows them, adds at
      most one proxy per triplet, and leaves every routed proxy present in
      its list. */
  lemma {:induction false} ExtractFromSound(p: RamaParams, threes: seq<Three>, acc: ProxyLists)
    requires NoneCovered(acc.oldfield) && NoneCovered(acc.emsley)
    ensures var r := ExtractFrom(p, threes, acc);
      NoneCovered(r.oldfield) && NoneCovered(r.emsley)
      && |acc.oldfield| <= |r.oldfield| && |acc.emsley| <= |r.emsley|
      && r.oldfield[..|acc.oldfield|] == acc.oldfield && r.emsley[..|acc.emsley|] == acc.emsley
      && |r.oldfield| + |r.emsley| <= |acc.oldfield| + |acc.emsley| + |threes|
    ensures forall k :: 0 <= k < |threes| && threes[k].proxy.Some? ==>
      (Route(p, threes[k].evaluation) == ToOldfield ==> Present(ExtractFrom(p, threes, acc).oldfield, threes[k].proxy.value))
      && (Route(p, threes[k].evaluation) == ToEmsley ==> Present(ExtractFrom(p, threes, acc).emsley, threes[k].proxy.value))
    decreases |threes|
  {
    if |threes| > 0 {
      var t := threes[0];
      var next :=
        if t.proxy.None? then acc
        else match Route(p, t.evaluation)
          case ToOldfield => ProxyLists(AppendProxy(acc.oldfield, t.proxy.value), acc.emsley)
          case ToEmsley => ProxyLists(acc.oldfield, AppendProxy(acc.emsley, t.proxy.value))
          case Dropped => acc;
      ExtractFromSound(p, threes[1..], next);
      var r := ExtractFrom(p, threes[1..], next);
      assert ExtractFrom(p, threes, acc) == r;
      assert r.oldfield[..|acc.oldfield|] == r.oldfield[..|next.oldfield|][..|acc.oldfield|];
      assert r.emsley[..|acc.emsley|] == r.emsley[..|next.emsley|][..|acc.emsley|];
      forall k | 0 <= k < |threes| && threes[k].proxy.Some?
        ensures Route(p, threes[k].evaluation) == ToOldfield ==> Present(r.oldfield, threes[k].proxy.value)
        ensures Route(p, threes[k].evaluation) == ToEmsley ==> Present(r.emsley, threes[k].proxy.value)
      {
        if k == 0 {
          PresentInExtension(next.oldfield, r.oldfield, t.proxy.value);
          PresentInExtension(next.emsley, r.emsley, t.proxy.value);
        } else {
          assert threes[1..][k - 1] == threes[k];
        }
      }
    }
  }

  /** Every proxy in a built list was there before or is the proxy of a
      triplet routed to that list: a proxy lands only in the list its route
      names, and a dropped triplet adds nothing. */
  lemma {:induction false} ExtractFromOrigins(p: RamaParams, threes: seq<Three>, acc: ProxyLists)
    ensures forall q :: q in ExtractFrom(p, threes, acc).oldfield ==>
      q in acc.oldfield || exists k :: 0 <= k < |threes| && threes[k].proxy == Some(q) && Route(p, threes[k].evaluation) == ToOldfield
    ensures forall q :: q in ExtractFrom(p, threes, acc).emsley ==>
      q in acc.emsley || exists k :: 0 <= k < |threes| && threes[k].proxy == Some(q) && Route(p, threes[k].evaluation) == ToEmsley
    decreases |threes|
  {
    if |threes| > 0 {
      var t := threes[0];
      var next :=
        if t.proxy.None? then acc
        else match Route(p, t.evaluation)
          case ToOldfield => ProxyLists(AppendProxy(acc.oldfield, t.proxy.value), acc.emsley)
          case ToEmsley => ProxyLists(acc.oldfield, AppendProxy(acc.emsley, t.proxy.value))
          case Dropped => acc;
      ExtractFromOrigins(p, threes[1..], next);
      assert ExtractFrom(p, threes, acc) == ExtractFrom(p, threes[1..], next);
      forall k | 0 <= k < |threes| - 1
        ensures threes[1..][k] == threes[k + 1]
      {
      }
    }
  }

  lemma PresentInExtension(a: seq<PhiPsiProxy>, b: seq<PhiPsiProxy>, p: PhiPsiProxy)
    requires |a| <= |b| && b[..|a|] == a
    ensures Present(a, p) ==> Present(b, p)
  {
    if Present(a, p) {
      var k :| 0 <= k < |a| && Covers(p, a[k]);
      assert b[k] == a[k];
    }
  }

  /** `extract_proxies`: drops the previous proxies and rebuilds both lists
      from the triplets.  `selectedISeqs` are the `i_seq`s of the selected
      atoms; `flex.max` of none raises before anything is dropped. */
  function ExtractProxies(m: RamaManager, selectedISeqs: seq<nat>, threes: seq<Three>): (r: Result<RamaManager>)
    ensures r.Err? <==> |selectedISeqs| == 0
    ensures r.Ok? ==> r.value.params == m.params && r.value.atomISeqs == m.atomISeqs
    ensures r.Ok? ==> r.value.oldfieldProxies.Some? && r.value.emsleyProxies.Some?
    ensures r.Ok? ==> NoneCovered(r.value.oldfieldProxies.value) && NoneCovered(r.value.emsleyProxies.value)
    ensures r.Ok? ==> NProxies(r.value) <= |threes|
    ensures r.Ok? ==> forall k :: 0 <= k < |threes| && threes[k].proxy.Some? ==>
      (Route(m.params, threes[k].evaluation) == ToOldfield ==> Present(r.value.oldfieldProxies.value, threes[k].proxy.value))
      && (Route(m.params, threes[k].evaluation) == ToEmsley ==> Present(r.value.emsleyProxies.value, threes[k].proxy.value))
    ensures r.Ok? ==> forall q :: q in r.value.oldfieldProxies.value ==>
      exists k :: 0 <= k < |threes| && threes[k].proxy == Some(q) && Route(m.params, threes[k].evaluation) == ToOldfield
    ensures r.Ok? ==> forall q :: q in r.value.emsleyProxies.value ==>
      exists k :: 0 <= k < |threes| && threes[k].proxy == Some(q) && Route(m.params, threes[k].evaluation) == ToEmsley
  {
    if |selectedISeqs| == 0 then Err("flex.max of an empty array")
    else
      var lists := ExtractFrom(m.params, threes, ProxyLists([], []));
      ExtractFromSound(m.params, threes, ProxyLists([], []));
      ExtractFromOrigins(m.params, threes, ProxyLists([], []));
      Ok(m.(oldfieldProxies := Some(lists.oldfield), emsleyProxies := Some(lists.emsley)))
  }

  // ---------------------------------------------------------------------
  // Counts

  function Count(proxies: Option<seq<PhiPsiProxy>>): nat {
    if proxies.None? then 0 else |proxies.value|
  }

  function NOldfield(m: RamaManager): nat {
    Count(m.oldfieldProxies)
  }

  function NEmsley(m: RamaManager): nat {
    Count(m.emsleyProxies)
  }

  /** `get_n_proxies`: both lists together, a missing list counting 0. */
  function NProxies(m: RamaManager): (r: nat)
    ensures r == 0 <==> (m.oldfieldProxies.None? || |m.oldfieldProxies.value| == 0)
                        && (m.emsleyProxies.None? || |m.emsleyProxies.value| == 0)
  {
    NEmsley(m) + NOldfield(m)
  }

  // ---------------------------------------------------------------------
  // Construction and `proxy_select`

  /** The checks of the constructor's opening asserts: some atom has a
      non-zero `i_seq`, and the parameters are compatible. */
  predicate Constructible(params: RamaParams, atomISeqs: seq<nat>) {
    (exists k :: 0 <= k < |atomISeqs| && atomISeqs[k] != 0) && Compatible(params)
  }

  /** Under the Oldfield potential the constructor ends by computing the
      phi/psi targets, whatever `initialize` says.  That reads
      `_oldfield_tables.general`, which raises unless Oldfield tables were
      given, and hands `_oldfield_proxies` to the extension, which does not
      take `None` for a proxy array. */
  predicate OldfieldTargetsReady(potential: Potential, oldfieldProxies: Option<seq<PhiPsiProxy>>, oldfieldTables: TableRef) {
    potential == Oldfield ==> oldfieldTables.TablesId? && oldfieldProxies.Some?
  }

  /** The constructor without `initialize`: checks the hierarchy (some
      atom has a non-zero `i_seq`) and the parameters, takes the given
      proxies and tables, and computes the Oldfield targets.  As written,
      line 99 unpacks the proxies pair into the Oldfield proxies and the
      Emsley TABLES, so the Emsley proxies stay the fresh empty list. */
  function NewManagerAsWritten(params: RamaParams, atomISeqs: seq<nat>,
                               proxies: Option<(Option<seq<PhiPsiProxy>>, Option<seq<PhiPsiProxy>>)>,
                               tables: Option<(TableRef, TableRef)>): (r: Result<RamaManager>)
    ensures r.Ok? <==>
      && Constructible(params, atomISeqs)
      && (params.potential == Oldfield ==>
            tables.Some? && tables.value.0.TablesId? && (proxies.None? || proxies.value.0.Some?))
    ensures r.Ok? && proxies.Some? ==> r.value.oldfieldProxies == proxies.value.0
    ensures r.Ok? ==> r.value.emsleyProxies == Some([])
  {
    if forall k :: 0 <= k < |atomISeqs| ==> atomISeqs[k] == 0 then Err("Probably all atoms have i_seq = 0 which is wrong")
    else if !Compatible(params) then Err("Incompatible set of parameters")
    else
      var m := RamaManager(params, atomISeqs, Some([]), Some([]), NoTables, NoTables);
      var m1 := if proxies.Some? then m.(oldfieldProxies := proxies.value.0, emsleyTables := Misplaced(proxies.value.1)) else m;
      var m2 := if tables.Some? then m1.(oldfieldTables := tables.value.0, emsleyTables := tables.value.1) else m1;
      if !OldfieldTargetsReady(params.potential, m2.oldfieldProxies, m2.oldfieldTables) then
        Err("phi_psi_targets: no Oldfield tables or proxies")
      else Ok(m2)
  }

  /** The constructor as intended: the second member of the proxies pair
      is the Emsley proxies. */
  function NewManager(params: RamaParams, atomISeqs: seq<nat>,
                      proxies: Option<(Option<seq<PhiPsiProxy>>, Option<seq<PhiPsiProxy>>)>,
                      tables: Option<(TableRef, TableRef)>): (r: Result<RamaManager>)
    ensures r.Ok? <==>
      && Constructible(params, atomISeqs)
      && (params.potential == Oldfield ==>
            tables.Some? && tables.value.0.TablesId? && (proxies.None? || proxies.value.0.Some?))
    ensures r.Ok? && proxies.Some? ==>
      r.value.oldfieldProxies == proxies.value.0 && r.value.emsleyProxies == proxies.value.1
    ensures r.Ok? && proxies.None? ==> r.value.oldfieldProxies == Some([]) && r.value.emsleyProxies == Some([])
    ensures r.Ok? && tables.Some? ==> r.value.oldfieldTables == tables.value.0 && r.value.emsleyTables == tables.value.1
  {
    if forall k :: 0 <= k < |atomISeqs| ==> atomISeqs[k] == 0 then Err("Probably all atoms have i_seq = 0 which is wrong")
    else if !Compatible(params) then Err("Incompatible set of parameters")
    else
      var m := RamaManager(params, atomISeqs, Some([]), Some([]), NoTables, NoTables);
      var m1 := if proxies.Some? then m.(oldfieldProxies := proxies.value.0, emsleyProxies := proxies.value.1) else m;
      var m2 := if tables.Some? then m1.(oldfieldTables := tables.value.0, emsleyTables := tables.value.1) else m1;
      if !OldfieldTargetsReady(params.potential, m2.oldfieldProxies, m2.oldfieldTables) then
        Err("phi_psi_targets: no Oldfield tables or proxies")
      else Ok(m2)
  }

  /** Under the default (Oldfield) parameters, a manager built without
      `initialize` and without tables fails on the targets. */
  lemma DefaultNeedsOldfieldTables(atomISeqs: seq<nat>,
                                   proxies: Option<(Option<seq<PhiPsiProxy>>, Option<seq<PhiPsiProxy>>)>)
    ensures NewManager(DefaultParams, atomISeqs, proxies, None).Err?
    ensures NewManagerAsWritten(DefaultParams, atomISeqs, proxies, None).Err?
  {
  }

  /** What `proxy_select` needs to rebuild a manager: the constructor's
      asserts, and under Oldfield its tables and a non-empty Oldfield list
      (an empty one is passed on as `None`). */
  predicate SelectReady(m: RamaManager) {
    Constructible(m.params, m.atomISeqs)
    && (m.params.potential == Oldfield ==> m.oldfieldTables.TablesId? && NOldfield(m) > 0)
  }

  /** The proxies pair `proxy_select` hands to the constructor: each list
      selected, or None where it is empty. */
  function SelectedPair(m: RamaManager, select: seq<PhiPsiProxy> -> seq<PhiPsiProxy>)
    : (Option<seq<PhiPsiProxy>>, Option<seq<PhiPsiProxy>>)
  {
    (if NOldfield(m) == 0 then None else Some(select(m.oldfieldProxies.value)),
     if NEmsley(m) == 0 then None else Some(select(m.emsleyProxies.value)))
  }

  /** `proxy_select` as written: the constructor keeps the selected Oldfield
      proxies and both tables, but the selected Emsley proxies only pass
      through the table slot, which the tables then overwrite. */
  function ProxySelectAsWritten(m: RamaManager, select: seq<PhiPsiProxy> -> seq<PhiPsiProxy>): (r: Result<RamaManager>)
    ensures r.Ok? <==> SelectReady(m)
    ensures r.Ok? ==> r.value.params == m.params && r.value.atomISeqs == m.atomISeqs
    ensures r.Ok? ==> r.value.oldfieldProxies == (if NOldfield(m) == 0 then None else Some(select(m.oldfieldProxies.value)))
    ensures r.Ok? ==> r.value.emsleyProxies == Some([])
    ensures r.Ok? ==> r.value.oldfieldTables == m.oldfieldTables && r.value.emsleyTables == m.emsleyTables
  {
    NewManagerAsWritten(m.params, m.atomISeqs, Some(SelectedPair(m, select)),
                        Some((m.oldfieldTables, m.emsleyTables)))
  }

  /** `proxy_select` with the constructor corrected. */
  function ProxySelect(m: RamaManager, select: seq<PhiPsiProxy> -> seq<PhiPsiProxy>): (r: Result<RamaManager>)
    ensures r.Ok? <==> SelectReady(m)
    ensures r.Ok? ==> r.value.params == m.params && r.value.atomISeqs == m.atomISeqs
    ensures r.Ok? ==> r.value.oldfieldProxies == (if NOldfield(m) == 0 then None else Some(select(m.oldfieldProxies.value)))
    ensures r.Ok? ==> r.value.emsleyProxies == (if NEmsley(m) == 0 then None else Some(select(m.emsleyProxies.value)))
    ensures r.Ok? ==> r.value.oldfieldTables == m.oldfieldTables && r.value.emsleyTables == m.emsleyTables
  {
    NewManager(m.params, m.atomISeqs, Some(SelectedPair(m, select)),
               Some((m.oldfieldTables, m.emsleyTables)))
  }

  /** As written, selecting ALL sites of a manager with Emsley proxies
      loses every one of them. */
  lemma ProxySelectDropsEmsley(m: RamaManager)
    requires SelectReady(m)
    requires NEmsley(m) > 0
    ensures ProxySelectAsWritten(m, s => s).Ok?
    ensures NEmsley(ProxySelectAsWritten(m, s => s).value) == 0
  {
  }

  /** A concrete instance: one Emsley proxy before, none after. */
  lemma ProxySelectDropsEmsleyExample()
    ensures var p := PhiPsiProxy("ALA", "general", [1, 2, 3, 4, 5]);
      var m := RamaManager(RamaParams(Emsley, true, true, false, 1.0, 0.027), [0, 1, 2, 3, 4, 5],
                           Some([]), Some([p]), NoTables, TablesId(0));
      NEmsley(m) == 1 && ProxySelectAsWritten(m, s => s).Ok?
      && NEmsley(ProxySelectAsWritten(m, s => s).value) == 0
  {
    var p := PhiPsiProxy("ALA", "general", [1, 2, 3, 4, 5]);
    var m := RamaManager(RamaParams(Emsley, true, true, false, 1.0, 0.027), [0, 1, 2, 3, 4, 5],
                         Some([]), Some([p]), NoTables, TablesId(0));
    assert m.atomISeqs[1] != 0;
  }

  /** Corrected, `proxy_select` keeps each potential's selected proxies and
      both tables. */
  lemma ProxySelectKeeps(m: RamaManager, select: seq<PhiPsiProxy> -> seq<PhiPsiProxy>)
    requires SelectReady(m)
    ensures ProxySelect(m, select).Ok?
    ensures var r := ProxySelect(m, select).value;
      NOldfield(r) == (if NOldfield(m) == 0 then 0 else |select(m.oldfieldProxies.value)|)
      && NEmsley(r) == (if NEmsley(m) == 0 then 0 else |select(m.emsleyProxies.value)|)
      && r.oldfieldTables == m.oldfieldTables && r.emsleyTables == m.emsleyTables
      && r.params == m.params
  {
  }

  // ---------------------------------------------------------------------
  // Sorted listing (`_get_sorted_proxies_for_show`)

  datatype ShowEntry = ShowEntry(labels: seq<string>, residual: real)

  /** The labels of the five sites of a proxy; None where a site has no
      label. */
  function LabelsOf(labels: seq<string>, p: PhiPsiProxy): (r: Option<seq<string>>)
    ensures r.Some? <==> |p.iSeqs| >= 5 && forall k :: 0 <= k < 5 ==> p.iSeqs[k] < |labels|
    ensures r.Some? ==> |r.value| == 5 && forall k :: 0 <= k < 5 ==> r.value[k] == labels[p.iSeqs[k]]
  {
    if |p.iSeqs| >= 5 && forall k :: 0 <= k < 5 ==> p.iSeqs[k] < |labels| then
      Some(seq(5, k requires 0 <= k < 5 => labels[p.iSeqs[k]]))
    else None
  }

  /** The entries of one list, in proxy order. */
  function Entries(labels: seq<string>, proxies: seq<PhiPsiProxy>, residuals: seq<real>): (r: Result<seq<ShowEntry>>)
    ensures r.Ok? ==> |r.value| == |proxies| && |proxies| <= |residuals|
    ensures r.Ok? ==> forall k :: 0 <= k < |proxies| ==>
      r.value[k].residual == residuals[k] && LabelsOf(labels, proxies[k]) == Some(r.value[k].labels)
    decreases |proxies|
  {
    if |proxies| == 0 then Ok([])
    else
      var n := |proxies| - 1;
      var init :- Entries(labels, proxies[..n], residuals);
      var ls := LabelsOf(labels, proxies[n]);
      if ls.None? then Err("IndexError")
      else if n >= |residuals| then Err("IndexError")
      else Ok(init + [ShowEntry(ls.value, residuals[n])])
  }

  function Negated(e: ShowEntry): real {
    -e.residual
  }

  /** In residual mode an entry list is sorted by decreasing residual. */
  function Arrange(byValue: string, entries: seq<ShowEntry>): (r: seq<ShowEntry>)
    ensures multiset(r) == multiset(entries)
    ensures byValue == "residual" ==> forall i, j :: 0 <= i < j < |r| ==> r[i].residual >= r[j].residual
    ensures byValue != "residual" ==> r == entries
  {
    if byValue == "residual" then
      var r := SortBy(entries, Negated);
      assert forall i, j :: 0 <= i < j < |r| ==> Negated(r[i]) <= Negated(r[j]);
      r
    else entries
  }

  function DefaultLabels(nSites: nat): (r: seq<string>)
    ensures |r| == nSites
    ensures forall k :: 0 <= k < nSites ==> r[k] == Text.NatToString(k)
  {
    seq(nSites, k requires 0 <= k < nSites => Text.NatToString(k))
  }

  /** The labels shown: the given ones, or the site numbers. */
  function ShowLabels(siteLabels: Option<seq<string>>, nSites: nat): seq<string> {
    if siteLabels.Some? then siteLabels.value else DefaultLabels(nSites)
  }

  /** `_get_sorted_proxies_for_show`.  The residual arrays are those
      `target_and_gradients` fills, given here; None stands for the early
      return when there are no proxies. */
  function SortedForShow(m: RamaManager, byValue: string, nSites: nat, siteLabels: Option<seq<string>>,
                         oldfieldResiduals: seq<real>, emsleyResiduals: seq<real>)
    : (r: Result<Option<(seq<ShowEntry>, seq<ShowEntry>)>>)
    ensures r.Ok? ==> byValue == "residual" || byValue == "delta"
    ensures r.Ok? ==> siteLabels.None? || |siteLabels.value| == nSites
    ensures r.Ok? ==> (r.value.None? <==> NProxies(m) == 0)
    ensures r.Ok? && r.value.Some? ==>
      |r.value.value.0| == NOldfield(m) && |r.value.value.1| == NEmsley(m)
    ensures r.Ok? && r.value.Some? && byValue == "residual" ==>
      (forall i, j :: 0 <= i < j < |r.value.value.0| ==> r.value.value.0[i].residual >= r.value.value.0[j].residual)
      && (forall i, j :: 0 <= i < j < |r.value.value.1| ==> r.value.value.1[i].residual >= r.value.value.1[j].residual)
    ensures r.Ok? && r.value.Some? && byValue == "delta" ==>
      (forall k :: 0 <= k < NOldfield(m) ==> k < |oldfieldResiduals| && r.value.value.0[k].residual == oldfieldResiduals[k])
      && (forall k :: 0 <= k < NEmsley(m) ==> k < |emsleyResiduals| && r.value.value.1[k].residual == emsleyResiduals[k])
    ensures r.Ok? && r.value.Some? ==>
      var labels := ShowLabels(siteLabels, nSites);
      (NOldfield(m) > 0 ==> var e := Entries(labels, m.oldfieldProxies.value, oldfieldResiduals);
         e.Ok? && multiset(r.value.value.0) == multiset(e.value))
      && (NEmsley(m) > 0 ==> var e := Entries(labels, m.emsleyProxies.value, emsleyResiduals);
         e.Ok? && multiset(r.value.value.1) == multiset(e.value))
  {
    if byValue != "residual" && byValue != "delta" then Err("by_value must be residual or delta")
    else if siteLabels.Some? && |siteLabels.value| != nSites then Err("site_labels size mismatch")
    else if NProxies(m) == 0 then Ok(None)
    else
      var labels := ShowLabels(siteLabels, nSites);
      var olds :- if NOldfield(m) > 0 then Entries(labels, m.oldfieldProxies.value, oldfieldResiduals) else Ok([]);
      var ems :- if NEmsley(m) > 0 then Entries(labels, m.emsleyProxies.value, emsleyResiduals) else Ok([]);
      Ok(Some((Arrange(byValue, olds), Arrange(byValue, ems))))
  }

  // ---------------------------------------------------------------------
  // Tables

  /** `load_tables`: a positive `scale_allowed`, and table lines whose phi
      and psi are both odd (Python's `%`, which agrees with Dafny's for a
      positive modulus); the values in file order. */
  function LoadTable(scaleAllowed: real, lines: seq<(real, int, int)>): (r: Result<seq<real>>)
    ensures scaleAllowed <= 0.0 ==> r.Err?
    ensures r.Ok? <==> scaleAllowed > 0.0 && forall k :: 0 <= k < |lines| ==> lines[k].1 % 2 == 1 && lines[k].2 % 2 == 1
    ensures r.Ok? ==> |r.value| == |lines| && forall k :: 0 <= k < |lines| ==> r.value[k] == lines[k].0
  {
    if scaleAllowed <= 0.0 then Err("Ramachandran restraint parameter scale_allowed must be a positive number")
    else if forall k :: 0 <= k < |lines| ==> lines[k].1 % 2 == 1 && lines[k].2 % 2 == 1 then
      Ok(seq(|lines|, k requires 0 <= k < |lines| => lines[k].0))
    else Err("assert phi and psi odd")
  }

  datatype Triplet = Triplet(phi: real, psi: real, val: real)

  /** The distinct values of a sequence, in first-occurrence order. */
  function Distinct(s: seq<real>): (r: seq<real>)
    ensures forall x :: x in r <==> x in s
    ensures forall i, j :: 0 <= i < j < |r| ==> r[i] != r[j]
    decreases |s|
  {
    if |s| == 0 then []
    else
      var init := Distinct(s[..|s| - 1]);
      assert forall x :: x in s <==> x in s[..|s| - 1] || x == s[|s| - 1];
      if s[|s| - 1] in init then init else init + [s[|s| - 1]]
  }

  /** Every `step`-th value of the sorted distinct values. */
  function Needed(values: seq<real>, step: nat): (r: set<real>)
    requires step > 0
    ensures r <= set x | x in values
    ensures step == 1 ==> r == set x | x in values
  {
    var sorted := SortReals(Distinct(values));
    assert forall x :: x in sorted <==> x in multiset(sorted);
    assert forall x :: x in Distinct(values) <==> x in multiset(Distinct(values));
    set i | 0 <= i < |sorted| && i % step == 0 :: sorted[i]
  }

  function Phis(data: seq<Triplet>): seq<real> {
    seq(|data|, k requires 0 <= k < |data| => data[k].phi)
  }

  function Psis(data: seq<Triplet>): seq<real> {
    seq(|data|, k requires 0 <= k < |data| => data[k].psi)
  }

  /** The triplets of `data`, in order, that pass `keep`. */
  function Filter(data: seq<Triplet>, keep: Triplet -> bool): (r: seq<Triplet>)
    ensures forall t :: t in r <==> t in data && keep(t)
    ensures |r| <= |data|
    decreases |data|
  {
    if |data| == 0 then []
    else
      var init := Filter(data[..|data| - 1], keep);
      assert forall t :: t in data <==> t in data[..|data| - 1] || t == data[|data| - 1];
      if keep(data[|data| - 1]) then init + [data[|data| - 1]] else init
  }

  /** `select_good`: the triplets above the cutoff whose phi and psi are
      among the kept grid values.  `range` with a zero step raises. */
  function SelectGood(data: seq<Triplet>, step: nat, plotCutoff: real): (r: Result<seq<Triplet>>)
    ensures r.Err? <==> step == 0
    ensures r.Ok? ==> forall t :: t in r.value <==>
      t in data && t.val > plotCutoff && t.phi in Needed(Phis(data), step) && t.psi in Needed(Psis(data), step)
  {
    if step == 0 then Err("range() step argument must not be zero")
    else
      var phis := Needed(Phis(data), step);
      var psis := Needed(Psis(data), step);
      Ok(Filter(data, (t: Triplet) => t.val > plotCutoff && t.phi in phis && t.psi in psis))
  }

  /** With step 1, as the plot data uses it, the grid filter keeps every
      grid point: exactly the triplets above the cutoff survive. */
  lemma SelectGoodStepOne(data: seq<Triplet>, plotCutoff: real)
    ensures SelectGood(data, 1, plotCutoff).Ok?
    ensures forall t :: t in SelectGood(data, 1, plotCutoff).value <==> t in data && t.val > plotCutoff
  {
    forall t | t in data
      ensures t.phi in Needed(Phis(data), 1) && t.psi in Needed(Psis(data), 1)
    {
      var k :| 0 <= k < |data| && data[k] == t;
      assert Phis(data)[k] == t.phi;
      assert Psis(data)[k] == t.psi;
    }
  }
}

=== FILE: reflection_file_reader.dfy ===
/** The format-sniffing reflection file reader: a file is offered to the
    MTZ, CNS, Scalepack, d*TREK and SHELX readers and finally to the
    unpickler, in that order, and the first that accepts it fixes the file
    type; plus the command-line driver that classifies its arguments,
    collects the Miller arrays of every file and names the pickle it
    writes. The readers themselves are outside the model: what each makes
    of a file is a `Probe` value. */
module ReflectionFileReader {
  import opened Common
  import opened Text

  datatype FileType =
    | CcpMtz
    | CnsReflectionFile
    | ScalepackMerged
    | DtrekReflnlist
    | ShelxHklf
    | MillerArrayPickle

  /** The file type as the reader reports it. */
  function TypeName(t: FileType): string {
    match t
    case CcpMtz => "ccp4_mtz"
    case CnsReflectionFile => "cns_reflection_file"
    case ScalepackMerged => "scalepack_merged"
    case DtrekReflnlist => "dtrek_reflnlist"
    case ShelxHklf => "shelx_hklf"
    case MillerArrayPickle => "cctbx.miller.array"
  }

  lemma TypeNamesDistinct(t: FileType, u: FileType)
    requires t != u
    ensures TypeName(t) != TypeName(u)
  {
  }

  /** The position of each reader in the order they are tried. */
  function Rank(t: FileType): nat {
    match t
    case CcpMtz => 0
    case CnsReflectionFile => 1
    case ScalepackMerged => 2
    case DtrekReflnlist => 3
    case ShelxHklf => 4
    case MillerArrayPickle => 5
  }

  /** A Miller array, known here only by its info string. */
  datatype MillerArray = MillerArray(info: string)

  /** What unpickling a file can give: a Miller array, a sequence of
      objects, `None`, or some other object that cannot be iterated. */
  datatype PickleObject =
    | PickledArray(miller: MillerArray)
    | PickledSequence(items: seq<PickleObject>)
    | PickledNone
    | PickledScalar(value: int)

  /** What a format reader that catches only its own exception type makes
      of a file: it reads it, rejects it with the exception the constructor
      catches, or raises something else, which ends the constructor. */
  datatype ReaderOutcome = Reads | Rejects | Raises

  /** What the readers make of one file: the MTZ, CNS and Scalepack
      readers' outcomes, whether the d*TREK and SHELX readers (all of whose
      exceptions are caught) accept it, and the unpickled object (`None`
      when unpickling raises). */
  datatype Probe = Probe(
    mtz: ReaderOutcome,
    cns: ReaderOutcome,
    scalepack: ReaderOutcome,
    dtrek: bool,
    shelx: bool,
    unpickled: Option<PickleObject>)

  /** The Miller arrays among `items`, in order. */
  function MillerArraysIn(items: seq<PickleObject>): (r: seq<MillerArray>)
    ensures |r| <= |items|
    ensures forall a :: a in r <==> PickledArray(a) in items
    ensures forall a :: multiset(r)[a] == multiset(items)[PickledArray(a)]
  {
    if |items| == 0 then []
    else
      var rest := MillerArraysIn(items[1..]);
      assert forall o :: o in items <==> o == items[0] || o in items[1..];
      assert items == [items[0]] + items[1..];
      assert multiset(items) == multiset{items[0]} + multiset(items[1..]);
      if items[0].PickledArray? then [items[0].miller] + rest else rest
  }

  /** Filtering joined lists filters each in turn, so the arrays keep the
      order of the items. */
  lemma {:induction false} MillerArraysInAppend(a: seq<PickleObject>, b: seq<PickleObject>)
    ensures MillerArraysIn(a + b) == MillerArraysIn(a) + MillerArraysIn(b)
    decreases |a|
  {
    if |a| == 0 {
      assert a + b == b;
    } else {
      assert (a + b)[1..] == a[1..] + b;
      MillerArraysInAppend(a[1..], b);
    }
  }

  /** The pickle branch of the constructor as written: a single array is
      wrapped in a list, an iterable is filtered to its arrays (`None` when
      there are none), and an object that cannot be iterated is kept as it
      was loaded. */
  datatype PickleContent = ArrayList(arrays: seq<MillerArray>) | LoadedObject(obj: PickleObject)

  function PickleContentAsWritten(obj: PickleObject): (r: Option<PickleContent>)
    ensures obj.PickledScalar? ==> r == Some(LoadedObject(obj))
    ensures obj.PickledNone? ==> r.None?
  {
    match obj
    case PickledArray(a) => Some(ArrayList([a]))
    case PickledSequence(items) =>
      var arrays := MillerArraysIn(items);
      if |arrays| == 0 then None else Some(ArrayList(arrays))
    case PickledNone => None
    case PickledScalar(_) => Some(LoadedObject(obj))
  }

  /** A pickled integer is accepted as a Miller array file although it
      holds no Miller array; `as_miller_arrays` then hands back the integer
      where its callers iterate over a list. */
  lemma ScalarPickleAccepted()
    ensures PickleContentAsWritten(PickledScalar(7)).Some?
    ensures PickleContentAsWritten(PickledScalar(7)).value.LoadedObject?
  {
  }

  /** The pickle branch as evidently intended: the file is a Miller array
      file exactly when the unpickled object is an array or iterates over
      at least one; the content is then those arrays. */
  function PickleArrays(obj: PickleObject): (r: Option<seq<MillerArray>>)
    ensures r.Some? <==> obj.PickledArray? || (obj.PickledSequence? && exists a :: PickledArray(a) in obj.items)
    ensures r.Some? ==> |r.value| > 0
    ensures r.Some? && obj.PickledArray? ==> r.value == [obj.miller]
    ensures r.Some? && obj.PickledSequence? ==> forall a :: a in r.value <==> PickledArray(a) in obj.items
  {
    match obj
    case PickledArray(a) => Some([a])
    case PickledSequence(items) =>
      var arrays := MillerArraysIn(items);
      if |arrays| == 0 then
        assert forall a :: a !in arrays;
        None
      else
        assert PickledArray(arrays[0]) in items;
        Some(arrays)
    case _ => None
  }

  /** The two agree wherever the source does not keep a non-iterable
      object. */
  lemma PickleContentAgrees(obj: PickleObject)
    requires !obj.PickledScalar?
    ensures PickleContentAsWritten(obj).Some? <==> PickleArrays(obj).Some?
    ensures PickleArrays(obj).Some? ==> PickleContentAsWritten(obj) == Some(ArrayList(PickleArrays(obj).value))
  {
  }

  predicate Accepts(p: Probe, t: FileType) {
    match t
    case CcpMtz => p.mtz == Reads
    case CnsReflectionFile => p.cns == Reads
    case ScalepackMerged => p.scalepack == Reads
    case DtrekReflnlist => p.dtrek
    case ShelxHklf => p.shelx
    case MillerArrayPickle => p.unpickled.Some? && PickleArrays(p.unpickled.value).Some?
  }

  /** What the constructor keeps: nothing recognised, a format reader's
      content, or the Miller arrays of a pickle. */
  datatype Opened = Unrecognised | Formatted(format: FileType) | Pickled(arrays: seq<MillerArray>)

  datatype AnyReflectionFile = AnyReflectionFile(fileName: string, reading: Opened)

  /** `file_type()`. */
  function FileTypeOf(f: AnyReflectionFile): Option<FileType> {
    match f.reading
    case Unrecognised => None
    case Formatted(t) => Some(t)
    case Pickled(_) => Some(MillerArrayPickle)
  }

  /** A reader tried before any reader accepted the file raises an
      exception the constructor does not catch: only `RuntimeError`,
      `CNS_input_Error` and `ScalepackFormatError` are caught there. */
  predicate Aborts(p: Probe) {
    p.mtz == Raises
    || (p.mtz == Rejects && (p.cns == Raises || (p.cns == Rejects && p.scalepack == Raises)))
  }

  /** `any_reflection_file(file_name)`. An unreadable file raises before
      any reader is tried. */
  function Open(fileName: string, readable: bool, p: Probe): (r: Result<AnyReflectionFile>)
    ensures r.Err? <==> !readable || Aborts(p)
    ensures r.Ok? ==> r.value.fileName == fileName
    ensures r.Ok? ==> (FileTypeOf(r.value).None? <==> forall t :: !Accepts(p, t))
    ensures r.Ok? && FileTypeOf(r.value).Some? ==>
      var t := FileTypeOf(r.value).value;
      Accepts(p, t) && forall u :: Rank(u) < Rank(t) ==> !Accepts(p, u)
    ensures r.Ok? && r.value.reading.Pickled? ==>
      r.value.reading.arrays == PickleArrays(p.unpickled.value).value
  {
    if !readable then Err("IOError: cannot open " + fileName)
    else if Aborts(p) then Err("an exception the reader cascade does not catch")
    else
      assert Accepts(p, CcpMtz) == (p.mtz == Reads) && Accepts(p, CnsReflectionFile) == (p.cns == Reads);
      assert Accepts(p, ScalepackMerged) == (p.scalepack == Reads) && Accepts(p, DtrekReflnlist) == p.dtrek;
      assert Accepts(p, ShelxHklf) == p.shelx;
      assert Accepts(p, MillerArrayPickle) == (p.unpickled.Some? && PickleArrays(p.unpickled.value).Some?);
      var reading :=
        if p.mtz == Reads then Formatted(CcpMtz)
        else if p.cns == Reads then Formatted(CnsReflectionFile)
        else if p.scalepack == Reads then Formatted(ScalepackMerged)
        else if p.dtrek then Formatted(DtrekReflnlist)
        else if p.shelx then Formatted(ShelxHklf)
        else if p.unpickled.Some? && PickleArrays(p.unpickled.value).Some? then
          Pickled(PickleArrays(p.unpickled.value).value)
        else Unrecognised;
      Ok(AnyReflectionFile(fileName, reading))
  }

  /** The prefix given to the labels of the arrays read from `fileName`:
      the name and a colon, without a leading current-directory part. */
  function InfoPrefix(fileName: string): (r: string)
    ensures EndsWith(r, ":") && EndsWith(fileName + ":", r)
    ensures |r| == |fileName| - 1 <==> StartsWith(fileName + ":", "./") || StartsWith(fileName + ":", ".\\")
    ensures |r| == |fileName| + 1 <==> !(StartsWith(fileName + ":", "./") || StartsWith(fileName + ":", ".\\"))
  {
    var p := fileName + ":";
    assert p[|p| - 1] == ':';
    StartsWithAt(p, "./", 1);
    StartsWithAt(p, ".\\", 1);
    if StartsWith(p, "./") || StartsWith(p, ".\\") then
      assert p[2..][|p[2..]| - 1..] == ":";
      assert p[|p| - |p[2..]|..] == p[2..];
      p[2..]
    else
      assert p[|p| - 1..] == ":";
      assert p[|p| - |p|..] == p;
      p
  }

  /** Naming a file relative to the current directory does not change the
      labels of its arrays. */
  lemma InfoPrefixIgnoresCurrentDirectory(name: string, dot: string)
    requires dot == "./" || dot == ".\\"
    requires !StartsWith(name, "./") && !StartsWith(name, ".\\")
    ensures InfoPrefix(dot + name) == InfoPrefix(name) == name + ":"
  {
    var p := dot + name + ":";
    assert p[..2] == dot;
    assert p[2..] == name + ":";
    ColonKeepsPrefix(name, "./");
    ColonKeepsPrefix(name, ".\\");
  }

  /** Appending the colon cannot create a two-character prefix that does
      not end in a colon. */
  lemma ColonKeepsPrefix(name: string, d: string)
    requires |d| == 2 && d[1] != ':'
    ensures StartsWith(name + ":", d) ==> StartsWith(name, d)
  {
    if |name| >= 2 {
      assert (name + ":")[..2] == name[..2];
    } else if |name| == 1 {
      assert (name + ":")[1] == ':';
    }
  }

  /** The crystal symmetry handed to the readers: each part given on the
      command line or extracted from another file. */
  datatype SymmetrySource = Given(text: string) | ExtractedFrom(fileName: string)
  datatype Symmetry = Symmetry(unitCell: Option<SymmetrySource>, spaceGroup: Option<SymmetrySource>)

  /** A format reader's own conversion, outside the model: file name,
      format, symmetry, the force flag and the info prefix give the arrays. */
  type Convert = (string, FileType, Symmetry, bool, string) -> seq<MillerArray>

  /** `as_miller_arrays(crystal_symmetry, force_symmetry)`. */
  function AsMillerArrays(f: AnyReflectionFile, symmetry: Symmetry, force: bool, convert: Convert): (r: seq<MillerArray>)
    ensures FileTypeOf(f).None? ==> r == []
    ensures f.reading.Pickled? ==> r == f.reading.arrays
    ensures f.reading.Formatted? ==>
      r == convert(f.fileName, f.reading.format, symmetry, force, InfoPrefix(f.fileName))
  {
    match f.reading
    case Unrecognised => []
    case Pickled(arrays) => arrays
    case Formatted(t) => convert(f.fileName, t, symmetry, force, InfoPrefix(f.fileName))
  }

  // ---------------------------------------------------------------------
  // The command-line driver

  datatype Options = Options(
    symmetry: Symmetry,
    forceSymmetry: bool,
    pickleFileName: Option<string>,
    files: seq<string>)

  const NoOptions := Options(Symmetry(None, None), false, None, [])

  /** An argument that names a recognised option. */
  predicate KnownOption(arg: string) {
    || StartsWith(arg, "--unit_cell=")
    || StartsWith(arg, "--space_group=")
    || StartsWith(arg, "--extract_symmetry=")
    || arg == "--force_symmetry"
    || StartsWith(arg, "--pickle=")
  }

  predicate UnknownOption(arg: string) {
    StartsWith(arg, "--") && !KnownOption(arg)
  }

  /** The unit cell an argument sets, if any: `--unit_cell=` gives it,
      `--extract_symmetry=` names the file it is read from. */
  function UnitCellOf(arg: string): Option<SymmetrySource> {
    if StartsWith(arg, "--unit_cell=") then Some(Given(arg[12..]))
    else if StartsWith(arg, "--extract_symmetry=") then Some(ExtractedFrom(arg[19..]))
    else None
  }

  /** The space group an argument sets, if any. */
  function SpaceGroupOf(arg: string): Option<SymmetrySource> {
    if StartsWith(arg, "--space_group=") then Some(Given(arg[14..]))
    else if StartsWith(arg, "--extract_symmetry=") then Some(ExtractedFrom(arg[19..]))
    else None
  }

  /** The pickle name an argument sets, if any. */
  function PickleNameOf(arg: string): Option<string> {
    if StartsWith(arg, "--pickle=") then Some(arg[9..]) else None
  }

  /** `v` is what the last argument that sets something through `f` sets,
      and `None` when no argument does. */
  predicate SetByLast<T(==)>(args: seq<string>, f: string -> Option<T>, v: Option<T>) {
    (v.None? <==> forall i :: 0 <= i < |args| ==> f(args[i]).None?)
    && (v.Some? ==> exists i :: 0 <= i < |args| && f(args[i]) == v
                                && forall j :: i < j < |args| ==> f(args[j]).None?)
  }

  lemma SetByLastSnoc<T>(args: seq<string>, arg: string, f: string -> Option<T>, v: Option<T>)
    requires SetByLast(args, f, v)
    ensures SetByLast(args + [arg], f, if f(arg).Some? then f(arg) else v)
  {
    var a := args + [arg];
    assert forall i :: 0 <= i < |args| ==> a[i] == args[i];
    assert a[|args|] == arg;
    if f(arg).None? && v.Some? {
      var i :| 0 <= i < |args| && f(args[i]) == v && forall j :: i < j < |args| ==> f(args[j]).None?;
      assert a[i] == args[i];
    }
  }

  /** One step of `run`'s argument loop. The text after each option's
      `=` is its value: the first `=` of the argument ends the prefix. */
  function Classify(o: Options, arg: string): (r: Result<Options>)
    ensures r.Err? <==> UnknownOption(arg)
    ensures r.Err? ==> r.message == "Unknown option: " + arg
    ensures r.Ok? ==> r.value.files == if StartsWith(arg, "--") then o.files else o.files + [arg]
    ensures r.Ok? ==> (r.value.forceSymmetry <==> o.forceSymmetry || arg == "--force_symmetry")
    ensures r.Ok? && StartsWith(arg, "--pickle=") ==> r.value.pickleFileName == Some(arg[9..])
    ensures r.Ok? && !StartsWith(arg, "--pickle=") ==> r.value.pickleFileName == o.pickleFileName
    ensures r.Ok? ==> r.value.pickleFileName == if PickleNameOf(arg).Some? then PickleNameOf(arg) else o.pickleFileName
    ensures r.Ok? ==> r.value.symmetry.unitCell == if UnitCellOf(arg).Some? then UnitCellOf(arg) else o.symmetry.unitCell
    ensures r.Ok? ==> r.value.symmetry.spaceGroup == if SpaceGroupOf(arg).Some? then SpaceGroupOf(arg) else o.symmetry.spaceGroup
  {
    StartsWithShorter(arg, "--unit_cell=", "--");
    StartsWithShorter(arg, "--space_group=", "--");
    StartsWithShorter(arg, "--extract_symmetry=", "--");
    StartsWithShorter(arg, "--pickle=", "--");
    StartsWithAt(arg, "--unit_cell=", 2);
    StartsWithAt(arg, "--space_group=", 2);
    StartsWithAt(arg, "--extract_symmetry=", 2);
    StartsWithAt(arg, "--pickle=", 2);
    if StartsWith(arg, "--unit_cell=") then
      Ok(o.(symmetry := o.symmetry.(unitCell := Some(Given(arg[12..])))))
    else if StartsWith(arg, "--space_group=") then
      Ok(o.(symmetry := o.symmetry.(spaceGroup := Some(Given(arg[14..])))))
    else if StartsWith(arg, "--extract_symmetry=") then
      var source := ExtractedFrom(arg[19..]);
      Ok(o.(symmetry := Symmetry(Some(source), Some(source))))
    else if arg == "--force_symmetry" then
      Ok(o.(forceSymmetry := true))
    else if StartsWith(arg, "--pickle=") then
      Ok(o.(pickleFileName := Some(arg[9..])))
    else if StartsWith(arg, "--") then
      Err("Unknown option: " + arg)
    else
      Ok(o.(files := o.files + [arg]))
  }

  /** The arguments that are not options, in order: the files to read. */
  function NonOptions(args: seq<string>): seq<string> {
    if |args| == 0 then []
    else (if StartsWith(args[0], "--") then [] else [args[0]]) + NonOptions(args[1..])
  }

  lemma {:induction false} NonOptionsSnoc(args: seq<string>, arg: string)
    ensures NonOptions(args + [arg]) == NonOptions(args) + (if StartsWith(arg, "--") then [] else [arg])
  {
    if |args| > 0 {
      assert (args + [arg])[1..] == args[1..] + [arg];
      NonOptionsSnoc(args[1..], arg);
    } else {
      assert args + [arg] == [arg];
    }
  }

  /** `run`'s argument loop: the first unknown option aborts, every
      non-option stays a file name in order, and later options override
      earlier ones. */
  function ParseArgs(args: seq<string>): (r: Result<Options>)
    ensures r.Err? <==> exists i :: 0 <= i < |args| && UnknownOption(args[i])
    ensures r.Err? ==> exists i :: (0 <= i < |args| && UnknownOption(args[i])
      && (forall j :: 0 <= j < i ==> !UnknownOption(args[j]))
      && r.message == "Unknown option: " + args[i])
    ensures r.Ok? ==> r.value.files == NonOptions(args)
    ensures r.Ok? ==> (r.value.forceSymmetry <==> "--force_symmetry" in args)
    ensures r.Ok? ==> SetByLast(args, PickleNameOf, r.value.pickleFileName)
    ensures r.Ok? ==> SetByLast(args, UnitCellOf, r.value.symmetry.unitCell)
    ensures r.Ok? ==> SetByLast(args, SpaceGroupOf, r.value.symmetry.spaceGroup)
    decreases |args|
  {
    if |args| == 0 then Ok(NoOptions)
    else
      var init, last := args[..|args| - 1], args[|args| - 1];
      assert args == init + [last];
      NonOptionsSnoc(init, last);
      match ParseArgs(init)
      case Err(e) => Err(e)
      case Ok(o) =>
        SetByLastSnoc(init, last, PickleNameOf, o.pickleFileName);
        SetByLastSnoc(init, last, UnitCellOf, o.symmetry.unitCell);
        SetByLastSnoc(init, last, SpaceGroupOf, o.symmetry.spaceGroup);
        Classify(o, last)
  }

  /** The pickle's name: `.pickle` is appended unless the name already
      ends with it, in any case. */
  function PickleFileName(name: string): (r: string)
    ensures EndsWith(Lower(r), ".pickle")
    ensures EndsWith(Lower(name), ".pickle") ==> r == name
    ensures !EndsWith(Lower(name), ".pickle") ==> r == name + ".pickle"
  {
    if EndsWith(Lower(name), ".pickle") then name
    else
      var r := name + ".pickle";
      assert Lower(r)[|r| - 7..] == ".pickle";
      r
  }

  lemma PickleFileNameIdempotent(name: string)
    ensures PickleFileName(PickleFileName(name)) == PickleFileName(name)
  {
  }

  /** What is pickled: a single array on its own, otherwise the list. */
  datatype PickledValue = OneArray(miller: MillerArray) | ManyArrays(arrays: seq<MillerArray>)

  function PickledOf(arrays: seq<MillerArray>): (r: PickledValue)
    ensures |arrays| == 1 <==> r.OneArray?
    ensures r.OneArray? ==> arrays == [r.miller]
    ensures r.ManyArrays? ==> r.arrays == arrays
  {
    if |arrays| == 1 then OneArray(arrays[0]) else ManyArrays(arrays)
  }

  /** What `run` reads from the files, in order, and what it pickles. */
  datatype RunResult = RunResult(arrays: seq<MillerArray>, pickle: Option<(string, PickledValue)>)

  /** Reading the named files in order; the first file that is unreadable
      or makes a reader raise an uncaught exception ends the run. */
  function CollectArrays(
    files: seq<string>, symmetry: Symmetry, force: bool,
    readable: string -> bool, probe: string -> Probe, convert: Convert): (r: Result<seq<MillerArray>>)
    ensures r.Err? <==> exists i :: 0 <= i < |files| && (!readable(files[i]) || Aborts(probe(files[i])))
    decreases |files|
  {
    if |files| == 0 then Ok([])
    else
      var f :- Open(files[0], readable(files[0]), probe(files[0]));
      var rest :- CollectArrays(files[1..], symmetry, force, readable, probe, convert);
      assert forall i :: 1 <= i < |files| ==> files[i] == files[1..][i - 1];
      Ok(AsMillerArrays(f, symmetry, force, convert) + rest)
  }

  /** Reading joined file lists reads each in turn: it fails exactly when
      one of the two fails, and otherwise the arrays are those of the first
      followed by those of the second. */
  lemma {:induction false} CollectArraysAppend(
    a: seq<string>, b: seq<string>, symmetry: Symmetry, force: bool,
    readable: string -> bool, probe: string -> Probe, convert: Convert)
    ensures var ra := CollectArrays(a, symmetry, force, readable, probe, convert);
      var rb := CollectArrays(b, symmetry, force, readable, probe, convert);
      var r := CollectArrays(a + b, symmetry, force, readable, probe, convert);
      (r.Ok? <==> ra.Ok? && rb.Ok?) && (r.Ok? ==> r.value == ra.value + rb.value)
    decreases |a|
  {
    if |a| == 0 {
      assert a + b == b;
    } else {
      assert (a + b)[1..] == a[1..] + b;
      CollectArraysAppend(a[1..], b, symmetry, force, readable, probe, convert);
    }
  }

  /** Reading one file gives exactly the arrays of that file. */
  lemma CollectArraysSingle(
    file: string, symmetry: Symmetry, force: bool,
    readable: string -> bool, probe: string -> Probe, convert: Convert)
    ensures var r := CollectArrays([file], symmetry, force, readable, probe, convert);
      (r.Ok? <==> readable(file) && !Aborts(probe(file)))
      && (r.Ok? ==> r.value == AsMillerArrays(Open(file, true, probe(file)).value, symmetry, force, convert))
  {
    assert [file][1..] == [];
  }

  /** `run(args)`, without its printing. */
  function Run(args: seq<string>, readable: string -> bool, probe: string -> Probe, convert: Convert): (r: Result<RunResult>)
    ensures ParseArgs(args).Err? ==> r.Err?
    ensures r.Ok? ==> (r.value.pickle.Some? <==> ParseArgs(args).value.pickleFileName.Some?)
    ensures r.Ok? && r.value.pickle.Some? ==>
      EndsWith(Lower(r.value.pickle.value.0), ".pickle")
      && (|r.value.arrays| == 1 <==> r.value.pickle.value.1.OneArray?)
    ensures r.Ok? ==> forall f :: f in ParseArgs(args).value.files ==> readable(f)
    ensures ParseArgs(args).Ok? ==>
      var o := ParseArgs(args).value;
      var read := CollectArrays(o.files, o.symmetry, o.forceSymmetry, readable, probe, convert);
      (r.Ok? <==> read.Ok?) && (r.Ok? ==> r.value.arrays == read.value)
    ensures r.Ok? && r.value.pickle.Some? ==>
      r.value.pickle.value == (PickleFileName(ParseArgs(args).value.pickleFileName.value), PickledOf(r.value.arrays))
  {
    var opts :- ParseArgs(args);
    var arrays :- CollectArrays(opts.files, opts.symmetry, opts.forceSymmetry, readable, probe, convert);
    var pickle :=
      if opts.pickleFileName.None? then None
      else Some((PickleFileName(opts.pickleFileName.value), PickledOf(arrays)));
    Ok(RunResult(arrays, pickle))
  }
}

=== FILE: restraints_manager.dfy ===
/** The bookkeeping of the geometry-restraints manager in
    cctbx/geometry_restraints/manager.py: the size checks of its
    constructor, the edge list and rigid clusters handed to the tardy tree,
    growing the manager by isolated sites, the `n_seq` logic of `select`,
    and the harmonic restraints over the first shell table.

    The pair tables (`crystal.pair_sym_table`) are C++ objects that are not
    part of this model: a table is its size and the list of pairs its
    `simple_edge_list()` and `iterator()` enumerate.  Site-symmetry
    operators are opaque identifiers. */
module RestraintsManager {
  import opened Common

  datatype Pair = Pair(i: nat, j: nat)

  datatype PairTable = PairTable(size: nat, pairs: seq<Pair>)

  datatype BondParams = BondParams(distanceIdeal: real, weight: real, slack: real)

  /** A restraint proxy: the sites it restrains and its weight. */
  datatype Proxy = Proxy(iSeqs: seq<nat>, weight: real)

  /** The optional tables of a manager (None where the constructor got
      `None`).  The site-symmetry table is one operator id per site. */
  datatype Manager = Manager(
    hasCrystalSymmetry: bool,
    modelIndices: Option<seq<int>>,
    conformerIndices: Option<seq<int>>,
    siteSymmetry: Option<seq<int>>,
    bondParams: Option<seq<map<nat, BondParams>>>,
    shellTables: Option<seq<PairTable>>,
    nonbondedTypes: Option<seq<string>>,
    angles: Option<seq<Proxy>>,
    dihedrals: Option<seq<Proxy>>,
    chiralities: Option<seq<Proxy>>,
    planarities: Option<seq<Proxy>>)

  // ---------------------------------------------------------------------
  // Constructor

  /** The constructor's assertions: a site-symmetry table needs the crystal
      symmetry, and fixes the size of the bond table, of the first shell
      table (of which there must be one) and of the nonbonded types. */
  predicate SizesAgree(m: Manager) {
    (m.siteSymmetry.Some? ==> m.hasCrystalSymmetry)
    && (m.siteSymmetry.Some? && m.bondParams.Some? ==> |m.bondParams.value| == |m.siteSymmetry.value|)
    && (m.siteSymmetry.Some? && m.shellTables.Some? ==>
          |m.shellTables.value| > 0 && m.shellTables.value[0].size == |m.siteSymmetry.value|)
    && (m.siteSymmetry.Some? && m.nonbondedTypes.Some? ==> |m.nonbondedTypes.value| == |m.siteSymmetry.value|)
  }

  /** `manager.__init__`: checks the assertions in order, then keeps the
      tables as given. */
  function NewManager(m: Manager): (r: Result<Manager>)
    ensures r.Ok? <==> SizesAgree(m)
    ensures r.Ok? ==> r.value == m
  {
    if m.siteSymmetry.Some? && !m.hasCrystalSymmetry then Err("crystal_symmetry is required")
    else if m.siteSymmetry.Some? && m.bondParams.Some? && |m.bondParams.value| != |m.siteSymmetry.value| then
      Err("bond_params_table size mismatch")
    else if m.siteSymmetry.Some? && m.shellTables.Some? && |m.shellTables.value| == 0 then
      Err("no shell_sym_tables")
    else if m.siteSymmetry.Some? && m.shellTables.Some? && m.shellTables.value[0].size != |m.siteSymmetry.value| then
      Err("shell_sym_tables[0] size mismatch")
    else if m.siteSymmetry.Some? && m.nonbondedTypes.Some? && |m.nonbondedTypes.value| != |m.siteSymmetry.value| then
      Err("nonbonded_types size mismatch")
    else Ok(m)
  }

  // ---------------------------------------------------------------------
  // `simple_edge_list`

  /** Pair `e` passes the loop's assertion `i < j` and has bond parameters. */
  predicate Known(e: Pair, bpt: seq<map<nat, BondParams>>) {
    e.i < e.j && e.i < |bpt| && e.j in bpt[e.i]
  }

  /** The pairs whose bond slack does not exceed `omit`, in table order.  A
      pair with `i >= j` fails the assertion; a missing entry of the bond
      table is an IndexError or KeyError. */
  function EdgesFrom(pairs: seq<Pair>, bpt: seq<map<nat, BondParams>>, omit: real): (r: Result<seq<Pair>>)
    ensures r.Err? <==> exists k :: 0 <= k < |pairs| && !Known(pairs[k], bpt)
    ensures r.Ok? ==> forall e :: e in r.value <==>
      (e in pairs && Known(e, bpt) && bpt[e.i][e.j].slack <= omit)
    ensures r.Ok? ==> |r.value| <= |pairs|
  {
    if |pairs| == 0 then Ok([])
    else
      var e := pairs[0];
      if !Known(e, bpt) then Err("pair not ordered or without bond parameters")
      else
        var rest := EdgesFrom(pairs[1..], bpt, omit);
        assert forall k :: 0 < k < |pairs| ==> pairs[1..][k - 1] == pairs[k];
        assert forall x :: x in pairs <==> x == e || x in pairs[1..];
        if rest.Err? then Err(rest.message)
        else if bpt[e.i][e.j].slack > omit then Ok(rest.value)
        else Ok([e] + rest.value)
  }

  /** `simple_edge_list`: requires the bond table and the shell tables. */
  function SimpleEdgeList(m: Manager, omit: real): (r: Result<seq<Pair>>)
    ensures r.Ok? ==> m.bondParams.Some? && m.shellTables.Some? && |m.shellTables.value| > 0
    ensures r.Ok? ==> forall e :: e in r.value ==> e.i < e.j
    ensures r.Ok? ==> forall e :: e in r.value <==>
      (e in m.shellTables.value[0].pairs && Known(e, m.bondParams.value)
       && m.bondParams.value[e.i][e.j].slack <= omit)
  {
    if m.bondParams.None? then Err("bond_params_table is None")
    else if m.shellTables.None? then Err("shell_sym_tables is None")
    else if |m.shellTables.value| == 0 then Err("IndexError")
    else EdgesFrom(m.shellTables.value[0].pairs, m.bondParams.value, omit)
  }

  // ---------------------------------------------------------------------
  // `rigid_clusters_due_to_dihedrals_and_planes`

  /** The site lists of the proxies whose weight exceeds `limit`, in order. */
  function HeavySites(proxies: seq<Proxy>, limit: real): (r: seq<seq<nat>>)
    ensures |r| <= |proxies|
    ensures forall c :: c in r <==> exists p :: p in proxies && p.weight > limit && p.iSeqs == c
  {
    if |proxies| == 0 then []
    else
      var rest := HeavySites(proxies[1..], limit);
      assert forall p :: p in proxies <==> p == proxies[0] || p in proxies[1..];
      if proxies[0].weight > limit then [proxies[0].iSeqs] + rest else rest
  }

  function SitesOf(proxies: seq<Proxy>): (r: seq<seq<nat>>)
    ensures |r| == |proxies|
    ensures forall k :: 0 <= k < |proxies| ==> r[k] == proxies[k].iSeqs
  {
    seq(|proxies|, k requires 0 <= k < |proxies| => proxies[k].iSeqs)
  }

  /** Dihedrals restrained more tightly than sigma (weight above 1/sigma^2)
      and every plane make rigid clusters; sigma must be positive when there
      are dihedrals. */
  function RigidClusters(m: Manager, sigma: real): (r: Result<seq<seq<nat>>>)
    ensures r.Err? <==> m.dihedrals.Some? && sigma <= 0.0
    ensures r.Ok? ==> forall c :: c in r.value <==>
      (m.dihedrals.Some? && exists p :: p in m.dihedrals.value && p.weight > 1.0 / (sigma * sigma) && p.iSeqs == c)
      || (m.planarities.Some? && exists p :: p in m.planarities.value && p.iSeqs == c)
  {
    if m.dihedrals.Some? && sigma <= 0.0 then Err("constrain_dihedrals_with_sigma_less_than must be positive")
    else
      var fromDihedrals := if m.dihedrals.Some? then HeavySites(m.dihedrals.value, 1.0 / (sigma * sigma)) else [];
      var fromPlanes := if m.planarities.Some? then SitesOf(m.planarities.value) else [];
      assert m.planarities.Some? ==> forall c :: c in fromPlanes <==> exists p :: p in m.planarities.value && p.iSeqs == c by {
        if m.planarities.Some? {
          forall c | c in fromPlanes
            ensures exists p :: p in m.planarities.value && p.iSeqs == c
          {
            var k :| 0 <= k < |fromPlanes| && fromPlanes[k] == c;
            assert m.planarities.value[k] in m.planarities.value;
          }
          forall p | p in m.planarities.value
            ensures p.iSeqs in fromPlanes
          {
            var k :| 0 <= k < |m.planarities.value| && m.planarities.value[k] == p;
            assert fromPlanes[k] == p.iSeqs;
          }
        }
      }
      Ok(fromDihedrals + fromPlanes)
  }

  /** `construct_tardy_tree`: exactly one of `sites` and `sites_cart` must
      be given; the tree itself is built by `tardy_tree.construct`, which
      is not part of this model, from this edge list and these clusters. */
  function TardyTreeInputs(m: Manager, sites: Option<seq<real>>, sitesCart: Option<seq<real>>,
                           omit: real, sigma: real): (r: Result<(seq<Pair>, seq<seq<nat>>)>)
    ensures r.Ok? ==> sites.Some? != sitesCart.Some?
    ensures r.Ok? ==> SimpleEdgeList(m, omit) == Ok(r.value.0) && RigidClusters(m, sigma) == Ok(r.value.1)
    ensures sites.Some? != sitesCart.Some? && SimpleEdgeList(m, omit).Ok? && RigidClusters(m, sigma).Ok? ==> r.Ok?
  {
    if sites.Some? == sitesCart.Some? then Err("exactly one of sites and sites_cart")
    else
      var edges :- SimpleEdgeList(m, omit);
      var clusters :- RigidClusters(m, sigma);
      Ok((edges, clusters))
  }

  // ---------------------------------------------------------------------
  // `new_including_isolated_sites`

  /** The arrays describing the sites to add. */
  datatype Additions = Additions(
    n: int,
    modelIndices: Option<seq<int>>,
    conformerIndices: Option<seq<int>>,
    siteSymmetry: Option<seq<int>>,
    nonbondedTypes: Option<seq<string>>)

  /** The method's assertions: a non-negative count, an addition exactly
      for each array the manager has, each of that count's length. */
  predicate AdditionsFit(m: Manager, a: Additions) {
    a.n >= 0
    && a.modelIndices.Some? == m.modelIndices.Some?
    && a.conformerIndices.Some? == m.conformerIndices.Some?
    && a.siteSymmetry.Some? == m.siteSymmetry.Some?
    && a.nonbondedTypes.Some? == m.nonbondedTypes.Some?
    && (a.modelIndices.Some? ==> |a.modelIndices.value| == a.n)
    && (a.conformerIndices.Some? ==> |a.conformerIndices.value| == a.n)
    && (a.siteSymmetry.Some? ==> |a.siteSymmetry.value| == a.n)
    && (a.nonbondedTypes.Some? ==> |a.nonbondedTypes.value| == a.n)
  }

  function Concat<T>(mine: Option<seq<T>>, more: Option<seq<T>>): Option<seq<T>> {
    if mine.Some? && more.Some? then Some(mine.value + more.value) else None
  }

  function Extended(t: PairTable, n: nat): PairTable {
    PairTable(t.size + n, t.pairs)
  }

  /** The manager with `n` more sites: flat arrays concatenated, the bond
      table and every shell table extended by empty entries, proxies kept;
      the result passes the constructor's checks again. */
  function NewIncludingIsolatedSites(m: Manager, a: Additions): (r: Result<Manager>)
    ensures r.Ok? ==> AdditionsFit(m, a) && GrownBy(m, r.value, a.n)
  {
    if !AdditionsFit(m, a) then Err("additions do not fit the manager")
    else
      var n := a.n as nat;
      NewManager(Manager(
        m.hasCrystalSymmetry,
        Concat(m.modelIndices, a.modelIndices),
        Concat(m.conformerIndices, a.conformerIndices),
        Concat(m.siteSymmetry, a.siteSymmetry),
        if m.bondParams.Some? then Some(m.bondParams.value + seq(n, _ => map[])) else None,
        if m.shellTables.Some? then Some(seq(|m.shellTables.value|, k requires 0 <= k < |m.shellTables.value| =>
          Extended(m.shellTables.value[k], n))) else None,
        Concat(m.nonbondedTypes, a.nonbondedTypes),
        m.angles, m.dihedrals, m.chiralities, m.planarities))
  }

  /** `grown` is `mine` with `n` entries appended, or both are absent. */
  predicate Grows<T(==)>(mine: Option<seq<T>>, grown: Option<seq<T>>, n: int) {
    n >= 0 && grown.Some? == mine.Some?
    && (grown.Some? ==> |grown.value| == |mine.value| + n && grown.value[..|mine.value|] == mine.value)
  }

  /** `r` is `m` with `n` more sites in every table and the same proxies. */
  predicate GrownBy(m: Manager, r: Manager, n: int) {
    Grows(m.modelIndices, r.modelIndices, n)
    && Grows(m.conformerIndices, r.conformerIndices, n)
    && Grows(m.siteSymmetry, r.siteSymmetry, n)
    && Grows(m.bondParams, r.bondParams, n)
    && Grows(m.nonbondedTypes, r.nonbondedTypes, n)
    && r.shellTables.Some? == m.shellTables.Some?
    && (r.shellTables.Some? ==>
          |r.shellTables.value| == |m.shellTables.value|
          && forall k :: 0 <= k < |m.shellTables.value| ==>
               r.shellTables.value[k].size == m.shellTables.value[k].size + n
               && r.shellTables.value[k].pairs == m.shellTables.value[k].pairs)
    && r.angles == m.angles && r.dihedrals == m.dihedrals
    && r.chiralities == m.chiralities && r.planarities == m.planarities
  }

  /** Growing a consistent manager by fitting additions succeeds; every
      array is present exactly when it was, is `n` longer and keeps its old
      entries in front; the proxies are the same. */
  lemma IsolatedSitesGrow(m: Manager, a: Additions)
    requires SizesAgree(m)
    ensures NewIncludingIsolatedSites(m, a).Ok? <==> AdditionsFit(m, a)
    ensures NewIncludingIsolatedSites(m, a).Ok? ==> GrownBy(m, NewIncludingIsolatedSites(m, a).value, a.n)
  {
    if AdditionsFit(m, a) {
      var n := a.n as nat;
      var grown := Manager(
        m.hasCrystalSymmetry,
        Concat(m.modelIndices, a.modelIndices),
        Concat(m.conformerIndices, a.conformerIndices),
        Concat(m.siteSymmetry, a.siteSymmetry),
        if m.bondParams.Some? then Some(m.bondParams.value + seq(n, _ => map[])) else None,
        if m.shellTables.Some? then Some(seq(|m.shellTables.value|, k requires 0 <= k < |m.shellTables.value| =>
          Extended(m.shellTables.value[k], n))) else None,
        Concat(m.nonbondedTypes, a.nonbondedTypes),
        m.angles, m.dihedrals, m.chiralities, m.planarities);
      assert SizesAgree(grown);
      assert NewIncludingIsolatedSites(m, a) == Ok(grown);
    }
  }

  // ---------------------------------------------------------------------
  // `select`

  /** `selection.iselection()`: the positions of the true flags, in order. */
  function TrueIndices(sel: seq<bool>): (r: seq<nat>)
    ensures forall k :: 0 <= k < |r| ==> r[k] < |sel| && sel[r[k]]
    ensures forall i :: 0 <= i < |sel| && sel[i] ==> i in r
    ensures forall k, l :: 0 <= k < l < |r| ==> r[k] < r[l]
  {
    if |sel| == 0 then []
    else
      var init := TrueIndices(sel[..|sel| - 1]);
      assert forall i :: 0 <= i < |sel| - 1 ==> sel[..|sel| - 1][i] == sel[i];
      if sel[|sel| - 1] then init + [|sel| - 1] else init
  }

  /** `n_seq` from the recorded sizes: the one size all tables agree on. */
  function NSeq(sizes: seq<nat>): (r: Result<nat>)
    ensures r.Ok? <==> |set k | 0 <= k < |sizes| :: sizes[k]| == 1
    ensures r.Ok? ==> forall k :: 0 <= k < |sizes| ==> sizes[k] == r.value
    ensures |sizes| == 0 ==> r == Err("Cannot determine n_seq.")
  {
    var distinct := set k | 0 <= k < |sizes| :: sizes[k];
    if |sizes| == 0 then
      assert distinct == {};
      Err("Cannot determine n_seq.")
    else if exists k :: 0 <= k < |sizes| && sizes[k] != sizes[0] then
      var k :| 0 <= k < |sizes| && sizes[k] != sizes[0];
      assert {sizes[0], sizes[k]} <= distinct;
      assert |{sizes[0], sizes[k]}| == 2;
      SubsetCardinality({sizes[0], sizes[k]}, distinct);
      Err("Selection size mismatches")
    else
      assert distinct == {sizes[0]};
      Ok(sizes[0])
  }

  lemma SubsetCardinality(a: set<nat>, b: set<nat>)
    requires a <= b
    ensures |a| <= |b|
  {
    assert b == a + (b - a);
  }

  /** The sizes `select` records, in its order: the boolean selection's
      length when one is given, then every table present (the shell tables
      only when there is at least one). */
  function RecordedSizes(m: Manager, selection: Option<seq<bool>>): seq<nat> {
    Present(OptionalSizes(m, selection))
  }

  function OptionalSizes(m: Manager, selection: Option<seq<bool>>): seq<Option<nat>> {
    [ if selection.Some? then Some(|selection.value|) else None,
      if m.modelIndices.Some? then Some(|m.modelIndices.value|) else None,
      if m.conformerIndices.Some? then Some(|m.conformerIndices.value|) else None,
      if m.siteSymmetry.Some? then Some(|m.siteSymmetry.value|) else None,
      if m.bondParams.Some? then Some(|m.bondParams.value|) else None,
      if m.shellTables.Some? && |m.shellTables.value| > 0 then Some(m.shellTables.value[0].size) else None,
      if m.nonbondedTypes.Some? then Some(|m.nonbondedTypes.value|) else None ]
  }

  /** The sizes that are present, in order. */
  function Present(sizes: seq<Option<nat>>): seq<nat>
    decreases |sizes|
  {
    if |sizes| == 0 then []
    else (if sizes[0].Some? then [sizes[0].value] else []) + Present(sizes[1..])
  }

  /** When every present size is `n`, so is every recorded one. */
  lemma {:induction false} PresentAllAre(sizes: seq<Option<nat>>, n: nat)
    requires forall k :: 0 <= k < |sizes| && sizes[k].Some? ==> sizes[k].value == n
    ensures forall k :: 0 <= k < |Present(sizes)| ==> Present(sizes)[k] == n
    decreases |sizes|
  {
    if |sizes| > 0 {
      assert forall k :: 0 <= k < |sizes| - 1 ==> sizes[1..][k] == sizes[k + 1];
      PresentAllAre(sizes[1..], n);
    }
  }

  predicate HasProxies(m: Manager) {
    m.angles.Some? || m.dihedrals.Some? || m.chiralities.Some? || m.planarities.Some?
  }

  /** `flex` selection by indices; an index past the end is an error. */
  function SelectAt<T>(a: seq<T>, isel: seq<nat>): (r: Result<seq<T>>)
    ensures r.Ok? <==> forall k :: 0 <= k < |isel| ==> isel[k] < |a|
    ensures r.Ok? ==> |r.value| == |isel| && forall k :: 0 <= k < |isel| ==> r.value[k] == a[isel[k]]
  {
    if forall k :: 0 <= k < |isel| ==> isel[k] < |a| then
      Ok(seq(|isel|, k requires 0 <= k < |isel| => a[isel[k]]))
    else Err("selection index out of range")
  }

  /** `s` is the selection of `isel` from the optional array `a`. */
  predicate SelectedFrom<T(==)>(a: Option<seq<T>>, isel: seq<nat>, s: Option<seq<T>>) {
    s.Some? == a.Some?
    && (a.Some? ==> |s.value| == |isel| && forall k :: 0 <= k < |isel| ==> isel[k] < |a.value| && s.value[k] == a.value[isel[k]])
  }

  /** Some index of `isel` lies past the end of the present array `a`. */
  predicate OutOfRange<T>(a: Option<seq<T>>, isel: seq<nat>) {
    a.Some? && exists k :: 0 <= k < |isel| && isel[k] >= |a.value|
  }

  /** The index selection `select` works with. */
  function SelectionIndices(selection: Option<seq<bool>>, iselection: Option<seq<nat>>): seq<nat>
    requires selection.Some? || iselection.Some?
  {
    if iselection.Some? then iselection.value else TrueIndices(selection.value)
  }

  function SelectOptional<T(==)>(a: Option<seq<T>>, isel: seq<nat>): (r: Result<Option<seq<T>>>)
    ensures r.Ok? <==> !OutOfRange(a, isel)
    ensures r.Ok? ==> SelectedFrom(a, isel, r.value)
  {
    if a.None? then Ok(None)
    else
      var s :- SelectAt(a.value, isel);
      Ok(Some(s))
  }

  /** What `select` decides: the index selection used, `n_seq` for the
      proxy arrays (only computed when there are proxies), and the selected
      flat arrays.  The tables' and proxies' own `proxy_select` is not part
      of this model. */
  datatype Selected = Selected(
    iselection: seq<nat>,
    nSeq: Option<nat>,
    modelIndices: Option<seq<int>>,
    conformerIndices: Option<seq<int>>,
    nonbondedTypes: Option<seq<string>>)

  function Select(m: Manager, selection: Option<seq<bool>>, iselection: Option<seq<nat>>): (r: Result<Selected>)
    ensures r.Ok? ==> selection.Some? != iselection.Some?
    ensures r.Ok? ==> (r.value.nSeq.Some? <==> HasProxies(m))
    ensures r.Ok? && r.value.nSeq.Some? ==>
      var sizes := RecordedSizes(m, selection);
      |sizes| > 0 && forall k :: 0 <= k < |sizes| ==> sizes[k] == r.value.nSeq.value
    ensures HasProxies(m) && |set k | 0 <= k < |RecordedSizes(m, selection)| :: RecordedSizes(m, selection)[k]| != 1 ==> r.Err?
    ensures r.Ok? ==> r.value.iselection == SelectionIndices(selection, iselection)
    ensures r.Ok? ==> SelectedFrom(m.modelIndices, r.value.iselection, r.value.modelIndices)
                      && SelectedFrom(m.conformerIndices, r.value.iselection, r.value.conformerIndices)
                      && SelectedFrom(m.nonbondedTypes, r.value.iselection, r.value.nonbondedTypes)
    ensures selection.Some? != iselection.Some? ==>
      var isel := SelectionIndices(selection, iselection);
      OutOfRange(m.modelIndices, isel) || OutOfRange(m.conformerIndices, isel) || OutOfRange(m.nonbondedTypes, isel) ==> r.Err?
  {
    if selection.Some? == iselection.Some? then Err("exactly one of selection and iselection")
    else
      var isel := SelectionIndices(selection, iselection);
      var models :- SelectOptional(m.modelIndices, isel);
      var conformers :- SelectOptional(m.conformerIndices, isel);
      var types :- SelectOptional(m.nonbondedTypes, isel);
      if HasProxies(m) then
        var n :- NSeq(RecordedSizes(m, selection));
        Ok(Selected(isel, Some(n), models, conformers, types))
      else Ok(Selected(isel, None, models, conformers, types))
  }

  /** Every array of the manager has length `n`. */
  predicate AllSized(m: Manager, n: nat) {
    (m.modelIndices.Some? ==> |m.modelIndices.value| == n)
    && (m.conformerIndices.Some? ==> |m.conformerIndices.value| == n)
    && (m.siteSymmetry.Some? ==> |m.siteSymmetry.value| == n)
    && (m.bondParams.Some? ==> |m.bondParams.value| == n)
    && (m.shellTables.Some? && |m.shellTables.value| > 0 ==> m.shellTables.value[0].size == n)
    && (m.nonbondedTypes.Some? ==> |m.nonbondedTypes.value| == n)
  }

  /** A boolean selection over a manager whose arrays all have its length
      never meets the size mismatch: `n_seq` is that length. */
  lemma SelectionOfMatchingSize(m: Manager, selection: seq<bool>)
    requires AllSized(m, |selection|)
    ensures Select(m, Some(selection), None).Ok? && HasProxies(m) ==>
      Select(m, Some(selection), None).value.nSeq == Some(|selection|)
    ensures HasProxies(m) ==> NSeq(RecordedSizes(m, Some(selection))) == Ok(|selection|)
  {
    var sizes := RecordedSizes(m, Some(selection));
    assert sizes[0] == |selection|;
    PresentAllAre(OptionalSizes(m, Some(selection)), |selection|);
    assert (set k | 0 <= k < |sizes| :: sizes[k]) == {|selection|};
  }

  // ---------------------------------------------------------------------
  // `harmonic_restraints`

  /** The weight of every pair: one shared value, or the mean of the weights
      of the two sites' types. */
  datatype TypeWeights = Shared(weight: real) | PerType(typeIndices: seq<nat>, weights: seq<real>)

  /** The weight of pair (i, j); None where an index is out of range. */
  function PairWeight(w: TypeWeights, i: nat, j: nat): (r: Option<real>)
    ensures w.Shared? ==> r == Some(w.weight)
    ensures w.PerType? ==> (r.Some? <==>
      (i < |w.typeIndices| && j < |w.typeIndices|
       && w.typeIndices[i] < |w.weights| && w.typeIndices[j] < |w.weights|))
    ensures w.PerType? && r.Some? ==>
      r.value == (w.weights[w.typeIndices[i]] + w.weights[w.typeIndices[j]]) * 0.5
  {
    match w
    case Shared(x) => Some(x)
    case PerType(ti, tw) =>
      if i < |ti| && j < |ti| && ti[i] < |tw| && ti[j] < |tw| then Some((tw[ti[i]] + tw[ti[j]]) * 0.5)
      else None
  }

  /** A pair's weight does not depend on the order of its sites, and lies
      between the weights of the two sites' types. */
  lemma PairWeightSymmetric(w: TypeWeights, i: nat, j: nat)
    ensures PairWeight(w, i, j) == PairWeight(w, j, i)
    ensures w.PerType? && PairWeight(w, i, j).Some? ==>
      var a, b := w.weights[w.typeIndices[i]], w.weights[w.typeIndices[j]];
      (a <= b ==> a <= PairWeight(w, i, j).value <= b) && (b <= a ==> b <= PairWeight(w, i, j).value <= a)
  {
  }

  predicate WeightsNonNegative(w: TypeWeights) {
    match w
    case Shared(x) => x >= 0.0
    case PerType(_, tw) => forall k :: 0 <= k < |tw| ==> tw[k] >= 0.0
  }

  /** The pair can be evaluated: both sites have a variable and a weight. */
  predicate Evaluable(p: Pair, variables: seq<real>, w: TypeWeights) {
    p.i < |variables| && p.j < |variables| && PairWeight(w, p.i, p.j).Some?
  }

  /** w * delta * delta for one pair. */
  function PairResidual(p: Pair, variables: seq<real>, w: TypeWeights): real
    requires Evaluable(p, variables, w)
  {
    var delta := variables[p.i] - variables[p.j];
    (PairWeight(w, p.i, p.j).value * delta) * delta
  }

  /** 2 w delta, the gradient at site i (and minus it at site j). */
  function PairGradient(p: Pair, variables: seq<real>, w: TypeWeights): real
    requires Evaluable(p, variables, w)
  {
    var delta := variables[p.i] - variables[p.j];
    (PairWeight(w, p.i, p.j).value * delta) * 2.0
  }

  /** The residual over a list of pairs, accumulated in order. */
  function ResidualSum(pairs: seq<Pair>, variables: seq<real>, w: TypeWeights): real
    requires forall k :: 0 <= k < |pairs| ==> Evaluable(pairs[k], variables, w)
    decreases |pairs|
  {
    if |pairs| == 0 then 0.0
    else ResidualSum(pairs[..|pairs| - 1], variables, w) + PairResidual(pairs[|pairs| - 1], variables, w)
  }

  /** What pair `p` with gradient `g` adds at site `t`: `g` at its first
      site and `-g` at its second (both, cancelling, when they coincide). */
  function Share(p: Pair, g: real, t: nat): real {
    (if p.i == t then g else 0.0) + (if p.j == t then -g else 0.0)
  }

  /** The gradient at site `t`: the pairs' shares, accumulated in order. */
  function GradientAt(pairs: seq<Pair>, variables: seq<real>, w: TypeWeights, t: nat): real
    requires forall k :: 0 <= k < |pairs| ==> Evaluable(pairs[k], variables, w)
    decreases |pairs|
  {
    if |pairs| == 0 then 0.0
    else
      var p := pairs[|pairs| - 1];
      GradientAt(pairs[..|pairs| - 1], variables, w, t) + Share(p, PairGradient(p, variables, w), t)
  }

  /** `gradients[i] += g; gradients[j] -= g`, which keeps the total. */
  function AddPair(gradients: seq<real>, p: Pair, g: real): (r: seq<real>)
    requires p.i < |gradients| && p.j < |gradients|
    ensures |r| == |gradients|
    ensures forall t :: 0 <= t < |r| ==> r[t] == gradients[t] + Share(p, g, t)
    ensures Sum(r) == Sum(gradients)
  {
    SumUpdate(gradients, p.i, g);
    var once := gradients[p.i := gradients[p.i] + g];
    SumUpdate(once, p.j, -g);
    once[p.j := once[p.j] + -g]
  }

  /** `residual` and `gradients` hold what `pairs` contribute: the
      residual sum, and at every site the pairs' shares. */
  predicate Accumulated(residual: real, gradients: seq<real>, pairs: seq<Pair>, variables: seq<real>, w: TypeWeights)
    requires forall k :: 0 <= k < |pairs| ==> Evaluable(pairs[k], variables, w)
  {
    residual == ResidualSum(pairs, variables, w)
    && forall t :: 0 <= t < |gradients| ==> gradients[t] == GradientAt(pairs, variables, w, t)
  }

  /** Adding pair `k` adds its residual and its shares. */
  lemma HarmonicStep(residual: real, gradients: seq<real>, pairs: seq<Pair>, k: nat, variables: seq<real>, w: TypeWeights)
    requires k < |pairs| && |gradients| == |variables|
    requires forall l :: 0 <= l <= k ==> Evaluable(pairs[l], variables, w)
    requires Accumulated(residual, gradients, pairs[..k], variables, w)
    ensures Accumulated(residual + PairResidual(pairs[k], variables, w),
                        AddPair(gradients, pairs[k], PairGradient(pairs[k], variables, w)), pairs[..k + 1], variables, w)
  {
    assert pairs[..k + 1][..k] == pairs[..k];
  }

  datatype Harmonic = Harmonic(residualSum: real, gradients: seq<real>)

  /** `harmonic_restraints`: sums w * delta^2 over the pairs of the first
      shell table and adds 2 w delta at i and -2 w delta at j. */
  method HarmonicRestraints(m: Manager, variables: seq<real>, w: TypeWeights) returns (r: Result<Harmonic>)
    ensures r.Ok? ==>
      (m.shellTables.Some? && |m.shellTables.value| > 0
       && |variables| == m.shellTables.value[0].size)
    ensures r.Ok? ==> forall k :: 0 <= k < |m.shellTables.value[0].pairs| ==>
      Evaluable(m.shellTables.value[0].pairs[k], variables, w)
    ensures r.Ok? ==> r.value.residualSum == ResidualSum(m.shellTables.value[0].pairs, variables, w)
    ensures r.Ok? ==> |r.value.gradients| == |variables| && Sum(r.value.gradients) == 0.0
    ensures r.Ok? ==> forall t :: 0 <= t < |variables| ==>
      r.value.gradients[t] == GradientAt(m.shellTables.value[0].pairs, variables, w, t)
    ensures m.shellTables.Some? && |m.shellTables.value| > 0 && |variables| == m.shellTables.value[0].size
      && (forall k :: 0 <= k < |m.shellTables.value[0].pairs| ==> Evaluable(m.shellTables.value[0].pairs[k], variables, w))
      ==> r.Ok?
  {
    if m.shellTables.None? || |m.shellTables.value| == 0 {
      return Err("no shell_sym_tables");
    }
    var pairs := m.shellTables.value[0].pairs;
    if |variables| != m.shellTables.value[0].size {
      return Err("variables size mismatch");
    }
    var residual := 0.0;
    var gradients := seq(|variables|, _ => 0.0);
    ZeroSum(|variables|);
    var k := 0;
    while k < |pairs|
      invariant 0 <= k <= |pairs|
      invariant |gradients| == |variables| && Sum(gradients) == 0.0
      invariant forall l :: 0 <= l < k ==> Evaluable(pairs[l], variables, w)
      invariant Accumulated(residual, gradients, pairs[..k], variables, w)
    {
      var p := pairs[k];
      if !Evaluable(p, variables, w) {
        return Err("IndexError");
      }
      HarmonicStep(residual, gradients, pairs, k, variables, w);
      residual := residual + PairResidual(p, variables, w);
      gradients := AddPair(gradients, p, PairGradient(p, variables, w));
      k := k + 1;
    }
    assert pairs[..k] == pairs;
    return Ok(Harmonic(residual, gradients));
  }

  lemma {:induction false} ZeroSum(n: nat)
    ensures Sum(seq(n, _ => 0.0)) == 0.0
  {
    if n > 0 {
      assert seq(n, _ => 0.0)[..n - 1] == seq(n - 1, _ => 0.0);
      ZeroSum(n - 1);
    }
  }

  /** With non-negative type weights the harmonic residual is non-negative. */
  lemma {:induction false} ResidualNonNegative(pairs: seq<Pair>, variables: seq<real>, w: TypeWeights)
    requires forall k :: 0 <= k < |pairs| ==> Evaluable(pairs[k], variables, w)
    requires WeightsNonNegative(w)
    ensures ResidualSum(pairs, variables, w) >= 0.0
    decreases |pairs|
  {
    if |pairs| > 0 {
      var p := pairs[|pairs| - 1];
      ResidualNonNegative(pairs[..|pairs| - 1], variables, w);
      WeightedSquare(PairWeight(w, p.i, p.j).value, variables[p.i] - variables[p.j]);
    }
  }

  lemma WeightedSquare(weight: real, delta: real)
    requires weight >= 0.0
    ensures (weight * delta) * delta >= 0.0
  {
    assert (weight * delta) * delta == weight * (delta * delta);
  }
}

=== FILE: sdfac_binning.dfy ===
/** Per-reflection statistics, intensity binning and summed weights of the
    error model in xfel/merging/algorithms/error_model/sdfac_refine.py.

    Two shapes of the unmerged data occur there: the dictionary `ISIGI`
    (for each Miller index of the miller set, absent or a list of
    observations) and the reflection table, one row per observation with
    the position of its Miller index in `miller_id`.  The dictionary is
    modelled as one optional group per position of the miller set, the
    table as a sequence of `Reflection` rows. */
module SdfacBinning {
  import opened Common
  import opened SdfacRefine

  // ---------------------------------------------------------------------
  // Per-index sums over a reflection table

  /** Sum of `f` over the rows of `table` that belong to Miller index `id`. */
  function PerIndex(table: seq<Reflection>, id: nat, f: Reflection -> real): real
    decreases |table|
  {
    if |table| == 0 then 0.0
    else
      var last := table[|table| - 1];
      PerIndex(table[..|table| - 1], id, f) + (if last.millerId == id then f(last) else 0.0)
  }

  function Intensity(row: Reflection): real {
    row.intensity
  }

  function One(row: Reflection): real {
    1.0
  }

  /** Sum of the scaled intensities observed for `id` (`sumI`). */
  function SumFor(table: seq<Reflection>, id: nat): real {
    PerIndex(table, id, Intensity)
  }

  /** Number of observations of `id` (`n_refl`, a float array in the source). */
  function CountFor(table: seq<Reflection>, id: nat): real {
    PerIndex(table, id, One)
  }

  lemma {:induction false} PerIndexAppend(a: seq<Reflection>, b: seq<Reflection>, id: nat, f: Reflection -> real)
    ensures PerIndex(a + b, id, f) == PerIndex(a, id, f) + PerIndex(b, id, f)
    decreases |b|
  {
    if |b| == 0 {
      assert a + b == a;
    } else {
      assert (a + b)[..|a + b| - 1] == a + b[..|b| - 1];
      PerIndexAppend(a, b[..|b| - 1], id, f);
    }
  }

  /** An index no row belongs to sums to nothing. */
  lemma {:induction false} PerIndexAbsent(table: seq<Reflection>, id: nat, f: Reflection -> real)
    requires forall k :: 0 <= k < |table| ==> table[k].millerId != id
    ensures PerIndex(table, id, f) == 0.0
    decreases |table|
  {
    if |table| > 0 {
      PerIndexAbsent(table[..|table| - 1], id, f);
    }
  }

  lemma {:induction false} CountNonNegative(table: seq<Reflection>, id: nat)
    ensures CountFor(table, id) >= 0.0
    decreases |table|
  {
    if |table| > 0 {
      CountNonNegative(table[..|table| - 1], id);
    }
  }

  /** Every row's own index has at least one observation: the source's
      `assert n_refl[hkl_id] > 0` never fails. */
  lemma {:induction false} CountOfOwnIndex(table: seq<Reflection>, i: nat)
    requires i < |table|
    ensures CountFor(table, table[i].millerId) >= 1.0
    decreases |table|
  {
    var p := table[..|table| - 1];
    if i == |table| - 1 {
      CountNonNegative(p, table[i].millerId);
    } else {
      assert p[i] == table[i];
      CountOfOwnIndex(p, i);
    }
  }

  /** When `i` is the only observation of its index, the index's sum is
      that observation's intensity. */
  lemma {:induction false} SumOfSingleObservation(table: seq<Reflection>, i: nat)
    requires i < |table|
    requires CountFor(table, table[i].millerId) == 1.0
    ensures SumFor(table, table[i].millerId) == table[i].intensity
    decreases |table|
  {
    var id := table[i].millerId;
    var p := table[..|table| - 1];
    if i == |table| - 1 {
      CountNonNegative(p, id);
      OnlyRowsCount(p, id);
    } else {
      assert p[i] == table[i];
      CountOfOwnIndex(p, i);
      CountNonNegative(p, id);
      SumOfSingleObservation(p, i);
    }
  }

  /** An index with no observations has a zero intensity sum. */
  lemma {:induction false} OnlyRowsCount(table: seq<Reflection>, id: nat)
    requires CountFor(table, id) == 0.0
    ensures SumFor(table, id) == 0.0
    decreases |table|
  {
    if |table| > 0 {
      var p := table[..|table| - 1];
      CountNonNegative(p, id);
      OnlyRowsCount(p, id);
    }
  }

  // ---------------------------------------------------------------------
  // `setup_isigi_stats`

  /** The columns `setup_isigi_stats` adds to one row. */
  datatype IsigiStats = IsigiStats(mean: real, nRefl: real, nn: real, meanPrime: real)

  /** What the statistics of row `i` mean: `n` observations of its index,
      whose intensities add up to `n` times the mean; `nn` is (n-1)/n; the
      leave-one-out mean of the other n-1 observations, or 0 for a single
      observation. */
  predicate StatsAgree(s: IsigiStats, table: seq<Reflection>, i: nat)
    requires i < |table|
  {
    var n := CountFor(table, table[i].millerId);
    var total := SumFor(table, table[i].millerId);
    n >= 1.0 && s.nRefl == n && s.mean * n == total && s.nn == (n - 1.0) / n
    && (if n > 1.0 then s.meanPrime * (n - 1.0) == total - table[i].intensity else s.meanPrime == 0.0)
  }

  /** `setup_isigi_stats`: one pass accumulates per-index sums and counts
      into arrays of the miller set's length, a second derives each row's
      statistics.  A `miller_id` outside the miller set is an IndexError. */
  method SetupIsigiStats(table: seq<Reflection>, nIndices: nat) returns (r: Result<seq<IsigiStats>>)
    ensures r.Err? <==> exists i :: 0 <= i < |table| && table[i].millerId >= nIndices
    ensures r.Ok? ==> |r.value| == |table|
    ensures r.Ok? ==> forall i :: 0 <= i < |table| ==> StatsAgree(r.value[i], table, i)
  {
    var sums := seq(nIndices, _ => 0.0);
    var counts := seq(nIndices, _ => 0.0);
    var i := 0;
    while i < |table|
      invariant 0 <= i <= |table|
      invariant |sums| == nIndices && |counts| == nIndices
      invariant forall k :: 0 <= k < i ==> table[k].millerId < nIndices
      invariant forall id :: 0 <= id < nIndices ==> sums[id] == SumFor(table[..i], id)
      invariant forall id :: 0 <= id < nIndices ==> counts[id] == CountFor(table[..i], id)
    {
      var id := table[i].millerId;
      if id >= nIndices {
        return Err("IndexError: miller_id outside the miller set");
      }
      assert table[..i + 1][..i] == table[..i];
      sums := sums[id := sums[id] + table[i].intensity];
      counts := counts[id := counts[id] + 1.0];
      i := i + 1;
    }
    assert table[..i] == table;
    var stats := [];
    i := 0;
    while i < |table|
      invariant 0 <= i <= |table|
      invariant |stats| == i
      invariant forall k :: 0 <= k < i ==> StatsAgree(stats[k], table, k)
    {
      var id := table[i].millerId;
      var n := counts[id];
      CountOfOwnIndex(table, i);
      var prime := if n > 1.0 then (sums[id] - table[i].intensity) / (n - 1.0) else 0.0;
      stats := stats + [IsigiStats(sums[id] / n, n, (n - 1.0) / n, prime)];
      i := i + 1;
    }
    return Ok(stats);
  }

  /** The mean over all observations of an index is the leave-one-out mean
      of the others plus this one's share; a single observation is its own
      mean. */
  lemma LeaveOneOut(s: IsigiStats, table: seq<Reflection>, i: nat)
    requires i < |table| && StatsAgree(s, table, i)
    ensures s.nRefl > 1.0 ==> s.mean * s.nRefl == s.meanPrime * (s.nRefl - 1.0) + table[i].intensity
    ensures s.nRefl == 1.0 ==> s.mean == table[i].intensity && s.nn == 0.0 && s.meanPrime == 0.0
  {
    if s.nRefl == 1.0 {
      SumOfSingleObservation(table, i);
    }
  }

  // ---------------------------------------------------------------------
  // Equal-width intensity bins

  /** How a bin's edges are treated: the dictionary variant selects means
      strictly between the edges; the reflection-table variant includes the
      lower edge and leaves the last bin unbounded above. */
  datatype Rule = Strict | HalfOpen

  /** Lower edge of bin `i`. */
  function Edge(lo: real, step: real, i: nat): real {
    lo + step * (i as real)
  }

  predicate InBin(rule: Rule, v: real, lo: real, step: real, nBins: nat, i: nat) {
    match rule
    case Strict => Edge(lo, step, i) < v < Edge(lo, step, i + 1)
    case HalfOpen => Edge(lo, step, i) <= v && (i + 1 == nBins || v < Edge(lo, step, i + 1))
  }

  lemma EdgeMonotone(lo: real, step: real, i: nat, j: nat)
    requires step >= 0.0 && i <= j
    ensures Edge(lo, step, i) <= Edge(lo, step, j)
  {
    assert step * (j as real) - step * (i as real) == step * ((j - i) as real);
  }

  /** The bin's selection flags, one per observation. */
  function Selection(values: seq<real>, rule: Rule, lo: real, step: real, nBins: nat, i: nat): (r: seq<bool>)
    ensures |r| == |values|
    ensures forall k :: 0 <= k < |values| ==> (r[k] <==> InBin(rule, values[k], lo, step, nBins, i))
  {
    seq(|values|, k requires 0 <= k < |values| => InBin(rule, values[k], lo, step, nBins, i))
  }

  predicate AnySelected(sel: seq<bool>) {
    exists k :: 0 <= k < |sel| && sel[k]
  }

  /** A kept bin: its number among the `n_bins` candidates, its selection
      and its reported midpoint intensity. */
  datatype Bin = Bin(index: nat, selection: seq<bool>, midpoint: real)

  /** Each bin in `r` is a non-empty candidate from `i` on, selected by the
      rule, with the midpoint of its edges; numbers increase along `r`. */
  predicate KeptBins(r: seq<Bin>, values: seq<real>, rule: Rule, lo: real, step: real, nBins: nat, i: nat) {
    (forall j :: 0 <= j < |r| ==>
      i <= r[j].index < nBins
      && r[j].selection == Selection(values, rule, lo, step, nBins, r[j].index)
      && AnySelected(r[j].selection)
      && r[j].midpoint == Edge(lo, step, r[j].index) + step / 2.0)
    && (forall j, j' :: 0 <= j < j' < |r| ==> r[j].index < r[j'].index)
  }

  /** Every non-empty candidate from `i` on is in `r`. */
  predicate NoneDropped(r: seq<Bin>, values: seq<real>, rule: Rule, lo: real, step: real, nBins: nat, i: nat) {
    forall b :: i <= b < nBins && AnySelected(Selection(values, rule, lo, step, nBins, b)) ==>
      exists j :: 0 <= j < |r| && r[j].index == b
  }

  /** Candidate bins `i` .. `nBins - 1`, empty ones dropped (`if
      sel.all_eq(False): continue`). */
  function BinsFrom(values: seq<real>, rule: Rule, lo: real, step: real, nBins: nat, i: nat): seq<Bin>
    requires i <= nBins
    decreases nBins - i
  {
    if i == nBins then []
    else
      var sel := Selection(values, rule, lo, step, nBins, i);
      var rest := BinsFrom(values, rule, lo, step, nBins, i + 1);
      if AnySelected(sel) then [Bin(i, sel, (step / 2.0 + step * (i as real)) + lo)] + rest else rest
  }

  /** The common width of `nBins` bins spanning the values. */
  function Width(values: seq<real>, nBins: nat): real
    requires |values| > 0 && nBins > 0
  {
    (MaxOf(values) - MinOf(values)) / (nBins as real)
  }

  /** Arrays with the same extremes have the same bin width. */
  lemma SameWidth(a: seq<real>, b: seq<real>, nBins: nat)
    requires |a| > 0 && |b| > 0 && nBins > 0
    requires MinOf(a) == MinOf(b) && MaxOf(a) == MaxOf(b)
    ensures Width(a, nBins) == Width(b, nBins)
  {
  }

  lemma Midpoint(lo: real, step: real, i: nat)
    ensures (step / 2.0 + step * (i as real)) + lo == Edge(lo, step, i) + step / 2.0
  {
  }

  /** The kept bins are the non-empty candidates, in increasing order, each
      reporting the midpoint of its edges. */
  lemma {:induction false} BinsFromKept(values: seq<real>, rule: Rule, lo: real, step: real, nBins: nat, i: nat)
    requires i <= nBins
    ensures KeptBins(BinsFrom(values, rule, lo, step, nBins, i), values, rule, lo, step, nBins, i)
    decreases nBins - i
  {
    if i < nBins {
      var sel := Selection(values, rule, lo, step, nBins, i);
      var rest := BinsFrom(values, rule, lo, step, nBins, i + 1);
      BinsFromKept(values, rule, lo, step, nBins, i + 1);
      KeptFromLater(rest, values, rule, lo, step, nBins, i);
      if AnySelected(sel) {
        Midpoint(lo, step, i);
        KeptCons(Bin(i, sel, (step / 2.0 + step * (i as real)) + lo), rest, values, rule, lo, step, nBins, i);
      }
    }
  }

  lemma KeptFromLater(r: seq<Bin>, values: seq<real>, rule: Rule, lo: real, step: real, nBins: nat, i: nat)
    requires KeptBins(r, values, rule, lo, step, nBins, i + 1)
    ensures KeptBins(r, values, rule, lo, step, nBins, i)
  {
  }

  /** A non-empty candidate `i` in front of bins kept from `i + 1` on. */
  lemma KeptCons(b: Bin, r: seq<Bin>, values: seq<real>, rule: Rule, lo: real, step: real, nBins: nat, i: nat)
    requires KeptBins(r, values, rule, lo, step, nBins, i + 1)
    requires b.index == i < nBins && b.selection == Selection(values, rule, lo, step, nBins, i)
    requires AnySelected(b.selection) && b.midpoint == Edge(lo, step, i) + step / 2.0
    ensures KeptBins([b] + r, values, rule, lo, step, nBins, i)
  {
    var r' := [b] + r;
    forall j | 0 < j < |r'|
      ensures r'[j] == r[j - 1]
    {
    }
  }

  /** No non-empty candidate is dropped. */
  lemma {:induction false} BinsFromComplete(values: seq<real>, rule: Rule, lo: real, step: real, nBins: nat, i: nat)
    requires i <= nBins
    ensures NoneDropped(BinsFrom(values, rule, lo, step, nBins, i), values, rule, lo, step, nBins, i)
    decreases nBins - i
  {
    if i < nBins {
      var r := BinsFrom(values, rule, lo, step, nBins, i);
      var rest := BinsFrom(values, rule, lo, step, nBins, i + 1);
      BinsFromComplete(values, rule, lo, step, nBins, i + 1);
      forall b | i <= b < nBins && AnySelected(Selection(values, rule, lo, step, nBins, b))
        ensures exists j :: 0 <= j < |r| && r[j].index == b
      {
        if b == i {
          assert r[0].index == b;
        } else {
          var j :| 0 <= j < |rest| && rest[j].index == b;
          if AnySelected(Selection(values, rule, lo, step, nBins, i)) {
            assert r[j + 1].index == b;
          } else {
            assert r[j].index == b;
          }
        }
      }
    }
  }

  /** Bins of equal width between the smallest and largest value, starting
      at the smallest.  `flex.min` of an empty array raises, and so does
      the division by a zero bin count. */
  function BinnedIntensities(values: seq<real>, rule: Rule, nBins: nat): (r: Result<seq<Bin>>)
    ensures r.Err? <==> |values| == 0 || nBins == 0
    ensures r.Ok? ==> KeptBins(r.value, values, rule, MinOf(values), Width(values, nBins), nBins, 0)
    ensures r.Ok? ==> NoneDropped(r.value, values, rule, MinOf(values), Width(values, nBins), nBins, 0)
  {
    if |values| == 0 then Err("min of an empty array")
    else if nBins == 0 then Err("ZeroDivisionError")
    else
      var lo := MinOf(values);
      var step := Width(values, nBins);
      BinsFromKept(values, rule, lo, step, nBins, 0);
      BinsFromComplete(values, rule, lo, step, nBins, 0);
      Ok(BinsFrom(values, rule, lo, step, nBins, 0))
  }

  /** The last candidate bin whose lower edge does not exceed `v`. */
  function LastEdgeBelow(v: real, lo: real, step: real, b: nat): (r: nat)
    requires lo <= v
    ensures r <= b && Edge(lo, step, r) <= v
    ensures r < b ==> v < Edge(lo, step, r + 1)
  {
    if b == 0 then assert Edge(lo, step, 0) == lo; 0
    else if Edge(lo, step, b) <= v then b
    else LastEdgeBelow(v, lo, step, b - 1)
  }

  /** Half-open bins cover every value from the lower edge on, one bin each. */
  lemma HalfOpenUnique(v: real, lo: real, step: real, nBins: nat, i: nat, j: nat)
    requires step >= 0.0 && i < nBins && j < nBins
    requires InBin(HalfOpen, v, lo, step, nBins, i) && InBin(HalfOpen, v, lo, step, nBins, j)
    ensures i == j
  {
    if i < j {
      EdgeMonotone(lo, step, i + 1, j);
    } else if j < i {
      EdgeMonotone(lo, step, j + 1, i);
    }
  }

  lemma StrictUnique(v: real, lo: real, step: real, nBins: nat, i: nat, j: nat)
    requires step >= 0.0
    requires InBin(Strict, v, lo, step, nBins, i) && InBin(Strict, v, lo, step, nBins, j)
    ensures i == j
  {
    if i < j {
      EdgeMonotone(lo, step, i + 1, j);
    } else if j < i {
      EdgeMonotone(lo, step, j + 1, i);
    }
  }

  /** A value sitting exactly on an edge is in no strict bin. */
  lemma EdgeInNoStrictBin(lo: real, step: real, nBins: nat, m: nat, i: nat)
    requires step >= 0.0
    ensures !InBin(Strict, Edge(lo, step, m), lo, step, nBins, i)
  {
    if m <= i {
      EdgeMonotone(lo, step, m, i);
    } else {
      EdgeMonotone(lo, step, i + 1, m);
    }
  }

  /** Exactly one of `bins` selects observation `k`. */
  predicate SelectedOnce(bins: seq<Bin>, k: nat) {
    exists j :: 0 <= j < |bins| && k < |bins[j].selection| && bins[j].selection[k]
      && forall j' :: 0 <= j' < |bins| && k < |bins[j'].selection| && bins[j'].selection[k] ==> j' == j
  }

  /** At most one of `bins` selects observation `k`. */
  predicate SelectedAtMostOnce(bins: seq<Bin>, k: nat) {
    forall j, j' :: (0 <= j < |bins| && 0 <= j' < |bins| && k < |bins[j].selection| && k < |bins[j'].selection|
      && bins[j].selection[k] && bins[j'].selection[k]) ==> j == j'
  }

  /** `v` sits exactly on one of the edges `lo + step * m`. */
  ghost predicate OnSomeEdge(v: real, lo: real, step: real) {
    exists m: nat :: v == Edge(lo, step, m)
  }

  lemma StepNonNegative(values: seq<real>, nBins: nat)
    requires |values| > 0 && nBins > 0
    ensures Width(values, nBins) >= 0.0
  {
    assert MinOf(values) <= values[0] <= MaxOf(values);
  }

  /** Reflection-table binning: every observation lies in exactly one of the
      returned bins. */
  lemma HalfOpenExactlyOne(values: seq<real>, nBins: nat)
    requires BinnedIntensities(values, HalfOpen, nBins).Ok?
    ensures forall k :: 0 <= k < |values| ==> SelectedOnce(BinnedIntensities(values, HalfOpen, nBins).value, k)
  {
    var bins := BinnedIntensities(values, HalfOpen, nBins).value;
    var lo := MinOf(values);
    var step := Width(values, nBins);
    StepNonNegative(values, nBins);
    forall k | 0 <= k < |values|
      ensures SelectedOnce(bins, k)
    {
      var b := LastEdgeBelow(values[k], lo, step, nBins - 1);
      assert Selection(values, HalfOpen, lo, step, nBins, b)[k];
      var j :| 0 <= j < |bins| && bins[j].index == b;
      forall j' | 0 <= j' < |bins| && k < |bins[j'].selection| && bins[j'].selection[k]
        ensures j' == j
      {
        HalfOpenUnique(values[k], lo, step, nBins, bins[j'].index, b);
      }
    }
  }

  /** Strict bins never overlap, and leave out values on an edge. */
  lemma StrictKeptBins(bins: seq<Bin>, values: seq<real>, lo: real, step: real, nBins: nat)
    requires step >= 0.0 && KeptBins(bins, values, Strict, lo, step, nBins, 0)
    ensures forall k :: 0 <= k < |values| ==> SelectedAtMostOnce(bins, k)
    ensures forall k :: (0 <= k < |values| && OnSomeEdge(values[k], lo, step)) ==>
      forall j :: 0 <= j < |bins| ==> !bins[j].selection[k]
  {
    forall k, j, j' | 0 <= k < |values| && 0 <= j < |bins| && 0 <= j' < |bins|
      && bins[j].selection[k] && bins[j'].selection[k]
      ensures j == j'
    {
      StrictUnique(values[k], lo, step, nBins, bins[j].index, bins[j'].index);
    }
    forall k, j | 0 <= k < |values| && OnSomeEdge(values[k], lo, step) && 0 <= j < |bins|
      ensures !bins[j].selection[k]
    {
      var m: nat :| values[k] == Edge(lo, step, m);
      EdgeInNoStrictBin(lo, step, nBins, m, bins[j].index);
    }
  }

  /** Dictionary binning: an observation lies in at most one returned bin,
      and one whose value is on a bin edge in none. */
  lemma StrictAtMostOne(values: seq<real>, nBins: nat)
    requires BinnedIntensities(values, Strict, nBins).Ok?
    ensures forall k :: 0 <= k < |values| ==> SelectedAtMostOnce(BinnedIntensities(values, Strict, nBins).value, k)
    ensures forall k :: (0 <= k < |values|
      && OnSomeEdge(values[k], MinOf(values), Width(values, nBins))) ==>
      forall j :: 0 <= j < |BinnedIntensities(values, Strict, nBins).value| ==>
        !BinnedIntensities(values, Strict, nBins).value[j].selection[k]
  {
    StepNonNegative(values, nBins);
    StrictKeptBins(BinnedIntensities(values, Strict, nBins).value, values, MinOf(values),
      Width(values, nBins), nBins);
  }

  /** The smallest value is the first edge, so the strict rule never bins it. */
  lemma StrictSkipsMinimum(values: seq<real>, nBins: nat, k: nat)
    requires BinnedIntensities(values, Strict, nBins).Ok?
    requires k < |values| && values[k] == MinOf(values)
    ensures forall j :: 0 <= j < |BinnedIntensities(values, Strict, nBins).value| ==>
      !BinnedIntensities(values, Strict, nBins).value[j].selection[k]
  {
    StrictAtMostOne(values, nBins);
    assert values[k] == Edge(MinOf(values), Width(values, nBins), 0);
    assert OnSomeEdge(values[k], MinOf(values), Width(values, nBins));
  }
  // ---------------------------------------------------------------------
  // The dictionary `ISIGI` and its conversion to a reflection table

  /** One observation in the dictionary: scaled intensity and I/sigma(I). */
  datatype Observation = Observation(intensity: real, isigi: real)

  /** The rows of the `id`-th Miller index's observations, in list order. */
  function Rows(id: nat, obs: seq<Observation>): (r: seq<Reflection>)
    ensures |r| == |obs|
    ensures forall k :: 0 <= k < |r| ==> r[k] == Reflection(id, obs[k].intensity, obs[k].isigi)
  {
    seq(|obs|, k requires 0 <= k < |obs| => Reflection(id, obs[k].intensity, obs[k].isigi))
  }

  /** `sdfac_refine_refltable.__init__` on a dictionary: one row per
      observation, Miller indices in miller-set order, absent ones skipped. */
  function TableOf(groups: seq<Option<seq<Observation>>>): (r: seq<Reflection>)
    ensures forall k :: 0 <= k < |r| ==> r[k].millerId < |groups|
  {
    if |groups| == 0 then []
    else
      var rest := TableOf(groups[..|groups| - 1]);
      match groups[|groups| - 1]
      case None => rest
      case Some(obs) => rest + Rows(|groups| - 1, obs)
  }

  /** Summing per index over the flattened table reads exactly the
      index's own group. */
  lemma {:induction false} TableOfPerIndex(groups: seq<Option<seq<Observation>>>, id: nat, f: Reflection -> real)
    requires id < |groups|
    ensures PerIndex(TableOf(groups), id, f) ==
      (if groups[id].Some? then PerIndex(Rows(id, groups[id].value), id, f) else 0.0)
    decreases |groups|
  {
    var p := groups[..|groups| - 1];
    var last := |groups| - 1;
    if id == last {
      PerIndexAbsent(TableOf(p), id, f);
      if groups[last].Some? {
        PerIndexAppend(TableOf(p), Rows(last, groups[last].value), id, f);
      }
    } else {
      TableOfPerIndex(p, id, f);
      assert p[id] == groups[id];
      if groups[last].Some? {
        PerIndexAppend(TableOf(p), Rows(last, groups[last].value), id, f);
        PerIndexAbsent(Rows(last, groups[last].value), id, f);
      }
    }
  }

  // ---------------------------------------------------------------------
  // Dictionary binning (`sdfac_refine.get_binned_intensities`)

  function Intensities(obs: seq<Observation>): (r: seq<real>)
    ensures |r| == |obs|
    ensures forall k :: 0 <= k < |obs| ==> r[k] == obs[k].intensity
  {
    seq(|obs|, k requires 0 <= k < |obs| => obs[k].intensity)
  }

  /** One mean per present Miller index (`only_means`) and, per observation,
      the mean of its index (`all_mean_Is`).  `flex.mean` of an empty list
      raises. */
  datatype Means = Means(only: seq<real>, all: seq<real>)

  /** The Miller-set positions of the indices the dictionary holds, in
      increasing order. */
  function PresentIds(groups: seq<Option<seq<Observation>>>): (r: seq<nat>)
    ensures forall k :: 0 <= k < |r| ==> r[k] < |groups| && groups[r[k]].Some?
    ensures forall id :: 0 <= id < |groups| && groups[id].Some? ==> id in r
    ensures forall k, k' :: 0 <= k < k' < |r| ==> r[k] < r[k']
  {
    if |groups| == 0 then []
    else
      var rest := PresentIds(groups[..|groups| - 1]);
      if groups[|groups| - 1].Some? then rest + [|groups| - 1] else rest
  }

  function GroupMeans(groups: seq<Option<seq<Observation>>>): (r: Result<Means>)
    ensures r.Err? <==> exists id :: 0 <= id < |groups| && groups[id] == Some([])
    ensures r.Ok? ==> |r.value.all| == |TableOf(groups)|
    ensures r.Ok? ==> ((forall x :: x in r.value.all ==> x in r.value.only)
      && (forall x :: x in r.value.only ==> x in r.value.all))
    decreases |groups|
  {
    if |groups| == 0 then Ok(Means([], []))
    else
      var p := groups[..|groups| - 1];
      assert forall id :: 0 <= id < |p| ==> p[id] == groups[id];
      var m :- GroupMeans(p);
      match groups[|groups| - 1]
      case None => Ok(m)
      case Some(obs) =>
        if |obs| == 0 then Err("mean of an empty array")
        else
          var mean := Mean(Intensities(obs));
          var repeated := seq(|obs|, _ => mean);
          assert repeated[0] == mean;
          Ok(Means(m.only + [mean], m.all + repeated))
  }

  /** `only` holds, for each index the dictionary holds, in miller-set
      order, the mean of its observations' intensities. */
  predicate MeansOfPresent(groups: seq<Option<seq<Observation>>>, only: seq<real>) {
    |only| == |PresentIds(groups)|
    && forall k :: 0 <= k < |only| ==>
         var obs := groups[PresentIds(groups)[k]].value;
         |obs| > 0 && only[k] == Mean(Intensities(obs))
  }

  /** `all` holds, for each row of the table, the mean of the intensities
      of the row's Miller index. */
  predicate MeansPerRow(groups: seq<Option<seq<Observation>>>, all: seq<real>) {
    |all| == |TableOf(groups)|
    && forall i :: 0 <= i < |all| ==>
         var obs := groups[TableOf(groups)[i].millerId];
         obs.Some? && |obs.value| > 0 && all[i] == Mean(Intensities(obs.value))
  }

  /** `meanI` is `flex.mean` of each index's intensities: `only_means`
      holds one per present index and `all_mean_Is` one per observation,
      the mean of that observation's index. */
  lemma {:induction false} GroupMeansAreMeans(groups: seq<Option<seq<Observation>>>)
    requires GroupMeans(groups).Ok?
    ensures MeansOfPresent(groups, GroupMeans(groups).value.only)
    ensures MeansPerRow(groups, GroupMeans(groups).value.all)
    decreases |groups|
  {
    if |groups| > 0 {
      var p := groups[..|groups| - 1];
      assert forall id :: 0 <= id < |p| ==> p[id] == groups[id];
      var m := GroupMeans(p).value;
      GroupMeansAreMeans(p);
      match groups[|groups| - 1]
      case None =>
        MeansKeptWithoutLast(groups, m.only, m.all);
      case Some(obs) =>
        MeansOfPresentStep(groups, m.only, Mean(Intensities(obs)));
        MeansPerRowStep(groups, m.all, Mean(Intensities(obs)));
    }
  }

  lemma MeansKeptWithoutLast(groups: seq<Option<seq<Observation>>>, only: seq<real>, all: seq<real>)
    requires |groups| > 0 && groups[|groups| - 1].None?
    requires MeansOfPresent(groups[..|groups| - 1], only) && MeansPerRow(groups[..|groups| - 1], all)
    ensures MeansOfPresent(groups, only) && MeansPerRow(groups, all)
  {
    var p := groups[..|groups| - 1];
    assert forall id :: 0 <= id < |p| ==> p[id] == groups[id];
  }

  lemma MeansOfPresentStep(groups: seq<Option<seq<Observation>>>, only: seq<real>, mean: real)
    requires |groups| > 0 && groups[|groups| - 1].Some? && |groups[|groups| - 1].value| > 0
    requires mean == Mean(Intensities(groups[|groups| - 1].value))
    requires MeansOfPresent(groups[..|groups| - 1], only)
    ensures MeansOfPresent(groups, only + [mean])
  {
    var p := groups[..|groups| - 1];
    assert forall id :: 0 <= id < |p| ==> p[id] == groups[id];
    assert PresentIds(groups) == PresentIds(p) + [|p|];
  }

  lemma MeansPerRowStep(groups: seq<Option<seq<Observation>>>, all: seq<real>, mean: real)
    requires |groups| > 0 && groups[|groups| - 1].Some? && |groups[|groups| - 1].value| > 0
    requires mean == Mean(Intensities(groups[|groups| - 1].value))
    requires MeansPerRow(groups[..|groups| - 1], all)
    ensures MeansPerRow(groups, all + seq(|groups[|groups| - 1].value|, _ => mean))
  {
    var p := groups[..|groups| - 1];
    var obs := groups[|groups| - 1].value;
    assert forall id :: 0 <= id < |p| ==> p[id] == groups[id];
    assert TableOf(groups) == TableOf(p) + Rows(|p|, obs);
  }

  /** `sdfac_refine.get_binned_intensities`: strict bins over the
      per-observation means.  The bin width comes from the largest and
      smallest per-index means; `flex.max` of no means raises. */
  function DictBinnedIntensities(groups: seq<Option<seq<Observation>>>, nBins: nat): (r: Result<seq<Bin>>)
    ensures r.Ok? ==> nBins > 0 && |TableOf(groups)| > 0
    ensures r.Ok? ==> forall j :: 0 <= j < |r.value| ==>
      r.value[j].index < nBins && |r.value[j].selection| == |TableOf(groups)| && AnySelected(r.value[j].selection)
    ensures r.Ok? ==> forall j, j' :: 0 <= j < j' < |r.value| ==> r.value[j].index < r.value[j'].index
  {
    var m :- GroupMeans(groups);
    if |m.only| == 0 then Err("max of an empty array")
    else if nBins == 0 then Err("ZeroDivisionError")
    else
      assert m.only[0] in m.all;
      var step := Width(m.only, nBins);
      var lo := MinOf(m.all);
      BinsFromKept(m.all, Strict, lo, step, nBins, 0);
      Ok(BinsFrom(m.all, Strict, lo, step, nBins, 0))
  }

  /** Per-index and per-observation means hold the same values, so they
      share their extremes. */
  lemma MeansShareExtremes(m: Means)
    requires |m.only| > 0
    requires forall x :: x in m.all ==> x in m.only
    requires forall x :: x in m.only ==> x in m.all
    ensures |m.all| > 0 && MinOf(m.all) == MinOf(m.only) && MaxOf(m.all) == MaxOf(m.only)
  {
    var x := m.only[0];
    assert x in m.only;
    assert |m.all| > 0;
    MinOfSameValues(m.all, m.only);
    MaxOfSameValues(m.all, m.only);
  }

  /** The dictionary variant fails exactly on an empty observation list, on
      an empty dictionary and on a zero bin count. */
  lemma DictBinsFail(groups: seq<Option<seq<Observation>>>, nBins: nat)
    ensures DictBinnedIntensities(groups, nBins).Err? <==>
      (exists id :: 0 <= id < |groups| && groups[id] == Some([])) || |TableOf(groups)| == 0 || nBins == 0
  {
    var g := GroupMeans(groups);
    if g.Ok? {
      var m := g.value;
      if |m.only| > 0 {
        MeansShareExtremes(m);
      }
    }
  }

  /** Otherwise it is strict binning of the per-observation means, whose
      lowest edge and reported midpoints start from the smallest per-index
      mean. */
  lemma DictBinsAreStrict(groups: seq<Option<seq<Observation>>>, nBins: nat)
    requires DictBinnedIntensities(groups, nBins).Ok?
    ensures DictBinnedIntensities(groups, nBins) == BinnedIntensities(GroupMeans(groups).value.all, Strict, nBins)
    ensures MinOf(GroupMeans(groups).value.all) == MinOf(GroupMeans(groups).value.only)
  {
    var m := GroupMeans(groups).value;
    assert |m.only| > 0 && nBins > 0;
    MeansShareExtremes(m);
    SameWidth(m.only, m.all, nBins);
    var bins := BinsFrom(m.all, Strict, MinOf(m.all), Width(m.all, nBins), nBins, 0);
    assert DictBinnedIntensities(groups, nBins) == Ok(bins);
    assert BinnedIntensities(m.all, Strict, nBins) == Ok(bins);
  }

  // ---------------------------------------------------------------------
  // Reflection-table binning (`sdfac_refine_refltable.get_binned_intensities`)

  /** `setup_isigi_stats` followed by half-open binning of the per-row means:
      every observation then lies in exactly one returned bin. */
  method TableBinnedIntensities(table: seq<Reflection>, nIndices: nat, nBins: nat) returns (r: Result<seq<Bin>>)
    ensures r.Err? <==>
      (exists i :: 0 <= i < |table| && table[i].millerId >= nIndices) || |table| == 0 || nBins == 0
    ensures r.Ok? ==> forall k :: 0 <= k < |table| ==> SelectedOnce(r.value, k)
    ensures r.Ok? ==> forall j :: 0 <= j < |r.value| ==> (|r.value[j].selection| == |table|
      && AnySelected(r.value[j].selection))
  {
    var stats := SetupIsigiStats(table, nIndices);
    if stats.Err? {
      return Err(stats.message);
    }
    var means := seq(|table|, k requires 0 <= k < |table| => stats.value[k].mean);
    r := BinnedIntensities(means, HalfOpen, nBins);
    if r.Ok? {
      HalfOpenExactlyOne(means, nBins);
    }
  }

  // ---------------------------------------------------------------------
  // Summed weights (`adjust_errors`)

  /** The corrected sigma is I / (I/sigma); both divisions raise
      ZeroDivisionError on a zero intensity or I/sigma. */
  predicate Weighable(intensity: real, isigi: real) {
    intensity != 0.0 && isigi != 0.0
  }

  /** 1/variance of an observation: `1 / variance` with
      `variance = (I / isigi)^2`; zero where the source raises. */
  function InverseVariance(intensity: real, isigi: real): real {
    if Weighable(intensity, isigi) then
      var sigma := intensity / isigi;
      1.0 / (sigma * sigma)
    else 0.0
  }

  /** `Intensity / variance`; zero where the source raises. */
  function WeightedIntensity(intensity: real, isigi: real): real {
    if Weighable(intensity, isigi) then
      var sigma := intensity / isigi;
      intensity / (sigma * sigma)
    else 0.0
  }

  /** Each observation's weight is positive, and its weighted intensity is
      its intensity times its weight. */
  lemma WeightOfObservation(intensity: real, isigi: real)
    requires Weighable(intensity, isigi)
    ensures InverseVariance(intensity, isigi) > 0.0
    ensures WeightedIntensity(intensity, isigi) == intensity * InverseVariance(intensity, isigi)
  {
    var sigma := intensity / isigi;
    assert sigma != 0.0;
    assert sigma * sigma > 0.0;
  }

  function RowWeight(row: Reflection): real {
    InverseVariance(row.intensity, row.isigi)
  }

  function RowWeightedIntensity(row: Reflection): real {
    WeightedIntensity(row.intensity, row.isigi)
  }

  /** The two arrays of length `n_refl` that `adjust_errors` fills. */
  datatype Weights = Weights(summedWeight: seq<real>, summedWtI: seq<real>)

  /** A row the accumulation cannot take: an index outside the arrays
      (IndexError) or a zero division. */
  predicate BadRow(row: Reflection, nRefl: nat) {
    row.millerId >= nRefl || !Weighable(row.intensity, row.isigi)
  }

  /** `sdfac_refine_refltable.adjust_errors`: per Miller index, the sum of
      1/variance and of I/variance over that index's rows. */
  method SummedWeights(table: seq<Reflection>, nRefl: nat) returns (r: Result<Weights>)
    ensures r.Err? <==> exists i :: 0 <= i < |table| && BadRow(table[i], nRefl)
    ensures r.Ok? ==> |r.value.summedWeight| == nRefl && |r.value.summedWtI| == nRefl
    ensures r.Ok? ==> forall id :: 0 <= id < nRefl ==>
      r.value.summedWeight[id] == PerIndex(table, id, RowWeight)
      && r.value.summedWtI[id] == PerIndex(table, id, RowWeightedIntensity)
  {
    var weight := seq(nRefl, _ => 0.0);
    var wtI := seq(nRefl, _ => 0.0);
    var i := 0;
    while i < |table|
      invariant 0 <= i <= |table|
      invariant |weight| == nRefl && |wtI| == nRefl
      invariant forall k :: 0 <= k < i ==> !BadRow(table[k], nRefl)
      invariant forall id :: 0 <= id < nRefl ==> weight[id] == PerIndex(table[..i], id, RowWeight)
      invariant forall id :: 0 <= id < nRefl ==> wtI[id] == PerIndex(table[..i], id, RowWeightedIntensity)
    {
      var row := table[i];
      if row.millerId >= nRefl {
        return Err("IndexError: miller_id outside the summed arrays");
      }
      if row.isigi == 0.0 || row.intensity == 0.0 {
        return Err("ZeroDivisionError");
      }
      var sigma := row.intensity / row.isigi;
      var variance := sigma * sigma;
      assert table[..i + 1][..i] == table[..i];
      wtI := wtI[row.millerId := wtI[row.millerId] + row.intensity / variance];
      weight := weight[row.millerId := weight[row.millerId] + 1.0 / variance];
      i := i + 1;
    }
    assert table[..i] == table;
    return Ok(Weights(weight, wtI));
  }

  /** A Miller index observed at least once has a positive summed weight. */
  lemma {:induction false} SummedWeightPositive(table: seq<Reflection>, id: nat, i: nat)
    requires forall k :: 0 <= k < |table| ==> Weighable(table[k].intensity, table[k].isigi)
    requires i < |table| && table[i].millerId == id
    ensures PerIndex(table, id, RowWeight) > 0.0
    decreases |table|
  {
    var p := table[..|table| - 1];
    var last := table[|table| - 1];
    WeightOfObservation(last.intensity, last.isigi);
    if i == |table| - 1 {
      WeightsNonNegative(p, id);
    } else {
      assert p[i] == table[i];
      SummedWeightPositive(p, id, i);
    }
  }

  lemma {:induction false} WeightsNonNegative(table: seq<Reflection>, id: nat)
    requires forall k :: 0 <= k < |table| ==> Weighable(table[k].intensity, table[k].isigi)
    ensures PerIndex(table, id, RowWeight) >= 0.0
    decreases |table|
  {
    if |table| > 0 {
      var last := table[|table| - 1];
      WeightOfObservation(last.intensity, last.isigi);
      WeightsNonNegative(table[..|table| - 1], id);
    }
  }

  /** When every observation of an index has intensity `c`, the merged
      intensity summed_wt_I / summed_weight is `c`. */
  lemma EqualIntensitiesMerge(table: seq<Reflection>, id: nat, c: real)
    requires forall k :: 0 <= k < |table| ==> Weighable(table[k].intensity, table[k].isigi)
    requires forall k :: 0 <= k < |table| && table[k].millerId == id ==> table[k].intensity == c
    ensures PerIndex(table, id, RowWeightedIntensity) == c * PerIndex(table, id, RowWeight)
  {
    forall k | 0 <= k < |table| && table[k].millerId == id
      ensures RowWeightedIntensity(table[k]) == c * RowWeight(table[k])
    {
      WeightOfObservation(table[k].intensity, table[k].isigi);
    }
    PerIndexScaled(table, id, RowWeight, RowWeightedIntensity, c);
  }

  /** Scaling every summed term of an index by `c` scales the sum by `c`. */
  lemma {:induction false} PerIndexScaled(table: seq<Reflection>, id: nat, f: Reflection -> real, g: Reflection -> real, c: real)
    requires forall k :: 0 <= k < |table| && table[k].millerId == id ==> g(table[k]) == c * f(table[k])
    ensures PerIndex(table, id, g) == c * PerIndex(table, id, f)
    decreases |table|
  {
    if |table| > 0 {
      var p := table[..|table| - 1];
      var last := table[|table| - 1];
      assert forall k :: 0 <= k < |p| ==> p[k] == table[k];
      PerIndexScaled(p, id, f, g, c);
      PerIndexLast(table, id, f);
      PerIndexLast(table, id, g);
      MergeStep(PerIndex(table, id, g), PerIndex(p, id, g), PerIndex(table, id, f), PerIndex(p, id, f),
        if last.millerId == id then g(last) else 0.0, if last.millerId == id then f(last) else 0.0, c);
    } else {
      MergeStep(0.0, 0.0, 0.0, 0.0, 0.0, 0.0, c);
    }
  }

  lemma PerIndexLast(table: seq<Reflection>, id: nat, f: Reflection -> real)
    requires |table| > 0
    ensures PerIndex(table, id, f) == PerIndex(table[..|table| - 1], id, f)
      + (if table[|table| - 1].millerId == id then f(table[|table| - 1]) else 0.0)
  {
  }

  lemma MergeStep(wi: real, wiOld: real, w: real, wOld: real, ti: real, t: real, c: real)
    requires wiOld == c * wOld && ti == c * t
    requires wi == wiOld + ti && w == wOld + t
    ensures wi == c * w
  {
  }

  /** `sdfac_refine.adjust_errors` on the dictionary: for every index of the
      miller set present in the dictionary, the sums over its list. */
  function DictSummedWeights(groups: seq<Option<seq<Observation>>>): (r: Result<Weights>)
    ensures r.Ok? ==> |r.value.summedWeight| == |groups| && |r.value.summedWtI| == |groups|
    decreases |groups|
  {
    if |groups| == 0 then Ok(Weights([], []))
    else
      var w :- DictSummedWeights(groups[..|groups| - 1]);
      match groups[|groups| - 1]
      case None => Ok(Weights(w.summedWeight + [0.0], w.summedWtI + [0.0]))
      case Some(obs) =>
        var g :- GroupWeights(obs);
        Ok(Weights(w.summedWeight + [g.0], w.summedWtI + [g.1]))
  }

  /** The inner loop over one index's observations. */
  function GroupWeights(obs: seq<Observation>): Result<(real, real)>
    decreases |obs|
  {
    if |obs| == 0 then Ok((0.0, 0.0))
    else
      var acc :- GroupWeights(obs[..|obs| - 1]);
      var o := obs[|obs| - 1];
      if o.isigi == 0.0 || o.intensity == 0.0 then Err("ZeroDivisionError")
      else Ok((acc.0 + InverseVariance(o.intensity, o.isigi), acc.1 + WeightedIntensity(o.intensity, o.isigi)))
  }

  lemma {:induction false} GroupWeightsAgree(id: nat, obs: seq<Observation>)
    ensures GroupWeights(obs).Err? <==> GroupHasBad(Some(obs))
    ensures GroupWeights(obs).Ok? ==>
      GroupWeights(obs).value == (PerIndex(Rows(id, obs), id, RowWeight), PerIndex(Rows(id, obs), id, RowWeightedIntensity))
    decreases |obs|
  {
    if |obs| > 0 {
      var p := obs[..|obs| - 1];
      GroupWeightsAgree(id, p);
      assert Rows(id, obs)[..|obs| - 1] == Rows(id, p);
      assert forall k :: 0 <= k < |p| ==> p[k] == obs[k];
    }
  }

  /** The dictionary and reflection-table variants accumulate the same
      weights: on the table built from the dictionary, the table variant
      fails exactly when the dictionary variant does and otherwise fills
      the same arrays. */
  lemma {:induction false} DictWeightsMatchTable(groups: seq<Option<seq<Observation>>>)
    ensures DictSummedWeights(groups).Err? <==> TableHasBad(TableOf(groups), |groups|)
    ensures DictSummedWeights(groups).Ok? ==> forall id :: 0 <= id < |groups| ==>
      DictSummedWeights(groups).value.summedWeight[id] == PerIndex(TableOf(groups), id, RowWeight)
      && DictSummedWeights(groups).value.summedWtI[id] == PerIndex(TableOf(groups), id, RowWeightedIntensity)
    decreases |groups|
  {
    if |groups| > 0 {
      var p := groups[..|groups| - 1];
      var last := |groups| - 1;
      DictWeightsMatchTable(p);
      BadRowsOfTable(p, groups);
      if groups[last].Some? {
        GroupWeightsAgree(last, groups[last].value);
      }
      if DictSummedWeights(groups).Ok? {
        forall id | 0 <= id < |groups|
          ensures DictSummedWeights(groups).value.summedWeight[id] == PerIndex(TableOf(groups), id, RowWeight)
          ensures DictSummedWeights(groups).value.summedWtI[id] == PerIndex(TableOf(groups), id, RowWeightedIntensity)
        {
          TableOfPerIndex(groups, id, RowWeight);
          TableOfPerIndex(groups, id, RowWeightedIntensity);
          if id < last {
            TableOfPerIndex(p, id, RowWeight);
            TableOfPerIndex(p, id, RowWeightedIntensity);
            assert p[id] == groups[id];
          }
        }
      }
    }
  }

  /** Some observation of the group cannot be weighted. */
  predicate GroupHasBad(g: Option<seq<Observation>>) {
    g.Some? && exists k :: 0 <= k < |g.value| && !Weighable(g.value[k].intensity, g.value[k].isigi)
  }

  predicate TableHasBad(table: seq<Reflection>, nRefl: nat) {
    exists i :: 0 <= i < |table| && BadRow(table[i], nRefl)
  }

  /** A row of the flattened table is bad exactly when its observation
      cannot be weighted: its index always lies in the miller set. */
  lemma BadRowsOfTable(p: seq<Option<seq<Observation>>>, groups: seq<Option<seq<Observation>>>)
    requires |groups| > 0 && p == groups[..|groups| - 1]
    ensures TableHasBad(TableOf(groups), |groups|) <==>
      TableHasBad(TableOf(p), |p|) || GroupHasBad(groups[|groups| - 1])
  {
    var g := groups[|groups| - 1];
    var rows := if g.Some? then Rows(|groups| - 1, g.value) else [];
    assert TableOf(groups) == TableOf(p) + rows;
    BadRowOfAppend(TableOf(p), rows, |p|);
    if g.Some? {
      BadRowsOfGroup(|p|, g.value);
    }
  }

  /** Appending rows of index `n` to a table of indices below `n`. */
  lemma BadRowOfAppend(t: seq<Reflection>, rows: seq<Reflection>, n: nat)
    requires forall k :: 0 <= k < |t| ==> t[k].millerId < n
    requires forall k :: 0 <= k < |rows| ==> rows[k].millerId == n
    ensures TableHasBad(t + rows, n + 1) <==> TableHasBad(t, n) || TableHasBad(rows, n + 1)
  {
    var a := t + rows;
    if TableHasBad(a, n + 1) {
      var i :| 0 <= i < |a| && BadRow(a[i], n + 1);
      if i < |t| {
        assert BadRow(t[i], n);
      } else {
        assert BadRow(rows[i - |t|], n + 1);
      }
    }
    if TableHasBad(t, n) {
      var i :| 0 <= i < |t| && BadRow(t[i], n);
      assert BadRow(a[i], n + 1);
    }
    if TableHasBad(rows, n + 1) {
      var i :| 0 <= i < |rows| && BadRow(rows[i], n + 1);
      assert BadRow(a[|t| + i], n + 1);
    }
  }

  lemma BadRowsOfGroup(id: nat, obs: seq<Observation>)
    ensures TableHasBad(Rows(id, obs), id + 1) <==> GroupHasBad(Some(obs))
  {
    var rows := Rows(id, obs);
    if GroupHasBad(Some(obs)) {
      var k :| 0 <= k < |obs| && !Weighable(obs[k].intensity, obs[k].isigi);
      assert BadRow(rows[k], id + 1);
    }
  }
}

=== FILE: sdfac_refine.dfy ===
/** The refinement of the error model for merged intensities in
    xfel/merging/algorithms/error_model/sdfac_refine.py: the named view of a
    parameter vector, the functional the simplex minimiser evaluates (for the
    dictionary form of the data and for the reflection-table form), and the
    closed-form correlation and straight-line fit used by the normal
    probability analysis.

    Applying the error parameters to the observations, computing the
    normalised deviations and taking square roots happen outside this model;
    they are supplied as function parameters. */
module SdfacRefine {
  import opened Common

  // ---------------------------------------------------------------------
  // The parameter view (`sdfac_parameterization.__getattr__`)
  // ---------------------------------------------------------------------

  /** The three error parameters, in the order of the parameter vector. */
  const ParameterNames: seq<string> := ["SDFAC", "SDB", "SDADD"]

  /** Every attribute name the view answers. */
  const KnownNames: set<string> := {"SDFAC", "SDB", "SDADD", "SDFACSQ", "SDBSQ", "SDADDSQ"}

  /** `reference[k]`, or the IndexError a short vector raises. */
  function Component(reference: seq<real>, k: nat): (r: Result<real>)
    ensures r.Ok? <==> k < |reference|
    ensures r.Ok? ==> r.value == reference[k]
  {
    if k < |reference| then Ok(reference[k]) else Err("IndexError: index out of range")
  }

  function SquaredComponent(reference: seq<real>, k: nat): (r: Result<real>)
    ensures r.Ok? <==> k < |reference|
    ensures r.Ok? ==> r.value == reference[k] * reference[k]
  {
    var x :- Component(reference, k);
    Ok(x * x)
  }

  /** Reading an attribute of the parameter view: the three parameter names
      read the vector's first three components, the same names with "SQ"
      appended read their squares, and any other name is an AttributeError. */
  function Param(reference: seq<real>, name: string): (r: Result<real>)
    ensures name !in KnownNames ==> r.Err?
    ensures |reference| >= 3 && name in KnownNames ==> r.Ok?
    ensures |reference| >= 1 && name == "SDFAC" ==> r.Ok? && r.value == reference[0]
    ensures |reference| >= 2 && name == "SDB" ==> r.Ok? && r.value == reference[1]
    ensures |reference| >= 3 && name == "SDADD" ==> r.Ok? && r.value == reference[2]
    ensures |reference| >= 1 && name == "SDFACSQ" ==> r.Ok? && r.value == reference[0] * reference[0]
    ensures |reference| >= 2 && name == "SDBSQ" ==> r.Ok? && r.value == reference[1] * reference[1]
    ensures |reference| >= 3 && name == "SDADDSQ" ==> r.Ok? && r.value == reference[2] * reference[2]
  {
    if name == "SDFAC" then Component(reference, 0)
    else if name == "SDB" then Component(reference, 1)
    else if name == "SDADD" then Component(reference, 2)
    else if name == "SDFACSQ" then SquaredComponent(reference, 0)
    else if name == "SDBSQ" then SquaredComponent(reference, 1)
    else if name == "SDADDSQ" then SquaredComponent(reference, 2)
    else Err("AttributeError: " + name)
  }

  /** Each squared name reads the square of the parameter it is named after. */
  lemma SquaredNamesReadSquares(reference: seq<real>, k: nat)
    requires k < 3
    ensures Param(reference, ParameterNames[k] + "SQ").Ok? <==> Param(reference, ParameterNames[k]).Ok?
    ensures Param(reference, ParameterNames[k]).Ok? ==>
      Param(reference, ParameterNames[k] + "SQ").value ==
        Param(reference, ParameterNames[k]).value * Param(reference, ParameterNames[k]).value
  {
    assert ParameterNames[0] + "SQ" == "SDFACSQ";
    assert ParameterNames[1] + "SQ" == "SDBSQ";
    assert ParameterNames[2] + "SQ" == "SDADDSQ";
  }

  // ---------------------------------------------------------------------
  // Sums over data sets
  // ---------------------------------------------------------------------

  /** x * y, kept behind a function of its own so that the recursive sums
      below do not carry a product of two reals in their definitions. */
  function Product(x: real, y: real): real {
    x * y
  }

  /** Sum of squares, accumulated from the front. */
  function SumSquares(a: seq<real>): real
    decreases |a|
  {
    if |a| == 0 then 0.0 else SumSquares(a[..|a| - 1]) + Product(a[|a| - 1], a[|a| - 1])
  }

  /** Sum of the products of paired values. */
  function SumProducts(a: seq<real>, b: seq<real>): real
    requires |a| == |b|
    decreases |a|
  {
    if |a| == 0 then 0.0
    else SumProducts(a[..|a| - 1], b[..|b| - 1]) + Product(a[|a| - 1], b[|b| - 1])
  }

  lemma {:induction false} SumSquaresNonNegative(a: seq<real>)
    ensures SumSquares(a) >= 0.0
    decreases |a|
  {
    if |a| > 0 {
      SumSquaresNonNegative(a[..|a| - 1]);
    }
  }

  // ---------------------------------------------------------------------
  // The functional (`simplex_minimizer.target`)
  // ---------------------------------------------------------------------

  /** The values of the three error parameters. */
  datatype SdParams = SdParams(sdfac: real, sdb: real, sdadd: real)

  /** The value returned for a vertex with a negative parameter. */
  const Penalty: real := 1000000.0

  /** The elements of `values` whose mask entry is set, in order. */
  function Masked(values: seq<real>, mask: seq<bool>): (r: seq<real>)
    requires |values| == |mask|
    ensures |r| <= |values|
    ensures forall x :: x in r ==> exists i :: 0 <= i < |values| && mask[i] && values[i] == x
    decreases |values|
  {
    if |values| == 0 then []
    else (if mask[0] then [values[0]] else []) + Masked(values[1..], mask[1..])
  }

  lemma {:induction false} MaskedNothing(values: seq<real>, mask: seq<bool>)
    requires |values| == |mask|
    requires forall i :: 0 <= i < |mask| ==> !mask[i]
    ensures Masked(values, mask) == []
    decreases |values|
  {
    if |values| > 0 {
      MaskedNothing(values[1..], mask[1..]);
    }
  }

  /** Selecting from two joined arrays with the joined masks selects from
      each in turn, so the selection keeps the order of the data. */
  lemma {:induction false} MaskedAppend(a: seq<real>, ma: seq<bool>, b: seq<real>, mb: seq<bool>)
    requires |a| == |ma| && |b| == |mb|
    ensures Masked(a + b, ma + mb) == Masked(a, ma) + Masked(b, mb)
    decreases |a|
  {
    if |a| > 0 {
      assert (a + b)[1..] == a[1..] + b;
      assert (ma + mb)[1..] == ma[1..] + mb;
      MaskedAppend(a[1..], ma[1..], b, mb);
    } else {
      assert a + b == b && ma + mb == mb;
    }
  }

  /** A mask with every flag set keeps the whole array. */
  lemma {:induction false} MaskedEverything(values: seq<real>, mask: seq<bool>)
    requires |values| == |mask|
    requires forall i :: 0 <= i < |mask| ==> mask[i]
    ensures Masked(values, mask) == values
    decreases |values|
  {
    if |values| > 0 {
      MaskedEverything(values[1..], mask[1..]);
      assert values == [values[0]] + values[1..];
    }
  }

  /** `flex.double.select` with a boolean selection, which must have the
      array's size. */
  function SelectMask(values: seq<real>, mask: seq<bool>): (r: Result<seq<real>>)
    ensures r.Ok? <==> |mask| == |values|
    ensures r.Ok? ==> r.value == Masked(values, mask)
  {
    if |mask| != |values| then Err("RuntimeError: selection size mismatch")
    else Ok(Masked(values, mask))
  }

  /** One intensity bin's contribution, after Evans (2011): the square root
      of the bin's size times the squared distance of the root-mean-square
      normalised deviation from one. */
  function BinTerm(selected: seq<real>, sqrt: real -> real): real
    requires |selected| > 0
  {
    var n := |selected| as real;
    var rms := sqrt(SumSquares(selected) / n);
    sqrt(n) * ((1.0 - rms) * (1.0 - rms))
  }

  /** The sum of the bin terms over the non-empty bins, taken in order. */
  function Functional(deviations: seq<real>, bins: seq<seq<bool>>, sqrt: real -> real): (r: Result<real>)
    ensures r.Ok? <==> forall i :: 0 <= i < |bins| ==> |bins[i]| == |deviations|
    decreases |bins|
  {
    if |bins| == 0 then Ok(0.0)
    else
      var f :- Functional(deviations, bins[..|bins| - 1], sqrt);
      var selected :- SelectMask(deviations, bins[|bins| - 1]);
      if |selected| == 0 then Ok(f) else Ok(f + BinTerm(selected, sqrt))
  }

  /** With square roots of non-negative numbers non-negative, the functional
      is a sum of non-negative terms. */
  lemma {:induction false} FunctionalNonNegative(deviations: seq<real>, bins: seq<seq<bool>>, sqrt: real -> real)
    requires forall x :: x >= 0.0 ==> sqrt(x) >= 0.0
    ensures Functional(deviations, bins, sqrt).Ok? ==> Functional(deviations, bins, sqrt).value >= 0.0
    decreases |bins|
  {
    if |bins| > 0 {
      FunctionalNonNegative(deviations, bins[..|bins| - 1], sqrt);
      var r := Functional(deviations, bins, sqrt);
      if r.Ok? {
        var selected := Masked(deviations, bins[|bins| - 1]);
        if |selected| > 0 {
          var n := |selected| as real;
          var rms := sqrt(SumSquares(selected) / n);
          SquareNonNegative(1.0 - rms);
          ProductNonNegative(sqrt(n), (1.0 - rms) * (1.0 - rms));
        }
      }
    }
  }

  /** A bin that selects nothing leaves the functional as it was. */
  lemma EmptyBinAddsNothing(deviations: seq<real>, bins: seq<seq<bool>>, empty: seq<bool>, sqrt: real -> real)
    requires |empty| == |deviations|
    requires forall i :: 0 <= i < |empty| ==> !empty[i]
    ensures Functional(deviations, bins + [empty], sqrt) == Functional(deviations, bins, sqrt)
  {
    MaskedNothing(deviations, empty);
    assert (bins + [empty])[..|bins|] == bins;
  }

  /** `simplex_minimizer.target`: read the parameters through the view (a
      negative parameter stops the reading there and gives the penalty),
      then evaluate the functional on the normalised deviations of the data
      with those parameters applied. */
  function Target(vector: seq<real>, deviationsFor: SdParams -> seq<real>, bins: seq<seq<bool>>,
                  sqrt: real -> real): (r: Result<real>)
    ensures |vector| >= 3 && (vector[0] < 0.0 || vector[1] < 0.0 || vector[2] < 0.0) ==>
      r == Ok(Penalty)
    ensures |vector| >= 3 && vector[0] >= 0.0 && vector[1] >= 0.0 && vector[2] >= 0.0 ==>
      r == Functional(deviationsFor(SdParams(vector[0], vector[1], vector[2])), bins, sqrt)
    ensures |vector| == 0 ==> r.Err?
  {
    var sdfac :- Param(vector, "SDFAC");
    if sdfac < 0.0 then Ok(Penalty)
    else
      var sdb :- Param(vector, "SDB");
      if sdb < 0.0 then Ok(Penalty)
      else
        var sdadd :- Param(vector, "SDADD");
        if sdadd < 0.0 then Ok(Penalty)
        else Functional(deviationsFor(SdParams(sdfac, sdb, sdadd)), bins, sqrt)
  }

  lemma TargetNonNegative(vector: seq<real>, deviationsFor: SdParams -> seq<real>, bins: seq<seq<bool>>,
                          sqrt: real -> real)
    requires forall x :: x >= 0.0 ==> sqrt(x) >= 0.0
    ensures Target(vector, deviationsFor, bins, sqrt).Ok? ==>
      Target(vector, deviationsFor, bins, sqrt).value >= 0.0
  {
    if |vector| >= 3 {
      FunctionalNonNegative(deviationsFor(SdParams(vector[0], vector[1], vector[2])), bins, sqrt);
    }
  }

  // ---------------------------------------------------------------------
  // The reflection-table functional (`simplex_minimizer_refltable.target`)
  // ---------------------------------------------------------------------

  /** One row of the merging reflection table, with the columns the error
      model reads: the Miller index's position in the Miller set, the scaled
      intensity and I/sigma(I). */
  datatype Reflection = Reflection(millerId: nat, intensity: real, isigi: real)

  function IsigiColumn(table: seq<Reflection>): (r: seq<real>)
    ensures |r| == |table| && forall i :: 0 <= i < |table| ==> r[i] == table[i].isigi
  {
    seq(|table|, i requires 0 <= i < |table| => table[i].isigi)
  }

  /** Reading back an assigned column gives that column, and assigning a
      table's own column leaves the table as it was. */
  lemma IsigiRoundTrip(table: seq<Reflection>, isigi: seq<real>)
    requires |isigi| == |table|
    ensures IsigiColumn(WithIsigi(table, isigi)) == isigi
    ensures WithIsigi(table, IsigiColumn(table)) == table
  {
  }

  /** Assigning a whole `isigi` column. */
  function WithIsigi(table: seq<Reflection>, isigi: seq<real>): (r: seq<Reflection>)
    requires |isigi| == |table|
    ensures |r| == |table|
    ensures forall i :: 0 <= i < |table| ==>
      r[i].millerId == table[i].millerId && r[i].intensity == table[i].intensity && r[i].isigi == isigi[i]
  {
    seq(|table|, i requires 0 <= i < |table| => table[i].(isigi := isigi[i]))
  }

  /** The reflection-table target: the table is corrected in place by
      `apply`, the deviations are computed from the corrected table, and the
      I/sigma(I) column is then put back.  The result pairs the functional
      with the table as the call leaves it. */
  function TableTarget(vector: seq<real>, table: seq<Reflection>,
                       apply: (seq<Reflection>, SdParams) -> seq<Reflection>,
                       deviationsOf: seq<Reflection> -> seq<real>,
                       bins: seq<seq<bool>>, sqrt: real -> real): (r: Result<(real, seq<Reflection>)>)
    ensures r.Ok? ==> IsigiColumn(r.value.1) == IsigiColumn(table)
    ensures r.Ok? ==> |r.value.1| == |table|
    ensures |vector| >= 3 && (vector[0] < 0.0 || vector[1] < 0.0 || vector[2] < 0.0) ==>
      r == Ok((Penalty, table))
  {
    var sdfac :- Param(vector, "SDFAC");
    if sdfac < 0.0 then Ok((Penalty, table))
    else
      var sdb :- Param(vector, "SDB");
      if sdb < 0.0 then Ok((Penalty, table))
      else
        var sdadd :- Param(vector, "SDADD");
        if sdadd < 0.0 then Ok((Penalty, table))
        else
          var applied := apply(table, SdParams(sdfac, sdb, sdadd));
          var deviations := deviationsOf(applied);
          if |applied| != |table| then Err("AssertionError: column size mismatch")
          else
            var restored := WithIsigi(applied, IsigiColumn(table));
            var f :- Functional(deviations, bins, sqrt);
            Ok((f, restored))
  }

  /** The two targets agree: on a table whose correction keeps its length,
      the reflection-table functional is the dictionary functional with the
      deviations of the corrected table. */
  lemma TableTargetAgrees(vector: seq<real>, table: seq<Reflection>,
                          apply: (seq<Reflection>, SdParams) -> seq<Reflection>,
                          deviationsOf: seq<Reflection> -> seq<real>,
                          bins: seq<seq<bool>>, sqrt: real -> real)
    requires |vector| >= 3
    requires |apply(table, SdParams(vector[0], vector[1], vector[2]))| == |table|
    ensures TableTarget(vector, table, apply, deviationsOf, bins, sqrt).Ok? ==
      Target(vector, p => deviationsOf(apply(table, p)), bins, sqrt).Ok?
    ensures TableTarget(vector, table, apply, deviationsOf, bins, sqrt).Ok? ==>
      TableTarget(vector, table, apply, deviationsOf, bins, sqrt).value.0 ==
        Target(vector, p => deviationsOf(apply(table, p)), bins, sqrt).value
  {
  }

  /** When the correction touches only the I/sigma(I) column, the
      reflection-table target leaves the table exactly as it found it. */
  lemma TableTargetRestoresTable(vector: seq<real>, table: seq<Reflection>,
                                 apply: (seq<Reflection>, SdParams) -> seq<Reflection>,
                                 deviationsOf: seq<Reflection> -> seq<real>,
                                 bins: seq<seq<bool>>, sqrt: real -> real)
    requires forall p :: |apply(table, p)| == |table|
    requires forall p, i :: 0 <= i < |table| && i < |apply(table, p)| ==>
      apply(table, p)[i].millerId == table[i].millerId && apply(table, p)[i].intensity == table[i].intensity
    ensures TableTarget(vector, table, apply, deviationsOf, bins, sqrt).Ok? ==>
      TableTarget(vector, table, apply, deviationsOf, bins, sqrt).value.1 == table
  {
    var r := TableTarget(vector, table, apply, deviationsOf, bins, sqrt);
    if r.Ok? && |vector| >= 3 && vector[0] >= 0.0 && vector[1] >= 0.0 && vector[2] >= 0.0 {
      var p := SdParams(vector[0], vector[1], vector[2]);
      var restored := WithIsigi(apply(table, p), IsigiColumn(table));
      assert forall i :: 0 <= i < |table| ==> restored[i] == table[i];
      assert restored == table;
    }
  }

  // ---------------------------------------------------------------------
  // Correlation and straight-line fit (`get_overall_correlation_flex`)
  // ---------------------------------------------------------------------

  /** Correlation coefficient, slope and offset. */
  datatype Fit = Fit(corr: real, slope: real, offset: real)

  predicate Constant(a: seq<real>) {
    forall i :: 0 <= i < |a| ==> a[i] == a[0]
  }

  /** N times the sum of squares minus the squared sum: the denominator of
      the least-squares slope. */
  function Spread(a: seq<real>): real {
    Discriminant(|a| as real, SumSquares(a), Sum(a))
  }

  /** n * s2 - s1 * s1 for a count n, a sum of squares s2 and a sum s1. */
  function Discriminant(n: real, s2: real, s1: real): real {
    n * s2 - s1 * s1
  }

  /** Sum of squared distances of the elements from `x`. */
  function Deviations(a: seq<real>, x: real): real
    decreases |a|
  {
    if |a| == 0 then 0.0
    else Deviations(a[..|a| - 1], x) + Product(a[|a| - 1] - x, a[|a| - 1] - x)
  }

  /** The squared distances from `x` of `n` values with sum of squares `s2`
      and sum `s1`, multiplied out. */
  function Expanded(s2: real, s1: real, n: real, x: real): real {
    s2 - 2.0 * x * s1 + n * x * x
  }

  lemma {:induction false} DeviationsExpand(a: seq<real>, x: real)
    ensures Deviations(a, x) == Expanded(SumSquares(a), Sum(a), |a| as real, x)
    decreases |a|
  {
    if |a| > 0 {
      var p := a[..|a| - 1];
      var y := a[|a| - 1];
      DeviationsLast(a, x);
      SquaresLast(a);
      SumLast(a);
      DeviationsExpand(p, x);
      DeviationsStep(Deviations(a, x), Deviations(p, x), SumSquares(a), SumSquares(p), Sum(a), Sum(p),
                     |a| as real, |p| as real, x, y);
    } else {
      DeviationsBase(Deviations(a, x), SumSquares(a), Sum(a), |a| as real, x);
    }
  }

  lemma {:induction false} DeviationsNonNegative(a: seq<real>, x: real)
    ensures Deviations(a, x) >= 0.0
    decreases |a|
  {
    if |a| > 0 {
      DeviationsNonNegative(a[..|a| - 1], x);
      SquareNonNegative(a[|a| - 1] - x);
    }
  }

  lemma {:induction false} DeviationsOfEqual(a: seq<real>, x: real)
    requires forall i :: 0 <= i < |a| ==> a[i] == x
    ensures Deviations(a, x) == 0.0
    decreases |a|
  {
    if |a| > 0 {
      DeviationsOfEqual(a[..|a| - 1], x);
    }
  }

  /** One element away from `x` makes the squared distances positive. */
  lemma {:induction false} DeviationsPositive(a: seq<real>, x: real, k: nat)
    requires k < |a| && a[k] != x
    ensures Deviations(a, x) > 0.0
    decreases |a|
  {
    var p := a[..|a| - 1];
    var y := a[|a| - 1];
    if k < |p| {
      assert p[k] == a[k];
      DeviationsPositive(p, x, k);
      AddSquareNonNegative(Deviations(p, x), y - x);
    } else {
      DeviationsNonNegative(p, x);
      if y > x {
        AddProductPositive(Deviations(p, x), y - x, y - x);
      } else {
        AddProductPositive(Deviations(p, x), x - y, x - y);
        assert (x - y) * (x - y) == (y - x) * (y - x);
      }
    }
  }

  /** The last element raises the spread by the squared distances of the
      earlier elements from it. */
  lemma SpreadLast(a: seq<real>)
    requires |a| > 0
    ensures Spread(a) == Spread(a[..|a| - 1]) + Deviations(a[..|a| - 1], a[|a| - 1])
  {
    var p := a[..|a| - 1];
    var x := a[|a| - 1];
    SquaresLast(a);
    SumLast(a);
    DeviationsExpand(p, x);
    SpreadStep(Spread(a), Spread(p), Deviations(p, x), |a| as real, SumSquares(a), Sum(a),
               |p| as real, SumSquares(p), Sum(p), x);
  }

  lemma {:induction false} SpreadNonNegative(a: seq<real>)
    ensures Spread(a) >= 0.0
    decreases |a|
  {
    if |a| > 0 {
      var p := a[..|a| - 1];
      SpreadNonNegative(p);
      SpreadLast(a);
      DeviationsNonNegative(p, a[|a| - 1]);
    }
  }

  lemma {:induction false} SpreadOfConstant(a: seq<real>)
    requires Constant(a)
    ensures Spread(a) == 0.0
    decreases |a|
  {
    if |a| > 0 {
      var p := a[..|a| - 1];
      assert Constant(p) by {
        assert forall i :: 0 <= i < |p| ==> p[i] == a[i];
      }
      SpreadOfConstant(p);
      SpreadLast(a);
      DeviationsOfEqual(p, a[|a| - 1]);
    }
  }

  /** Two different elements make the spread positive. */
  lemma {:induction false} SpreadPositive(a: seq<real>, i: nat, j: nat)
    requires i < |a| && j < |a| && a[i] != a[j]
    ensures Spread(a) > 0.0
    decreases |a|
  {
    var p := a[..|a| - 1];
    var x := a[|a| - 1];
    SpreadLast(a);
    if i < |p| && j < |p| {
      assert p[i] == a[i] && p[j] == a[j];
      SpreadPositive(p, i, j);
      DeviationsNonNegative(p, x);
    } else if i < |p| {
      assert p[i] == a[i];
      SpreadNonNegative(p);
      DeviationsPositive(p, x, i);
    } else {
      assert p[j] == a[j];
      SpreadNonNegative(p);
      DeviationsPositive(p, x, j);
    }
  }

  /** The spread is a sum of squared pairwise differences, so it is never
      negative and vanishes exactly on constant data. */
  lemma SpreadZeroIffConstant(a: seq<real>)
    ensures Spread(a) >= 0.0
    ensures Spread(a) == 0.0 <==> Constant(a)
  {
    SpreadNonNegative(a);
    if Constant(a) {
      SpreadOfConstant(a);
    } else {
      var i :| 0 <= i < |a| && a[i] != a[0];
      SpreadPositive(a, i, 0);
    }
  }

  // Polynomial identities behind the fit, over plain reals.

  lemma SquareNonNegative(d: real)
    ensures d * d >= 0.0
  {
  }

  lemma SquarePositive(d: real)
    requires d != 0.0
    ensures d * d > 0.0
  {
    if d < 0.0 {
      assert d * d == (-d) * (-d);
    }
  }

  lemma AddProductPositive(u: real, d: real, e: real)
    requires u >= 0.0 && d > 0.0 && e > 0.0
    ensures u + d * e > 0.0
  {
  }

  lemma AddSquareNonNegative(u: real, d: real)
    requires u > 0.0
    ensures u + d * d > 0.0
  {
    SquareNonNegative(d);
  }

  lemma ProductNonNegative(x: real, y: real)
    requires x >= 0.0 && y >= 0.0
    ensures x * y >= 0.0
  {
  }

  lemma DeviationsBase(dev: real, ss: real, sa: real, n: real, x: real)
    requires dev == 0.0 && ss == 0.0 && sa == 0.0 && n == 0.0
    ensures dev == Expanded(ss, sa, n, x)
  {
  }

  lemma DeviationsStep(devNew: real, devOld: real, ssNew: real, ssOld: real, sNew: real, sOld: real,
                        nNew: real, nOld: real, x: real, y: real)
    requires devOld == Expanded(ssOld, sOld, nOld, x)
    requires devNew == devOld + Product(y - x, y - x)
    requires ssNew == ssOld + Product(y, y) && sNew == sOld + y && nNew == nOld + 1.0
    ensures devNew == Expanded(ssNew, sNew, nNew, x)
  {
  }

  lemma SpreadStep(after: real, before: real, deviations: real, m: real, s2New: real, s1New: real,
                    n: real, sxx: real, sx: real, x: real)
    requires m == n + 1.0 && s2New == sxx + Product(x, x) && s1New == sx + x
    requires after == Discriminant(m, s2New, s1New)
    requires before == Discriminant(n, sxx, sx)
    requires deviations == Expanded(sxx, sx, n, x)
    ensures after == before + deviations
  {
  }

  lemma SumStep(sb: real, sbOld: real, sa: real, saOld: real, n: real, nOld: real,
                y: real, z: real, s: real, o: real)
    requires z == s * y + o
    requires sbOld == s * saOld + o * nOld
    requires sb == sbOld + z && sa == saOld + y && n == nOld + 1.0
    ensures sb == s * sa + o * n
  {
  }

  lemma ProductStep(sp: real, spOld: real, ss: real, ssOld: real, sa: real, saOld: real,
                    y: real, z: real, s: real, o: real)
    requires z == s * y + o
    requires spOld == s * ssOld + o * saOld
    requires sp == spOld + Product(y, z) && ss == ssOld + Product(y, y) && sa == saOld + y
    ensures sp == s * ss + o * sa
  {
  }

  lemma LinearBase(total: real, other: real, count: real, s: real, o: real)
    requires total == 0.0 && other == 0.0 && count == 0.0
    ensures total == s * other + o * count
  {
  }

  lemma QuotientOfMultiple(x: real, y: real, d: real)
    requires d != 0.0 && x == y * d
    ensures x / d == y
  {
  }

  lemma FitAlgebra(n: real, sxx: real, sx: real, sxy: real, sy: real, dx: real, s: real, o: real)
    requires sxy == s * sxx + o * sx && sy == s * sx + o * n && dx == n * sxx - sx * sx
    ensures n * sxy - sx * sy == s * dx
    ensures sxx * sy - sx * sxy == o * dx
  {
  }

  /** The five running sums the correlation loop accumulates. */
  datatype Sums = Sums(n: real, sx: real, sy: real, sxx: real, syy: real, sxy: real)

  function SumsOf(a: seq<real>, b: seq<real>): (r: Sums)
    requires |a| == |b|
    ensures r.n == |a| as real && r.sx == Sum(a) && r.sy == Sum(b)
    ensures r.sxx == SumSquares(a) && r.syy == SumSquares(b) && r.sxy == SumProducts(a, b)
  {
    Sums(|a| as real, Sum(a), Sum(b), SumSquares(a), SumSquares(b), SumProducts(a, b))
  }

  /** The accumulation loop of `get_overall_correlation_flex`: one pass
      over the paired data adding each point to the five running sums and
      the count. */
  method AccumulateSums(a: seq<real>, b: seq<real>) returns (t: Sums)
    requires |a| == |b|
    ensures t.n == |a| as real && t.sx == Sum(a) && t.sy == Sum(b)
    ensures t.sxx == SumSquares(a) && t.syy == SumSquares(b) && t.sxy == SumProducts(a, b)
  {
    t := Sums(0.0, 0.0, 0.0, 0.0, 0.0, 0.0);
    var i := 0;
    while i < |a|
      invariant i <= |a|
      invariant t == SumsOf(a[..i], b[..i])
    {
      var x, y := a[i], b[i];
      assert a[..i + 1][..i] == a[..i] && b[..i + 1][..i] == b[..i];
      t := Sums(t.n + 1.0, t.sx + x, t.sy + y, t.sxx + Product(x, x), t.syy + Product(y, y), t.sxy + Product(x, y));
      i := i + 1;
    }
    assert a[..i] == a && b[..i] == b;
  }

  /** The closed-form fit from the sums.  A zero slope denominator leaves
      all three numbers at zero; a zero correlation denominator, met after
      slope and offset have been set, leaves only the correlation at zero. */
  function FitFromSums(t: Sums, sqrt: real -> real): Fit {
    var dx := Discriminant(t.n, t.sxx, t.sx);
    if dx == 0.0 then Fit(0.0, 0.0, 0.0)
    else
      var cov := t.n * t.sxy - t.sx * t.sy;
      var slope := cov / dx;
      var offset := (t.sxx * t.sy - t.sx * t.sxy) / dx;
      var denominator := sqrt(dx) * sqrt(Discriminant(t.n, t.syy, t.sy));
      if denominator == 0.0 then Fit(0.0, slope, offset)
      else Fit(cov / denominator, slope, offset)
  }

  /** The correlation coefficient, slope and offset of the least-squares
      line through the points (a[i], b[i]); the lengths must agree. */
  function OverallCorrelation(a: seq<real>, b: seq<real>, sqrt: real -> real): (r: Result<Fit>)
    ensures r.Ok? <==> |a| == |b|
    ensures |a| == |b| && Constant(a) ==> r == Ok(Fit(0.0, 0.0, 0.0))
  {
    if |a| != |b| then Err("AssertionError: data sets differ in length")
    else
      SpreadZeroIffConstant(a);
      Ok(FitFromSums(SumsOf(a, b), sqrt))
  }

  /** Sums of points on the line y = s*x + o give back s and o whenever the
      slope denominator is not zero. */
  lemma FitOfLine(t: Sums, s: real, o: real, sqrt: real -> real)
    requires Discriminant(t.n, t.sxx, t.sx) != 0.0
    requires t.sy == s * t.sx + o * t.n && t.sxy == s * t.sxx + o * t.sx
    ensures FitFromSums(t, sqrt).slope == s
    ensures FitFromSums(t, sqrt).offset == o
  {
    FitFromSumsParts(t, sqrt);
    LineRecovered(t.n, t.sxx, t.sx, t.sxy, t.sy, s, o);
  }

  lemma FitFromSumsParts(t: Sums, sqrt: real -> real)
    requires Discriminant(t.n, t.sxx, t.sx) != 0.0
    ensures FitFromSums(t, sqrt).slope == (t.n * t.sxy - t.sx * t.sy) / Discriminant(t.n, t.sxx, t.sx)
    ensures FitFromSums(t, sqrt).offset == (t.sxx * t.sy - t.sx * t.sxy) / Discriminant(t.n, t.sxx, t.sx)
  {
  }

  lemma LineRecovered(n: real, sxx: real, sx: real, sxy: real, sy: real, s: real, o: real)
    requires Discriminant(n, sxx, sx) != 0.0
    requires sy == s * sx + o * n && sxy == s * sxx + o * sx
    ensures (n * sxy - sx * sy) / Discriminant(n, sxx, sx) == s
    ensures (sxx * sy - sx * sxy) / Discriminant(n, sxx, sx) == o
  {
    var dx := Discriminant(n, sxx, sx);
    FitAlgebra(n, sxx, sx, sxy, sy, dx, s, o);
    QuotientOfMultiple(n * sxy - sx * sy, s, dx);
    QuotientOfMultiple(sxx * sy - sx * sxy, o, dx);
  }

  /** The responses of an exact line sum to the line applied to the summed
      abscissae. */
  lemma {:induction false} LinearSums(a: seq<real>, b: seq<real>, s: real, o: real)
    requires |a| == |b|
    requires forall i :: 0 <= i < |a| ==> b[i] == s * a[i] + o
    ensures Sum(b) == s * Sum(a) + o * (|a| as real)
    decreases |a|
  {
    if |a| > 0 {
      var k := |a| - 1;
      LinearSums(a[..k], b[..k], s, o);
      assert b[k] == Product(s, a[k]) + o;
      LinearSumsLast(a, b, s, o);
    } else {
      LinearBase(Sum(b), Sum(a), |a| as real, s, o);
    }
  }

  lemma LinearSumsLast(a: seq<real>, b: seq<real>, s: real, o: real)
    requires |a| == |b| > 0
    requires b[|a| - 1] == Product(s, a[|a| - 1]) + o
    requires Sum(b[..|a| - 1]) == Product(s, Sum(a[..|a| - 1])) + Product(o, (|a| - 1) as real)
    ensures Sum(b) == Product(s, Sum(a)) + Product(o, |a| as real)
  {
    var k := |a| - 1;
    SumLast(a);
    SumLast(b);
    LineStep(Sum(b), Sum(b[..k]), Sum(a), Sum(a[..k]), |a| as real, k as real, a[k], b[k], s, o);
  }

  lemma LineStep(sb: real, sbOld: real, sa: real, saOld: real, n: real, nOld: real,
                 y: real, z: real, s: real, o: real)
    requires z == Product(s, y) + o
    requires sbOld == Product(s, saOld) + Product(o, nOld)
    requires sb == sbOld + z && sa == saOld + y && n == nOld + 1.0
    ensures sb == Product(s, sa) + Product(o, n)
  {
    SumStep(sb, sbOld, sa, saOld, n, nOld, y, z, s, o);
  }

  /** The cross products of an exact line, summed, are the line applied to
      the sums of squares and of abscissae. */
  predicate ProductsOnLine(a: seq<real>, b: seq<real>, s: real, o: real)
    requires |a| == |b|
  {
    SumProducts(a, b) == s * SumSquares(a) + o * Sum(a)
  }

  lemma {:induction false} LinearProducts(a: seq<real>, b: seq<real>, s: real, o: real)
    requires |a| == |b|
    requires forall i :: 0 <= i < |a| ==> b[i] == s * a[i] + o
    ensures ProductsOnLine(a, b, s, o)
    decreases |a|
  {
    if |a| > 0 {
      var k := |a| - 1;
      LinearProducts(a[..k], b[..k], s, o);
      LinearProductsLast(a, b, s, o);
    } else {
      LinearBase(SumProducts(a, b), SumSquares(a), Sum(a), s, o);
    }
  }

  lemma LinearProductsLast(a: seq<real>, b: seq<real>, s: real, o: real)
    requires |a| == |b| > 0
    requires b[|a| - 1] == s * a[|a| - 1] + o
    requires ProductsOnLine(a[..|a| - 1], b[..|a| - 1], s, o)
    ensures ProductsOnLine(a, b, s, o)
  {
    var k := |a| - 1;
    ProductsLast(a, b);
    SquaresLast(a);
    SumLast(a);
    ProductStep(SumProducts(a, b), SumProducts(a[..k], b[..k]), SumSquares(a), SumSquares(a[..k]),
                Sum(a), Sum(a[..k]), a[k], b[k], s, o);
  }

  /** Each running sum grows by the term of its last element. */
  lemma SumLast(a: seq<real>)
    requires |a| > 0
    ensures Sum(a) == Sum(a[..|a| - 1]) + a[|a| - 1]
  {
  }

  lemma SquaresLast(a: seq<real>)
    requires |a| > 0
    ensures SumSquares(a) == SumSquares(a[..|a| - 1]) + Product(a[|a| - 1], a[|a| - 1])
  {
  }

  lemma ProductsLast(a: seq<real>, b: seq<real>)
    requires |a| == |b| > 0
    ensures SumProducts(a, b) == SumProducts(a[..|a| - 1], b[..|a| - 1]) + Product(a[|a| - 1], b[|a| - 1])
  {
  }

  lemma DeviationsLast(a: seq<real>, x: real)
    requires |a| > 0
    ensures Deviations(a, x) == Deviations(a[..|a| - 1], x) + Product(a[|a| - 1] - x, a[|a| - 1] - x)
  {
  }

  /** Points on an exact line y = s*x + o with non-constant x give back the
      line's slope and offset. */
  lemma LinearDataRecovered(a: seq<real>, b: seq<real>, s: real, o: real, sqrt: real -> real)
    requires |a| == |b|
    requires !Constant(a)
    requires forall i :: 0 <= i < |a| ==> b[i] == s * a[i] + o
    ensures OverallCorrelation(a, b, sqrt).Ok?
    ensures OverallCorrelation(a, b, sqrt).value.slope == s
    ensures OverallCorrelation(a, b, sqrt).value.offset == o
  {
    SpreadZeroIffConstant(a);
    LinearSums(a, b, s, o);
    LinearProducts(a, b, s, o);
    var t := SumsOf(a, b);
    assert OverallCorrelation(a, b, sqrt) == Ok(FitFromSums(t, sqrt));
    FitOfLine(t, s, o, sqrt);
  }

  /** A constant response against varying x: the fit is the horizontal line
      through it, and the zero correlation denominator leaves the
      correlation at zero after slope and offset were set. */
  lemma ConstantResponseFit(a: seq<real>, b: seq<real>, c: real, sqrt: real -> real)
    requires |a| == |b|
    requires !Constant(a)
    requires forall i :: 0 <= i < |b| ==> b[i] == c
    requires sqrt(0.0) == 0.0
    ensures OverallCorrelation(a, b, sqrt) == Ok(Fit(0.0, 0.0, c))
  {
    LinearDataRecovered(a, b, 0.0, c, sqrt);
    assert Constant(b);
    SpreadZeroIffConstant(b);
    SpreadZeroIffConstant(a);
    var t := SumsOf(a, b);
    assert OverallCorrelation(a, b, sqrt) == Ok(FitFromSums(t, sqrt));
    FlatResponseHasNoCorrelation(t, sqrt);
  }

  lemma FlatResponseHasNoCorrelation(t: Sums, sqrt: real -> real)
    requires Discriminant(t.n, t.sxx, t.sx) != 0.0
    requires Discriminant(t.n, t.syy, t.sy) == 0.0
    requires sqrt(0.0) == 0.0
    ensures FitFromSums(t, sqrt).corr == 0.0
  {
    var dx := Discriminant(t.n, t.sxx, t.sx);
    assert sqrt(Discriminant(t.n, t.syy, t.sy)) == 0.0;
    assert sqrt(dx) * sqrt(Discriminant(t.n, t.syy, t.sy)) == 0.0;
  }
}

=== FILE: solving_iterator.dfy ===
/** The charge-flipping solver (`solving_iterator` in
    smtbx/ab_initio/charge_flipping.py) as an explicit state machine.  The
    source writes it as four Python generators (guessing delta, solving,
    polishing, finished) that share one flipping iterator; each yield hands
    back the iterator and names the generator to resume next.  Here every
    generator is a program counter, and `Resume` runs the named generator up
    to its next yield, or through one pass that does not yield, or reports
    that it is exhausted (Python's `StopIteration`). */
module SolvingIterator {
  import opened Common
  import opened DensityModification
  import opened ModificationIterator
  import OE = ObservableEvolution

  datatype Config = Config(
    deltaGuessingSubIterations: nat,
    initialFlippedFraction: real,
    yieldDuringDeltaGuessing: bool,
    maxSolvingIterations: nat,
    maxAttempts: nat,
    yieldSolvingInterval: nat,
    phaseTransitionTailLen: nat,
    polishingIterations: nat)

  /** The constructor's defaults. */
  const DefaultConfig := Config(10, 0.8, false, 500, 5, 10, 12, 5)

  /** The generator a yield names as the next state. */
  datatype Label = Guessing | Solving | Polishing | Finished

  /** Where each generator is suspended. */
  datatype GuessPc = GuessStart | GuessLoop | GuessAfterYield

  datatype SolvePc =
    | AttemptHead(attempt: nat)
    | IterationHead(attempt: nat, n: nat, r1: OE.Tracker, ratio: OE.Tracker)
    | IterationBody(attempt: nat, n: nat, r1: OE.Tracker, ratio: OE.Tracker)
    | SolveDone

  datatype OnceLeft = NotStarted | Done

  datatype Machine = Machine(
    cfg: Config,
    it: Iterate,
    attempts: seq<nat>,
    maxAttemptsExceeded: bool,
    guess: GuessPc,
    solve: SolvePc,
    polish: OnceLeft,
    finish: OnceLeft,
    state: Label)

  /** What resuming a generator produced. */
  datatype Outcome = Yield(snapshot: Iterate, next: Label) | Quiet | Exhausted

  /** The external numerics of the phase-transition test. */
  datatype Analysis = Analysis(fits: seq<real> -> OE.TailFits, sqrt: real -> real)

  function Init(cfg: Config, it: Iterate): (m: Machine)
    ensures m.attempts == [] && !m.maxAttemptsExceeded && m.state == Guessing
  {
    Machine(cfg, it, [], false, GuessStart, AttemptHead(0), NotStarted, NotStarted, Guessing)
  }

  /** SUPERFLIP's rule for the flipping threshold: shrink it by 0.9 when
      c_tot/c_flip is below 0.8, grow it by 1.07 when above 1, and accept it
      otherwise. */
  function RescaleDelta(delta: real, ratio: real): (r: (real, bool))
    ensures r.1 <==> 0.8 <= ratio <= 1.0
    ensures r.1 ==> r.0 == delta
    ensures ratio < 0.8 ==> r.0 == 0.9 * delta
    ensures ratio > 1.0 ==> r.0 == 1.07 * delta
    ensures (r.0 > 0.0 <==> delta > 0.0) && (r.0 < 0.0 <==> delta < 0.0)
    ensures ratio < 0.8 ==> Abs(r.0) < Abs(delta) || delta == 0.0
    ensures ratio > 1.0 ==> Abs(r.0) > Abs(delta) || delta == 0.0
  {
    if ratio < 0.8 then (delta * 0.9, false)
    else if ratio > 1.0 then (delta * 1.07, false)
    else (delta, true)
  }

  /** The flipping work of one guessing pass: the iterator advanced by the
      sub-iterations, with delta rescaled from the c_tot/c_flip it then
      shows, and whether that delta was accepted. */
  function RescaledPass(it: Iterate, num: Numerics, k: nat): (r: Result<(Iterate, bool)>)
    requires it.fObs.Valid()
    ensures r.Ok? <==> Advance(it, num, k).Ok?
                       && CTotOverCFlip(Advance(it, num, k).value.rho, Advance(it, num, k).value.delta).Ok?
    ensures r.Ok? ==>
              var adv := Advance(it, num, k).value;
              var ratio := CTotOverCFlip(adv.rho, adv.delta).value;
              adv.delta.Some?
              && r.value.0 == adv.(delta := Some(RescaleDelta(adv.delta.value, ratio).0))
              && r.value.1 == RescaleDelta(adv.delta.value, ratio).1
  {
    var advanced :- Advance(it, num, k);
    var ratio :- CTotOverCFlip(advanced.rho, advanced.delta);
    var (delta, ok) := RescaleDelta(advanced.delta.value, ratio);
    Ok((advanced.(delta := Some(delta)), ok))
  }

  /** One pass of `_guessing_delta`'s loop: run the sub-iterations, rescale
      delta from c_tot/c_flip, yield when accepted (naming the solver) or
      when asked to yield during guessing; otherwise restart at once.  After
      a yield the restart happens when the generator is resumed. */
  function GuessPass(m: Machine, num: Numerics): (r: Result<(Outcome, Machine)>)
    requires m.it.fObs.Valid()
    ensures r.Ok? <==> RescaledPass(m.it, num, m.cfg.deltaGuessingSubIterations).Ok?
    ensures r.Ok? ==> var (o, m') := r.value;
              m'.attempts == m.attempts && m'.solve == m.solve && m'.polish == m.polish && m'.finish == m.finish
              && m'.maxAttemptsExceeded == m.maxAttemptsExceeded && m'.cfg == m.cfg && m'.it.fObs == m.it.fObs
              && (o.Yield? ==> o.snapshot == m'.it && m'.guess == GuessAfterYield
                               && (o.next == Solving || (o.next == Guessing && m.cfg.yieldDuringDeltaGuessing)))
              && (!o.Yield? ==> o.Quiet? && m'.guess == GuessLoop)
    ensures r.Ok? ==> var (o, m') := r.value;
              var (it', accepted) := RescaledPass(m.it, num, m.cfg.deltaGuessingSubIterations).value;
              (o == Yield(it', Solving) <==> accepted)
              && (!accepted && m.cfg.yieldDuringDeltaGuessing ==> o == Yield(it', Guessing))
              && (o.Yield? ==> m'.it == it')
              && (!o.Yield? ==> m'.it == RestartFromScratch(it', num))
  {
    var (it, ok) :- RescaledPass(m.it, num, m.cfg.deltaGuessingSubIterations);
    if ok then Ok((Yield(it, Solving), m.(it := it, guess := GuessAfterYield)))
    else if m.cfg.yieldDuringDeltaGuessing then Ok((Yield(it, Guessing), m.(it := it, guess := GuessAfterYield)))
    else
      Ok((Quiet, m.(it := RestartFromScratch(it, num), guess := GuessLoop)))
  }

  /** The iterator the next guessing pass starts from: on the first pass,
      delta is the map's value at the initial flipped fraction; after a
      yield, the iterator is restarted first; after a quiet pass it was
      restarted already. */
  function PassStart(m: Machine, num: Numerics): (r: Result<Iterate>)
    ensures m.guess.GuessStart? ==>
              (r.Ok? <==> FlippedFractionAsDelta(m.it.rho, m.cfg.initialFlippedFraction).Ok?)
              && (r.Ok? ==> r.value == m.it.(delta := Some(FlippedFractionAsDelta(m.it.rho, m.cfg.initialFlippedFraction).value)))
    ensures m.guess.GuessLoop? ==> r == Ok(m.it)
    ensures m.guess.GuessAfterYield? ==> r == Ok(RestartFromScratch(m.it, num))
    ensures r.Ok? ==> r.value.fObs == m.it.fObs
  {
    match m.guess
    case GuessStart =>
      var delta :- FlippedFractionAsDelta(m.it.rho, m.cfg.initialFlippedFraction);
      Ok(m.it.(delta := Some(delta)))
    case GuessLoop => Ok(m.it)
    case GuessAfterYield => Ok(RestartFromScratch(m.it, num))
  }

  /** Resuming `_guessing_delta`: one pass from the iterator `PassStart`
      names. */
  function ResumeGuessing(m: Machine, num: Numerics): (r: Result<(Outcome, Machine)>)
    requires m.it.fObs.Valid()
    ensures r.Ok? ==> var (o, m') := r.value;
              m'.attempts == m.attempts && m'.solve == m.solve && m'.polish == m.polish && m'.finish == m.finish
              && m'.maxAttemptsExceeded == m.maxAttemptsExceeded && m'.cfg == m.cfg && m'.it.fObs == m.it.fObs
              && !o.Exhausted?
              && (o.Yield? ==> o.next == Solving || o.next == Guessing)
    ensures r.Ok? <==> PassStart(m, num).Ok? && GuessPass(m.(it := PassStart(m, num).value), num).Ok?
    ensures r.Ok? ==> r == GuessPass(m.(it := PassStart(m, num).value), num)
  {
    var start :- PassStart(m, num);
    GuessPass(m.(it := start), num)
  }

  /** Every guessing pass, accepted or not, leaves the next pass to start
      from a restarted flipping iterator holding the rescaled delta. */
  lemma GuessingRestartsEveryPass(m: Machine, num: Numerics)
    requires m.it.fObs.Valid() && ResumeGuessing(m, num).Ok?
    ensures PassStart(m, num).Ok?
    ensures RescaledPass(PassStart(m, num).value, num, m.cfg.deltaGuessingSubIterations).Ok?
    ensures var m' := ResumeGuessing(m, num).value.1;
            var (it', _) := RescaledPass(PassStart(m, num).value, num, m.cfg.deltaGuessingSubIterations).value;
            PassStart(m', num) == Ok(RestartFromScratch(it', num))
  {
  }

  /** The part of the solver state that a valid solving generator keeps:
      both trackers valid, with the configured tail length, holding one
      value per completed iteration. */
  predicate SolveTrackersValid(cfg: Config, pc: SolvePc) {
    match pc
    case IterationHead(a, n, r1, ratio) =>
      1 <= a && n <= cfg.maxSolvingIterations
      && OE.Valid(r1) && OE.Valid(ratio) && |r1.values| == n && |ratio.values| == n
      && r1.tailLen == cfg.phaseTransitionTailLen && ratio.tailLen == cfg.phaseTransitionTailLen
    case IterationBody(a, n, r1, ratio) =>
      1 <= a && n < cfg.maxSolvingIterations
      && OE.Valid(r1) && OE.Valid(ratio) && |r1.values| == n && |ratio.values| == n
      && r1.tailLen == cfg.phaseTransitionTailLen && ratio.tailLen == cfg.phaseTransitionTailLen
    case _ => true
  }

  /** What a solver step may do to the record of attempts: leave it, or
      append one iteration number, at least the tail length, while yielding
      to the polisher. */
  predicate AttemptsStep(cfg: Config, before: seq<nat>, o: Outcome, after: Machine) {
    after.attempts == before
    || (|after.attempts| == |before| + 1 && after.attempts[..|before|] == before
        && after.attempts[|before|] >= cfg.phaseTransitionTailLen && o == Yield(after.it, Polishing))
  }

  /** The frame and guarantees shared by every resumption of the solver. */
  predicate SolveStepOk(m: Machine, o: Outcome, m': Machine) {
    m'.cfg == m.cfg && m'.guess == m.guess && m'.polish == m.polish && m'.finish == m.finish
    && m'.state == m.state && m'.it.fObs == m.it.fObs && SolveTrackersValid(m'.cfg, m'.solve)
    && AttemptsStep(m.cfg, m.attempts, o, m')
    && (m'.maxAttemptsExceeded <==> m.maxAttemptsExceeded || o == Yield(m'.it, Finished))
    && (o.Yield? && o.next == Finished ==> m'.solve == SolveDone)
    && (m'.solve == SolveDone && !m.solve.SolveDone? ==> o == Yield(m'.it, Finished))
    && (o.Exhausted? <==> m.solve.SolveDone?)
  }

  /** At the head of the attempts loop: start a new attempt with empty
      trackers, or, when all are used, record that and name the finished
      state. */
  function SolveAttemptHead(m: Machine): (r: (Outcome, Machine))
    requires m.solve.AttemptHead?
    ensures SolveStepOk(m, r.0, r.1)
    ensures m.solve.attempt >= m.cfg.maxAttempts <==> r.0 == Yield(m.it, Finished)
  {
    var a := m.solve.attempt;
    if a < m.cfg.maxAttempts then
      var empty := OE.New(m.cfg.phaseTransitionTailLen);
      (Quiet, m.(solve := IterationHead(a + 1, 0, empty, empty)))
    else (Yield(m.it, Finished), m.(maxAttemptsExceeded := true, solve := SolveDone))
  }

  /** At the head of an attempt's iteration loop: take the next flipping
      step (yielding every `yield_solving_interval` steps), or, when the
      attempt's iterations are spent, name the delta guesser unless this was
      the last attempt. */
  function SolveIterationHead(m: Machine, num: Numerics): (r: Result<(Outcome, Machine)>)
    requires m.it.fObs.Valid() && m.solve.IterationHead? && SolveTrackersValid(m.cfg, m.solve)
    ensures r.Ok? ==> SolveStepOk(m, r.value.0, r.value.1)
    ensures r.Ok? ==> (r.value.0 == Yield(r.value.1.it, Guessing) <==>
                         m.solve.n == m.cfg.maxSolvingIterations && m.solve.attempt != m.cfg.maxAttempts)
    ensures m.solve.n < m.cfg.maxSolvingIterations ==>
              (r.Ok? <==> Next(m.it, num).Ok? && m.cfg.yieldSolvingInterval != 0)
    ensures r.Ok? && m.solve.n < m.cfg.maxSolvingIterations ==>
              r.value.1.it == Next(m.it, num).value
              && r.value.1.solve == IterationBody(m.solve.attempt, m.solve.n, m.solve.r1, m.solve.ratio)
              && (r.value.0.Yield? <==> m.solve.n % m.cfg.yieldSolvingInterval == 0)
              && (r.value.0.Yield? ==> r.value.0 == Yield(r.value.1.it, Solving))
    ensures r.Ok? && m.solve.n == m.cfg.maxSolvingIterations ==>
              r.value.1 == m.(solve := AttemptHead(m.solve.attempt))
  {
    var cfg := m.cfg;
    var IterationHead(a, n, r1, ratio) := m.solve;
    if n < cfg.maxSolvingIterations then
      var it :- Next(m.it, num);
      var m' := m.(it := it, solve := IterationBody(a, n, r1, ratio));
      if cfg.yieldSolvingInterval == 0 then Err("integer division or modulo by zero")
      else if n % cfg.yieldSolvingInterval == 0 then Ok((Yield(it, Solving), m'))
      else Ok((Quiet, m'))
    else if a != cfg.maxAttempts then
      if cfg.maxSolvingIterations == 0 then Err("local variable 'flipping' referenced before assignment")
      else Ok((Yield(m.it, Guessing), m.(solve := AttemptHead(a))))
    else Ok((Quiet, m.(solve := AttemptHead(a))))
  }

  /** The rest of an iteration: feed both trackers, and after the tail
      length, when their steepest falls are at most 4 apart, ask both for a
      phase transition (both are asked before their answers are combined, so
      an error from either ends the run); when both report one, record the
      iteration and name the polisher. */
  function SolveIterationBody(m: Machine, num: Numerics, an: Analysis): (r: Result<(Outcome, Machine)>)
    requires m.it.fObs.Valid() && m.solve.IterationBody? && SolveTrackersValid(m.cfg, m.solve)
    ensures r.Ok? ==> SolveStepOk(m, r.value.0, r.value.1)
    ensures r.Ok? && r.value.1.attempts != m.attempts ==>
              r.value.1.attempts == m.attempts + [m.solve.n] && m.solve.n >= m.cfg.phaseTransitionTailLen
  {
    var cfg := m.cfg;
    var IterationBody(a, n, r1, ratio) := m.solve;
    var r1Value :- R1Factor(m.it, num);
    var ratioValue :- CTotOverCFlip(m.it.rho, m.it.delta);
    var r1' := OE.Append(r1, r1Value);
    var ratio' := OE.Append(ratio, ratioValue);
    var m' := m.(solve := IterationHead(a, n + 1, r1', ratio'));
    DecideStepOk(m, r1', ratio', an);
    Decide(m.it, m', n, cfg.phaseTransitionTailLen, r1', ratio', an)
  }

  /** The transition test, run on trackers fed one more value each, is a
      well-behaved solver step. */
  lemma DecideStepOk(m: Machine, r1': OE.Tracker, ratio': OE.Tracker, an: Analysis)
    requires m.solve.IterationBody? && SolveTrackersValid(m.cfg, m.solve)
    requires var IterationBody(a, n, _, _) := m.solve;
             SolveTrackersValid(m.cfg, IterationHead(a, n + 1, r1', ratio'))
    ensures var IterationBody(a, n, _, _) := m.solve;
            var m' := m.(solve := IterationHead(a, n + 1, r1', ratio'));
            var r := Decide(m.it, m', n, m.cfg.phaseTransitionTailLen, r1', ratio', an);
            r.Ok? ==> SolveStepOk(m, r.value.0, r.value.1)
                      && (r.value.1.attempts != m.attempts ==>
                            r.value.1.attempts == m.attempts + [n] && n >= m.cfg.phaseTransitionTailLen)
  {
  }

  /** An iteration records an attempt, and names the polisher, exactly when
      both trackers, fed this iteration's R1 factor and c_tot/c_flip, show
      the transition; otherwise it moves on quietly to the next iteration. */
  lemma SolveIterationRecords(m: Machine, num: Numerics, an: Analysis)
    requires m.it.fObs.Valid() && m.solve.IterationBody? && SolveTrackersValid(m.cfg, m.solve)
    requires SolveIterationBody(m, num, an).Ok?
    ensures R1Factor(m.it, num).Ok? && CTotOverCFlip(m.it.rho, m.it.delta).Ok?
    ensures var r := SolveIterationBody(m, num, an).value;
            var r1' := OE.Append(m.solve.r1, R1Factor(m.it, num).value);
            var ratio' := OE.Append(m.solve.ratio, CTotOverCFlip(m.it.rho, m.it.delta).value);
            var seen := TransitionSeen(m.solve.n, m.cfg.phaseTransitionTailLen, r1', ratio', an);
            r.1.solve == IterationHead(m.solve.attempt, m.solve.n + 1, r1', ratio')
            && (r.1.attempts != m.attempts <==> seen)
            && (seen ==> r.0 == Yield(m.it, Polishing) && r.1.attempts == m.attempts + [m.solve.n])
            && (!seen ==> r.0.Quiet?)
  {
    var r1' := OE.Append(m.solve.r1, R1Factor(m.it, num).value);
    var ratio' := OE.Append(m.solve.ratio, CTotOverCFlip(m.it.rho, m.it.delta).value);
    var m' := m.(solve := IterationHead(m.solve.attempt, m.solve.n + 1, r1', ratio'));
    DecideRecords(m.it, m', m.solve.n, m.cfg.phaseTransitionTailLen, r1', ratio', an);
  }

  /** The transition test at the end of an iteration, on the fed trackers:
      `m'` is the machine at the head of the next iteration. */
  function Decide(it: Iterate, m': Machine, n: nat, tailLen: nat, r1: OE.Tracker, ratio: OE.Tracker, an: Analysis)
    : (r: Result<(Outcome, Machine)>)
    requires OE.Valid(r1) && OE.Valid(ratio)
    ensures r.Ok? ==> r.value == (Quiet, m')
                      || (n >= tailLen && r.value == (Yield(it, Polishing), m'.(attempts := m'.attempts + [n])))
    ensures n >= tailLen && r1.minDiffIndex.Some? && ratio.minDiffIndex.Some?
            && Abs(r1.minDiffIndex.value as real - ratio.minDiffIndex.value as real) <= 4.0 ==>
              (r.Err? <==> OE.HadPhaseTransition(r1, an.fits, an.sqrt).Err?
                           || OE.HadPhaseTransition(ratio, an.fits, an.sqrt).Err?)
  {
    if n < tailLen then Ok((Quiet, m'))
    else if r1.minDiffIndex.None? || ratio.minDiffIndex.None? then
      Err("unsupported operand type(s) for -: 'NoneType' and 'NoneType'")
    else if Abs(r1.minDiffIndex.value as real - ratio.minDiffIndex.value as real) > 4.0 then Ok((Quiet, m'))
    else
      var t1 :- OE.HadPhaseTransition(r1, an.fits, an.sqrt);
      var t2 :- OE.HadPhaseTransition(ratio, an.fits, an.sqrt);
      if t1 && t2 then Ok((Yield(it, Polishing), m'.(attempts := m'.attempts + [n])))
      else Ok((Quiet, m'))
  }

  lemma DecideRecords(it: Iterate, m': Machine, n: nat, tailLen: nat, r1: OE.Tracker, ratio: OE.Tracker, an: Analysis)
    requires OE.Valid(r1) && OE.Valid(ratio)
    requires Decide(it, m', n, tailLen, r1, ratio, an).Ok?
    ensures var r := Decide(it, m', n, tailLen, r1, ratio, an).value;
            (TransitionSeen(n, tailLen, r1, ratio, an) ==> r == (Yield(it, Polishing), m'.(attempts := m'.attempts + [n])))
            && (!TransitionSeen(n, tailLen, r1, ratio, an) ==> r == (Quiet, m'))
  {
  }

  /** What makes the solver record an attempt: past the tail length, the
      steepest falls of the R1 and c_tot/c_flip series at most 4 apart, and
      both reporting a phase transition. */
  predicate TransitionSeen(n: nat, tailLen: nat, r1: OE.Tracker, ratio: OE.Tracker, an: Analysis)
    requires OE.Valid(r1) && OE.Valid(ratio)
  {
    n >= tailLen && r1.minDiffIndex.Some? && ratio.minDiffIndex.Some?
    && Abs(r1.minDiffIndex.value as real - ratio.minDiffIndex.value as real) <= 4.0
    && OE.HadPhaseTransition(r1, an.fits, an.sqrt) == Ok(true)
    && OE.HadPhaseTransition(ratio, an.fits, an.sqrt) == Ok(true)
  }

  /** Resuming `_solving`.  An attempt runs up to `max_solving_iterations`
      flipping steps; an attempt that ends without the loop being left names
      the delta guesser, except the last; after the last attempt the
      generator records that the attempts are exhausted and names the
      finished state; resumed after that, it is exhausted. */
  function ResumeSolving(m: Machine, num: Numerics, an: Analysis): (r: Result<(Outcome, Machine)>)
    requires m.it.fObs.Valid() && SolveTrackersValid(m.cfg, m.solve)
    ensures r.Ok? ==> SolveStepOk(m, r.value.0, r.value.1)
  {
    match m.solve
    case SolveDone => Ok((Exhausted, m))
    case AttemptHead(_) => Ok(SolveAttemptHead(m))
    case IterationHead(_, _, _, _) => SolveIterationHead(m, num)
    case IterationBody(_, _, _, _) => SolveIterationBody(m, num, an)
  }

  /** Resuming `_polishing`: it builds a low-density-elimination iterator
      from the flipping iterator's amplitudes and phases, with F(000) zero
      and rho_c fixed at the current delta, runs it, and yields the
      flipping iterator itself, naming the finished state. */
  function ResumePolishing(m: Machine, num: Numerics): (r: Result<(Outcome, Machine)>)
    requires m.it.fObs.Valid()
    ensures r.Ok? ==> var (o, m') := r.value;
              m' == m.(polish := Done)
              && (m.polish.NotStarted? ==> o == Yield(m.it, Finished))
              && (m.polish.Done? ==> o.Exhausted?)
  {
    match m.polish
    case Done => Ok((Exhausted, m))
    case NotStarted =>
      if m.it.delta.None? then Err("low_density_elimination: rho_c is None")
      else
        var _ :- Polish(m.it, num, m.cfg.polishingIterations);
        Ok((Yield(m.it, Finished), m.(polish := Done)))
  }

  /** The low-density-elimination run of `_polishing`, whose result the
      generator does not keep. */
  function Polish(it: Iterate, num: Numerics, iterations: nat): Result<Iterate>
    requires it.fObs.Valid() && it.delta.Some?
  {
    match Create(LowDensity(FixedThreshold(it.delta.value)), Some(it.fObs), Some(it.fCalc), Some(0.0), None, num)
    case Ok(polisher) => Advance(polisher, num, iterations)
    case Err(e) => Err(e)
  }

  /** Resuming `_finished`: one yield of the flipping iterator, then
      exhausted. */
  function ResumeFinished(m: Machine): (r: (Outcome, Machine))
    ensures r.1 == m.(finish := Done)
    ensures m.finish.NotStarted? ==> r.0 == Yield(m.it, Finished)
    ensures m.finish.Done? ==> r.0.Exhausted?
  {
    match m.finish
    case Done => (Exhausted, m)
    case NotStarted => (Yield(m.it, Finished), m.(finish := Done))
  }

  /** Resume the generator `which`. */
  function Resume(m: Machine, which: Label, num: Numerics, an: Analysis): (r: Result<(Outcome, Machine)>)
    requires m.it.fObs.Valid() && SolveTrackersValid(m.cfg, m.solve)
    ensures r.Ok? ==> r.value.1.it.fObs == m.it.fObs && r.value.1.cfg == m.cfg
                      && SolveTrackersValid(r.value.1.cfg, r.value.1.solve)
  {
    match which
    case Guessing => ResumeGuessing(m, num)
    case Solving => ResumeSolving(m, num, an)
    case Polishing => ResumePolishing(m, num)
    case Finished => Ok(ResumeFinished(m))
  }

  /** Recording a yield's label as the new state, as `self.state` is. */
  function Record(r: (Outcome, Machine)): (m: Machine) {
    if r.0.Yield? then r.1.(state := r.0.next) else r.1
  }

  /** One step of the intended driver: resume the generator the last yield
      named. */
  function Step(m: Machine, num: Numerics, an: Analysis): (r: Result<(Outcome, Machine)>)
    requires m.it.fObs.Valid() && SolveTrackersValid(m.cfg, m.solve)
    ensures r.Ok? ==> r.value.1.it.fObs == m.it.fObs && r.value.1.cfg == m.cfg
                      && SolveTrackersValid(r.value.1.cfg, r.value.1.solve)
    ensures r.Ok? && r.value.0.Yield? ==> r.value.1.state == r.value.0.next
  {
    var res :- Resume(m, m.state, num, an);
    Ok((res.0, Record(res)))
  }

  /** One step of `__iter__` as written: `for result, self.state in
      self.state` evaluates `self.state` once, so every step resumes the
      delta-guessing generator, whatever the last yield named. */
  function IterStepAsWritten(m: Machine, num: Numerics, an: Analysis): (r: Result<(Outcome, Machine)>)
    requires m.it.fObs.Valid() && SolveTrackersValid(m.cfg, m.solve)
    ensures r.Ok? ==> r.value.1.it.fObs == m.it.fObs && r.value.1.cfg == m.cfg
                      && SolveTrackersValid(r.value.1.cfg, r.value.1.solve)
    ensures r.Ok? ==> r.value.1.attempts == m.attempts && r.value.1.maxAttemptsExceeded == m.maxAttemptsExceeded
                      && r.value.1.solve == m.solve && r.value.1.polish == m.polish && r.value.1.finish == m.finish
  {
    var res :- Resume(m, Guessing, num, an);
    Ok((res.0, Record(res)))
  }

  /** `k` steps of `__iter__` as written, stopping at the first error.
      Whatever the steps yield, the solver, polisher and finisher states and
      the record of attempts stay as they were. */
  function IterAsWritten(m: Machine, num: Numerics, an: Analysis, k: nat): (r: Result<Machine>)
    requires m.it.fObs.Valid() && SolveTrackersValid(m.cfg, m.solve)
    ensures r.Ok? ==> r.value.it.fObs == m.it.fObs && r.value.cfg == m.cfg
                      && SolveTrackersValid(r.value.cfg, r.value.solve)
    ensures r.Ok? ==> r.value.attempts == m.attempts && r.value.maxAttemptsExceeded == m.maxAttemptsExceeded
                      && r.value.solve == m.solve && r.value.polish == m.polish && r.value.finish == m.finish
  {
    if k == 0 then Ok(m)
    else
      match IterAsWritten(m, num, an, k - 1)
      case Err(e) => Err(e)
      case Ok(prev) =>
        match IterStepAsWritten(prev, num, an)
        case Err(e) => Err(e)
        case Ok(res) => Ok(res.1)
  }

  /** As written, iterating the solver never leaves delta guessing: however
      many steps are taken, the solving, polishing and finished generators
      are never resumed, no attempt is recorded and the attempts are never
      reported exhausted. */
  lemma IterAsWrittenNeverSolves(cfg: Config, it: Iterate, num: Numerics, an: Analysis, k: nat)
    requires it.fObs.Valid()
    ensures var r := IterAsWritten(Init(cfg, it), num, an, k);
            r.Ok? ==> r.value.attempts == [] && !r.value.maxAttemptsExceeded
                      && r.value.solve == AttemptHead(0) && r.value.polish == NotStarted && r.value.finish == NotStarted
  {
  }


  /** The polisher's result is discarded: polishing hands back the flipping
      iterator exactly as it was before polishing. */
  lemma PolishingYieldsUnpolished(m: Machine, num: Numerics, an: Analysis)
    requires m.it.fObs.Valid() && SolveTrackersValid(m.cfg, m.solve)
    requires m.state == Polishing && m.polish == NotStarted
    ensures var r := Step(m, num, an);
            r.Ok? ==> r.value.0 == Yield(m.it, Finished) && r.value.1.it == m.it
  {
  }

  /** Once the attempts are used up, the next resumption of the solver
      records that and names the finished state. */
  lemma AttemptsExhausted(m: Machine, num: Numerics, an: Analysis)
    requires m.it.fObs.Valid() && SolveTrackersValid(m.cfg, m.solve)
    requires m.state == Solving && m.solve == AttemptHead(m.cfg.maxAttempts)
    ensures Step(m, num, an) == Ok((Yield(m.it, Finished), m.(maxAttemptsExceeded := true, solve := SolveDone, state := Finished)))
  {
  }

  /** The invariant of the intended driver: the trackers are valid; the
      iterate keeps valid amplitudes; once the state is polishing or
      finished the solver is never resumed again, so at most one phase
      transition is ever recorded, and each recorded iteration is at least
      the tail length. */
  predicate Inv(m: Machine) {
    m.it.fObs.Valid() && SolveTrackersValid(m.cfg, m.solve)
    && |m.attempts| <= 1
    && (|m.attempts| == 1 ==> m.state == Polishing || m.state == Finished)
    && (forall i :: 0 <= i < |m.attempts| ==> m.attempts[i] >= m.cfg.phaseTransitionTailLen)
    && (m.maxAttemptsExceeded ==> m.solve == SolveDone && m.attempts == [])
    && (m.solve == SolveDone ==> m.state == Finished)
  }

  lemma InitInv(cfg: Config, it: Iterate)
    requires it.fObs.Valid()
    ensures Inv(Init(cfg, it))
  {
  }

  /** Every step of the intended driver keeps the invariant, and the
      record of attempts only ever grows. */
  lemma StepKeepsInv(m: Machine, num: Numerics, an: Analysis)
    requires Inv(m)
    ensures var r := Step(m, num, an);
            r.Ok? ==> Inv(r.value.1) && m.attempts <= r.value.1.attempts
  {
    var r := Step(m, num, an);
    if r.Ok? {
      var res := Resume(m, m.state, num, an);
      assert res.Ok? && r.value.1 == Record(res.value);
      match m.state
      case Guessing => GuessingKeepsInv(m, num, res.value);
      case Solving => SolvingKeepsInv(m, num, an, res.value);
      case Polishing =>
      case Finished =>
    }
  }

  lemma GuessingKeepsInv(m: Machine, num: Numerics, res: (Outcome, Machine))
    requires Inv(m) && m.state == Guessing
    requires ResumeGuessing(m, num) == Ok(res)
    ensures Inv(Record(res)) && Record(res).attempts == m.attempts
  {
    var (o, m') := res;
    assert m'.attempts == m.attempts && m'.solve == m.solve;
    assert m.attempts == [];
    assert m.solve != SolveDone;
  }

  lemma SolvingKeepsInv(m: Machine, num: Numerics, an: Analysis, res: (Outcome, Machine))
    requires Inv(m) && m.state == Solving
    requires ResumeSolving(m, num, an) == Ok(res)
    ensures Inv(Record(res)) && m.attempts <= Record(res).attempts
  {
    SolveStepKeepsInv(m, res.0, res.1);
  }

  /** Any solver step that keeps the solver's frame keeps the invariant. */
  lemma SolveStepKeepsInv(m: Machine, o: Outcome, m': Machine)
    requires Inv(m) && m.state == Solving && SolveStepOk(m, o, m')
    ensures Inv(Record((o, m'))) && m.attempts <= m'.attempts
  {
    assert m.attempts == [];
    assert m.solve != SolveDone;
    var after := Record((o, m'));
    if m'.attempts != [] {
      assert o == Yield(m'.it, Polishing);
      assert after.state == Polishing;
    }
    if after.solve == SolveDone {
      assert o == Yield(m'.it, Finished);
    }
  }

}

=== FILE: sorting.dfy ===
/** Sorting as the source uses it: `flex.sort_permutation`, Python's
    `sorted`, and `sort()` on lists of rows.  An insertion sort on sequences
    stands for all of them; what the rest of the model relies on is stated
    in the contracts (ordered output, same multiset of elements) and in the
    order-statistic lemma below. */
module Sorting {

  predicate SortedBy<T>(s: seq<T>, key: T -> real) {
    forall i, j :: 0 <= i < j < |s| ==> key(s[i]) <= key(s[j])
  }

  predicate SortedAsc(s: seq<real>) {
    forall i, j :: 0 <= i < j < |s| ==> s[i] <= s[j]
  }

  /** Places `x` in front of the first element whose key is not smaller. */
  function InsertBy<T(==)>(x: T, s: seq<T>, key: T -> real): (r: seq<T>)
    requires SortedBy(s, key)
    ensures SortedBy(r, key)
    ensures multiset(r) == multiset(s) + multiset{x}
    ensures |r| == |s| + 1
    ensures r[0] == x || (|s| > 0 && r[0] == s[0])
  {
    if |s| == 0 then [x]
    else if key(x) <= key(s[0]) then
      ConsSorted(x, s, key);
      [x] + s
    else
      SortedByTail(s, key);
      var tail := InsertBy(x, s[1..], key);
      ConsSorted(s[0], tail, key);
      ConsMultiset(s, tail, x);
      [s[0]] + tail
  }

  lemma SortedByTail<T>(s: seq<T>, key: T -> real)
    requires SortedBy(s, key) && |s| > 0
    ensures SortedBy(s[1..], key)
    ensures forall j :: 0 <= j < |s| - 1 ==> key(s[0]) <= key(s[1..][j])
  {
    forall i, j | 0 <= i < j < |s| - 1
      ensures key(s[1..][i]) <= key(s[1..][j])
    {
      assert s[1..][i] == s[i + 1] && s[1..][j] == s[j + 1];
    }
    forall j | 0 <= j < |s| - 1
      ensures key(s[0]) <= key(s[1..][j])
    {
      assert s[1..][j] == s[j + 1];
    }
  }

  /** A head no greater than the first element of a sorted sequence keeps
      it sorted. */
  lemma ConsSorted<T>(h: T, s: seq<T>, key: T -> real)
    requires SortedBy(s, key)
    requires |s| > 0 ==> key(h) <= key(s[0])
    ensures SortedBy([h] + s, key)
  {
    var r := [h] + s;
    forall i, j | 0 <= i < j < |r|
      ensures key(r[i]) <= key(r[j])
    {
      assert r[j] == s[j - 1];
      if i > 0 {
        assert r[i] == s[i - 1];
      } else if j > 1 {
        assert key(s[0]) <= key(s[j - 1]);
      }
    }
  }

  lemma ConsMultiset<T>(s: seq<T>, tail: seq<T>, x: T)
    requires |s| > 0
    requires multiset(tail) == multiset(s[1..]) + multiset{x}
    ensures multiset([s[0]] + tail) == multiset(s) + multiset{x}
  {
    assert s == [s[0]] + s[1..];
  }

  function SortBy<T(==)>(s: seq<T>, key: T -> real): (r: seq<T>)
    ensures SortedBy(r, key)
    ensures multiset(r) == multiset(s)
    ensures |r| == |s|
  {
    if |s| == 0 then []
    else
      assert s == [s[0]] + s[1..];
      InsertBy(s[0], SortBy(s[1..], key), key)
  }

  /** Ascending sort of reals (`sorted(...)`, `flex.sorted`). */
  function SortReals(s: seq<real>): (r: seq<real>)
    ensures SortedAsc(r)
    ensures multiset(r) == multiset(s)
    ensures |r| == |s|
  {
    var r := SortBy(s, x => x);
    assert SortedBy(r, x => x);
    r
  }

  /** Number of elements strictly below `v`. */
  function CountLess(s: seq<real>, v: real): (n: nat)
    ensures n <= |s|
  {
    if |s| == 0 then 0 else (if s[0] < v then 1 else 0) + CountLess(s[1..], v)
  }

  /** Number of elements not above `v`. */
  function CountAtMost(s: seq<real>, v: real): (n: nat)
    ensures n <= |s|
  {
    if |s| == 0 then 0 else (if s[0] <= v then 1 else 0) + CountAtMost(s[1..], v)
  }

  lemma {:induction false} CountsAppend(a: seq<real>, b: seq<real>, v: real)
    ensures CountLess(a + b, v) == CountLess(a, v) + CountLess(b, v)
    ensures CountAtMost(a + b, v) == CountAtMost(a, v) + CountAtMost(b, v)
  {
    if |a| > 0 {
      assert (a + b)[1..] == a[1..] + b;
      CountsAppend(a[1..], b, v);
    } else {
      assert a + b == b;
    }
  }

  /** Removing one element changes the counts by that element's share. */
  lemma CountsRemove(s: seq<real>, k: nat, v: real)
    requires k < |s|
    ensures CountLess(s, v) == CountLess(s[..k] + s[k + 1..], v) + (if s[k] < v then 1 else 0)
    ensures CountAtMost(s, v) == CountAtMost(s[..k] + s[k + 1..], v) + (if s[k] <= v then 1 else 0)
  {
    assert s == s[..k] + ([s[k]] + s[k + 1..]);
    CountsAppend(s[..k], [s[k]] + s[k + 1..], v);
    CountsAppend([s[k]], s[k + 1..], v);
    CountsAppend(s[..k], s[k + 1..], v);
  }

  /** The counts depend only on the multiset of elements. */
  lemma {:induction false} CountsPermutation(a: seq<real>, b: seq<real>, v: real)
    requires multiset(a) == multiset(b)
    ensures CountLess(a, v) == CountLess(b, v)
    ensures CountAtMost(a, v) == CountAtMost(b, v)
    decreases |a|
  {
    if |a| == 0 {
      assert |b| == |multiset(b)| == 0;
    } else {
      assert a[0] in multiset(b) by {
        assert a[0] in multiset(a);
      }
      var k :| 0 <= k < |b| && b[k] == a[0];
      RemoveMatching(a, b, k);
      CountsPermutation(a[1..], b[..k] + b[k + 1..], v);
      CountsRemove(b, k, v);
    }
  }

  /** Taking the same element out of two permutations of each other leaves
      permutations of each other. */
  lemma RemoveMatching(a: seq<real>, b: seq<real>, k: nat)
    requires multiset(a) == multiset(b) && |a| > 0
    requires k < |b| && b[k] == a[0]
    ensures multiset(a[1..]) == multiset(b[..k] + b[k + 1..])
  {
    var rest := b[..k] + b[k + 1..];
    assert b == b[..k] + [b[k]] + b[k + 1..];
    assert multiset(b) == multiset(rest) + multiset{a[0]};
    assert a == [a[0]] + a[1..];
    assert multiset(a) == multiset(a[1..]) + multiset{a[0]};
    MultisetCancel(multiset(a[1..]), multiset(rest), a[0]);
  }

  lemma MultisetCancel(x: multiset<real>, y: multiset<real>, v: real)
    requires x + multiset{v} == y + multiset{v}
    ensures x == y
  {
    forall z
      ensures x[z] == y[z]
    {
      assert (x + multiset{v})[z] == (y + multiset{v})[z];
    }
  }

  lemma {:induction false} CountLessNone(s: seq<real>, v: real)
    requires forall i :: 0 <= i < |s| ==> v <= s[i]
    ensures CountLess(s, v) == 0
  {
    if |s| > 0 {
      CountLessNone(s[1..], v);
    }
  }

  lemma {:induction false} CountAtMostAll(s: seq<real>, v: real)
    requires forall i :: 0 <= i < |s| ==> s[i] <= v
    ensures CountAtMost(s, v) == |s|
  {
    if |s| > 0 {
      CountAtMostAll(s[1..], v);
    }
  }

  /** The element at position `k` of the ascending sort of `s` is the
      `k`-th order statistic of `s`: at most `k` elements lie strictly below
      it and more than `k` elements lie at or below it. */
  lemma OrderStatistic(s: seq<real>, k: nat)
    requires k < |s|
    ensures var v := SortReals(s)[k];
      v in s && CountLess(s, v) <= k && k < CountAtMost(s, v)
  {
    var t := SortReals(s);
    SortedPosition(t, k);
    CountsPermutation(s, t, t[k]);
    assert t[k] in multiset(s);
  }

  lemma SortedPosition(t: seq<real>, k: nat)
    requires SortedAsc(t) && k < |t|
    ensures CountLess(t, t[k]) <= k && k < CountAtMost(t, t[k])
  {
    SortedCountLess(t, k);
    SortedCountAtMost(t, k);
  }

  lemma SortedTail(t: seq<real>)
    requires SortedAsc(t) && |t| > 0
    ensures SortedAsc(t[1..])
  {
    forall i, j | 0 <= i < j < |t| - 1
      ensures t[1..][i] <= t[1..][j]
    {
      assert t[1..][i] == t[i + 1] && t[1..][j] == t[j + 1];
    }
  }

  lemma {:induction false} SortedCountLess(t: seq<real>, k: nat)
    requires SortedAsc(t) && k < |t|
    ensures CountLess(t, t[k]) <= k
    decreases k
  {
    if k == 0 {
      forall i | 0 <= i < |t[1..]|
        ensures t[0] <= t[1..][i]
      {
        assert t[1..][i] == t[i + 1];
      }
      CountLessNone(t[1..], t[0]);
    } else {
      SortedTail(t);
      assert t[1..][k - 1] == t[k];
      SortedCountLess(t[1..], k - 1);
    }
  }

  lemma {:induction false} SortedCountAtMost(t: seq<real>, k: nat)
    requires SortedAsc(t) && k < |t|
    ensures k < CountAtMost(t, t[k])
    decreases k
  {
    if k > 0 {
      SortedTail(t);
      assert t[1..][k - 1] == t[k];
      SortedCountAtMost(t[1..], k - 1);
    }
  }

}

=== FILE: text.dfy ===
/** String helpers with Python's meaning: `strip`, `startswith`,
    `endswith`, `join`, `index`, `replace`, `upper`/`lower` (ASCII only) and
    `str()` of a non-negative integer. */
module Text {
  import opened Common

  /** The characters Python's `str.strip()` removes from ASCII text. */
  predicate IsSpace(c: char) {
    c == ' ' || c == '\t' || c == '\n' || c == '\r' || c as int == 11 || c as int == 12
  }

  predicate StartsWith(s: string, prefix: string) {
    |prefix| <= |s| && s[..|prefix|] == prefix
  }

  predicate EndsWith(s: string, suffix: string) {
    |suffix| <= |s| && s[|s| - |suffix|..] == suffix
  }

  function StripLeft(s: string): (r: string)
    ensures |r| <= |s| && r == s[|s| - |r|..]
    ensures |r| > 0 ==> !IsSpace(r[0])
    ensures forall i :: 0 <= i < |s| - |r| ==> IsSpace(s[i])
  {
    if |s| > 0 && IsSpace(s[0]) then StripLeft(s[1..]) else s
  }

  function StripRight(s: string): (r: string)
    ensures |r| <= |s| && r == s[..|r|]
    ensures |r| > 0 ==> !IsSpace(r[|r| - 1])
    ensures forall i :: |r| <= i < |s| ==> IsSpace(s[i])
  {
    if |s| > 0 && IsSpace(s[|s| - 1]) then StripRight(s[..|s| - 1]) else s
  }

  /** `s.strip()`: the longest infix that neither starts nor ends with
      white space, obtained by removing only white space. */
  function Strip(s: string): (r: string)
    ensures |r| <= |s|
    ensures |r| > 0 ==> !IsSpace(r[0]) && !IsSpace(r[|r| - 1])
    ensures exists k :: OccursAt(s, r, k)
  {
    var l := StripLeft(s);
    var r := StripRight(l);
    assert r == s[|s| - |l|..][..|r|] == s[|s| - |l|..|s| - |l| + |r|];
    assert OccursAt(s, r, |s| - |l|);
    r
  }

  /** `sep.join(parts)`. */
  function JoinWith(parts: seq<string>, sep: string): string
  {
    if |parts| == 0 then ""
    else if |parts| == 1 then parts[0]
    else parts[0] + sep + JoinWith(parts[1..], sep)
  }

  /** Position of the first occurrence of `c`, as `str.index` finds it;
      `None` where `str.index` raises `ValueError`. */
  function IndexOf(s: string, c: char): (r: Option<nat>)
    ensures r.None? <==> c !in s
    ensures r.Some? ==> r.value < |s| && s[r.value] == c && c !in s[..r.value]
  {
    if |s| == 0 then None
    else if s[0] == c then Some(0)
    else
      match IndexOf(s[1..], c)
      case None => None
      case Some(i) =>
        assert s[..i + 1] == [s[0]] + s[1..][..i];
        Some(i + 1)
  }

  /** `s.replace(pattern, replacement)`: every non-overlapping occurrence,
      scanning from the left. */
  function Replace(s: string, pattern: string, replacement: string): string
    requires |pattern| > 0
  {
    if |s| < |pattern| then s
    else if s[..|pattern|] == pattern then replacement + Replace(s[|pattern|..], pattern, replacement)
    else [s[0]] + Replace(s[1..], pattern, replacement)
  }

  /** True when `pattern` occurs in `s` starting at position `i`. */
  predicate OccursAt(s: string, pattern: string, i: int) {
    0 <= i && i + |pattern| <= |s| && s[i..i + |pattern|] == pattern
  }

  /** A string in which the pattern never occurs is left unchanged. */
  lemma {:induction false} ReplaceAbsent(s: string, pattern: string, replacement: string)
    requires |pattern| > 0
    requires forall i :: !OccursAt(s, pattern, i)
    ensures Replace(s, pattern, replacement) == s
  {
    if |s| >= |pattern| {
      assert !OccursAt(s, pattern, 0);
      forall i
        ensures !OccursAt(s[1..], pattern, i)
      {
        if OccursAt(s[1..], pattern, i) {
          assert s[1..][i..i + |pattern|] == s[i + 1..i + 1 + |pattern|];
          assert OccursAt(s, pattern, i + 1);
        }
      }
      ReplaceAbsent(s[1..], pattern, replacement);
      assert s == [s[0]] + s[1..];
    }
  }

  function UpperChar(c: char): char {
    if 'a' <= c <= 'z' then (c as int - 32) as char else c
  }

  function LowerChar(c: char): char {
    if 'A' <= c <= 'Z' then (c as int + 32) as char else c
  }

  function Upper(s: string): (r: string)
    ensures |r| == |s| && forall i :: 0 <= i < |s| ==> r[i] == UpperChar(s[i])
  {
    seq(|s|, i requires 0 <= i < |s| => UpperChar(s[i]))
  }

  function Lower(s: string): (r: string)
    ensures |r| == |s| && forall i :: 0 <= i < |s| ==> r[i] == LowerChar(s[i])
  {
    seq(|s|, i requires 0 <= i < |s| => LowerChar(s[i]))
  }

  function Digit(d: nat): (c: char)
    requires d < 10
    ensures '0' <= c <= '9'
  {
    ('0' as int + d) as char
  }

  /** `str(n)` for a non-negative integer: its decimal digits, no leading zero. */
  function NatToString(n: nat): (r: string)
    ensures |r| > 0
    ensures forall i :: 0 <= i < |r| ==> '0' <= r[i] <= '9'
    ensures |r| > 1 ==> r[0] != '0'
  {
    if n < 10 then [Digit(n)] else NatToString(n / 10) + [Digit(n % 10)]
  }

  /** Reading decimal digits back, most significant first. */
  function DigitsValue(s: string): nat
    requires forall i :: 0 <= i < |s| ==> '0' <= s[i] <= '9'
  {
    if |s| == 0 then 0 else 10 * DigitsValue(s[..|s| - 1]) + (s[|s| - 1] as int - '0' as int)
  }

  /** `str` of a non-negative integer loses nothing: the digits read back
      to the same number. */
  lemma {:induction false} NatToStringRoundTrip(n: nat)
    ensures DigitsValue(NatToString(n)) == n
  {
    if n >= 10 {
      NatToStringRoundTrip(n / 10);
      var r := NatToString(n);
      assert r[..|r| - 1] == NatToString(n / 10);
    }
  }

  /** `s.split(c)` for a one-character separator: the pieces between
      separators, always at least one. */
  function Split(s: string, c: char): (r: seq<string>)
    ensures |r| > 0
  {
    if |s| == 0 then [""]
    else
      var rest := Split(s[1..], c);
      if s[0] == c then [""] + rest else [[s[0]] + rest[0]] + rest[1..]
  }

  lemma {:induction false} SplitWithoutSeparator(a: string, c: char)
    requires c !in a
    ensures Split(a, c) == [a]
  {
    if |a| > 0 {
      SplitWithoutSeparator(a[1..], c);
      assert a == [a[0]] + a[1..];
    }
  }

  lemma {:induction false} SplitAfterFirst(a: string, b: string, c: char)
    requires c !in a
    ensures Split(a + [c] + b, c) == [a] + Split(b, c)
  {
    var s := a + [c] + b;
    if |a| == 0 {
      assert s[1..] == b;
    } else {
      assert s[1..] == a[1..] + [c] + b;
      SplitAfterFirst(a[1..], b, c);
      assert [a[0]] + a[1..] == a;
    }
  }

  /** Splitting undoes joining, as long as no part contains the separator. */
  lemma {:induction false} SplitJoin(parts: seq<string>, c: char)
    requires |parts| > 0
    requires forall k :: 0 <= k < |parts| ==> c !in parts[k]
    ensures Split(JoinWith(parts, [c]), c) == parts
  {
    if |parts| == 1 {
      SplitWithoutSeparator(parts[0], c);
    } else {
      SplitJoin(parts[1..], c);
      SplitAfterFirst(parts[0], JoinWith(parts[1..], [c]), c);
      assert parts == [parts[0]] + parts[1..];
    }
  }

  /** The text of `s` with every white-space character removed. */
  function NoSpace(s: string): (r: string)
    ensures |r| <= |s|
    ensures forall i :: 0 <= i < |r| ==> !IsSpace(r[i])
  {
    if |s| == 0 then ""
    else (if IsSpace(s[0]) then "" else [s[0]]) + NoSpace(s[1..])
  }

  lemma {:induction false} NoSpaceAppend(a: string, b: string)
    ensures NoSpace(a + b) == NoSpace(a) + NoSpace(b)
  {
    if |a| > 0 {
      var head := if IsSpace(a[0]) then "" else [a[0]];
      assert (a + b)[0] == a[0];
      assert (a + b)[1..] == a[1..] + b;
      NoSpaceAppend(a[1..], b);
      calc {
        NoSpace(a + b);
        head + NoSpace(a[1..] + b);
        head + (NoSpace(a[1..]) + NoSpace(b));
        (head + NoSpace(a[1..])) + NoSpace(b);
      }
    } else {
      assert a + b == b;
    }
  }

  lemma {:induction false} NoSpaceOfSpaces(s: string)
    requires forall i :: 0 <= i < |s| ==> IsSpace(s[i])
    ensures NoSpace(s) == ""
  {
    if |s| > 0 {
      NoSpaceOfSpaces(s[1..]);
    }
  }

  /** Stripping removes white space only. */
  lemma NoSpaceStrip(s: string)
    ensures NoSpace(Strip(s)) == NoSpace(s)
  {
    var l := StripLeft(s);
    NoSpaceStripLeft(s);
    NoSpaceStripRight(l);
  }

  lemma NoSpaceStripLeft(s: string)
    ensures NoSpace(StripLeft(s)) == NoSpace(s)
  {
    var l := StripLeft(s);
    var spaces := s[..|s| - |l|];
    assert s == spaces + l;
    NoSpaceOfSpaces(spaces);
    NoSpaceAppend(spaces, l);
  }

  lemma NoSpaceStripRight(s: string)
    ensures NoSpace(StripRight(s)) == NoSpace(s)
  {
    var r := StripRight(s);
    var spaces := s[|r|..];
    assert s == r + spaces;
    NoSpaceOfSpaces(spaces);
    NoSpaceAppend(r, spaces);
  }

  /** A prefix none of whose characters can start the pattern passes
      through `replace` untouched. */
  lemma {:induction false} ReplaceKeepsPrefix(p: string, t: string, pattern: string, replacement: string)
    requires |pattern| > 0
    requires forall i :: 0 <= i < |p| ==> p[i] != pattern[0]
    ensures Replace(p + t, pattern, replacement) == p + Replace(t, pattern, replacement)
  {
    if |p| > 0 {
      var s := p + t;
      assert s[0] == p[0] && s[1..] == p[1..] + t;
      ReplaceSkipsHead(s, pattern, replacement);
      ReplaceKeepsPrefix(p[1..], t, pattern, replacement);
      assert [p[0]] + (p[1..] + Replace(t, pattern, replacement)) == p + Replace(t, pattern, replacement);
    } else {
      assert p + t == t;
    }
  }

  /** A first character that cannot start the pattern is copied through. */
  lemma ReplaceSkipsHead(s: string, pattern: string, replacement: string)
    requires |pattern| > 0 && |s| > 0 && s[0] != pattern[0]
    ensures Replace(s, pattern, replacement) == [s[0]] + Replace(s[1..], pattern, replacement)
  {
    if |s| >= |pattern| {
      assert s[..|pattern|][0] != pattern[0];
    } else {
      assert Replace(s[1..], pattern, replacement) == s[1..];
      assert [s[0]] + s[1..] == s;
    }
  }

  /** A string starting with `p` starts with every prefix of `p`. */
  lemma StartsWithShorter(s: string, p: string, q: string)
    requires StartsWith(p, q)
    ensures StartsWith(s, p) ==> StartsWith(s, q)
  {
    if StartsWith(s, p) {
      assert s[..|q|] == s[..|p|][..|q|];
    }
  }

  /** A string starting with `p` agrees with `p` at each of its positions. */
  lemma StartsWithAt(s: string, p: string, i: nat)
    requires i < |p|
    ensures StartsWith(s, p) ==> |s| > i && s[i] == p[i]
  {
    if StartsWith(s, p) {
      assert s[..|p|][i] == s[i];
    }
  }
}

=== FILE: timepix_su.dfy ===
/** The SMV format classes for the Stockholm University Timepix electron
    detector (dxtbx/format/FormatSMVTimePix_SU.py): header recognition of the
    base class and of its 512x512 and 516x516 variants, the pixel-to-mm
    conversion that accounts for the triple-width outer pixels of each
    chip, the detector frame and the four panels of the 512x512 model, the
    split of its raw data into panels, and the 516x516 single-panel model.

    Reading the header and the pixel bytes, float parsing and the date in
    the scan model are not part of this model: header values arrive as
    strings in a map, parsed values as numbers, pixels as integers. */
module TimePixSU {
  import opened Common
  import Text
  import opened Images

  type Header = map<string, string>

  function Get(h: Header, key: string, default: string): string {
    if key in h then h[key] else default
  }

  /** The header items the base class needs. */
  const WantedHeaderItems: seq<string> := [
    "BEAM_CENTER_X", "BEAM_CENTER_Y", "DISTANCE", "WAVELENGTH", "PIXEL_SIZE",
    "OSC_START", "OSC_RANGE", "PHI", "SIZE1", "SIZE2", "BYTE_ORDER", "DETECTOR_SN"]

  function AllPresent(h: Header, items: seq<string>): (r: bool)
    ensures r <==> forall i :: 0 <= i < |items| ==> items[i] in h
  {
    if |items| == 0 then true else items[0] in h && AllPresent(h, items[1..])
  }

  /** `FormatSMVTimePix_SU.understand`: the beamline, upper-cased, is
      TIMEPIX_SU and all twelve wanted items are present. */
  function Understand(h: Header): (r: bool)
    ensures r <==> (Text.Upper(Get(h, "BEAMLINE", "")) == "TIMEPIX_SU"
      && forall k :: k in WantedHeaderItems ==> k in h)
  {
    Text.Upper(Get(h, "BEAMLINE", "")) == "TIMEPIX_SU" && AllPresent(h, WantedHeaderItems)
  }

  /** The 512x512 variant: 55 micron pixels and both sizes "512".  A missing
      item raises `KeyError`, an unreadable pixel size `ValueError`;
      `toFloat` is Python's `float()`. */
  function Understand512(h: Header, toFloat: string -> Option<real>): (r: Result<bool>)
    ensures r == Ok(true) <==>
      "PIXEL_SIZE" in h && toFloat(h["PIXEL_SIZE"]) == Some(0.055)
      && "SIZE1" in h && h["SIZE1"] == "512" && "SIZE2" in h && h["SIZE2"] == "512"
    ensures r.Err? <==>
      "PIXEL_SIZE" !in h || toFloat(h["PIXEL_SIZE"]).None?
      || (toFloat(h["PIXEL_SIZE"]) == Some(0.055)
          && ("SIZE1" !in h || (h["SIZE1"] == "512" && "SIZE2" !in h)))
  {
    if "PIXEL_SIZE" !in h then Err("KeyError: PIXEL_SIZE")
    else match toFloat(h["PIXEL_SIZE"])
      case None => Err("ValueError: PIXEL_SIZE")
      case Some(size) =>
        if size != 0.055 then Ok(false)
        else if "SIZE1" !in h then Err("KeyError: SIZE1")
        else if h["SIZE1"] != "512" then Ok(false)
        else if "SIZE2" !in h then Err("KeyError: SIZE2")
        else Ok(h["SIZE2"] == "512")
  }

  /** The 516x516 variant: both sizes "516". */
  function Understand516(h: Header): (r: Result<bool>)
    ensures r == Ok(true) <==> "SIZE1" in h && h["SIZE1"] == "516" && "SIZE2" in h && h["SIZE2"] == "516"
    ensures r.Err? <==> "SIZE1" !in h || (h["SIZE1"] == "516" && "SIZE2" !in h)
  {
    if "SIZE1" !in h then Err("KeyError: SIZE1")
    else if h["SIZE1"] != "516" then Ok(false)
    else if "SIZE2" !in h then Err("KeyError: SIZE2")
    else Ok(h["SIZE2"] == "516")
  }

  /** No header is claimed by both variants; once the base class has
      understood a header, the variants raise only on a pixel size that is
      not a number. */
  lemma VariantsExclusive(h: Header, toFloat: string -> Option<real>)
    ensures !(Understand512(h, toFloat) == Ok(true) && Understand516(h) == Ok(true))
    ensures Understand(h) ==> Understand516(h).Ok?
    ensures Understand(h) ==> (Understand512(h, toFloat).Err? <==> toFloat(h["PIXEL_SIZE"]).None?)
  {
    if Understand(h) {
      assert WantedHeaderItems[4] == "PIXEL_SIZE" && WantedHeaderItems[8] == "SIZE1" && WantedHeaderItems[9] == "SIZE2";
    }
  }

  // ---------------------------------------------------------------------
  // Pixels to millimetres

  /** `px_to_mm`: the distance in mm of pixel coordinate `px` from the
      detector edge along one axis of two chips of `panelSize` pixels each,
      where the first and last pixel of every chip are three pixels wide. */
  function PxToMm(px: real, pixelSize: real, panelSize: int): real {
    var p := panelSize as real;
    if !(px > 1.0) then px * pixelSize * 3.0
    else if !(px > p - 1.0) then pixelSize * 3.0 + (px - 1.0) * pixelSize
    else if !(px > p) then pixelSize * 3.0 + (p - 2.0) * pixelSize + (px - (p - 1.0)) * pixelSize * 3.0
    else if !(px > p + 1.0) then
      pixelSize * 3.0 + (p - 2.0) * pixelSize + pixelSize * 3.0 + (px - p) * pixelSize * 3.0
    else if px > 2.0 * p - 1.0 then
      pixelSize * 3.0 + (p - 2.0) * pixelSize + pixelSize * 3.0 + pixelSize * 3.0
      + (p - 2.0) * pixelSize + (px - (2.0 * p - 1.0)) * pixelSize * 3.0
    else
      pixelSize * 3.0 + (p - 2.0) * pixelSize + pixelSize * 3.0 + pixelSize * 3.0 + (px - p - 1.0) * pixelSize
  }

  /** The conversion is the pixel size times the conversion for unit
      pixels. */
  lemma PxToMmScales(px: real, pixelSize: real, panelSize: int)
    ensures PxToMm(px, pixelSize, panelSize) == pixelSize * PxToMm(px, 1.0, panelSize)
  {
  }

  /** For unit pixels and at least two pixels per chip the conversion never
      decreases. */
  lemma UnitPxToMmMonotone(a: real, b: real, panelSize: int)
    requires panelSize >= 2 && a <= b
    ensures PxToMm(a, 1.0, panelSize) <= PxToMm(b, 1.0, panelSize)
  {
  }

  lemma ScaleMonotone(s: real, x: real, y: real, sx: real, sy: real)
    requires s >= 0.0 && x <= y && sx == s * x && sy == s * y
    ensures sx <= sy
  {
  }

  /** `px_to_mm` never decreases, for any non-negative pixel size and at
      least two pixels per chip. */
  lemma PxToMmMonotone(a: real, b: real, pixelSize: real, panelSize: int)
    requires panelSize >= 2 && pixelSize >= 0.0 && a <= b
    ensures PxToMm(a, pixelSize, panelSize) <= PxToMm(b, pixelSize, panelSize)
  {
    var ua, ub := PxToMm(a, 1.0, panelSize), PxToMm(b, 1.0, panelSize);
    var sa, sb := PxToMm(a, pixelSize, panelSize), PxToMm(b, pixelSize, panelSize);
    assert sa == pixelSize * ua by { PxToMmScales(a, pixelSize, panelSize); }
    assert sb == pixelSize * ub by { PxToMmScales(b, pixelSize, panelSize); }
    assert ua <= ub by { UnitPxToMmMonotone(a, b, panelSize); }
    ScaleMonotone(pixelSize, ua, ub, sa, sb);
  }

  /** A pixel coordinate at or past the detector edge is a non-negative
      distance from it. */
  lemma PxToMmNonNegative(px: real, pixelSize: real, panelSize: int)
    requires panelSize >= 2 && pixelSize >= 0.0 && px >= 0.0
    ensures PxToMm(px, pixelSize, panelSize) >= 0.0
  {
    PxToMmMonotone(0.0, px, pixelSize, panelSize);
  }

  /** The value at each breakpoint: three pixel widths for the first outer
      pixel, one for every inner pixel, three for every later outer pixel. */
  lemma PxToMmBreakpoints(s: real, panelSize: int)
    requires panelSize >= 2
    ensures var p := panelSize as real;
      PxToMm(1.0, s, panelSize) == 3.0 * s
      && PxToMm(p - 1.0, s, panelSize) == 3.0 * s + (p - 2.0) * s
      && PxToMm(p, s, panelSize) == PxToMm(p - 1.0, s, panelSize) + 3.0 * s
      && PxToMm(p + 1.0, s, panelSize) == PxToMm(p, s, panelSize) + 3.0 * s
      && PxToMm(2.0 * p - 1.0, s, panelSize) == PxToMm(p + 1.0, s, panelSize) + (p - 2.0) * s
      && PxToMm(2.0 * p, s, panelSize) == PxToMm(2.0 * p - 1.0, s, panelSize) + 3.0 * s
  {
  }

  /** Continuity: at every breakpoint the formula of the segment that
      starts there gives the value the previous segment ended with. */
  lemma PxToMmContinuous(s: real, panelSize: int)
    requires panelSize >= 2
    ensures var p := panelSize as real;
      s * 3.0 + (1.0 - 1.0) * s == PxToMm(1.0, s, panelSize)
      && s * 3.0 + (p - 2.0) * s + ((p - 1.0) - (p - 1.0)) * s * 3.0 == PxToMm(p - 1.0, s, panelSize)
      && s * 3.0 + (p - 2.0) * s + s * 3.0 + (p - p) * s * 3.0 == PxToMm(p, s, panelSize)
      && s * 3.0 + (p - 2.0) * s + s * 3.0 + s * 3.0 + ((p + 1.0) - p - 1.0) * s == PxToMm(p + 1.0, s, panelSize)
      && s * 3.0 + (p - 2.0) * s + s * 3.0 + s * 3.0 + (p - 2.0) * s
         + ((2.0 * p - 1.0) - (2.0 * p - 1.0)) * s * 3.0 == PxToMm(2.0 * p - 1.0, s, panelSize)
  {
  }

  // ---------------------------------------------------------------------
  // Detector model of the 512x512 variant

  /** `int(e/2)` under true division. */
  function PanelSize(imageSize: int): (r: int)
    ensures imageSize >= 0 ==> r == imageSize / 2
  {
    Trunc(imageSize as real / 2.0)
  }

  /** `panel_size_mm` as written: one triple-width pixel and the inner
      pixels, where a chip has two triple-width pixels. */
  function PanelSizeMmAsWritten(s: real, panelSize: int): (r: real)
    ensures panelSize >= 2 ==> r + 3.0 * s == PxToMm(panelSize as real, s, panelSize)
  {
    s * 3.0 + (panelSize as real - 2.0) * s
  }

  /** The as-written panel width in mm falls three pixel widths short of
      `px_to_mm` across a whole chip; for 55 micron pixels and 256-pixel
      chips, 14.135 mm against 14.3 mm. */
  lemma PanelSizeMmShort(s: real, panelSize: int)
    requires panelSize >= 2
    ensures PanelSizeMmAsWritten(s, panelSize) == PxToMm(panelSize as real, s, panelSize) - 3.0 * s
    ensures PanelSizeMmAsWritten(0.055, 256) == 14.135 && PxToMm(256.0, 0.055, 256) == 14.3
  {
  }

  /** The chip width in mm, counting both triple-width pixels. */
  function PanelSizeMm(s: real, panelSize: int): (r: real)
    requires panelSize >= 2
    ensures r == PxToMm(panelSize as real, s, panelSize)
  {
    s * 6.0 + (panelSize as real - 2.0) * s
  }

  /** The corrected image width is `px_to_mm` across both chips. */
  lemma ImageSizeMmAgrees(s: real, panelSize: int)
    requires panelSize >= 2
    ensures 2.0 * PanelSizeMm(s, panelSize) == PxToMm(2.0 * panelSize as real, s, panelSize)
  {
  }

  const Fast := Vec3(1.0, 0.0, 0.0)
  const Slow := Vec3(0.0, -1.0, 0.0)

  /** The detector origin: the beam centre, `bxMm` along fast and `byMm`
      along slow from the origin, lies at `(0, 0, -dist)`. */
  function DetectorOrigin(dist: real, bxMm: real, byMm: real): (r: Vec3)
    ensures r == Vec3(-bxMm, byMm, -dist)
    ensures Add(Add(r, Scale(bxMm, Fast)), Scale(byMm, Slow)) == Vec3(0.0, 0.0, -dist)
  {
    Sub(Sub(Vec3(0.0, 0.0, -1.0 * dist), Scale(bxMm, Fast)), Scale(byMm, Slow))
  }

  /** One chip: its pixel extent without the outer pixels and the mm
      position of its first pixel. */
  datatype PanelData = PanelData(xmin: int, ymin: int, xmax: int, ymax: int, xminMm: real, yminMm: real)

  /** The four chips, row by row. */
  function PanelLayout(s: real): (r: seq<PanelData>)
    ensures |r| == 4
  {
    [PanelData(1, 1, 255, 255, 1.0 * 0.165, 1.0 * 0.165),
     PanelData(257, 1, 511, 255, 3.0 * 0.165 + (511.0 - 257.0) * s, 1.0 * 0.165),
     PanelData(1, 257, 255, 511, 1.0 * 0.165, 3.0 * 0.165 + (511.0 - 257.0) * s),
     PanelData(257, 257, 511, 511, 3.0 * 0.165 + (511.0 - 257.0) * s, 3.0 * 0.165 + (511.0 - 257.0) * s)]
  }

  predicate Disjoint(a: PanelData, b: PanelData) {
    a.xmax <= b.xmin || b.xmax <= a.xmin || a.ymax <= b.ymin || b.ymax <= a.ymin
  }

  /** The chips' pixel rectangles lie inside the 512x512 image and do not
      overlap; for 55 micron pixels each chip's mm position is `px_to_mm`
      of its first pixel. */
  lemma LayoutConsistent(s: real)
    ensures forall i :: 0 <= i < 4 ==>
      0 <= PanelLayout(s)[i].xmin < PanelLayout(s)[i].xmax <= 512
      && 0 <= PanelLayout(s)[i].ymin < PanelLayout(s)[i].ymax <= 512
    ensures forall i, j :: 0 <= i < j < 4 ==> Disjoint(PanelLayout(s)[i], PanelLayout(s)[j])
    ensures s == 0.055 ==> forall i :: 0 <= i < 4 ==>
      PanelLayout(s)[i].xminMm == PxToMm(PanelLayout(s)[i].xmin as real, s, 256)
      && PanelLayout(s)[i].yminMm == PxToMm(PanelLayout(s)[i].ymin as real, s, 256)
  {
  }

  datatype Panel = Panel(
    name: string,
    rawImageOffset: (int, int),
    imageSize: (int, int),
    pixelSize: (real, real),
    trustedRange: (int, int),
    origin: Vec3,
    thickness: real,
    material: string)

  function PanelName(i: nat): string {
    "Panel" + Text.NatToString(i)
  }

  lemma PanelNamesDistinct(i: nat, j: nat)
    requires i != j
    ensures PanelName(i) != PanelName(j)
  {
    if PanelName(i) == PanelName(j) {
      assert Text.NatToString(i) == PanelName(i)[5..];
      assert Text.NatToString(j) == PanelName(j)[5..];
      Text.NatToStringRoundTrip(i);
      Text.NatToStringRoundTrip(j);
    }
  }

  datatype Panels = Panels(panels: seq<Panel>, coords: map<string, (int, int, int, int)>)

  function MakePanel(i: nat, pd: PanelData, s: real): Panel {
    Panel(PanelName(i), (pd.xmin, pd.ymin), (pd.xmax - pd.xmin, pd.ymax - pd.ymin), (s, s),
          (-1, 65535), Vec3(pd.xminMm, pd.yminMm, 0.0), 0.3, "Si")
  }

  /** The panel loop of `_detector`: panel `i` is named `Panel<i>`, starts at
      its chip's mm position, spans the chip's extent, and its extent is
      recorded under its name. */
  method AddPanels(layout: seq<PanelData>, s: real) returns (r: Panels)
    ensures |r.panels| == |layout|
    ensures forall i :: 0 <= i < |layout| ==>
      r.panels[i].name == PanelName(i)
      && r.panels[i].imageSize == (layout[i].xmax - layout[i].xmin, layout[i].ymax - layout[i].ymin)
      && r.panels[i].rawImageOffset == (layout[i].xmin, layout[i].ymin)
      && r.panels[i].origin == Vec3(layout[i].xminMm, layout[i].yminMm, 0.0)
    ensures forall name :: name in r.coords <==> exists i :: 0 <= i < |layout| && name == PanelName(i)
    ensures forall i :: 0 <= i < |layout| ==>
      r.coords[PanelName(i)] == (layout[i].xmin, layout[i].ymin, layout[i].xmax, layout[i].ymax)
  {
    var panels: seq<Panel> := [];
    var coords: map<string, (int, int, int, int)> := map[];
    var k := 0;
    while k < |layout|
      invariant 0 <= k <= |layout|
      invariant |panels| == k
      invariant forall i :: 0 <= i < k ==> panels[i] == MakePanel(i, layout[i], s)
      invariant forall name :: name in coords <==> exists i :: 0 <= i < k && name == PanelName(i)
      invariant forall i :: 0 <= i < k ==>
        coords[PanelName(i)] == (layout[i].xmin, layout[i].ymin, layout[i].xmax, layout[i].ymax)
    {
      var pd := layout[k];
      forall i | 0 <= i < k
        ensures PanelName(i) != PanelName(k)
      {
        PanelNamesDistinct(i, k);
      }
      panels := panels + [MakePanel(k, pd, s)];
      coords := coords[PanelName(k) := (pd.xmin, pd.ymin, pd.xmax, pd.ymax)];
      k := k + 1;
    }
    r := Panels(panels, coords);
  }

  /** `raw_data[ymin:ymax, xmin:xmax]`. */
  function Slice(raw: seq<seq<int>>, ymin: nat, ymax: nat, xmin: nat, xmax: nat): (r: seq<seq<int>>)
    requires ymin <= ymax <= |raw| && xmin <= xmax
    requires forall y :: ymin <= y < ymax ==> xmax <= |raw[y]|
    ensures Grid(r, ymax - ymin, xmax - xmin)
    ensures forall i, j :: 0 <= i < ymax - ymin && 0 <= j < xmax - xmin ==> r[i][j] == raw[ymin + i][xmin + j]
  {
    seq(ymax - ymin, i requires 0 <= i < ymax - ymin => raw[ymin + i][xmin..xmax])
  }

  /** The panel lies within the 512x512 image. */
  predicate LayoutInside(pd: PanelData) {
    0 <= pd.xmin < pd.xmax <= 512 && 0 <= pd.ymin < pd.ymax <= 512
  }

  /** `block` holds the pixels of the panel `pd` covers, rows along slow
      and columns along fast. */
  predicate PanelBlock(block: seq<seq<int>>, raw: seq<seq<int>>, pd: PanelData)
    requires Grid(raw, 512, 512) && LayoutInside(pd)
  {
    Grid(block, pd.ymax - pd.ymin, pd.xmax - pd.xmin)
    && forall y, x :: 0 <= y < pd.ymax - pd.ymin && 0 <= x < pd.xmax - pd.xmin ==>
      block[y][x] == raw[pd.ymin + y][pd.xmin + x]
  }

  lemma SliceIsPanelBlock(raw: seq<seq<int>>, pd: PanelData)
    requires Grid(raw, 512, 512) && LayoutInside(pd)
    ensures PanelBlock(Slice(raw, pd.ymin, pd.ymax, pd.xmin, pd.xmax), raw, pd)
  {
  }

  /** `get_raw_data` of the 512x512 variant: the 512 rows of 512 pixels cut
      into one block per panel, each block as large as its panel's image
      (rows along slow, columns along fast). */
  method SplitRawData(raw: seq<seq<int>>, s: real) returns (blocks: seq<seq<seq<int>>>)
    requires Grid(raw, 512, 512)
    ensures |blocks| == 4
    ensures forall i :: 0 <= i < 4 ==>
      var pd := PanelLayout(s)[i];
      Grid(blocks[i], pd.ymax - pd.ymin, pd.xmax - pd.xmin)
      && forall y, x :: 0 <= y < pd.ymax - pd.ymin && 0 <= x < pd.xmax - pd.xmin ==>
        blocks[i][y][x] == raw[pd.ymin + y][pd.xmin + x]
  {
    var layout := PanelLayout(s);
    LayoutConsistent(s);
    var det := AddPanels(layout, s);
    blocks := [];
    var k := 0;
    while k < 4
      invariant 0 <= k <= 4
      invariant |blocks| == k
      invariant forall i :: 0 <= i < k ==> LayoutInside(layout[i]) && PanelBlock(blocks[i], raw, layout[i])
    {
      var c := det.coords[det.panels[k].name];
      assert c == (layout[k].xmin, layout[k].ymin, layout[k].xmax, layout[k].ymax);
      SliceIsPanelBlock(raw, layout[k]);
      blocks := blocks + [Slice(raw, c.1, c.3, c.0, c.2)];
      k := k + 1;
    }
  }

  // ---------------------------------------------------------------------
  // The 516x516 variant

  datatype SimpleDetector = SimpleDetector(
    distance: real,
    beamCentreMm: (real, real),
    pixelSize: (real, real),
    imageSize: (int, int),
    trustedRange: (int, int),
    thickness: real,
    material: string)

  /** `_detector` of the 516x516 variant: one panel, the beam centre
      converted from pixels with the nominal pixel size. */
  function Detector516(distance: real, beamX: real, beamY: real, pixelSize: real, nx: int, ny: int): (r: SimpleDetector)
    ensures r.imageSize == (nx, ny) && r.pixelSize == (pixelSize, pixelSize)
    ensures r.trustedRange == (-1, 65535) && r.thickness == 0.3 && r.material == "Si"
    ensures pixelSize != 0.0 ==> r.beamCentreMm.0 / pixelSize == beamX && r.beamCentreMm.1 / pixelSize == beamY
  {
    SimpleDetector(distance, (beamX * pixelSize, beamY * pixelSize), (pixelSize, pixelSize), (nx, ny),
                   (-1, 65535), 0.3, "Si")
  }
}
